=== FILE: README.md ===
# CursorCreate cursor core in Dafny

A model of the cursor library at the heart of CursorCreate (`CursorCreate/lib`), with
proofs about it. CursorCreate turns images, SVG drawings and existing cursor files into
cursor themes for Linux (X11), Windows and macOS (Mousecape). The model covers:

- **FormatCore** (`format_core.py`): the little-endian unsigned and two's-complement signed
  integer codecs every binary format uses.
- **CursorModel** (`cursor.py`): a `CursorIcon` is a raster with a hotspot inside it; a
  `Cursor` maps sizes to icons; an `AnimatedCursor` is a sequence of (cursor, delay) frames.
  It includes `max_size`, `add_sizes` (letterboxing and hotspot placement),
  `restrict_to_sizes`, `remove_non_square_sizes`, `normalize` and the animated variants.
- **CurFormat** (`cur_format.py`): the Windows .cur/.ico directory, the bitmap header and
  mask written by `_write_bmp`, the reader's hotspot recovery, and write/read round trips.
- **AniFormat** (`ani_format.py`): RIFF chunk reading and writing, the `anih`, `LIST icon`,
  `seq ` and `rate` handlers, the jiffy/millisecond conversions, and a write/read round trip.
- **XcurFormat** and **XcurRoundTrip** (`xcur_format.py`): the Xcursor table of contents and
  image chunks, grouping by nominal size into frames, the writer's layout, and the proof
  that reading what was written gives back the normalised frames.
- **CursorUtil** (`cursor_util.py`): the default sizes, loading from an image (square crop
  or horizontal strip), from SVG, and from a cursor file, and the format dispatcher
  `load_cursor` with its fallback chain.
- **CurTheme** (`cur_theme.py`): the cursor roles, the Linux symlink table and theme plan,
  the Windows registry order, role mapping and scheme plan, and the preview grid.
- **Mousecape** (`cur_theme.py`): the cape identifier, frame unification into a single
  frame duration (gcd of the delays against a quarter of their mean), the per-size strips
  and the cape plan.
- **ThemeUtil** (`theme_util.py`): running every builder, the `_disable_newlines` folding
  of the saved project, and `load_project` with its format/version check, delay overwrite
  and hotspot rescaling.

Failures are a `Result` whose error names the Python exception class (`Wrappers`), because
the loaders decide what to catch by class. Raster resampling, image decoding and SVG
rendering are function parameters of the operations that need them.

## Model

| member | source | states |
|---|---|---|
| FormatCore.ToInt | CursorCreate/lib/format_core.py:19-27 | The unsigned little-endian value of a byte string is below 256 to the power of its length. |
| FormatCore.ToBytes | CursorCreate/lib/format_core.py:7-16 | `to_bytes` succeeds exactly when the number fits in `length` unsigned bytes, otherwise OverflowError; the bytes have that length and read back as the number. |
| FormatCore.ToBytesIsLittleEndian | CursorCreate/lib/format_core.py:7-16 | A number in range is written as its little-endian digits in base 256. |
| FormatCore.LittleEndianByte | CursorCreate/lib/format_core.py:7-16 | Byte i of the encoding is the i-th base-256 digit of the number. |
| FormatCore.ToIntInjective | CursorCreate/lib/format_core.py:19-27 | Two byte strings of one length with the same value are equal. |
| FormatCore.ToIntAppend | CursorCreate/lib/format_core.py:19-27 | The value of a + b is the value of a plus 256^len(a) times the value of b (little-endian order). |
| FormatCore.ToSignedInt | CursorCreate/lib/format_core.py:30-46 | Two's-complement reading: a value at or above half the range wraps to negative, the result lies in the signed range, and the empty string reads as -1. |
| FormatCore.ToSignedBytes | CursorCreate/lib/format_core.py:49-65 | `to_signed_bytes` succeeds exactly when the number lies in the signed range of `length` bytes, otherwise ValueError; the result has `length` bytes. |
| FormatCore.SignedBytesIsOffsetUnsigned | CursorCreate/lib/format_core.py:58-65 | In range, `to_signed_bytes(n, k)` is `to_bytes((2^(8k) + n) % 2^(8k), k)`. |
| FormatCore.SignedBytesOf | CursorCreate/lib/format_core.py:58-65 | In range, the unsigned value written is n, or n + 2^(8k) for a negative n. |
| FormatCore.SignedRoundTrip | CursorCreate/lib/format_core.py:30-65 | Reading back what `to_signed_bytes` wrote gives the original number. |
| FormatCore.SignedBytesOfSignedInt | CursorCreate/lib/format_core.py:30-65 | Reading a non-empty byte string as signed and writing it back reproduces the bytes. |
| CursorModel.MakeIcon | CursorCreate/lib/cursor.py:15-26 | Building an icon succeeds exactly when the hotspot lies inside the image, otherwise ValueError; it keeps the image and the hotspot. |
| CursorModel.SetHotspot | CursorCreate/lib/cursor.py:45-56 | The hotspot setter accepts exactly the points inside the image and keeps the image. |
| CursorModel.Add | CursorCreate/lib/cursor.py:74-81 | The icon is stored under its own size, replacing any icon of that size, and every other size is left alone. |
| CursorModel.FromIconsKeys | CursorCreate/lib/cursor.py:64-72 | A cursor built from icons holds exactly the sizes of those icons. |
| CursorModel.FromIconsLastWins | CursorCreate/lib/cursor.py:83-90 | Under `extend`, each size holds the last icon of that size. |
| CursorModel.RebuildInOrder | CursorCreate/lib/cursor.py:207-213 | Adding a cursor's icons back one by one rebuilds the same cursor, which is what `copy` relies on. |
| CursorModel.Delete | CursorCreate/lib/cursor.py:118-124 | Deleting succeeds exactly when the size is present, otherwise KeyError, and removes only that size. |
| CursorModel.MaxSize | CursorCreate/lib/cursor.py:139-145 | None exactly for an empty cursor, otherwise a stored size whose area no other stored size exceeds. |
| CursorModel.AddSizes | CursorCreate/lib/cursor.py:147-184 | ValueError for an empty cursor or a missing size that is not positive. Otherwise the result holds the old sizes plus the requested ones, keeps the old icons, and fills each missing size from the largest icon. |
| CursorModel.SynthesizedGrows | CursorCreate/lib/cursor.py:159-184 | The synthesised icons grow the cursor by exactly the requested sizes. |
| CursorModel.ScaledHotspotInside | CursorCreate/lib/cursor.py:161-184 | A hotspot moved with the letterboxed image always lands inside the new size, so `add_sizes` never trips the setter's check. |
| CursorModel.ScaledHotspotProportional | CursorCreate/lib/cursor.py:161-184 | With the same aspect ratio, no bars are added and the hotspot scales by new/old side, truncated. |
| CursorModel.SameAspectNoBars | CursorCreate/lib/cursor.py:161-172 | With the same aspect ratio, both offsets are zero and the fitted image fills the target. |
| CursorModel.ScaledHotspotExample | CursorCreate/lib/cursor.py:161-184 | The hotspot (10, 10) of a 20x20 icon becomes (20, 20) at 40x40. |
| CursorModel.RestrictToSizes | CursorCreate/lib/cursor.py:186-197 | It fails as `add_sizes` does. On success the cursor holds exactly the requested sizes, and the icons already present there are untouched. |
| CursorModel.RemoveNonSquare | CursorCreate/lib/cursor.py:199-205 | Exactly the square sizes remain, with their icons untouched. |
| CursorModel.FromLists | CursorCreate/lib/cursor.py:223-236 | The cursors and delays are zipped: the shorter list decides the length, and frame i pairs cursor i with delay i. |
| CursorModel.AllSizesFromFrames | CursorCreate/lib/cursor.py:250-253 | Every size of the collected union comes from some frame. |
| CursorModel.AddSizesToFrames | CursorCreate/lib/cursor.py:255-256 | `add_sizes` on every frame: it fails as soon as one frame cannot grow, and delays are kept. |
| CursorModel.Normalize | CursorCreate/lib/cursor.py:238-256 | Every frame ends up with the union of the requested sizes and all frames' sizes. The frame count, the delays and the icons already present are kept. |
| CursorModel.RemoveNonSquareFrames | CursorCreate/lib/cursor.py:258-264 | Every frame keeps exactly its square sizes, with the same delays. |
| CursorModel.RestrictFrames | CursorCreate/lib/cursor.py:266-273 | Every frame holds exactly the given sizes, delays kept, with ValueError when some frame cannot grow. |
| CurFormat.Check | CursorCreate/lib/cur_format.py:72-80 | True exactly when the first four bytes are the .cur magic or the .ico magic. |
| CurFormat.BgraRoundTrip | CursorCreate/lib/cur_format.py:45-53 | The colour data, bottom-up rows of blue, green, red and alpha, holds every pixel of the image and reads back to it. |
| CurFormat.PackBitsBit | CursorCreate/lib/cur_format.py:47-49 | Bit k of a packed mask group, most significant first, is 1 exactly when that pixel is fully transparent. |
| CurFormat.MaskFits | CursorCreate/lib/cur_format.py:55-59 | The packed mask never needs more room than the 4wh bytes it is padded to, so the padding length is never negative. |
| CurFormat.BmpHeaderSizes | CursorCreate/lib/cur_format.py:21-31 | The header's width field reads back as the width, its height field as twice the height, and its data size as 8wh. |
| CurFormat.BmpHeaderConstants | CursorCreate/lib/cur_format.py:21-43 | Header size 40, one plane, 32 bits a pixel, no compression, and no colour table. |
| CurFormat.BmpHeaderResolution | CursorCreate/lib/cur_format.py:11-18 | Both resolution fields hold 3780 pixels a metre, which is 96 dpi. |
| CurFormat.ToBmp | CursorCreate/lib/cur_format.py:134-142 | ValueError when the image is not the size it is stored under; a payload is 40 + 8wh bytes. |
| CurFormat.ToBmpSections | CursorCreate/lib/cur_format.py:15-59 | The payload is the header at 0, the colour data at 40, and the mask at 40 + 4wh. |
| CurFormat.EntryRoundTrip | CursorCreate/lib/cur_format.py:164-183 | A directory entry written for sides 1..256, with 256 written as 0, reads back as the same width, height, hotspot, length and offset. |
| CurFormat.KeptMembers | CursorCreate/lib/cur_format.py:158-162 | `write` stores exactly the sizes that are at most 256 by 256. |
| CurFormat.KeptDrops | CursorCreate/lib/cur_format.py:158-162 | A size too large for an entry makes the stored list strictly shorter. |
| CurFormat.Write | CursorCreate/lib/cur_format.py:144-189 | The file starts with the .cur magic and a 16-bit count of all icons, skipped ones included; 65536 or more icons give OverflowError. |
| CurFormat.WriteLoopPayloadSize | CursorCreate/lib/cur_format.py:158-189 | The payload area holds one bitmap payload of 40 + 8wh bytes per stored size. |
| CurFormat.WriteLoopSucceeds | CursorCreate/lib/cur_format.py:158-186 | The loop succeeds when every payload offset stays within 32 bits. |
| CurFormat.OversizedStillCounted | CursorCreate/lib/cur_format.py:152-162 | An icon wider or taller than 256 is counted in the header but gets no directory entry. |
| CurFormat.WriteLayout | CursorCreate/lib/cur_format.py:144-189 | A storable cursor is written as the magic, the count, the directory and the payloads. The reader sees the same bytes behind the .ico magic. |
| CurFormat.WrittenDirectory | CursorCreate/lib/cur_format.py:90-103 | A written storable cursor passes `check` and keeps the .cur magic. Read behind the .ico magic, its directory announces one entry per icon. |
| CurFormat.ReadDirectory | CursorCreate/lib/cur_format.py:103-106 | The directory is the count at offset 4 followed by that many 16-byte entries; a file too short for them is rejected. |
| CurFormat.PayloadOf | CursorCreate/lib/cur_format.py:118 | An entry finds the bytes it points at, and one pointing past the end is rejected. |
| CurFormat.ReadIcon | CursorCreate/lib/cur_format.py:106-120 | An .ico entry gets hotspot (0, 0). A .cur entry takes its hotspot from the planes and bit-depth fields, with 0 on an axis where that value falls outside the image. |
| CurFormat.ReadIcons | CursorCreate/lib/cur_format.py:106-120 | Every entry is read in directory order, and the first failure ends the loop. |
| CurFormat.Read | CursorCreate/lib/cur_format.py:82-122 | SyntaxError unless the magic is .cur or .ico; the result keeps the icon invariant. |
| CurFormat.ReadIconsOfWrite | CursorCreate/lib/cur_format.py:90-189 | Every entry of a written storable cursor reads back, in directory order, as the cursor's icons in ascending size order. |
| CurFormat.DibDecodeOfToBmp | CursorCreate/lib/cur_format.py:15-59 | The reference 32-bit DIB decoder reads every `_to_bmp` payload back to its image. |
| CurFormat.WriteReadRoundTrip | CursorCreate/lib/cur_format.py:82-189 | `read` gives back exactly what `write` wrote, for any decoder that inverts `_to_bmp`. This covers a well-formed cursor of at most 8191 icons, each at most 256 pixels a side. |
| CurFormat.WriteReadDib | CursorCreate/lib/cur_format.py:82-189 | The same round trip with the reference DIB decoder, which takes alpha from the BGRA bytes and does not look at the entry's bit-depth field. |
| AniFormat.ReadChunks | CursorCreate/lib/ani_format.py:12-52 | Every chunk `read_chunks` yields is a plain chunk: skip identifiers are consumed silently and list chunks are entered in place. An empty stream yields nothing. |
| AniFormat.WriteChunk | CursorCreate/lib/ani_format.py:55-68 | The first four bytes of the identifier, then a 4-byte little-endian length, then the data. OverflowError exactly when the length does not fit 32 bits. |
| AniFormat.ReadWrittenChunk | CursorCreate/lib/ani_format.py:12-68 | A chunk `write_chunk` wrote is read back as that chunk, and reading carries on right after it. |
| AniFormat.ReadWrittenList | CursorCreate/lib/ani_format.py:43-49 | A written list chunk is read as the chunks inside its data, in place. |
| AniFormat.ReadSkipped | CursorCreate/lib/ani_format.py:38-39 | A skip identifier consumes its four bytes and nothing else. |
| AniFormat.ParseHeader | CursorCreate/lib/ani_format.py:78-91 | A 36-byte header starts with a length word, which is dropped. The frame and step counts are then the first two words. |
| AniFormat.HeaderChunk | CursorCreate/lib/ani_format.py:71-95 | A second header is a SyntaxError. Steps with no frames divide by zero. Otherwise the play order is i mod (frame count) and every step takes the display rate. |
| AniFormat.StepWords | CursorCreate/lib/ani_format.py:123-148 | `seq ` and `rate` data before the header, or whose whole words do not number the steps, is a SyntaxError. Otherwise it becomes its 4-byte words. |
| AniFormat.IconChunk | CursorCreate/lib/ani_format.py:98-120 | An icon chunk before the header is a SyntaxError. Otherwise it appends one cursor and keeps the earlier ones. With the .ico flag that cursor is the one the embedded .cur/.ico file reads as. |
| AniFormat.IconCursor | CursorCreate/lib/ani_format.py:105-115 | With the .ico flag the data is read as a .cur/.ico file. Otherwise it is a bare DIB whose lower half of rows is the image, at hotspot (0, 0). |
| AniFormat.LowerHalf | CursorCreate/lib/ani_format.py:110-113 | A bare DIB keeps only the colour half of its stored height. |
| AniFormat.Check | CursorCreate/lib/ani_format.py:171-181 | True exactly when bytes 0..3 are "RIFF" and bytes 8..11 are "ACON". |
| AniFormat.RateToDelay | CursorCreate/lib/ani_format.py:206-208 | A rate in jiffies becomes the whole milliseconds it lasts, rounded down. |
| AniFormat.Steps | CursorCreate/lib/ani_format.py:204-210 | One frame per step while both the order and the rates last. A missing icon list is a KeyError and an order entry past its end an IndexError. |
| AniFormat.Read | CursorCreate/lib/ani_format.py:183-210 | A file whose first 12 bytes fail `check` is a SyntaxError, and a read that succeeds passed `check`. |
| AniFormat.RoundHalfEven | CursorCreate/lib/ani_format.py:257 | Python's `round` of a quotient: the nearest integer, with a tie going to the even one. |
| AniFormat.WordBytes | CursorCreate/lib/ani_format.py:229-257 | Each word as 4 little-endian bytes that read back as it; OverflowError exactly when one does not fit 32 bits. |
| AniFormat.FrameBytes | CursorCreate/lib/ani_format.py:246-257 | A frame contributes the .cur file `CurFormat.write` makes of its cursor in an "icon" chunk, plus its delay in jiffies as a 4-byte rate. |
| AniFormat.Pack | CursorCreate/lib/ani_format.py:246-257 | The frame parts are laid end to end. Writing succeeds exactly when every frame encodes. |
| AniFormat.Write | CursorCreate/lib/ani_format.py:212-266 | Too many frames for a 32-bit count is an OverflowError. A written file starts with "RIFF" and has "ACON" at byte 8, and its length word is the file length less 8. |
| AniFormat.HeaderDecodes | CursorCreate/lib/ani_format.py:227-240 | The header `write` emits reads back as n frames and n steps at 10 jiffies. The icons are in .cur form and no sequence chunk is announced. |
| AniFormat.SquareHeader | CursorCreate/lib/ani_format.py:94-95 | A header with as many frames as steps plays the frames in order, each at the header's rate. |
| AniFormat.PackChunks | CursorCreate/lib/ani_format.py:246-255 | The icon chunks `write` packs are read back one per frame, in order. |
| AniFormat.PackRates | CursorCreate/lib/ani_format.py:256-257 | The rate data holds each frame's rate word in turn. |
| AniFormat.HandleIcons | CursorCreate/lib/ani_format.py:98-120 | Icon chunks of .cur files after a header with the .ico flag append, in order, the cursors those files hold. |
| AniFormat.ReadWrittenState | CursorCreate/lib/ani_format.py:191-261 | After reading a written file the handlers hold the header for n frames and the identity order. They also hold every frame's delay in jiffies and every frame's cursor. |
| AniFormat.WriteReadRoundTrip | CursorCreate/lib/ani_format.py:183-266 | Reading what `write` produced gives one frame per frame written. Each has the same cursor, for a decoder that inverts `_to_bmp`, and its delay rounded to whole jiffies and back. |
| AniFormat.DelayDrift | CursorCreate/lib/ani_format.py:208-257 | A delay that survives a write and a read moves by less than a jiffy, and whole multiples of 50 ms come back unchanged. |
| XcurFormat.Check | CursorCreate/lib/xcur_format.py:27-35 | True exactly when the first four bytes are "Xcur". |
| XcurFormat.DecodePixels | CursorCreate/lib/xcur_format.py:135-140 | Pixel k is read from bytes 4k..4k+3 with the channel swap (2, 1, 0, 3), so stored BGRA becomes RGBA. |
| XcurFormat.PixelsRoundTrip | CursorCreate/lib/xcur_format.py:135-209 | The pixels `_write_chunk` stores read back as the same pixels. |
| XcurFormat.BytesRoundTrip | CursorCreate/lib/xcur_format.py:135-209 | Storing decoded pixel data gives back the bytes it was decoded from, when the data is whole pixels. |
| XcurFormat.AddEntry | CursorCreate/lib/xcur_format.py:73-76 | A new nominal size opens a new group, last. A known one has the offset appended to its own group, and the other groups are unchanged. |
| XcurFormat.MaxLen | CursorCreate/lib/xcur_format.py:78 | The length of the longest group: no group is longer, and some group is that long. |
| XcurFormat.ReadChunk | CursorCreate/lib/xcur_format.py:99-120 | A chunk header that does not start with 36 and the cursor type is a SyntaxError. A chunk that reads also repeats the table's nominal size and has version 1. |
| XcurFormat.ChunkImage | CursorCreate/lib/xcur_format.py:121-142 | Sides over 0x7FFF are refused. The raster is `height` pixels wide and `width` tall, and its bytes are the chunk's pixel data. A hotspot coordinate outside the image becomes 0. The delay is the last header word. |
| XcurFormat.MaxOf | CursorCreate/lib/xcur_format.py:95 | The largest of the delays, one of them. |
| XcurFormat.StepCount | CursorCreate/lib/xcur_format.py:86-92 | Frame i has an image from some group exactly when some group has an i-th offset. |
| XcurFormat.ReadFrame | CursorCreate/lib/xcur_format.py:83-92 | Each group with an i-th image adds one delay, after the earlier ones, and keeps the cursor well formed. |
| XcurFormat.Collect | CursorCreate/lib/xcur_format.py:82-97 | The frames are read in order and the read succeeds only when every frame does; frame k is the k-th result. |
| XcurFormat.ReadFrames | CursorCreate/lib/xcur_format.py:82-97 | One well-formed frame for each index below the longest group's length. |
| XcurFormat.Read | CursorCreate/lib/xcur_format.py:43-97 | A wrong magic or a header size other than 16 is a SyntaxError. A read that succeeds has as many frames as the longest group of nominal sizes, and each is well formed. |
| XcurFormat.TocEntry | CursorCreate/lib/xcur_format.py:173-175 | An entry is 12 bytes; OverflowError exactly when the nominal size or the offset does not fit 32 bits. |
| XcurFormat.TocBytes | CursorCreate/lib/xcur_format.py:165-176 | The table holds 12 bytes per slot. It is written exactly when every running offset and nominal size fits, and otherwise gives OverflowError. |
| XcurFormat.ChunkBytes | CursorCreate/lib/xcur_format.py:184-209 | A chunk is the 36-byte header followed by 4 bytes per pixel. It is written exactly when the slot fits; otherwise OverflowError or SyntaxError. |
| XcurFormat.ChunksBytes | CursorCreate/lib/xcur_format.py:178-181 | The chunks are written exactly when every slot fits. |
| XcurFormat.Block | CursorCreate/lib/xcur_format.py:179-181 | The slots of one size are that size's icon of every frame, with the frame's delay, in frame order. |
| XcurFormat.SlotsOf | CursorCreate/lib/xcur_format.py:171-181 | Slots run size-major and frame-minor: one per size and frame. |
| XcurFormat.CountUniform | CursorCreate/lib/xcur_format.py:158 | When every frame holds k icons, the file counts k icons per frame. |
| XcurFormat.WrittenSizes | CursorCreate/lib/xcur_format.py:168 | The sizes of the first frame in strictly ascending order, each held by every frame. |
| XcurFormat.WriteFrames | CursorCreate/lib/xcur_format.py:155-181 | A written file starts with "Xcur", header size 16 and version 65536, and counts every icon of every frame. |
| XcurFormat.WriteSlots | CursorCreate/lib/xcur_format.py:158-181 | The file is the header, the table of contents from offset 16 + 12n, and the chunks. It is written exactly when the table and every chunk fit. |
| XcurFormat.Write | CursorCreate/lib/xcur_format.py:144-157 | An animation without frames writes nothing. |
| XcurFormat.WrittenNormalized | CursorCreate/lib/xcur_format.py:152-153 | A non-empty animation is written as its normalised frames, all of which hold the same sizes. |
| XcurFormat.WriteErrors | CursorCreate/lib/xcur_format.py:144-209 | `write` fails only with ValueError from normalisation, OverflowError from a field, or SyntaxError from a side over 0x7FFF. A failed normalisation gives ValueError. |
| XcurFormat.WriteHeader | CursorCreate/lib/xcur_format.py:152-164 | A written file passes `check` and counts one chunk per frame and per size that any frame holds. |
| XcurRoundTrip.TocPairsAt | CursorCreate/lib/xcur_format.py:165-176 | Entry k holds the nominal size of slot k and the offset at which `write` places its chunk. |
| XcurRoundTrip.TocRead | CursorCreate/lib/xcur_format.py:66-176 | The entries of a written table of contents read back as its (nominal size, offset) pairs. |
| XcurRoundTrip.RunsGroup | CursorCreate/lib/xcur_format.py:64-176 | When no two sizes share a nominal size, a written table groups into one group per size, in ascending order, with one entry per frame. |
| XcurRoundTrip.ChunkRead | CursorCreate/lib/xcur_format.py:99-209 | A written chunk reads back as its slot's icon and delay. |
| XcurRoundTrip.SlotRead | CursorCreate/lib/xcur_format.py:99-181 | Chunk k reads back as its slot, at the offset the table gives it. |
| XcurRoundTrip.AddAllRebuilds | CursorCreate/lib/cursor.py:74-81 | Adding a well-formed cursor's icons at all its sizes, one after another, rebuilds it. |
| XcurRoundTrip.FrameOf | CursorCreate/lib/xcur_format.py:82-95 | Frame i read back from a written file is frame i's cursor, and every group gives it frame i's delay. |
| XcurRoundTrip.MaxOfRepeat | CursorCreate/lib/xcur_format.py:95 | A frame whose delays are all d has delay d. |
| XcurRoundTrip.NormalizeUniform | CursorCreate/lib/cursor.py:238-256 | Frames that all hold the same non-empty set of sizes come out of `normalize` unchanged. |
| XcurRoundTrip.WriteReadBack | CursorCreate/lib/xcur_format.py:43-209 | The round trip through the `write` entry point, normalisation included: `read` gives back exactly the frames `write` was given, under the conditions of WriteThenRead. |
| XcurRoundTrip.SortedFacts | CursorCreate/lib/xcur_format.py:152-168 | The sizes `write` emits for a restorable animation are every size of every frame, square and ascending, with distinct nominal sizes. |
| XcurRoundTrip.WriteThenRead | CursorCreate/lib/xcur_format.py:43-209 | `read` gives back exactly the frames the frame writer stored after normalisation. This holds when every frame has the same square sizes, no two share a nominal size, and every word fits 32 bits. |
| CursorUtil.DefaultSizesListed | CursorCreate/lib/cursor_util.py:17-18 | The default sizes are the squares 32, 48, 64 and 128. |
| CursorUtil.Magic | CursorCreate/lib/cursor_util.py:134-136 | The dispatcher looks at the first twelve bytes, or all of a shorter file. |
| CursorUtil.MagicsDisjoint | CursorCreate/lib/cursor_util.py:138-150 | No file passes two of the .ani, Xcursor and .cur/.ico checks, so the order the readers are asked in cannot matter. |
| CursorUtil.ChooseReader | CursorCreate/lib/cursor_util.py:131-150 | Each reader is chosen exactly when its own check accepts the magic. |
| CursorUtil.MagicDecidesCheck | CursorCreate/lib/cursor_util.py:134-139 | Judging the first twelve bytes is judging the whole file. |
| CursorUtil.Settle | CursorCreate/lib/cursor_util.py:141-142 | Normalising to the default sizes and dropping non-square sizes keeps the frame count and delays. It keeps every square size a frame had and adds every default size. For well-formed frames it fails with ValueError exactly when some frame cannot grow. |
| CursorUtil.SettleMalformed | CursorCreate/lib/cursor.py:154-161 | Frames grow in order. When some frame is malformed, an earlier frame that cannot grow is a ValueError. Otherwise, if the first malformed frame has a zero side in every size, `add_sizes` raises ZeroDivisionError. |
| CursorUtil.OneRowBitmapDividesByZero | CursorCreate/lib/ani_format.py:110-113 | An .ani bitmap icon stored one row high reads as a w x 0 icon with hotspot (0, 0), which the reader accepts, and loading it then fails with ZeroDivisionError. |
| CursorUtil.SettleSettled | CursorCreate/lib/cursor_util.py:141-142 | Every settled frame holds every default size and only square sizes. |
| CursorUtil.LoadFromCursor | CursorCreate/lib/cursor_util.py:122-152 | The chosen reader's error escapes; otherwise its frames are settled. A static cursor becomes one frame of 100 ms. No matching magic is a ValueError. |
| CursorUtil.XcurSettles | CursorCreate/lib/cursor_util.py:138-143 | An Xcursor file that decodes can only be refused with ValueError. |
| CursorUtil.CurSettles | CursorCreate/lib/cursor_util.py:145-150 | A decoded .cur/.ico file loads exactly when it holds an icon, and is otherwise refused with ValueError. |
| CursorUtil.OneFrameGrows | CursorCreate/lib/cursor.py:147-160 | A single well-formed frame can take every default size exactly when it holds an icon. |
| CursorUtil.Crop | CursorCreate/lib/cursor_util.py:53 | A crop is exactly the w x h window it asks for. |
| CursorUtil.CropPixel | CursorCreate/lib/cursor_util.py:53 | Pixel (x, y) of a crop is pixel (x0 + x, y0 + y) of the image, or transparent outside it. |
| CursorUtil.StripFrame | CursorCreate/lib/cursor_util.py:52-55 | Tile i is a square as high as the strip. |
| CursorUtil.StripTiles | CursorCreate/lib/cursor_util.py:44-55 | The tiles cover the strip: every column below the tiles' total width is found in tile x div h at column x mod h. |
| CursorUtil.StripCount | CursorCreate/lib/cursor_util.py:44-50 | A strip holds no tile exactly when it is narrower than it is high. |
| CursorUtil.DefaultCursor | CursorCreate/lib/cursor_util.py:60-66 | A loaded frame holds exactly the default sizes, each the LANCZOS resampling of its source with the hotspot at (0, 0). |
| CursorUtil.StripFrames | CursorCreate/lib/cursor_util.py:52-66 | A still strip of n tiles gives n frames of 100 ms, frame i from tile i. |
| CursorUtil.FittedFrames | CursorCreate/lib/cursor_util.py:35-66 | An animated image gives one frame per image frame. Each is fitted to the square of the shorter side and lasts the frame's duration, or 100 ms when it has none. |
| CursorUtil.LoadFromImage | CursorCreate/lib/cursor_util.py:21-68 | The raster library's error escapes. A still image loads exactly when it is at least as wide as high; a zero height divides by zero and a narrower image is a ValueError. |
| CursorUtil.ImageFramesDefault | CursorCreate/lib/cursor_util.py:60-66 | Every frame the image loader gives holds exactly the default sizes, and the frames are well formed. |
| CursorUtil.LayerSize | CursorCreate/lib/cursor_util.py:88-106 | A rendering at a given height is as wide as that height times the natural width over height, rounded down. |
| CursorUtil.Layers | CursorCreate/lib/cursor_util.py:99-117 | One rendering per default height, in order, each at the size asked for that height. A rendering with no rows is a ValueError, because its tiles cannot hold a hotspot at (0, 0). |
| CursorUtil.SvgFrame | CursorCreate/lib/cursor_util.py:111-117 | Frame i of an SVG takes the i-th square tile of every rendering, and is well formed. |
| CursorUtil.SvgFrameSizes | CursorCreate/lib/cursor_util.py:111-117 | The sizes of an SVG frame are exactly the squares of the rendering heights. |
| CursorUtil.SvgFrames | CursorCreate/lib/cursor_util.py:97-119 | n frames of 100 ms, frame i built from tile i of each rendering. |
| CursorUtil.LoadFromSvg | CursorCreate/lib/cursor_util.py:71-119 | The natural rendering gives width div height frames; a zero height divides by zero and no frame is a ValueError. Every frame lasts 100 ms. |
| CursorUtil.LoadCursor | CursorCreate/lib/cursor_util.py:155-177 | A cursor format is tried first, and any exception other than ValueError escapes. After a ValueError the image loader is tried. When the raster library does not recognise the bytes, the SVG loader is tried, and its ParseError becomes ValueError. |
| CursorUtil.UnclaimedFallsBack | CursorCreate/lib/cursor_util.py:155-177 | A file no cursor format claims goes to the image loader. It reaches the SVG loader only when the raster library does not recognise it. |
| CurTheme.RegIndex | CursorCreate/lib/cur_theme.py:374-391 | Every pseudo-name has a slot in the registry order, and the slot names it. |
| CurTheme.RegistryOrderDistinct | CursorCreate/lib/cur_theme.py:374-391 | The registry order has fifteen slots, each naming a different pseudo-name. |
| CurTheme.WinRoleEntry | CursorCreate/lib/cur_theme.py:355-391 | Every pseudo-name of the registry is the Windows entry of some role. |
| CurTheme.WinEntriesDistinct | CursorCreate/lib/cur_theme.py:355-372 | No two roles share a Windows pseudo-name. |
| CurTheme.OrderIndex | CursorCreate/lib/cur_theme.py:668-735 | Every role has a position in the preview order, and the order names that role there. |
| CurTheme.OrderIndexInjective | CursorCreate/lib/cur_theme.py:668-735 | Distinct roles have distinct positions in the preview order. |
| CurTheme.Split | CursorCreate/lib/cur_theme.py:125-126 | Splitting text always yields at least one piece. |
| CurTheme.SplitJoin | CursorCreate/lib/cur_theme.py:125-126 | Splitting undoes joining when no part holds the separator. |
| CurTheme.JoinAppend | CursorCreate/lib/cur_theme.py:125-126 | Joining one more part appends a separator and the part. |
| CurTheme.ChildOfParent | CursorCreate/lib/cur_theme.py:111-130 | `parent()` undoes `/`. A child's text is the parent's text, a slash and the segment. |
| CurTheme.PathTextSegments | CursorCreate/lib/cur_theme.py:111-130 | When no segment holds a slash, a path's text determines its segments. |
| CurTheme.Find | CursorCreate/lib/cur_theme.py:288-302 | A name found in the dictionary is stored at that position, and it is not found exactly when no entry has it. |
| CurTheme.FindStored | CursorCreate/lib/cur_theme.py:288-302 | With distinct keys, a key is found where it is stored. |
| CurTheme.CursorPathText | CursorCreate/lib/cur_theme.py:272-284 | A cursor is stored at `<theme>/cursors/<name>` in the archive. |
| CurTheme.LinuxCursor | CursorCreate/lib/cur_theme.py:276-285 | A cursor is restricted to the sizes 32, 48, 64 and 128 and written as an Xcursor file under its own name. A cursor that cannot take those sizes is a ValueError. |
| CurTheme.LinuxLinks | CursorCreate/lib/cur_theme.py:142-307 | Each row of the link table gives a link `<theme>/cursors/<link>` to its role's name. The link is present exactly when the dictionary provides that role. |
| CurTheme.LinuxThumbnail | CursorCreate/lib/cur_theme.py:287-298 | Without a default cursor there is no thumbnail. Otherwise the thumbnail is the largest icon of the default cursor's first frame. No frame is an IndexError and no icon a KeyError. |
| CurTheme.BuildLinux | CursorCreate/lib/cur_theme.py:233-307 | The theme is built exactly when every cursor and the thumbnail succeed. It holds every cursor in dictionary order, the thumbnail and the links. |
| CurTheme.RegUsed | CursorCreate/lib/cur_theme.py:410-415 | A pseudo-name is used exactly when some dictionary entry's role maps to it. |
| CurTheme.RegSlots | CursorCreate/lib/cur_theme.py:417-421 | One slot per registry name, in registry order, filled exactly when that name is used. |
| CurTheme.NoCommaInSlot | CursorCreate/lib/cur_theme.py:420 | A registry slot never holds a comma. |
| CurTheme.RegListSlots | CursorCreate/lib/cur_theme.py:417-422 | The registry value splits back into exactly fifteen slots in registry order. A slot is non-empty exactly when its pseudo-name is used. |
| CurTheme.WinFileName | CursorCreate/lib/cur_theme.py:430-441 | A cursor without frames is not installed. One frame gives `<file>.cur` and more frames give `<file>.ani`. |
| CurTheme.WinCursorOf | CursorCreate/lib/cur_theme.py:425-443 | A role without a Windows cursor is skipped. Otherwise the cursor is restricted to 32, 48 and 64 and installed under its pseudo-name and file name. The file holds the .cur bytes of the single frame or the .ani bytes of all frames. It fails with ValueError when the cursor cannot take those sizes, and succeeds exactly when the restriction and that write succeed. |
| CurTheme.BuildWindows | CursorCreate/lib/cur_theme.py:399-476 | The scheme is built exactly when every entry is. It holds the registry value of the used pseudo-names and every entry's cursor in dictionary order. |
| CurTheme.WinCursorsDistinct | CursorCreate/lib/cur_theme.py:424-443 | No two installed cursors of one scheme share a pseudo-name, so none replaces another in the installer lists. |
| CurTheme.UsedSlotsInstalled | CursorCreate/lib/cur_theme.py:415-443 | Every used pseudo-name whose cursor has a frame is installed. |
| CurTheme.InsertBy | CursorCreate/lib/cur_theme.py:737 | Insertion keeps the order and adds exactly the new element. |
| CurTheme.SortBy | CursorCreate/lib/cur_theme.py:737 | `sorted` yields an ordered permutation of its input. |
| CurTheme.SortDistinct | CursorCreate/lib/cur_theme.py:737 | Sorting keeps names distinct. |
| CurTheme.PreviewOrder | CursorCreate/lib/cur_theme.py:735-737 | Two or more entries with a name outside the preview order raise TypeError, and nothing else fails. A successful order is a permutation of the dictionary in preview order. |
| CurTheme.PreviewOrderStrict | CursorCreate/lib/cur_theme.py:735-737 | With distinct keys, the preview order is strictly increasing and holds every entry once. |
| CurTheme.GridSide | CursorCreate/lib/cur_theme.py:727 | The side of the smallest square grid with n cells. |
| CurTheme.CellsInside | CursorCreate/lib/cur_theme.py:726-743 | The cells of different entries have different centres, and each cell lies inside the picture. |
| CurTheme.PreviewTile | CursorCreate/lib/cur_theme.py:738-762 | Entry i is restricted to 64 x 64, and its first frame's icon is pasted so that its hotspot falls on cell i's centre. A cursor that cannot take that size is a ValueError and one with no frame is an IndexError. |
| CurTheme.TileInsideCell | CursorCreate/lib/cur_theme.py:742-762 | A pasted 64 x 64 icon lies inside its own 128-pixel cell. |
| CurTheme.PlaceTiles | CursorCreate/lib/cur_theme.py:737-762 | One tile per entry, in order, and the placement fails exactly when some entry does. |
| CurTheme.BuildPreview | CursorCreate/lib/cur_theme.py:718-764 | A failed order gives TypeError. The picture is ceil(sqrt(n)) cells of 128 pixels a side, with one tile per entry in preview order. |
| Mousecape.LowerChar | CursorCreate/lib/cur_theme.py:608-609 | Lower-casing leaves no capital, keeps whitespace as whitespace, and leaves every other character alone. |
| Mousecape.Squash | CursorCreate/lib/cur_theme.py:608-609 | The squashed name has no whitespace and no capital, and is never longer than the name. |
| Mousecape.SquashConcat | CursorCreate/lib/cur_theme.py:608-609 | Squashing works piece by piece. |
| Mousecape.SquashKeeps | CursorCreate/lib/cur_theme.py:608-609 | A name without whitespace or capitals is its own squash. |
| Mousecape.SquashIdempotent | CursorCreate/lib/cur_theme.py:608-609 | Squashing twice is squashing once. |
| Mousecape.IdentifierFields | CursorCreate/lib/cur_theme.py:606-618 | When neither name holds a dot, the identifier splits back into "com", the squashed author ("unknown" without one) and the squashed theme name. |
| Mousecape.TruncDiv | CursorCreate/lib/cur_theme.py:555 | `int` of a quotient truncates toward zero for either sign. |
| Mousecape.FloorDiv | CursorCreate/lib/cur_theme.py:559 | numpy's integer `//` rounds down, and a zero divisor gives 0. |
| Mousecape.GcdDivides | CursorCreate/lib/cur_theme.py:556 | The gcd divides both arguments. |
| Mousecape.GcdGreatest | CursorCreate/lib/cur_theme.py:556 | Every common divisor divides the gcd. |
| Mousecape.GcdAllDivides | CursorCreate/lib/cur_theme.py:556 | The reduced gcd divides every delay. |
| Mousecape.GcdAllGreatest | CursorCreate/lib/cur_theme.py:556 | Every common divisor of the delays divides the reduced gcd. |
| Mousecape.PrefixSumDivides | CursorCreate/lib/cur_theme.py:554-556 | A divisor of every delay divides every running total. |
| Mousecape.CumIncreasing | CursorCreate/lib/cur_theme.py:554 | With positive delays, the frames end one after another. |
| Mousecape.Unified | CursorCreate/lib/cur_theme.py:553-558 | One output frame lasts at least the gcd of the delays and at least a quarter of their mean, and it is one of the two. |
| Mousecape.FrameCountBounds | CursorCreate/lib/cur_theme.py:559 | The output frames together last at most the whole animation, and less than one output frame short of it. |
| Mousecape.FrameCountExact | CursorCreate/lib/cur_theme.py:556-559 | When the gcd decides the output frame, the output frames last exactly the animation. |
| Mousecape.AdvanceAsWritten | CursorCreate/lib/cur_theme.py:567-573 | The loop as written skips every frame whose end the output time has reached, and stops at the first frame not yet over. |
| Mousecape.AsWrittenSkipsLast | CursorCreate/lib/cur_theme.py:567-577 | As written, an output frame that starts before the animation ends never shows the last frame. |
| Mousecape.Advance | CursorCreate/lib/cur_theme.py:567-577 | The corrected loop stops exactly at the frame that is showing at the output time. |
| Mousecape.ShowingUnique | CursorCreate/lib/cur_theme.py:567-577 | At most one frame shows at a time. |
| Mousecape.AdvanceResumes | CursorCreate/lib/cur_theme.py:567-573 | Carrying the loop position over from one output frame to the next gives the same frame as scanning afresh. |
| Mousecape.SourcesShow | CursorCreate/lib/cur_theme.py:567-577 | With the corrected loop, each output frame shows the frame that is showing at its start time. |
| Mousecape.Sources | CursorCreate/lib/cur_theme.py:559-577 | One source frame per output frame. Output frame o shows the animation frame that is showing at time o times the unified delay. |
| Mousecape.EveryFrameShown | CursorCreate/lib/cur_theme.py:556-577 | When the gcd decides the output frame and every delay is positive, every frame of the animation shows in some output frame. |
| Mousecape.AsWrittenNeverShowsLast | CursorCreate/lib/cur_theme.py:567-577 | As written, a cursor of two or more frames never shows its last frame. |
| Mousecape.AsWrittenExample | CursorCreate/lib/cur_theme.py:567-577 | Two frames of 10 ms: as written the strip shows the first frame twice, and corrected it shows each frame once. |
| Mousecape.TileInside | CursorCreate/lib/cur_theme.py:578-582 | An icon whose hotspot lies inside it lies wholly within its 2s x 2s tile, with the hotspot at the tile's centre. |
| Mousecape.Strip | CursorCreate/lib/cur_theme.py:575-582 | Output frame o pastes, at its tile's offset, the icon of the export size of its source frame. |
| Mousecape.Strips | CursorCreate/lib/cur_theme.py:531-565 | One strip per export size: 32, 64 and 160. |
| Mousecape.Unify | CursorCreate/lib/cur_theme.py:535-596 | No frame, a frame that cannot take the export sizes, or a negative frame count gives ValueError. Otherwise the result is the frame count and the unified delay, hotspot (32, 32), 64 x 64 points, and the three strips of the restricted frames. |
| Mousecape.StripTilesInside | CursorCreate/lib/cur_theme.py:561-589 | Every pasted icon has its export size and lies within its own tile of the strip. |
| Mousecape.CapeEntries | CursorCreate/lib/cur_theme.py:623-643 | A name without Mousecape cursors adds nothing and never fails. Otherwise the unified cursor goes under each of its Mousecape names, or the unification's error is returned. |
| Mousecape.FlattenMembers | CursorCreate/lib/cur_theme.py:623-643 | An element of the flattened list belongs to one of the lists, and back. |
| Mousecape.CapeFrom | CursorCreate/lib/cur_theme.py:606-643 | The cape is built exactly when every entry is. It carries the identifier, the theme name and the author ("" without one), and the entries of every dictionary entry in order. |
| Mousecape.BuildMousecape | CursorCreate/lib/cur_theme.py:598-652 | The build succeeds exactly when every entry with a Mousecape name unifies. The cape carries the identifier and the theme name. |
| Mousecape.LabelledMembers | CursorCreate/lib/cur_theme.py:634-643 | A (name, cursor) pair is in the cape exactly when some entry labelled that cursor with that name. |
| Mousecape.CapeCursors | CursorCreate/lib/cur_theme.py:623-643 | The cape holds each Mousecape name of each dictionary entry with that entry's unified cursor, and nothing else. |
| ThemeUtil.BuildTheme | CursorCreate/lib/theme_util.py:17-43 | One run per builder, in order, each in `<theme>/<builder name>`. Each run's outcome is that builder's own, because an exception is caught and the next builder still runs. |
| ThemeUtil.BuildThemeSplits | CursorCreate/lib/theme_util.py:37-43 | Running two lists of builders one after the other gives the runs of each list on its own, so one builder's failure never changes another's. |
| ThemeUtil.RegisteredRuns | CursorCreate/lib/theme_util.py:35-43 | The four registered builders give four runs in four distinct directories. |
| ThemeUtil.StackAt | CursorCreate/lib/theme_util.py:76-88 | The block stack only ever holds closing brackets. |
| ThemeUtil.VisitOpener | CursorCreate/lib/theme_util.py:81-84 | At an opener deep enough, a newline right after it is erased. An opener that ends the text raises IndexError. |
| ThemeUtil.VisitCloser | CursorCreate/lib/theme_util.py:85-88 | At the matching closer deep enough, the last newline turned into a space is erased, and the block is popped. |
| ThemeUtil.VisitOther | CursorCreate/lib/theme_util.py:89-93 | Deep enough, a newline becomes a space and any other whitespace is erased; other characters are kept. |
| ThemeUtil.Visit | CursorCreate/lib/theme_util.py:80-93 | Each pass keeps the loop invariant: visited slots are settled and slots ahead are untouched. It fails only at a final opener deep enough, with IndexError. |
| ThemeUtil.DisableCells | CursorCreate/lib/theme_util.py:65-93 | IndexError exactly when the text ends with an opener deep enough. Otherwise every character above depth `num_lines_in`, and every non-whitespace character, stays. Deeper whitespace becomes a space or nothing. |
| ThemeUtil.KeepsNonSpace | CursorCreate/lib/theme_util.py:80-95 | The transformed text spells out the same non-whitespace characters. |
| ThemeUtil.DisableNewlines | CursorCreate/lib/theme_util.py:65-95 | IndexError exactly on an overrun. Otherwise the result has the same non-whitespace characters, and whitespace changes only at depth `num_lines_in` or more. |
| ThemeUtil.ShallowUnchanged | CursorCreate/lib/theme_util.py:80-95 | Where every character sits above depth `num_lines_in`, nothing changes. |
| ThemeUtil.Contains | CursorCreate/lib/theme_util.py:170-179 | `in` works on an object's keys, a list or a string, and raises TypeError on anything else. |
| ThemeUtil.Lookup | CursorCreate/lib/theme_util.py:171-191 | Indexing by a key succeeds exactly on an object that has it. A missing key is a KeyError, and indexing a non-object is a TypeError. |
| ThemeUtil.FieldIs | CursorCreate/lib/theme_util.py:170-175 | On an object, the test holds exactly when the key is present and its value passes. |
| ThemeUtil.MetadataOf | CursorCreate/lib/theme_util.py:179-185 | The saved metadata, or author and licence None when there is none. |
| ThemeUtil.Infos | CursorCreate/lib/theme_util.py:190 | Iterating a list gives its elements, and every other failure is a TypeError: a non-empty object or string yields keys or characters that the first field lookup rejects, and a scalar is not iterable. |
| ThemeUtil.Ints | CursorCreate/lib/theme_util.py:196-197 | The saved delays: a list of integers, read element for element. |
| ThemeUtil.Points | CursorCreate/lib/theme_util.py:199-204 | The saved hotspots: a list of integer pairs, read element for element. |
| ThemeUtil.OverwriteDelays | CursorCreate/lib/theme_util.py:196-197 | Frame k takes saved delay k and keeps its cursor. A frame without a saved delay keeps its own. More delays than frames is an IndexError. |
| ThemeUtil.RescaleCursor | CursorCreate/lib/theme_util.py:200-205 | Every icon keeps its image and takes the saved hotspot scaled to its size, truncated. A scaled hotspot outside the image is a ValueError from the setter. |
| ThemeUtil.ZipFrames | CursorCreate/lib/theme_util.py:199 | The shorter of the two lists decides how many frames change. Later frames and all delays are kept, and a failure is the failing frame's own. |
| ThemeUtil.RescaleFrames | CursorCreate/lib/theme_util.py:199-205 | The first frames take the saved hotspots rescaled, and the delays are kept. ValueError exactly when some rescaled hotspot falls outside its image. |
| ThemeUtil.Reloaded | CursorCreate/lib/theme_util.py:196-205 | The saved delays replace the loaded ones, frame by frame. The first frames take the saved hotspots rescaled to each size. The sizes and images are kept. |
| ThemeUtil.Restore | CursorCreate/lib/theme_util.py:196-205 | Delays first, then hotspots. It succeeds exactly when both fields are present and well typed, there are no more delays than frames, and every paired hotspot fits at every size. More saved delays than frames is an IndexError. A success is the reloaded cursor. |
| ThemeUtil.TextField | CursorCreate/lib/theme_util.py:191-207 | A string field of the entry, present exactly when the key holds a string. |
| ThemeUtil.LoadEntry | CursorCreate/lib/theme_util.py:190-207 | An entry loads the cursor at `<dir>/<cursor_file>`, or at `cursor_file` itself when that is absolute, as pathlib joins them. It restores the delays and hotspots and files the cursor under `cursor_name`. It succeeds exactly when both names are strings, the file loads and the restore succeeds. |
| ThemeUtil.Put | CursorCreate/lib/theme_util.py:207 | Storing a present key keeps its place and takes the new value; a new key is appended. |
| ThemeUtil.PutAllKeepsLast | CursorCreate/lib/theme_util.py:190-207 | Storing the entries in turn keeps every name once. Every entry that no later entry of the same name overwrites is kept. |
| ThemeUtil.PutAllOrigin | CursorCreate/lib/theme_util.py:190-207 | Every entry of the dictionary is the last saved entry of its name. |
| ThemeUtil.LoadProject | CursorCreate/lib/theme_util.py:153-209 | A file of another format or version gives None. Otherwise the result is the metadata, or the default, and every entry of `data` loaded in order into the dictionary. |
| ThemeUtil.LoadData | CursorCreate/lib/theme_util.py:190-207 | The load succeeds exactly when `data` is iterable and every entry loads, and the dictionary holds the entries in order. |
| ThemeUtil.SavedHeaderAccepted | CursorCreate/lib/theme_util.py:120-209 | The header `save_project` writes is accepted: a file without cursors loads back as its metadata and an empty dictionary. |
| ThemeUtil.RescaleFits | CursorCreate/lib/theme_util.py:200-204 | A saved hotspot comes back unchanged at 64 pixels. A hotspot inside the 64-pixel square lands inside every other size. |
| ThemeUtil.SavedHotspotFits | CursorCreate/lib/theme_util.py:142-205 | Hotspots saved inside the 64-pixel square rescale without error and keep the cursor well formed. At 64 pixels the saved hotspot itself comes back. |

## Left out

- CursorModel.MaxSize: breaks an area tie by the lexicographically smallest size; `max(iter(self), key=...)` at CursorCreate/lib/cursor.py:145 takes the first inserted size of maximal area. A cursor given (64, 32) and then (32, 64) gives (64, 32) in the library and (32, 64) here. The map-valued Cursor keeps no insertion order.
- CursorModel.AddSizes: inherits the MaxSize tie-break above. Its hotspot arithmetic (CursorCreate/lib/cursor.py:161-184) is also exact real arithmetic here, where the library uses doubles. A 9×10 icon with hotspot x = 2 grown to 32×32 gives 7 in the library and 8 here: the offset 1.6 plus (2 / 9) × 28.8 is exactly 8, but its double sum falls just below 8 before `int()` truncates it.
- CursorModel.ScaledHotspot: the same real-valued hotspot formula as AddSizes; the double rounding of `int(w_offset + (hx / mw) * final_w)` is not modelled.
- CurFormat.Read: returns the icons in directory order, each decoded from its own payload. The raster library's IcoFile sorts the entries by bit depth and then area, in reverse, and `getimage` returns the first entry of a size (CursorCreate/lib/cur_format.py:103-118). A file whose 32×32 entries are stored 32-bit first, then 4-bit, can yield a different image for that size.
- Mousecape.Identifier: lowers ASCII letters only; Python's `str.lower` (CursorCreate/lib/cur_theme.py:608-609) lowers every cased Unicode letter, so "Über" differs in its first character.
- Mousecape.LowerChar: ASCII-only, as stated for Identifier.
- Mousecape.Squash: its result is lowered by LowerChar, so the ASCII-only restriction above applies.
- Mousecape.Unified: the quarter mean is the exact quotient of the delays' sum by 4n, truncated toward zero (`TruncDiv`). The library computes `int(np.mean(delays) / 4)` (CursorCreate/lib/cur_theme.py:555): a double mean, divided by 4, then truncated. The two differ only when the double quotient rounds across an integer.
- Mousecape.Unify: the frame duration is kept in integer milliseconds; the cape stores `float(unified_delay) / 1000` seconds (CursorCreate/lib/cur_theme.py:592).
- ThemeUtil.Reloaded: the library writes hotspots into shared CursorIcon objects (CursorCreate/lib/theme_util.py:205). AniFormat's reader appends the same Cursor object for every repeated step (CursorCreate/lib/ani_format.py:206-208), so a later write changes earlier steps too. For seq [0, 1, 0] and saved hotspots [[1, 1], [2, 2], [3, 3]], the library leaves steps 0 and 2 at (3, 3); the value model gives step 0 (1, 1).
- ThemeUtil.RescaleFrames: the same aliasing as Reloaded; frames are values here.
- ThemeUtil.Rescale: `int((size / 64) * saved)` is the exact quotient truncated toward zero. `size / 64` is exact as a double, and so is the product while `size * saved` stays below 2^53 in magnitude, so the two agree for every realistic hotspot. Beyond that, double rounding is not modelled.
- ThemeUtil.Restore: accepts integer delays and integer hotspot pairs only. The library also accepts float delays such as `[50.0]`, float hotspots such as `[31.5, 0]` (through `int()`, CursorCreate/lib/theme_util.py:202 and CursorCreate/lib/cursor.py:46), and a malformed extra hotspot past the frame count, which `zip` never reaches. Here all of these are TypeError. A one-element hotspot `[7]` is an IndexError at CursorCreate/lib/theme_util.py:203 but a TypeError here.
- ThemeUtil.LoadEntry: joins paths as pathlib does on POSIX only for an absolute `cursor_file`. pathlib also drops empty and `.` segments and a trailing slash, and understands Windows drives; those normalisations are not modelled.
- ThemeUtil.Ints, ThemeUtil.Points: the JSON narrowing described for Restore.
- ThemeUtil.TextField: a non-string `cursor_name` is a TypeError here; the library uses any JSON value as a dictionary key.
- ThemeUtil.LoadProject: inherits the JSON narrowing of Restore and the aliasing of Reloaded.
- ThemeUtil.DisableCells: states which characters survive, but does not pin down which newlines inside deep blocks become spaces and which are erased along with their indentation.
- CurFormat.WriteReadRoundTrip: assumes a decoder that inverts `_to_bmp` given only the payload and the size (`InvertsToBmp`). Pillow's IcoFile also reads the directory entry. Some Pillow releases take alpha from the BGRA bytes only when the entry's bit-depth field is 32, and `write` stores hot_y there (CursorCreate/lib/cur_format.py:179-180). Such a release takes alpha from the zero-filled mask area (CursorCreate/lib/cur_format.py:56-59) instead, and reads every pixel back opaque. Pillow's version is not pinned, so the round trip is stated only for decoders of the first kind.
- CurFormat.ReadIconsOfWrite: rests on the same decoder assumption as WriteReadRoundTrip.
- CurFormat.WriteReadDib: the reference decoder `DibDecode` reads alpha from the BGRA bytes whatever the entry's bit-depth field holds, so this round trip is Pillow's behaviour only in releases that do the same.
- AniFormat.WriteReadRoundTrip: the cursors inside the icon chunks come back only under the decoder assumption of CurFormat.WriteReadRoundTrip.
- CurFormat.ReadDirectory, CurFormat.PayloadOf: a short directory or an entry past the end of the file fails with LibraryError. This stands for whatever exception Pillow raises there; which class that is, is not modelled.
- The reader lists built from `__subclasses__()` (CursorCreate/lib/cursor_util.py:131-132) are a fixed choice among the three formats here: the animated readers (.ani, Xcursor) first, then .cur/.ico. No magic passes two checks, so the order within a list decides nothing, but a format registered elsewhere is not modelled.
- CursorUtil.Settle: a decoded frame that breaks the size and hotspot invariant in some other way than having only zero-sided sizes fails with LibraryError. Only a decoder returning inconsistent images produces one. A well-formed frame that must grow to a size with a zero side, which only a flat frame supplies, is a ValueError here. What Pillow's `ImageOps.pad` raises for such a size is not modelled.
- CursorUtil.LayerSize: the SVG width is `height * (w / h)` as an exact rational truncated; the library's float ratio (CursorCreate/lib/cursor_util.py:88, 106) can round one pixel differently.
- CurFormat.BmpHeaderResolution: the resolution fields always hold 96 dpi (3780 pixels per metre, CursorCreate/lib/cur_format.py:17-18); a `dpi` entry in the image's own info is not modelled.
- `Cursor.copy` and `AnimatedCursor.copy` (CursorCreate/lib/cursor.py:207-212, 275-285) are the identity in a value model; there is nothing shared to copy.
- The raster work of Pillow (Lanczos pad-and-resize, cropping, image and PNG decoding), cairosvg's rendering and numpy's gcd/mean are parameters or integer definitions; their pixel results are not modelled.
- File and archive output is not modelled: PNG encoding, the Mousecape property list, the tar and zip archives, `install.inf`, `index.theme` and the LICENSE text. Builders yield the plan of what they write.
- The preview's crosshair lines (CursorCreate/lib/cur_theme.py:747-759) are drawing only and are left out; tile placement is modelled.
- `save_project`, `_make_image`, JSON parsing and dumping, directory creation and traceback printing in `build_theme` are I/O. The folding of the saved text (`_disable_newlines`) is modelled.
- `get_name` and the builder registry are constants: the four builders in declaration order.

## Findings

| source | as written | input that shows it | evidently intended | confidence | as-written member | corrected member |
|---|---|---|---|---|---|---|
| CursorCreate/lib/cur_theme.py:567-577 | the frame search compares the output time against the end of frame `next_ani_frame` and pastes frame `next_ani_frame - 1`, so the last frame of an animation never reaches a strip | delays [10, 10]: two output frames, both taken from frame 0 | each output frame shows the input frame playing at that time, so [0, 1] here and every frame at least once | high, not executed | Mousecape.AsWrittenNeverShowsLast | Mousecape.EveryFrameShown |

`Mousecape.Unify` takes the loop as a parameter (`AsWritten` or `Corrected`). The Mousecape
builder passes `AsWritten`, so the cape plan matches the library; the corrected loop is proved
to show every frame.

=== FILE: ani_format.dfy ===
/** The Windows animated cursor format (CursorCreate/lib/ani_format.py).

  An .ani file is a RIFF container of form type "ACON". Its chunks are a header
  ("anih"), a LIST of "icon" chunks each holding a whole .cur file, an optional
  play order ("seq ") and optional per-step durations ("rate", in jiffies of
  1/60 s). The reader walks the chunks in file order and hands each known one to
  its handler; the writer always emits the header, the icon list and a rate chunk.
 */
module AniFormat {
  import opened Wrappers
  import opened FormatCore
  import opened CursorModel
  import CurFormat

  // Chunk identifiers and magics, as the ASCII bytes of their names.
  const RiffMagic: seq<byte> := [82, 73, 70, 70]    // "RIFF"
  const AconMagic: seq<byte> := [65, 67, 79, 78]    // "ACON"
  const AnihId: seq<byte> := [97, 110, 105, 104]    // "anih"
  const IconId: seq<byte> := [105, 99, 111, 110]    // "icon"
  const RateId: seq<byte> := [114, 97, 116, 101]    // "rate"
  const SeqId: seq<byte> := [115, 101, 113, 32]     // "seq "
  const FramId: seq<byte> := [102, 114, 97, 109]    // "fram"
  const ListId: seq<byte> := [76, 73, 83, 84]       // "LIST"

  // ---------------------------------------------------------------------------
  // RIFF chunks (read_chunks, write_chunk)
  // ---------------------------------------------------------------------------

  /** One chunk as `read_chunks` yields it: the identifier, the size field and the data
      actually read, which is shorter than `size` when the stream ends early. */
  datatype Chunk = Chunk(id: seq<byte>, size: nat, data: seq<byte>)

  /** A chunk that a reader with these skip and list identifiers can yield. */
  predicate Plain(ch: Chunk, skip: set<seq<byte>>, lists: set<seq<byte>>) {
    1 <= |ch.id| <= 4 && ch.id !in skip && ch.id !in lists && |ch.data| <= ch.size
  }

  /** `read_chunks`: each step reads a 4-byte identifier (fewer at the end of the stream) and
      stops at the end of the stream. A skip identifier is only those 4 bytes. Otherwise a
      4-byte little-endian size follows; a list identifier's data is read as chunks of its
      own, yielded in place; any other chunk is yielded with its data. Every read is cut
      short at the end of the stream, never an error. */
  function ReadChunks(bytes: seq<byte>, skip: set<seq<byte>>, lists: set<seq<byte>>): (r: seq<Chunk>)
    ensures forall k :: 0 <= k < |r| ==> Plain(r[k], skip, lists)
    ensures |bytes| == 0 ==> r == []
    decreases |bytes|
  {
    if |bytes| == 0 then []
    else
      var id := Slice(bytes, 0, 4);
      var p := |id|;
      if id in skip then ReadChunks(bytes[p..], skip, lists)
      else
        var sizeField := Slice(bytes, p, p + 4);
        var size := ToInt(sizeField);
        var q := p + |sizeField|;
        var data := Slice(bytes, q, q + size);
        var rest := bytes[q + |data|..];
        if id in lists then
          var inner := ReadChunks(data, skip, lists);
          var after := ReadChunks(rest, skip, lists);
          assert forall k :: |inner| <= k < |inner + after| ==> (inner + after)[k] == after[k - |inner|];
          inner + after
        else
          var after := ReadChunks(rest, skip, lists);
          assert forall k :: 1 <= k < |after| + 1 ==> ([Chunk(id, size, data)] + after)[k] == after[k - 1];
          [Chunk(id, size, data)] + after
  }

  /** `write_chunk`: the first four bytes of the identifier, the data length as a 4-byte
      little-endian word, then the data; OverflowError when the length needs more than 4 bytes. */
  function WriteChunk(id: seq<byte>, data: seq<byte>): (r: Result<seq<byte>>)
    ensures r.Success? <==> |data| < Word32
    ensures r.Failure? ==> r.error == OverflowError
    ensures r.Success? ==> |r.value| == Min(|id|, 4) + 4 + |data|
  {
    var size :- ToBytes(|data|, 4);
    Success(Slice(id, 0, 4) + size + data)
  }

  /** The fields of a written chunk with a 4-byte identifier. */
  lemma WrittenChunkFields(id: seq<byte>, data: seq<byte>, rest: seq<byte>)
    requires |id| == 4 && |data| < Word32
    ensures var b := WriteChunk(id, data).value + rest;
      && Slice(b, 0, 4) == id && Slice(b, 4, 8) == ToBytes(|data|, 4).value
      && Slice(b, 8, 8 + |data|) == data && b[8 + |data|..] == rest
  {
    var size := ToBytes(|data|, 4).value;
    var b := WriteChunk(id, data).value + rest;
    assert b == id + size + data + rest;
    assert b[0..4] == id;
    assert b[4..8] == size;
    assert b[8..8 + |data|] == data;
  }

  /** A chunk `write_chunk` wrote is read back as that chunk, and reading continues right
      after it. */
  lemma ReadWrittenChunk(id: seq<byte>, data: seq<byte>, rest: seq<byte>, skip: set<seq<byte>>, lists: set<seq<byte>>)
    requires |id| == 4 && id !in skip && id !in lists && |data| < Word32
    ensures WriteChunk(id, data).Success?
    ensures ReadChunks(WriteChunk(id, data).value + rest, skip, lists)
         == [Chunk(id, |data|, data)] + ReadChunks(rest, skip, lists)
  {
    WrittenChunkFields(id, data, rest);
  }

  /** A written list chunk is read as the chunks inside its data, in place. */
  lemma ReadWrittenList(id: seq<byte>, data: seq<byte>, rest: seq<byte>, skip: set<seq<byte>>, lists: set<seq<byte>>)
    requires |id| == 4 && id !in skip && id in lists && |data| < Word32
    ensures WriteChunk(id, data).Success?
    ensures ReadChunks(WriteChunk(id, data).value + rest, skip, lists)
         == ReadChunks(data, skip, lists) + ReadChunks(rest, skip, lists)
  {
    WrittenChunkFields(id, data, rest);
  }

  /** A skip identifier consumes its four bytes and nothing else. */
  lemma ReadSkipped(id: seq<byte>, rest: seq<byte>, skip: set<seq<byte>>, lists: set<seq<byte>>)
    requires |id| == 4 && id in skip
    ensures ReadChunks(id + rest, skip, lists) == ReadChunks(rest, skip, lists)
  {
    assert Slice(id + rest, 0, 4) == id;
    assert (id + rest)[4..] == rest;
  }

  // ---------------------------------------------------------------------------
  // Chunk handlers (_header_chunk, _icon_chunk, _seq_chunk, _rate_chunk)
  // ---------------------------------------------------------------------------

  /** The "anih" fields the reader keeps; the plane count is not read from the file. */
  datatype AniHeader = AniHeader(
    numFrames: nat, numSteps: nat, width: nat, height: nat, bitCount: nat,
    displayRate: nat, containsSeq: bool, isInIco: bool)

  /** What the handlers have collected so far. The play order and rates appear together
      with the header; the icon list appears with the first icon chunk. */
  datatype AniState = AniState(
    header: Option<AniHeader>, order: Option<seq<nat>>, rates: Option<seq<nat>>, icons: Option<seq<Cursor>>)

  const Fresh: AniState := AniState(None, None, None, None)

  /** The decoder of a bare DIB icon chunk, giving the image as stored: the colour rows with
      the AND mask rows above them, so twice the icon's height. */
  type DibReader = seq<byte> -> Result<StoredImage>

  /** The icon of a bare DIB chunk: only the lower half of the stored rows, the colour image,
      is kept. */
  function LowerHalf(img: Image): (r: Image)
    requires ValidImage(img)
    ensures ValidImage(r) && r.width == img.width && r.height == img.height / 2
    ensures r.pixels == img.pixels[|img.pixels| - |r.pixels|..]
  {
    var h := img.height / 2;
    MulLe(img.width, h, img.height);
    Image(img.width, h, img.pixels[|img.pixels| - img.width * h..])
  }

  /** The little-endian words of `data`, one for every offset 0, 4, 8, ... below its
      length, so a short last word still counts. */
  function Words(data: seq<byte>): seq<nat> {
    seq((|data| + 3) / 4, i requires 0 <= i < (|data| + 3) / 4 => U32At(data, 4 * i))
  }

  /** The fields of "anih" data: a 36-byte header starts with its own length, which is
      dropped; then come the frame and step counts, width, height and bit count, the plane
      count (not read), the default rate and the flags, bit 0 marking .cur/.ico icons and
      bit 1 a sequence chunk. Short data reads as zero words. */
  function ParseHeader(data: seq<byte>): (h: AniHeader)
    ensures |data| == 36 ==> h.numFrames == U32At(data, 4) && h.numSteps == U32At(data, 8)
    ensures |data| != 36 ==> h.numFrames == U32At(data, 0) && h.numSteps == U32At(data, 4)
  {
    if |data| == 36 then
      DropLength(data);
      HeaderFieldsAt(data[4..])
    else HeaderFieldsAt(data)
  }

  function HeaderFieldsAt(d: seq<byte>): (h: AniHeader)
    ensures h.numFrames == U32At(d, 0) && h.numSteps == U32At(d, 4)
  {
    var flags := U32At(d, 28);
    AniHeader(U32At(d, 0), U32At(d, 4), U32At(d, 8), U32At(d, 12), U32At(d, 16), U32At(d, 24),
              flags / 2 % 2 == 1, flags % 2 == 1)
  }

  /** Dropping the length word moves the counts to the front. */
  lemma DropLength(data: seq<byte>)
    requires |data| == 36
    ensures U32At(data[4..], 0) == U32At(data, 4) && U32At(data[4..], 4) == U32At(data, 8)
  {
    SliceAfter(data[..4], data[4..], 4, 8);
    SliceAfter(data[..4], data[4..], 8, 12);
    assert data == data[..4] + data[4..];
  }

  /** The play order 0, 1, ..., n-1. */
  function InOrder(n: nat): (r: seq<nat>)
    ensures |r| == n && forall i :: 0 <= i < n ==> r[i] == i
  {
    seq(n, i requires 0 <= i < n => i)
  }

  /** n steps at the same rate v. */
  function Steady(n: nat, v: nat): (r: seq<nat>)
    ensures |r| == n && forall i :: 0 <= i < n ==> r[i] == v
  {
    seq(n, i requires 0 <= i < n => v)
  }

  /** `_header_chunk`: a second header is a SyntaxError. The play order defaults to frame
      i mod (frame count) at step i, which divides by zero when there are steps but no
      frames, and every step gets the header's rate. */
  function HeaderChunk(st: AniState, data: seq<byte>): (r: Result<AniState>)
    ensures r.Success? <==> st.header.None? && (ParseHeader(data).numSteps > 0 ==> ParseHeader(data).numFrames > 0)
    ensures st.header.Some? ==> r == Failure(SyntaxError)
    ensures st.header.None? && r.Failure? ==> r.error == ZeroDivisionError
    ensures r.Success? ==> r.value.icons == st.icons && r.value.header == Some(ParseHeader(data))
    ensures r.Success? ==> var h := ParseHeader(data);
      && r.value.order.Some? && r.value.rates.Some?
      && |r.value.order.value| == |r.value.rates.value| == h.numSteps
      && (forall i :: 0 <= i < h.numSteps ==> r.value.order.value[i] == i % h.numFrames)
      && (forall i :: 0 <= i < h.numSteps ==> r.value.rates.value[i] == h.displayRate)
  {
    if st.header.Some? then Failure(SyntaxError)
    else
      var h := ParseHeader(data);
      if h.numFrames == 0 && h.numSteps > 0 then Failure(ZeroDivisionError)
      else
        Success(st.(header := Some(h),
                    order := Some(seq(h.numSteps, i requires 0 <= i < h.numSteps => i % h.numFrames)),
                    rates := Some(Steady(h.numSteps, h.displayRate))))
  }

  /** `_seq_chunk` and `_rate_chunk`: a SyntaxError before the header or unless the whole
      words of the data number the header's step count; the result has one entry per word,
      a short last word included. */
  function StepWords(st: AniState, data: seq<byte>): (r: Result<seq<nat>>)
    ensures r.Success? <==> st.header.Some? && |data| / 4 == st.header.value.numSteps
    ensures r.Failure? ==> r.error == SyntaxError
    ensures r.Success? ==> r.value == Words(data)
  {
    if st.header.None? || |data| / 4 != st.header.value.numSteps then Failure(SyntaxError)
    else Success(Words(data))
  }

  /** `_icon_chunk`: a SyntaxError before the header. With the header's .ico flag the data
      is a whole .cur/.ico file; otherwise it is a bare DIB whose hotspot is (0, 0), checked
      against the image as stored, before only its lower half is kept. The cursor is
      appended to the icon list. */
  function IconChunk(st: AniState, data: seq<byte>, decode: CurFormat.Decoder, dib: DibReader): (r: Result<AniState>)
    ensures st.header.None? ==> r == Failure(SyntaxError)
    ensures r.Success? ==> r.value.header == st.header && r.value.order == st.order && r.value.rates == st.rates
    ensures r.Success? ==> r.value.icons.Some? && |r.value.icons.value| == |st.icons.GetOr([])| + 1
    ensures r.Success? ==> r.value.icons.value[..|st.icons.GetOr([])|] == st.icons.GetOr([])
    ensures r.Success? && st.header.value.isInIco ==> Success(r.value.icons.value[|st.icons.GetOr([])|]) == CurFormat.Read(data, decode)
  {
    if st.header.None? then Failure(SyntaxError)
    else
      var cursor :- IconCursor(data, st.header.value.isInIco, decode, dib);
      Success(st.(icons := Some(st.icons.GetOr([]) + [cursor])))
  }

  /** The cursor an icon chunk holds. */
  function IconCursor(data: seq<byte>, isInIco: bool, decode: CurFormat.Decoder, dib: DibReader): (r: Result<Cursor>)
    ensures isInIco ==> r == CurFormat.Read(data, decode)
    ensures !isInIco ==> (r.Success? <==> dib(data).Success? && dib(data).value.width > 0 && dib(data).value.height > 0)
    ensures !isInIco && dib(data).Success? && r.Failure? ==> r.error == ValueError
    ensures !isInIco && r.Success? ==> r.value == FromIcons([Icon(LowerHalf(dib(data).value), (0, 0))])
  {
    if isInIco then CurFormat.Read(data, decode)
    else
      var stored :- dib(data);
      var icon :- MakeIcon(stored, 0, 0);
      Success(FromIcons([Icon(LowerHalf(stored), (0, 0))]))
  }

  /** One chunk handed to its handler; chunks of other identifiers are ignored. */
  function Handle(st: AniState, ch: Chunk, decode: CurFormat.Decoder, dib: DibReader): (r: Result<AniState>)
  {
    if ch.id == AnihId then HeaderChunk(st, ch.data)
    else if ch.id == IconId then IconChunk(st, ch.data, decode, dib)
    else if ch.id == RateId then
      var rates :- StepWords(st, ch.data);
      Success(st.(rates := Some(rates)))
    else if ch.id == SeqId then
      var order :- StepWords(st, ch.data);
      Success(st.(order := Some(order)))
    else Success(st)
  }

  /** The handlers applied to the chunks in file order; the first exception ends the read. */
  function HandleAll(st: AniState, chunks: seq<Chunk>, decode: CurFormat.Decoder, dib: DibReader): (r: Result<AniState>)
    decreases |chunks|
  {
    if |chunks| == 0 then Success(st)
    else
      var next :- Handle(st, chunks[0], decode, dib);
      HandleAll(next, chunks[1..], decode, dib)
  }

  // ---------------------------------------------------------------------------
  // AniFormat.check and AniFormat.read
  // ---------------------------------------------------------------------------

  /** `AniFormat.check`: "RIFF" in bytes 0..3 and "ACON" in bytes 8..11; the RIFF length
      between them is not looked at. */
  function Check(first: seq<byte>): (r: bool)
    ensures r <==> |first| >= 12 && first[..4] == RiffMagic && first[8..12] == AconMagic
  {
    Slice(first, 0, 4) == RiffMagic && Slice(first, 8, 12) == AconMagic
  }

  /** A rate in jiffies as milliseconds, `int((rate * 1000) / 60)`. The quotient of a
      4-byte rate is computed exactly in floating point, so this is the integer quotient. */
  function RateToDelay(rate: nat): (ms: nat)
    ensures 60 * ms <= 1000 * rate < 60 * ms + 60
  {
    rate * 1000 / 60
  }

  /** The animation `read` assembles: one frame per step while both the play order and the
      rates last, showing the icon the order names for as long as the rate says. No step
      needs no icon list; otherwise a missing list is a KeyError and an order entry past
      its end an IndexError. */
  function Steps(order: seq<nat>, rates: seq<nat>, icons: Option<seq<Cursor>>): (r: Result<AnimatedCursor>)
    ensures var n := Min(|order|, |rates|);
      && (r.Success? <==> n == 0 || (icons.Some? && forall i :: 0 <= i < n ==> order[i] < |icons.value|))
      && (n > 0 && icons.None? ==> r == Failure(KeyError))
      && (n > 0 && icons.Some? && r.Failure? ==> r.error == IndexError)
      && (r.Success? ==> |r.value| == n)
      && (r.Success? && n > 0 ==> forall i :: 0 <= i < n ==>
            r.value[i] == Frame(icons.value[order[i]], RateToDelay(rates[i])))
  {
    var n := Min(|order|, |rates|);
    if n == 0 then Success([])
    else if icons.None? then Failure(KeyError)
    else if exists i :: 0 <= i < n && order[i] >= |icons.value| then Failure(IndexError)
    else Success(seq(n, i requires 0 <= i < n => Frame(icons.value[order[i]], RateToDelay(rates[i]))))
  }

  /** `AniFormat.read`: a SyntaxError unless the first 12 bytes pass `check`; then every
      chunk after them, with "fram" skipped and "LIST" read in place, goes to its handler,
      and the steps are assembled. A file without a header has no play order: KeyError. */
  function Read(file: seq<byte>, decode: CurFormat.Decoder, dib: DibReader): (r: Result<AnimatedCursor>)
    ensures !Check(file) ==> r == Failure(SyntaxError)
    ensures r.Success? ==> Check(file)
  {
    if !Check(Slice(file, 0, 12)) then Failure(SyntaxError) else
    var chunks := ReadChunks(file[12..], {FramId}, {ListId});
    var st :- HandleAll(Fresh, chunks, decode, dib);
    if st.order.None? || st.rates.None? then Failure(KeyError)
    else Steps(st.order.value, st.rates.value, st.icons)
  }

  // ---------------------------------------------------------------------------
  // AniFormat.write
  // ---------------------------------------------------------------------------

  /** Python's `round(a / b)` for b > 0: the nearest integer, a tie going to the even one. */
  function RoundHalfEven(a: int, b: int): (r: int)
    requires b > 0
    ensures 2 * (a - r * b) <= b && 2 * (r * b - a) <= b
    ensures 2 * (a - r * b) == b || 2 * (r * b - a) == b ==> r % 2 == 0
  {
    var q := a / b;
    var m := a % b;
    assert a == q * b + m;
    if 2 * m < b then q
    else if 2 * m > b then q + 1
    else if q % 2 == 0 then q
    else q + 1
  }

  /** A delay in milliseconds as jiffies, `round((delay * 60) / 1000)`. */
  function DelayToRate(delay: int): int {
    RoundHalfEven(delay * 60, 1000)
  }

  /** The 36-byte "anih" data `write` emits for n frames, as its nine 4-byte words: its own
      length, n frames, n steps, no width, height or bit count, one plane, a rate of 10
      jiffies and flag bit 0 (icons are .cur files). */
  function HeaderWords(n: nat): seq<nat> {
    [36, n, n, 0, 0, 0, 1, 10, 1]
  }

  /** Each of `words` as 4 little-endian bytes; OverflowError for one that does not fit. */
  function WordBytes(words: seq<int>): (r: Result<seq<seq<byte>>>)
    ensures r.Success? <==> forall i :: 0 <= i < |words| ==> 0 <= words[i] < Word32
    ensures r.Failure? ==> r.error == OverflowError
    ensures r.Success? ==> |r.value| == |words|
    ensures r.Success? ==> forall i :: 0 <= i < |words| ==> |r.value[i]| == 4 && ToInt(r.value[i]) == words[i]
  {
    if |words| == 0 then Success([])
    else
      var first :- ToBytes(words[0], 4);
      var rest :- WordBytes(words[1..]);
      assert forall i :: 1 <= i < |words| ==> words[i] == words[1..][i - 1];
      Success([first] + rest)
  }

  /** What `write` emits for one frame: the frame's .cur file, the "icon" chunk holding
      it, and its delay in jiffies as a 4-byte word. */
  datatype FramePart = FramePart(cur: seq<byte>, chunk: seq<byte>, rate: seq<byte>)

  /** One frame's part; the first exception, from encoding the cursor, its length or its
      rate, ends the write. */
  function FrameBytes(f: Frame): (r: Result<FramePart>)
    requires WellFormed(f.cursor)
    ensures r.Success? ==> CurFormat.Write(f.cursor) == Success(r.value.cur)
    ensures r.Success? ==> |r.value.cur| < Word32 && r.value.chunk == WriteChunk(IconId, r.value.cur).value
    ensures r.Success? ==> 0 <= DelayToRate(f.delay) < Word32 && r.value.rate == ToBytes(DelayToRate(f.delay), 4).value
  {
    var cur :- CurFormat.Write(f.cursor);
    var chunk :- WriteChunk(IconId, cur);
    var rate :- ToBytes(DelayToRate(f.delay), 4);
    Success(FramePart(cur, chunk, rate))
  }

  /** The parts laid end to end, chunks and rates separately; the first failure, in frame
      order, is the result. */
  function Pack(parts: seq<Result<FramePart>>): (r: Result<(seq<byte>, seq<byte>)>)
    ensures r.Success? <==> forall i :: 0 <= i < |parts| ==> parts[i].Success?
  {
    if |parts| == 0 then Success(([], []))
    else
      var first :- parts[0];
      var rest :- Pack(parts[1..]);
      assert forall i :: 1 <= i < |parts| ==> parts[i] == parts[1..][i - 1];
      Success((first.chunk + rest.0, first.rate + rest.1))
  }

  /** The icon chunks and the rate data of all frames. */
  function FramesData(ac: AnimatedCursor): Result<(seq<byte>, seq<byte>)>
    requires FramesWellFormed(ac)
  {
    Pack(seq(|ac|, i requires 0 <= i < |ac| => FrameBytes(ac[i])))
  }

  /** `AniFormat.write`: "RIFF", the length of everything after the first 8 bytes, "ACON",
      the header chunk, a LIST chunk of "fram" and one "icon" chunk per frame holding the
      frame's .cur file, and a rate chunk with each frame's delay in jiffies. No "seq "
      chunk is written, so frames play in order. */
  function Write(ac: AnimatedCursor): (r: Result<seq<byte>>)
    requires FramesWellFormed(ac)
    ensures |ac| >= Word32 ==> r == Failure(OverflowError)
    ensures r.Success? ==> |r.value| >= 12 && r.value[..4] == RiffMagic && r.value[8..12] == AconMagic
    ensures r.Success? ==> ToInt(r.value[4..8]) == |r.value| - 8
  {
    if |ac| >= Word32 then Failure(OverflowError)
    else
      var frames :- FramesData(ac);
      Assemble(|ac|, frames)
  }

  /** The file around the frames' icon chunks and rate data, for n frames. */
  function Assemble(n: nat, frames: (seq<byte>, seq<byte>)): (r: Result<seq<byte>>)
    requires n < Word32
    ensures r.Success? ==> |r.value| >= 12 && r.value[..4] == RiffMagic && r.value[8..12] == AconMagic
    ensures r.Success? ==> ToInt(r.value[4..8]) == |r.value| - 8
  {
    var words := HeaderBytes(n);
    ConcatLength(words, 4);
    var anih := WriteChunk(AnihId, Concat(words)).value;
    var list :- WriteChunk(ListId, FramId + frames.0);
    var rates :- WriteChunk(RateId, frames.1);
    var body := AconMagic + anih + list + rates;
    var size :- ToBytes(|body|, 4);
    RiffFields(size, body);
    Success(RiffMagic + size + body)
  }

  /** The nine header words of n frames, 4 bytes each. */
  function HeaderBytes(n: nat): (r: seq<seq<byte>>)
    requires n < Word32
    ensures WordBytes(HeaderWords(n)) == Success(r)
    ensures |r| == 9 && forall i :: 0 <= i < 9 ==> |r[i]| == 4
  {
    WordBytes(HeaderWords(n)).value
  }

  /** The fields of "RIFF", a 4-byte length and a body that starts with "ACON". */
  lemma RiffFields(size: seq<byte>, body: seq<byte>)
    requires |size| == 4 && |body| >= 4 && body[..4] == AconMagic
    ensures var file := RiffMagic + size + body;
      file[..4] == RiffMagic && file[4..8] == size && file[8..12] == AconMagic && file[12..] == body[4..]
  {
  }

  // ---------------------------------------------------------------------------
  // What `read` makes of what `write` wrote
  // ---------------------------------------------------------------------------

  /** The i-th word of 4-byte fields laid end to end. */
  lemma WordOf(words: seq<seq<byte>>, i: nat)
    requires forall j :: 0 <= j < |words| ==> |words[j]| == 4
    requires i < |words|
    ensures U32At(Concat(words), 4 * i) == ToInt(words[i])
  {
    ConcatUniform(words, 4, i);
  }

  /** The j-th word after the length word of the header `write` emits. */
  lemma HeaderWordAt(n: nat, j: nat)
    requires n < Word32 && j < 8
    ensures WordBytes(HeaderWords(n)).Success?
    ensures var data := Concat(WordBytes(HeaderWords(n)).value);
      |data| == 36 && U32At(data[4..], 4 * j) == HeaderWords(n)[j + 1]
  {
    var words := WordBytes(HeaderWords(n)).value;
    var data := Concat(words);
    ConcatLength(words, 4);
    WordOf(words, j + 1);
    SliceAfter(data[..4], data[4..], 4 * j + 4, 4 * j + 8);
    assert data == data[..4] + data[4..];
  }

  /** The words the reader takes from the header `write` emits, after dropping its length. */
  lemma HeaderFields(n: nat)
    requires n < Word32
    ensures WordBytes(HeaderWords(n)).Success?
    ensures var data := Concat(WordBytes(HeaderWords(n)).value);
      && |data| == 36
      && U32At(data[4..], 0) == n && U32At(data[4..], 4) == n && U32At(data[4..], 8) == 0
      && U32At(data[4..], 12) == 0 && U32At(data[4..], 16) == 0 && U32At(data[4..], 24) == 10
      && U32At(data[4..], 28) == 1
  {
    HeaderWordAt(n, 0);
    HeaderWordAt(n, 1);
    HeaderWordAt(n, 2);
    HeaderWordAt(n, 3);
    HeaderWordAt(n, 4);
    HeaderWordAt(n, 6);
    HeaderWordAt(n, 7);
  }

  /** The header `write` emits reads back as n frames and n steps at 10 jiffies, icons in
      .cur form, no sequence chunk announced, and the identity play order. */
  lemma HeaderDecodes(st: AniState, n: nat)
    requires st.header.None? && n < Word32
    ensures WordBytes(HeaderWords(n)).Success?
    ensures var data := Concat(WordBytes(HeaderWords(n)).value);
      HeaderChunk(st, data) == Success(st.(header := Some(AniHeader(n, n, 0, 0, 0, 10, false, true)),
                                            order := Some(InOrder(n)),
                                            rates := Some(Steady(n, 10))))
  {
    var data := Concat(WordBytes(HeaderWords(n)).value);
    HeaderFields(n);
    var h := AniHeader(n, n, 0, 0, 0, 10, false, true);
    WrittenHeader(data, n);
    SquareHeader(st, data, h);
  }

  /** 36 bytes holding a length word and then the words `write` puts after it. */
  lemma WrittenHeader(data: seq<byte>, n: nat)
    requires |data| == 36
    requires U32At(data[4..], 0) == n && U32At(data[4..], 4) == n && U32At(data[4..], 8) == 0
    requires U32At(data[4..], 12) == 0 && U32At(data[4..], 16) == 0 && U32At(data[4..], 24) == 10
    requires U32At(data[4..], 28) == 1
    ensures ParseHeader(data) == AniHeader(n, n, 0, 0, 0, 10, false, true)
  {
    assert ParseHeader(data) == HeaderFieldsAt(data[4..]);
  }

  /** A header with as many frames as steps plays the frames in order, each at the
      header's rate. */
  lemma SquareHeader(st: AniState, data: seq<byte>, h: AniHeader)
    requires st.header.None? && ParseHeader(data) == h && h.numFrames == h.numSteps
    ensures HeaderChunk(st, data) == Success(st.(header := Some(h),
                                                order := Some(InOrder(h.numSteps)),
                                                rates := Some(Steady(h.numSteps, h.displayRate))))
  {
    var n := h.numSteps;
    var r := HeaderChunk(st, data);
    var order := r.value.order.value;
    forall i | 0 <= i < n ensures order[i] == i {
      ModBelow(i, n);
    }
    var rates := r.value.rates.value;
    assert order == InOrder(n);
    assert rates == Steady(n, h.displayRate);
    assert r.value == st.(header := Some(h), order := Some(order), rates := Some(rates));
  }

  lemma ModBelow(i: nat, n: nat)
    requires i < n
    ensures i % n == i
  {
  }

  /** Every part of a packed sequence succeeded. */
  predicate AllDone(parts: seq<Result<FramePart>>) {
    forall i :: 0 <= i < |parts| ==> parts[i].Success?
  }

  /** The packed rates hold each part's rate word in turn. */
  lemma {:induction false} PackRates(parts: seq<Result<FramePart>>)
    requires AllDone(parts)
    requires forall i :: 0 <= i < |parts| ==> |parts[i].value.rate| == 4
    ensures |Pack(parts).value.1| == 4 * |parts|
    ensures forall i :: 0 <= i < |parts| ==> U32At(Pack(parts).value.1, 4 * i) == ToInt(parts[i].value.rate)
  {
    if |parts| > 0 {
      var tail := parts[1..];
      assert forall i :: 0 <= i < |tail| ==> tail[i] == parts[i + 1];
      PackRates(tail);
      var rate := parts[0].value.rate;
      var rest := Pack(tail).value.1;
      assert Pack(parts).value.1 == rate + rest;
      WordsAfter(rate, rest);
    }
  }

  /** Words behind a leading 4-byte word are the words of the rest, shifted by one. */
  lemma WordsAfter(rate: seq<byte>, rest: seq<byte>)
    requires |rate| == 4
    ensures U32At(rate + rest, 0) == ToInt(rate)
    ensures forall i :: 1 <= i ==> U32At(rate + rest, 4 * i) == U32At(rest, 4 * (i - 1))
  {
    assert Slice(rate + rest, 0, 4) == rate;
    forall i | 1 <= i ensures U32At(rate + rest, 4 * i) == U32At(rest, 4 * (i - 1)) {
      SliceAfter(rate, rest, 4 * i, 4 * i + 4);
    }
  }

  /** The packed chunks are read back one per part, in order. */
  lemma {:induction false} PackChunks(parts: seq<Result<FramePart>>, skip: set<seq<byte>>, lists: set<seq<byte>>)
    requires AllDone(parts) && IconId !in skip && IconId !in lists
    requires forall i :: 0 <= i < |parts| ==>
      |parts[i].value.cur| < Word32 && parts[i].value.chunk == WriteChunk(IconId, parts[i].value.cur).value
    ensures var chunks := ReadChunks(Pack(parts).value.0, skip, lists);
      && |chunks| == |parts|
      && forall k :: 0 <= k < |parts| ==> chunks[k] == Chunk(IconId, |parts[k].value.cur|, parts[k].value.cur)
  {
    if |parts| > 0 {
      var tail := parts[1..];
      assert forall i :: 0 <= i < |tail| ==> tail[i] == parts[i + 1];
      PackChunks(tail, skip, lists);
      var first := parts[0].value;
      var rest := Pack(tail).value.0;
      assert Pack(parts).value.0 == WriteChunk(IconId, first.cur).value + rest;
      ReadWrittenChunk(IconId, first.cur, rest, skip, lists);
      forall k | 1 <= k < |parts| ensures parts[k] == tail[k - 1] {
      }
    }
  }

  /** The handlers over chunks laid end to end. */
  lemma {:induction false} HandleAllAppend(st: AniState, a: seq<Chunk>, b: seq<Chunk>, decode: CurFormat.Decoder, dib: DibReader)
    ensures HandleAll(st, a + b, decode, dib)
         == (match HandleAll(st, a, decode, dib)
             case Success(mid) => HandleAll(mid, b, decode, dib)
             case Failure(e) => Failure(e))
    decreases |a|
  {
    if |a| > 0 {
      assert (a + b)[0] == a[0] && (a + b)[1..] == a[1..] + b;
      match Handle(st, a[0], decode, dib)
      case Success(next) => HandleAllAppend(next, a[1..], b, decode, dib);
      case Failure(_) =>
    } else {
      assert a + b == b;
    }
  }

  /** One icon chunk holding a .cur file, after a header with the .ico flag, appends the
      cursor the file holds. */
  lemma HandleIcon(st: AniState, ch: Chunk, cursor: Cursor, decode: CurFormat.Decoder, dib: DibReader)
    requires st.header.Some? && st.header.value.isInIco
    requires ch.id == IconId && CurFormat.Read(ch.data, decode) == Success(cursor)
    ensures Handle(st, ch, decode, dib) == Success(st.(icons := Some(st.icons.GetOr([]) + [cursor])))
  {
    assert IconId != AnihId by { assert IconId[0] != AnihId[0]; }
    assert IconCursor(ch.data, true, decode, dib) == Success(cursor);
  }

  lemma AppendFirst<T>(before: seq<T>, items: seq<T>)
    requires |items| > 0
    ensures (before + [items[0]]) + items[1..] == before + items
  {
    assert items == [items[0]] + items[1..];
  }

  lemma AppendEmpty<T>(items: seq<T>)
    ensures [] + items == items
  {
  }

  /** Icon chunks of .cur files after a header with the .ico flag each append the cursor
      the file holds. */
  lemma {:induction false} HandleIcons(st: AniState, chunks: seq<Chunk>, cursors: seq<Cursor>, decode: CurFormat.Decoder, dib: DibReader)
    requires st.header.Some? && st.header.value.isInIco && |cursors| == |chunks|
    requires forall k :: 0 <= k < |chunks| ==> chunks[k].id == IconId && CurFormat.Read(chunks[k].data, decode) == Success(cursors[k])
    ensures HandleAll(st, chunks, decode, dib)
         == Success(if |chunks| == 0 then st else st.(icons := Some(st.icons.GetOr([]) + cursors)))
    decreases |chunks|
  {
    if |chunks| > 0 {
      var next := st.(icons := Some(st.icons.GetOr([]) + [cursors[0]]));
      HandleIcon(st, chunks[0], cursors[0], decode, dib);
      var tail := chunks[1..];
      assert forall k :: 0 <= k < |tail| ==> tail[k] == chunks[k + 1];
      assert forall k :: 0 <= k < |tail| ==> cursors[1..][k] == cursors[k + 1];
      HandleIcons(next, tail, cursors[1..], decode, dib);
      var before := st.icons.GetOr([]);
      AppendFirst(before, cursors);
      assert HandleAll(st, chunks, decode, dib) == HandleAll(next, tail, decode, dib);
      if |tail| == 0 {
        assert cursors == [cursors[0]];
      }
    }
  }

  /** The pieces of a written file: after the 12 bytes of "RIFF", length and "ACON" come
      the header chunk, the LIST chunk of "fram" and the icon chunks, and the rate chunk. */
  lemma AssembleParts(n: nat, frames: (seq<byte>, seq<byte>))
    requires n < Word32 && Assemble(n, frames).Success?
    ensures |Concat(HeaderBytes(n))| == 36 && |FramId + frames.0| < Word32 && |frames.1| < Word32
    ensures Assemble(n, frames).value[12..] == WriteChunk(AnihId, Concat(HeaderBytes(n))).value
      + (WriteChunk(ListId, FramId + frames.0).value + WriteChunk(RateId, frames.1).value)
  {
    var header := Concat(HeaderBytes(n));
    ConcatLength(HeaderBytes(n), 4);
    var anih := WriteChunk(AnihId, header).value;
    var list := WriteChunk(ListId, FramId + frames.0).value;
    var rates := WriteChunk(RateId, frames.1).value;
    var body := AconMagic + anih + list + rates;
    var size := ToBytes(|body|, 4).value;
    RiffFields(size, body);
    assert Assemble(n, frames).value == RiffMagic + size + body;
    BodyTail(anih, list, rates);
  }

  lemma BodyTail(anih: seq<byte>, list: seq<byte>, rates: seq<byte>)
    ensures (AconMagic + anih + list + rates)[4..] == anih + (list + rates)
  {
  }

  /** The chunks `read` sees in a written file: the header, the icon chunks from inside the
      LIST, and the rates. */
  lemma WrittenChunks(n: nat, frames: (seq<byte>, seq<byte>))
    requires n < Word32 && Assemble(n, frames).Success?
    ensures ReadChunks(Assemble(n, frames).value[12..], {FramId}, {ListId})
         == [Chunk(AnihId, 36, Concat(HeaderBytes(n)))] + ReadChunks(frames.0, {FramId}, {ListId}) + [Chunk(RateId, |frames.1|, frames.1)]
  {
    AssembleParts(n, frames);
    ReadLaidOut(Concat(HeaderBytes(n)), frames.0, frames.1);
  }

  /** The header chunk, the LIST of "fram" and icon chunks, and the rate chunk, read with
      "fram" skipped and "LIST" read in place. */
  lemma ReadLaidOut(header: seq<byte>, icons: seq<byte>, rateData: seq<byte>)
    requires |header| < Word32 && |FramId + icons| < Word32 && |rateData| < Word32
    ensures WriteChunk(AnihId, header).Success? && WriteChunk(ListId, FramId + icons).Success?
    ensures WriteChunk(RateId, rateData).Success?
    ensures ReadChunks(WriteChunk(AnihId, header).value
                       + (WriteChunk(ListId, FramId + icons).value + WriteChunk(RateId, rateData).value),
                       {FramId}, {ListId})
         == [Chunk(AnihId, |header|, header)] + ReadChunks(icons, {FramId}, {ListId}) + [Chunk(RateId, |rateData|, rateData)]
  {
    var skip, lists := {FramId}, {ListId};
    assert AnihId != FramId && AnihId != ListId by { assert AnihId[0] != FramId[0] && AnihId[0] != ListId[0]; }
    assert RateId != FramId && RateId != ListId by { assert RateId[0] != FramId[0] && RateId[0] != ListId[0]; }
    assert ListId != FramId by { assert ListId[0] != FramId[0]; }
    var list := WriteChunk(ListId, FramId + icons).value;
    var rates := WriteChunk(RateId, rateData).value;
    ReadWrittenChunk(AnihId, header, list + rates, skip, lists);
    ReadWrittenList(ListId, FramId + icons, rates, skip, lists);
    ReadSkipped(FramId, icons, skip, lists);
    ReadWrittenChunk(RateId, rateData, [], skip, lists);
    assert rates + [] == rates;
  }

  /** The parts of the frames of a written file, all encoded. */
  lemma FramesParts(ac: AnimatedCursor)
    requires FramesWellFormed(ac) && FramesData(ac).Success?
    ensures var parts := seq(|ac|, i requires 0 <= i < |ac| => FrameBytes(ac[i]));
      && AllDone(parts) && FramesData(ac) == Pack(parts)
  {
  }

  /** A rate chunk of the right length after the header replaces the rates. */
  lemma HandleRates(st: AniState, data: seq<byte>, decode: CurFormat.Decoder, dib: DibReader)
    requires st.header.Some? && |data| / 4 == st.header.value.numSteps
    ensures HandleAll(st, [Chunk(RateId, |data|, data)], decode, dib) == Success(st.(rates := Some(Words(data))))
  {
    assert RateId != AnihId && RateId != IconId by { assert RateId[0] != AnihId[0] && RateId[0] != IconId[0]; }
    HandleOne(st, Chunk(RateId, |data|, data), decode, dib);
  }

  /** Whole words that read as `ws` are read as exactly `ws`. */
  lemma WordsAre(data: seq<byte>, ws: seq<nat>)
    requires |data| == 4 * |ws| && forall i :: 0 <= i < |ws| ==> U32At(data, 4 * i) == ws[i]
    ensures Words(data) == ws
  {
    assert |Words(data)| == |ws|;
  }

  /** The header `write` emits for n frames followed by n icon chunks of files that read as
      `cursors`. */
  lemma HandleHeaderIcons(n: nat, icons: seq<Chunk>, cursors: seq<Cursor>, decode: CurFormat.Decoder, dib: DibReader)
    requires n < Word32 && |cursors| == n && |icons| == n
    requires forall k :: 0 <= k < n ==> icons[k].id == IconId && CurFormat.Read(icons[k].data, decode) == Success(cursors[k])
    ensures HandleAll(Fresh, [Chunk(AnihId, 36, Concat(HeaderBytes(n)))] + icons, decode, dib)
         == Success(AniState(Some(AniHeader(n, n, 0, 0, 0, 10, false, true)),
                             Some(InOrder(n)), Some(Steady(n, 10)),
                             if n == 0 then None else Some(cursors)))
  {
    var first := [Chunk(AnihId, 36, Concat(HeaderBytes(n)))];
    var st1 := HeaderState(n, decode, dib);
    HandleIcons(st1, icons, cursors, decode, dib);
    HandleAllAppend(Fresh, first, icons, decode, dib);
    AppendEmpty(cursors);
  }

  /** The state after the header chunk `write` emits for n frames. */
  lemma HeaderState(n: nat, decode: CurFormat.Decoder, dib: DibReader) returns (st: AniState)
    requires n < Word32
    ensures st == AniState(Some(AniHeader(n, n, 0, 0, 0, 10, false, true)),
                           Some(InOrder(n)), Some(Steady(n, 10)), None)
    ensures HandleAll(Fresh, [Chunk(AnihId, 36, Concat(HeaderBytes(n)))], decode, dib) == Success(st)
  {
    HeaderDecodes(Fresh, n);
    var data := Concat(HeaderBytes(n));
    st := HeaderChunk(Fresh, data).value;
    HandleOne(Fresh, Chunk(AnihId, 36, data), decode, dib);
  }

  /** A single chunk is handled on its own. */
  lemma HandleOne(st: AniState, ch: Chunk, decode: CurFormat.Decoder, dib: DibReader)
    ensures HandleAll(st, [ch], decode, dib) == Handle(st, ch, decode, dib)
  {
    assert [ch][1..] == [];
  }

  /** The handlers over an assembled file whose icon chunks hold files that read as
      `cursors` and whose rate data holds the words `rates`. */
  lemma HandleAssembled(n: nat, frames: (seq<byte>, seq<byte>), cursors: seq<Cursor>, rates: seq<nat>,
                        decode: CurFormat.Decoder, dib: DibReader)
    requires n < Word32 && Assemble(n, frames).Success? && |cursors| == n && |rates| == n
    requires var icons := ReadChunks(frames.0, {FramId}, {ListId});
      && |icons| == n
      && forall k :: 0 <= k < n ==> icons[k].id == IconId && CurFormat.Read(icons[k].data, decode) == Success(cursors[k])
    requires |frames.1| == 4 * n && forall i :: 0 <= i < n ==> U32At(frames.1, 4 * i) == rates[i]
    ensures HandleAll(Fresh, ReadChunks(Assemble(n, frames).value[12..], {FramId}, {ListId}), decode, dib)
         == Success(AniState(Some(AniHeader(n, n, 0, 0, 0, 10, false, true)),
                             Some(InOrder(n)), Some(rates),
                             if n == 0 then None else Some(cursors)))
  {
    WrittenChunks(n, frames);
    var first := [Chunk(AnihId, 36, Concat(HeaderBytes(n)))];
    var icons := ReadChunks(frames.0, {FramId}, {ListId});
    var last := [Chunk(RateId, |frames.1|, frames.1)];
    HandleHeaderIcons(n, icons, cursors, decode, dib);
    var st2 := HandleAll(Fresh, first + icons, decode, dib).value;
    assert |frames.1| / 4 == n;
    HandleRates(st2, frames.1, decode, dib);
    WordsAre(frames.1, rates);
    HandleAllAppend(Fresh, first + icons, last, decode, dib);
  }

  /** Every frame of a written animation holds a cursor the .cur writer can store. */
  predicate FramesStorable(ac: AnimatedCursor) {
    forall i :: 0 <= i < |ac| ==> CurFormat.Storable(ac[i].cursor)
  }

  /** The state the chunk handlers leave after reading a written file: the header for
      |ac| frames, the identity order, each frame's delay in jiffies, and every frame's
      cursor in turn. */
  lemma ReadWrittenState(ac: AnimatedCursor, decode: CurFormat.Decoder, dib: DibReader) returns (rates: seq<nat>)
    requires FramesWellFormed(ac) && FramesStorable(ac) && Write(ac).Success? && CurFormat.InvertsToBmp(decode)
    ensures |rates| == |ac| && forall i :: 0 <= i < |ac| ==> rates[i] == DelayToRate(ac[i].delay)
    ensures var n := |ac|;
      HandleAll(Fresh, ReadChunks(Write(ac).value[12..], {FramId}, {ListId}), decode, dib)
      == Success(AniState(Some(AniHeader(n, n, 0, 0, 0, 10, false, true)),
                          Some(InOrder(n)), Some(rates),
                          if n == 0 then None else Some(seq(n, k requires 0 <= k < n => ac[k].cursor))))
  {
    var n := |ac|;
    var frames := WrittenFrames(ac);
    var cursors := FrameIcons(ac, frames, decode);
    rates := FrameRates(ac, frames);
    HandleAssembled(n, frames, cursors, rates, decode, dib);
  }

  /** A written file is the frames' data assembled behind the header. */
  lemma WrittenFrames(ac: AnimatedCursor) returns (frames: (seq<byte>, seq<byte>))
    requires FramesWellFormed(ac) && Write(ac).Success?
    ensures |ac| < Word32 && FramesData(ac) == Success(frames) && Write(ac) == Assemble(|ac|, frames)
  {
    frames := FramesData(ac).value;
  }

  /** The icon chunks inside the LIST of a written file hold .cur files that read back as
      the frames' cursors. */
  lemma FrameIcons(ac: AnimatedCursor, frames: (seq<byte>, seq<byte>), decode: CurFormat.Decoder)
    returns (cursors: seq<Cursor>)
    requires FramesWellFormed(ac) && FramesStorable(ac) && FramesData(ac) == Success(frames)
    requires CurFormat.InvertsToBmp(decode)
    ensures cursors == seq(|ac|, k requires 0 <= k < |ac| => ac[k].cursor)
    ensures var icons := ReadChunks(frames.0, {FramId}, {ListId});
      && |icons| == |ac|
      && forall k :: 0 <= k < |ac| ==> icons[k].id == IconId && CurFormat.Read(icons[k].data, decode) == Success(cursors[k])
  {
    var n := |ac|;
    FramesParts(ac);
    var parts := seq(n, i requires 0 <= i < n => FrameBytes(ac[i]));
    assert IconId != FramId && IconId != ListId by { assert IconId[0] != FramId[0] && IconId[0] != ListId[0]; }
    PackChunks(parts, {FramId}, {ListId});
    cursors := seq(n, k requires 0 <= k < n => ac[k].cursor);
    var icons := ReadChunks(frames.0, {FramId}, {ListId});
    forall k | 0 <= k < n
      ensures icons[k].id == IconId && CurFormat.Read(icons[k].data, decode) == Success(cursors[k])
    {
      CurFormat.WriteReadRoundTrip(ac[k].cursor, decode);
    }
  }

  /** The rate data of a written file holds each frame's delay in jiffies. */
  lemma FrameRates(ac: AnimatedCursor, frames: (seq<byte>, seq<byte>)) returns (rates: seq<nat>)
    requires FramesWellFormed(ac) && FramesData(ac) == Success(frames)
    ensures |rates| == |ac| && forall i :: 0 <= i < |ac| ==> rates[i] == DelayToRate(ac[i].delay)
    ensures |frames.1| == 4 * |ac| && forall i :: 0 <= i < |ac| ==> U32At(frames.1, 4 * i) == rates[i]
  {
    var n := |ac|;
    FramesParts(ac);
    var parts := seq(n, i requires 0 <= i < n => FrameBytes(ac[i]));
    PackRates(parts);
    rates := seq(n, i requires 0 <= i < n => ToInt(parts[i].value.rate));
  }

  /** Reading back what `write` produced gives one frame per frame written, each with the
      same cursor and with its delay rounded to whole jiffies (1/60 s) and back. */
  lemma WriteReadRoundTrip(ac: AnimatedCursor, decode: CurFormat.Decoder, dib: DibReader)
    requires FramesWellFormed(ac) && FramesStorable(ac) && Write(ac).Success? && CurFormat.InvertsToBmp(decode)
    ensures var r := Read(Write(ac).value, decode, dib);
      && r.Success? && |r.value| == |ac|
      && forall i :: 0 <= i < |ac| ==>
           && r.value[i].cursor == ac[i].cursor
           && 0 <= DelayToRate(ac[i].delay) && r.value[i].delay == RateToDelay(DelayToRate(ac[i].delay))
  {
    var file := Write(ac).value;
    var rates := ReadWrittenState(ac, decode, dib);
    var cursors := seq(|ac|, k requires 0 <= k < |ac| => ac[k].cursor);
    ReadOfState(file, decode, dib, cursors, rates);
  }

  /** A file whose chunks leave the header for n frames, the identity order, n rates and n
      cursors reads as those cursors with those rates turned into delays. */
  lemma ReadOfState(file: seq<byte>, decode: CurFormat.Decoder, dib: DibReader, cursors: seq<Cursor>, rates: seq<nat>)
    requires |cursors| == |rates| && |file| >= 12 && file[..4] == RiffMagic && file[8..12] == AconMagic
    requires var n := |cursors|;
      HandleAll(Fresh, ReadChunks(file[12..], {FramId}, {ListId}), decode, dib)
      == Success(AniState(Some(AniHeader(n, n, 0, 0, 0, 10, false, true)),
                          Some(InOrder(n)), Some(rates),
                          if n == 0 then None else Some(cursors)))
    ensures var r := Read(file, decode, dib);
      && r.Success? && |r.value| == |cursors|
      && forall i :: 0 <= i < |cursors| ==> r.value[i] == Frame(cursors[i], RateToDelay(rates[i]))
  {
    var n := |cursors|;
    var order := InOrder(n);
    assert Slice(file, 0, 12) == file[..12];
    ReadFromState(file, decode, dib, AniState(Some(AniHeader(n, n, 0, 0, 0, 10, false, true)),
                          Some(order), Some(rates), if n == 0 then None else Some(cursors)));
    IdentitySteps(order, rates, cursors);
  }

  /** A file that passes `check` and whose handlers end in a state with a play order and
      rates reads as the steps of that state. */
  lemma ReadFromState(file: seq<byte>, decode: CurFormat.Decoder, dib: DibReader, st: AniState)
    requires |file| >= 12 && Check(Slice(file, 0, 12))
    requires HandleAll(Fresh, ReadChunks(file[12..], {FramId}, {ListId}), decode, dib) == Success(st)
    requires st.order.Some? && st.rates.Some?
    ensures Read(file, decode, dib) == Steps(st.order.value, st.rates.value, st.icons)
  {
  }

  /** The identity play order over n cursors shows each cursor in turn. */
  lemma IdentitySteps(order: seq<nat>, rates: seq<nat>, cursors: seq<Cursor>)
    requires |order| == |rates| == |cursors| && forall i :: 0 <= i < |order| ==> order[i] == i
    ensures var r := Steps(order, rates, if |cursors| == 0 then None else Some(cursors));
      && r.Success? && |r.value| == |cursors|
      && forall i :: 0 <= i < |cursors| ==> r.value[i] == Frame(cursors[i], RateToDelay(rates[i]))
  {
  }

  /** A delay that survives a write and a read moves by less than one jiffy (1000/60 ms) in
      either direction, and delays that are whole multiples of 50 ms come back unchanged. */
  lemma DelayDrift(delay: int)
    requires 0 <= DelayToRate(delay)
    ensures delay - 9 <= RateToDelay(DelayToRate(delay)) <= delay + 8
    ensures delay % 50 == 0 ==> RateToDelay(DelayToRate(delay)) == delay
  {
    var rate := DelayToRate(delay);
    if delay % 50 == 0 {
      var m := delay / 50;
      assert delay * 60 == 3000 * m;
      assert rate == 3 * m;
      assert 1000 * rate == 60 * (50 * m);
    }
  }

  /** The delays a written animation is read back with: each delay in whole jiffies,
      back in milliseconds. */
  function Replayed(ac: AnimatedCursor): (r: seq<nat>)
    requires forall i :: 0 <= i < |ac| ==> 0 <= DelayToRate(ac[i].delay)
    ensures |r| == |ac|
  {
    seq(|ac|, i requires 0 <= i < |ac| => RateToDelay(DelayToRate(ac[i].delay)))
  }
}

=== FILE: cur_format.dfy ===
/** The Windows .cur/.ico codec (CursorCreate/lib/cur_format.py).

  A file is a 6-byte header (4-byte magic, 16-bit icon count), one 16-byte directory
  entry per icon, then the icon payloads. The writer stores every icon as a 40-byte
  BITMAPINFOHEADER, bottom-up BGRA rows, and a 1-bit transparency mask padded with
  zeros to the size of the colour data. In a .cur the two 16-bit directory fields that
  an .ico uses for colour planes and bit depth hold the hotspot.

  Decoding an embedded image is the raster library's work and is a parameter here;
  the directory and hotspot logic are modelled.
 */
module CurFormat {
  import opened Wrappers
  import opened FormatCore
  import opened CursorModel

  const CurMagic: seq<byte> := [0, 0, 2, 0]
  const IcoMagic: seq<byte> := [0, 0, 1, 0]

  /** 96 dpi in pixels per metre, rounded to the nearest integer (96 * 39.3701 + 0.5, truncated). */
  const DefaultPpm: int := 3780

  /** The largest width or height a directory entry can describe. */
  const MaxEntrySide: int := 256

  /** `CurFormat.check`: the first four bytes are the .cur or the .ico magic. */
  function Check(first: seq<byte>): (r: bool)
    ensures r <==> |first| >= 4 && (first[..4] == CurMagic || first[..4] == IcoMagic)
  {
    Slice(first, 0, 4) == CurMagic || Slice(first, 0, 4) == IcoMagic
  }

  // ---------------------------------------------------------------------------
  // The embedded bitmap (_write_bmp)
  // ---------------------------------------------------------------------------

  /** Bytes per row of the 1-bit AND mask: one bit per pixel, each row padded to whole bytes. */
  function MaskRowBytes(w: nat): nat {
    (w + 7) / 8
  }

  lemma PixelIndexInRange(w: int, h: int, x: int, y: int)
    requires 0 <= x < w && 0 <= y < h
    ensures 0 <= y * w + x < w * h
  {
    MulLe(w, y + 1, h);
    assert (y + 1) * w == y * w + w;
    assert w * (y + 1) == (y + 1) * w;
  }

  /** The pixel in column x of row y (row 0 at the top). */
  function PixelAt(img: Image, x: int, y: int): Rgba
    requires ValidImage(img) && 0 <= x < img.width && 0 <= y < img.height
  {
    PixelIndexInRange(img.width, img.height, x, y);
    img.pixels[y * img.width + x]
  }

  /** The position of byte c of pixel (x, y) in rows stored bottom-up, 4 bytes a pixel. */
  function BgraPos(w: int, h: int, x: int, y: int, c: int): int {
    4 * ((h - 1 - y) * w + x) + c
  }

  /** Splitting a byte position of the colour data into stored row, column and channel. */
  lemma BgraSplit(w: int, h: int, i: int)
    requires w > 0 && h > 0 && 0 <= i < 4 * w * h
    ensures 0 <= i / (4 * w) < h
    ensures 0 <= (i % (4 * w)) / 4 < w
    ensures i == BgraPos(w, h, (i % (4 * w)) / 4, h - 1 - i / (4 * w), i % 4)
  {
    var row := i / (4 * w);
    var rem := i % (4 * w);
    assert i == (4 * w) * row + rem;
    assert (4 * w) * h == 4 * w * h;
    DivBelow(i, 4 * w, h);
    DivModUnique(rem, 4, rem / 4, rem % 4);
    assert rem == 4 * (rem / 4) + rem % 4;
    assert (4 * w) * row == 4 * (row * w);
    DivModUnique(i, 4, row * w + rem / 4, rem % 4);
  }

  /** The inverse of BgraSplit: a stored position names its own row, column and channel. */
  lemma BgraJoin(w: int, h: int, x: int, y: int, c: int)
    requires 0 <= x < w && 0 <= y < h && 0 <= c < 4
    ensures 0 <= BgraPos(w, h, x, y, c) < 4 * w * h
    ensures BgraPos(w, h, x, y, c) / (4 * w) == h - 1 - y
    ensures (BgraPos(w, h, x, y, c) % (4 * w)) / 4 == x
    ensures BgraPos(w, h, x, y, c) % 4 == c
  {
    var row := h - 1 - y;
    var i := BgraPos(w, h, x, y, c);
    PixelIndexInRange(w, h, x, row);
    assert i == (4 * w) * row + (4 * x + c);
    DivModUnique(i, 4 * w, row, 4 * x + c);
    DivModUnique(4 * x + c, 4, x, c);
    assert 4 * (row * w + x) + c < 4 * (w * h);
  }

  /** The colour data of `_write_bmp`: rows bottom-up, each pixel as blue, green, red, alpha. */
  function BgraBytes(img: Image): (r: seq<byte>)
    requires ValidImage(img)
    ensures |r| == 4 * img.width * img.height
  {
    var w, h := img.width, img.height;
    seq(4 * w * h, i requires 0 <= i < 4 * w * h =>
      BgraSplit(w, h, i);
      Channel(PixelAt(img, (i % (4 * w)) / 4, h - 1 - i / (4 * w)), i % 4))
  }

  /** Reading bottom-up BGRA rows back into top-down pixels. */
  function DecodeBgra(data: seq<byte>, w: nat, h: nat): (r: seq<Rgba>)
    requires |data| == 4 * w * h
    ensures |r| == w * h
  {
    seq(w * h, k requires 0 <= k < w * h =>
      var x, y := k % w, k / w;
      DivBelow(k, w, h);
      BgraJoin(w, h, x, y, 0);
      BgraJoin(w, h, x, y, 1);
      BgraJoin(w, h, x, y, 2);
      BgraJoin(w, h, x, y, 3);
      Rgba(data[BgraPos(w, h, x, y, 2)], data[BgraPos(w, h, x, y, 1)],
           data[BgraPos(w, h, x, y, 0)], data[BgraPos(w, h, x, y, 3)]))
  }

  /** Channel c of pixel (x, y) is stored at BgraPos(x, y, c). */
  lemma BgraByteAt(img: Image, x: int, y: int, c: int)
    requires ValidImage(img) && 0 <= x < img.width && 0 <= y < img.height && 0 <= c < 4
    ensures 0 <= BgraPos(img.width, img.height, x, y, c) < 4 * img.width * img.height
    ensures BgraBytes(img)[BgraPos(img.width, img.height, x, y, c)] == Channel(PixelAt(img, x, y), c)
  {
    BgraJoin(img.width, img.height, x, y, c);
  }

  lemma RowMajor(k: int, w: int, h: int)
    requires w > 0 && 0 <= k < w * h
    ensures 0 <= k % w < w && 0 <= k / w < h && (k / w) * w + k % w == k
  {
    DivBelow(k, w, h);
  }

  /** Pixel k of the decoded colour data is pixel k of the image. */
  lemma BgraPixel(img: Image, k: int)
    requires ValidImage(img) && 0 <= k < img.width * img.height
    ensures DecodeBgra(BgraBytes(img), img.width, img.height)[k] == img.pixels[k]
  {
    var w, h := img.width, img.height;
    var x, y := k % w, k / w;
    RowMajor(k, w, h);
    assert PixelAt(img, x, y) == img.pixels[k];
    BgraByteAt(img, x, y, 0);
    BgraByteAt(img, x, y, 1);
    BgraByteAt(img, x, y, 2);
    BgraByteAt(img, x, y, 3);
  }

  /** The colour data of the bitmap holds every pixel of the image, and nothing else. */
  lemma BgraRoundTrip(img: Image)
    requires ValidImage(img)
    ensures DecodeBgra(BgraBytes(img), img.width, img.height) == img.pixels
  {
    forall k | 0 <= k < img.width * img.height
      ensures DecodeBgra(BgraBytes(img), img.width, img.height)[k] == img.pixels[k]
    {
      BgraPixel(img, k);
    }
  }

  /** 1 when pixel x of row y is fully transparent, else 0; columns past the right edge are padding. */
  function MaskBit(img: Image, x: int, y: int): (r: int)
    requires ValidImage(img) && 0 <= y < img.height
    ensures r == 0 || r == 1
  {
    if 0 <= x < img.width && PixelAt(img, x, y).a == 0 then 1 else 0
  }

  function Pow2(k: nat): (p: nat)
    ensures p >= 1
  {
    if k == 0 then 1 else 2 * Pow2(k - 1)
  }

  /** The n mask bits of row y starting at column x0, most significant first (numpy's packbits order). */
  function PackBits(img: Image, y: int, x0: int, n: nat): (r: nat)
    requires ValidImage(img) && 0 <= y < img.height
    ensures r < Pow2(n)
  {
    if n == 0 then 0 else 2 * PackBits(img, y, x0, n - 1) + MaskBit(img, x0 + n - 1, y)
  }

  /** Appending a bit below a number does not change its quotient by an even divisor. */
  lemma AppendBitDiv(p: nat, bit: int, d: int)
    requires d > 0 && (bit == 0 || bit == 1)
    ensures (2 * p + bit) / (2 * d) == p / d
  {
    var q, r := p / d, p % d;
    assert p == d * q + r;
    assert 2 * p + bit == (2 * d) * q + (2 * r + bit);
    DivModUnique(2 * p + bit, 2 * d, q, 2 * r + bit);
  }

  /** Bit k (counted from the most significant end) of the packed group is the mask bit of column x0 + k. */
  lemma {:induction false} PackBitsBit(img: Image, y: int, x0: int, n: nat, k: nat)
    requires ValidImage(img) && 0 <= y < img.height
    requires k < n
    ensures (PackBits(img, y, x0, n) / Pow2(n - 1 - k)) % 2 == MaskBit(img, x0 + k, y)
  {
    var prev := PackBits(img, y, x0, n - 1);
    var bit := MaskBit(img, x0 + n - 1, y);
    assert PackBits(img, y, x0, n) == 2 * prev + bit;
    if k == n - 1 {
      DivModUnique(2 * prev + bit, 1, 2 * prev + bit, 0);
      DivModUnique(2 * prev + bit, 2, prev, bit);
    } else {
      PackBitsBit(img, y, x0, n - 1, k);
      AppendBitDiv(prev, bit, Pow2(n - 2 - k));
    }
  }

  /** Byte j of the mask row for image row y: columns 8j .. 8j+7. */
  function MaskByte(img: Image, y: int, j: int): (r: byte)
    requires ValidImage(img) && 0 <= y < img.height
  {
    assert Pow2(8) == 256;
    PackBits(img, y, 8 * j, 8)
  }

  /** The mask as `_write_bmp` writes it: rows bottom-up, MaskRowBytes(width) bytes a row. */
  function MaskBytes(img: Image): (r: seq<byte>)
    requires ValidImage(img)
    ensures |r| == img.height * MaskRowBytes(img.width)
  {
    var h, m := img.height, MaskRowBytes(img.width);
    seq(h * m, i requires 0 <= i < h * m =>
      assert 0 <= i / m < h by {
        if i / m >= h {
          MulLe(m, h, i / m);
        }
      }
      MaskByte(img, h - 1 - i / m, i % m))
  }

  /** The mask never needs more room than the colour data it is padded to. */
  lemma MaskFits(w: nat, h: nat)
    ensures h * MaskRowBytes(w) <= 4 * w * h
  {
    assert MaskRowBytes(w) <= 4 * w;
    MulLe(h, MaskRowBytes(w), 4 * w);
    assert h * (4 * w) == 4 * w * h;
  }

  /** The fields of the 40-byte BITMAPINFOHEADER of `_write_bmp`, each 4 bytes; the fourth
      holds the 16-bit plane count and the 16-bit bit depth. */
  function BmpHeaderFields(width: seq<byte>, height: seq<byte>, dataSize: seq<byte>, ppm: seq<byte>): seq<seq<byte>> {
    [Word(40, 4), width, height, Word(1, 2) + Word(32, 2), Word(0, 4), dataSize, ppm, ppm, Word(0, 4), Word(0, 4)]
  }

  /** The 40-byte BITMAPINFOHEADER of `_write_bmp`: the height field counts colour rows and mask rows. */
  function BmpHeader(w: int, h: int): (r: Result<seq<byte>>)
    ensures r.Success? <==> -0x8000_0000 <= w < 0x8000_0000 && -0x8000_0000 <= h * 2 < 0x8000_0000 && 0 <= 4 * w * (h * 2) < 0x1_0000_0000
    ensures r.Failure? ==> r.error == ValueError || r.error == OverflowError
    ensures r.Success? ==> |r.value| == 40
  {
    var width :- ToSignedBytes(w, 4);
    var height :- ToSignedBytes(h * 2, 4);
    var dataSize :- ToBytes(4 * w * (h * 2), 4);
    var fields := BmpHeaderFields(width, height, dataSize, ToSignedBytes(DefaultPpm, 4).value);
    ConcatLength(fields, 4);
    Success(Concat(fields))
  }

  /** The header BmpHeader(w, h) is made of, when it succeeds. */
  function BmpHeaderOf(w: int, h: int): (fields: seq<seq<byte>>)
    requires BmpHeader(w, h).Success?
    ensures |fields| == 10 && Concat(fields) == BmpHeader(w, h).value
    ensures forall i :: 0 <= i < 10 ==> |fields[i]| == 4
  {
    BmpHeaderFields(ToSignedBytes(w, 4).value, ToSignedBytes(h * 2, 4).value,
                    ToBytes(4 * w * (h * 2), 4).value, ToSignedBytes(DefaultPpm, 4).value)
  }

  /** The size fields read back as the width, twice the height, and 8wh bytes of bitmap data. */
  lemma BmpHeaderSizes(w: int, h: int)
    requires BmpHeader(w, h).Success?
    ensures var r := BmpHeader(w, h).value;
      && ToSignedInt(r[4..8]) == w && ToSignedInt(r[8..12]) == 2 * h && ToInt(r[20..24]) == 8 * w * h
  {
    var fields := BmpHeaderOf(w, h);
    SignedRoundTrip(w, 4);
    SignedRoundTrip(h * 2, 4);
    ConcatUniform(fields, 4, 1);
    ConcatUniform(fields, 4, 2);
    ConcatUniform(fields, 4, 5);
    DataSizeIsEightWH(w, h);
  }

  /** The fixed fields: header size 40, one plane, 32 bits a pixel, no compression, 3780 pixels
      a metre both ways, no colour table. */
  lemma BmpHeaderConstants(w: int, h: int)
    requires BmpHeader(w, h).Success?
    ensures var r := BmpHeader(w, h).value;
      && ToInt(r[0..4]) == 40 && ToInt(r[12..14]) == 1 && ToInt(r[14..16]) == 32
      && ToInt(r[16..20]) == 0 && ToInt(r[32..36]) == 0 && ToInt(r[36..40]) == 0
  {
    var fields := BmpHeaderOf(w, h);
    var r := BmpHeader(w, h).value;
    ConcatUniform(fields, 4, 0);
    ConcatUniform(fields, 4, 3);
    ConcatUniform(fields, 4, 4);
    ConcatUniform(fields, 4, 8);
    ConcatUniform(fields, 4, 9);
    assert r[12..14] == r[12..16][..2];
    assert r[14..16] == r[12..16][2..];
  }

  lemma BmpHeaderResolution(w: int, h: int)
    requires BmpHeader(w, h).Success?
    ensures var r := BmpHeader(w, h).value;
      ToSignedInt(r[24..28]) == DefaultPpm && ToSignedInt(r[28..32]) == DefaultPpm
  {
    var fields := BmpHeaderOf(w, h);
    SignedRoundTrip(DefaultPpm, 4);
    ConcatUniform(fields, 4, 6);
    ConcatUniform(fields, 4, 7);
  }

  lemma DataSizeIsEightWH(w: int, h: int)
    ensures 4 * w * (h * 2) == 8 * w * h
  {
  }

  lemma ThreeParts<T>(a: seq<T>, b: seq<T>, c: seq<T>)
    ensures (a + b + c)[..|a|] == a
    ensures (a + b + c)[|a|..|a| + |b|] == b
    ensures (a + b + c)[|a| + |b|..] == c
  {
  }

  lemma TwiceColour(w: int, h: int)
    ensures 4 * w * h + 4 * w * h == 8 * w * h
  {
  }

  /** n zero bytes. */
  function Zeros(n: nat): (r: seq<byte>)
    ensures |r| == n && forall k :: 0 <= k < n ==> r[k] == 0
  {
    if n == 0 then [] else [0] + Zeros(n - 1)
  }

  /** The mask followed by the zeros that pad it to 4wh bytes. */
  function PaddedMask(img: Image): (r: seq<byte>)
    requires ValidImage(img)
    ensures |r| == 4 * img.width * img.height
    ensures |MaskBytes(img)| <= |r| && r[..|MaskBytes(img)|] == MaskBytes(img)
  {
    var mask := MaskBytes(img);
    MaskFits(img.width, img.height);
    var padded := mask + Zeros(4 * img.width * img.height - |mask|);
    assert padded[..|mask|] == mask;
    padded
  }

  /** `_to_bmp`: ValueError when the image is not of the size it is stored under; the
      payload is the header, the colour data, then the mask padded to 4wh bytes. */
  function ToBmp(img: Image, size: Size): (r: Result<seq<byte>>)
    requires ValidImage(img)
    ensures SizeOf(img) != size ==> r == Failure(ValueError)
    ensures r.Success? <==> SizeOf(img) == size && BmpHeader(img.width, img.height).Success?
    ensures r.Success? ==> |r.value| == 40 + 8 * img.width * img.height
  {
    if SizeOf(img) != size then Failure(ValueError)
    else
      var header :- BmpHeader(img.width, img.height);
      TwiceColour(img.width, img.height);
      Success(header + BgraBytes(img) + PaddedMask(img))
  }

  /** Where the sections of the payload sit: header at 0, colour data at 40, mask at 40 + 4wh. */
  lemma ToBmpSections(img: Image, size: Size)
    requires ValidImage(img) && ToBmp(img, size).Success?
    ensures var r, n := ToBmp(img, size).value, 4 * img.width * img.height;
      && r[..40] == BmpHeader(img.width, img.height).value
      && r[40..40 + n] == BgraBytes(img)
      && r[40 + n..][..img.height * MaskRowBytes(img.width)] == MaskBytes(img)
  {
    var header := BmpHeader(img.width, img.height).value;
    var colour := BgraBytes(img);
    var tail := PaddedMask(img);
    assert ToBmp(img, size).value == header + colour + tail;
    ThreeParts(header, colour, tail);
  }

  // ---------------------------------------------------------------------------
  // The directory
  // ---------------------------------------------------------------------------

  /** A 16-byte directory entry as the ICO reader interprets it; a side byte of 0 means 256. */
  datatype DirEntry = DirEntry(width: int, height: int, planes: int, bpp: int, size: int, offset: int)

  function SideByte(side: int): int {
    if side < 256 then side else 0
  }

  /** One directory entry of `write`: width and height bytes (256 written as 0), two zero
      bytes, 16-bit hotspot x and y, 32-bit payload length, 32-bit payload offset. */
  function EntryBytes(w: int, h: int, hotX: int, hotY: int, length: int, offset: int): (r: Result<seq<byte>>)
    ensures r.Success? ==> |r.value| == 16
    ensures r.Failure? ==> r.error == OverflowError
  {
    var wb :- ToBytes(SideByte(w), 1);
    var hb :- ToBytes(SideByte(h), 1);
    var xb :- ToBytes(hotX, 2);
    var yb :- ToBytes(hotY, 2);
    var lb :- ToBytes(length, 4);
    var ob :- ToBytes(offset, 4);
    var fields := [wb + hb + [0, 0], xb + yb, lb, ob];
    ConcatLength(fields, 4);
    Success(Concat(fields))
  }

  /** The ICO reader's view of a 16-byte entry. */
  function ParseEntry(e: seq<byte>): (r: DirEntry)
    requires |e| == 16
    ensures 1 <= r.width <= 256 && 1 <= r.height <= 256
  {
    DirEntry(if e[0] == 0 then 256 else e[0], if e[1] == 0 then 256 else e[1],
             ToInt(e[4..6]), ToInt(e[6..8]), ToInt(e[8..12]), ToInt(e[12..16]))
  }

  /** What `write` puts in a directory entry reads back unchanged, sides of 256 included. */
  lemma EntryRoundTrip(w: int, h: int, hotX: int, hotY: int, length: int, offset: int)
    requires 1 <= w <= 256 && 1 <= h <= 256
    requires 0 <= hotX < 0x1_0000 && 0 <= hotY < 0x1_0000
    requires 0 <= length < 0x1_0000_0000 && 0 <= offset < 0x1_0000_0000
    ensures EntryBytes(w, h, hotX, hotY, length, offset).Success?
    ensures ParseEntry(EntryBytes(w, h, hotX, hotY, length, offset).value) == DirEntry(w, h, hotX, hotY, length, offset)
  {
    var wb := ToBytes(SideByte(w), 1).value;
    var hb := ToBytes(SideByte(h), 1).value;
    var xb := ToBytes(hotX, 2).value;
    var yb := ToBytes(hotY, 2).value;
    var lb := ToBytes(length, 4).value;
    var ob := ToBytes(offset, 4).value;
    var fields := [wb + hb + [0, 0], xb + yb, lb, ob];
    var e := Concat(fields);
    assert EntryBytes(w, h, hotX, hotY, length, offset) == Success(e);
    ConcatUniform(fields, 4, 0);
    ConcatUniform(fields, 4, 1);
    ConcatUniform(fields, 4, 2);
    ConcatUniform(fields, 4, 3);
    assert e[0] == wb[0] && e[1] == hb[0];
    assert ToInt(wb) == wb[0] + 256 * ToInt(wb[1..]);
    assert ToInt(hb) == hb[0] + 256 * ToInt(hb[1..]);
    SplitPair(e, 4, xb, yb);
  }

  // ---------------------------------------------------------------------------
  // Writing
  // ---------------------------------------------------------------------------

  /** Sizes a directory entry can describe; `write` skips the others. */
  predicate FitsEntry(s: Size) {
    s.0 <= MaxEntrySide && s.1 <= MaxEntrySide
  }

  /** The sizes `write` actually stores, in the order given. */
  function Kept(sizes: seq<Size>): (r: seq<Size>)
    ensures |r| <= |sizes|
  {
    if |sizes| == 0 then []
    else (if FitsEntry(sizes[0]) then [sizes[0]] else []) + Kept(sizes[1..])
  }

  /** `write` stores exactly the sizes of at most 256 by 256. */
  lemma {:induction false} KeptMembers(sizes: seq<Size>)
    ensures forall s :: s in Kept(sizes) <==> s in sizes && FitsEntry(s)
  {
    if |sizes| > 0 {
      KeptMembers(sizes[1..]);
      assert sizes == [sizes[0]] + sizes[1..];
    }
  }

  /** A size too large for an entry makes the stored list strictly shorter. */
  lemma {:induction false} KeptDrops(sizes: seq<Size>, s: Size)
    requires s in sizes && !FitsEntry(s)
    ensures |Kept(sizes)| < |sizes|
  {
    if sizes[0] != s {
      assert s in sizes[1..];
      KeptDrops(sizes[1..], s);
    }
  }

  /** A hotspot coordinate as `write` stores it: kept when inside [0, side), otherwise 0. */
  function ClampHot(v: int, side: int): int {
    if 0 <= v < side then v else 0
  }

  /** The payload length of an icon of size s: header, colour data and padded mask. */
  function PayloadLen(s: Size): int {
    40 + 8 * s.0 * s.1
  }

  /** The largest payload of an icon that fits an entry. */
  const MaxPayload: int := 40 + 8 * 256 * 256

  /** Total payload length of the given sizes. */
  function PayloadTotal(ks: seq<Size>): int {
    if |ks| == 0 then 0 else PayloadLen(ks[0]) + PayloadTotal(ks[1..])
  }

  /** The directory entry `write` intends for size s of the cursor, with its payload at `offset`. */
  function EntryOf(c: Cursor, s: Size, offset: int): DirEntry
    requires s in c
  {
    DirEntry(s.0, s.1, ClampHot(c[s].hotspot.0, s.0), ClampHot(c[s].hotspot.1, s.1), PayloadLen(s), offset)
  }

  /** The directory entry and the payload `write` produces for the stored size s, with the
      payload placed at `offset`. */
  function StoreIcon(c: Cursor, s: Size, offset: int): (r: Result<(seq<byte>, seq<byte>)>)
    requires WellFormed(c) && s in c
    ensures r.Success? ==> |r.value.0| == 16 && |r.value.1| == PayloadLen(s)
    ensures r.Failure? ==> r.error == OverflowError || r.error == ValueError
  {
    var icon := c[s];
    var data :- ToBmp(icon.image, s);
    var entry :- EntryBytes(s.0, s.1, ClampHot(icon.hotspot.0, s.0), ClampHot(icon.hotspot.1, s.1), |data|, offset);
    Success((entry, data))
  }

  /** The body of the loop of `write` for one size: its entry and payload, given the offset. */
  type Store = (Size, int) -> Result<(seq<byte>, seq<byte>)>

  /** StoreIcon for the sizes of c; sizes c lacks never reach it. */
  function IconStore(c: Cursor): (store: Store)
    requires WellFormed(c)
    ensures forall s, o :: s in c ==> store(s, o) == StoreIcon(c, s, o)
  {
    (s: Size, o: int) => if s in c then StoreIcon(c, s, o) else Failure(KeyError)
  }

  lemma IconStoreAt(c: Cursor, s: Size, o: int)
    requires WellFormed(c) && s in c
    ensures IconStore(c)(s, o) == StoreIcon(c, s, o)
  {
  }

  /** A store whose entries are 16 bytes and whose payloads are PayloadLen bytes. */
  ghost predicate StoreLaw(store: Store) {
    forall s, o :: store(s, o).Success? ==> |store(s, o).value.0| == 16 && |store(s, o).value.1| == PayloadLen(s)
  }

  lemma IconStoreLaw(c: Cursor)
    requires WellFormed(c)
    ensures StoreLaw(IconStore(c))
  {
    var store := IconStore(c);
    forall s, o | store(s, o).Success?
      ensures |store(s, o).value.0| == 16 && |store(s, o).value.1| == PayloadLen(s)
    {
      assert s in c;
    }
  }

  /** The loop of `write` from the given position in the sorted sizes: skips sizes over 256,
      returns the directory entries and the payloads of the others, payloads placed from
      `offset` on; the first failure ends it. */
  function WriteLoop(store: Store, sizes: seq<Size>, offset: int): (r: Result<(seq<byte>, seq<byte>)>)
    ensures r.Success? && StoreLaw(store) ==> |r.value.0| == 16 * |Kept(sizes)|
  {
    if |sizes| == 0 then Success(([], []))
    else if !FitsEntry(sizes[0]) then WriteLoop(store, sizes[1..], offset)
    else
      var stored :- store(sizes[0], offset);
      var rest :- WriteLoop(store, sizes[1..], offset + |stored.1|);
      Success((stored.0 + rest.0, stored.1 + rest.1))
  }

  /** `CurFormat.write`: the magic, the icon count, the directory in ascending size order and
      the payloads. The count and the first offset count every icon of the cursor, also the
      ones later skipped for being larger than 256. */
  function Write(c: Cursor): (r: Result<seq<byte>>)
    requires WellFormed(c)
    ensures r.Success? ==> |r.value| >= 6
    ensures r.Success? ==> r.value[..4] == CurMagic && ToInt(r.value[4..6]) == |c|
    ensures |c| >= 0x1_0000 ==> r == Failure(OverflowError)
  {
    var count :- ToBytes(|c|, 2);
    var parts :- WriteLoop(IconStore(c), SortedSizes(c.Keys), 6 + 16 * |c|);
    var r := CurMagic + count + (parts.0 + parts.1);
    assert r[..4] == CurMagic && r[4..6] == count;
    Success(r)
  }

  // ---------------------------------------------------------------------------
  // Layout of what `write` produces
  // ---------------------------------------------------------------------------

  lemma PayloadFits(s: Size)
    requires 0 <= s.0 <= MaxEntrySide && 0 <= s.1 <= MaxEntrySide
    ensures 0 <= 4 * s.0 * (s.1 * 2) < 0x1_0000_0000
    ensures 0 < PayloadLen(s) <= MaxPayload
  {
    MulLe(s.0, s.1, 256);
    MulLe(256, s.0, 256);
    assert s.0 * 256 == 256 * s.0;
  }

  /** Every stored icon has a bitmap payload of PayloadLen bytes. */
  lemma PayloadOk(c: Cursor, s: Size)
    requires WellFormed(c) && s in c && FitsEntry(s)
    ensures ToBmp(c[s].image, s).Success?
    ensures |ToBmp(c[s].image, s).value| == PayloadLen(s) <= MaxPayload
  {
    WellFormedSizesPositive(c, s);
    PayloadFits(s);
  }

  lemma PayloadTotalPrefix(ks: seq<Size>, k: nat)
    requires 0 < k <= |ks|
    ensures PayloadTotal(ks[..k]) == PayloadLen(ks[0]) + PayloadTotal(ks[1..][..k - 1])
  {
    assert ks[..k][1..] == ks[1..][..k - 1];
  }

  /** What StoreIcon produces for a stored size whose payload offset fits in 32 bits: the
      entry that reads back as EntryOf, and the `_to_bmp` payload. */
  lemma StoreIconParts(c: Cursor, s: Size, offset: int)
    requires WellFormed(c) && s in c && FitsEntry(s)
    requires 0 <= offset < 0x1_0000_0000
    ensures StoreIcon(c, s, offset).Success?
    ensures StoreIcon(c, s, offset).value.1 == ToBmp(c[s].image, s).value
    ensures ParseEntry(StoreIcon(c, s, offset).value.0) == EntryOf(c, s, offset)
  {
    PayloadOk(c, s);
    WellFormedSizesPositive(c, s);
    var icon := c[s];
    EntryRoundTrip(s.0, s.1, ClampHot(icon.hotspot.0, s.0), ClampHot(icon.hotspot.1, s.1), PayloadLen(s), offset);
  }

  /** Sizes that all fit a directory entry: `write` skips none of them. */
  predicate AllFit(sizes: seq<Size>) {
    forall i :: 0 <= i < |sizes| ==> FitsEntry(sizes[i])
  }

  /** Stores that succeed for each of the sizes at every offset below 2^32. */
  ghost predicate StoresAll(store: Store, sizes: seq<Size>) {
    forall i, o :: 0 <= i < |sizes| && FitsEntry(sizes[i]) && 0 <= o < 0x1_0000_0000 ==> store(sizes[i], o).Success?
  }

  lemma StoresAllTail(store: Store, sizes: seq<Size>)
    requires |sizes| > 0 && StoresAll(store, sizes)
    ensures StoresAll(store, sizes[1..])
  {
    forall i, o | 0 <= i < |sizes[1..]| && FitsEntry(sizes[1..][i]) && 0 <= o < 0x1_0000_0000
      ensures store(sizes[1..][i], o).Success?
    {
      assert sizes[1..][i] == sizes[i + 1];
    }
  }

  lemma BudgetStep(offset: int, len: int, n: nat)
    requires 0 <= len <= MaxPayload && offset + (n + 1) * MaxPayload < 0x1_0000_0000
    ensures offset + len + n * MaxPayload < 0x1_0000_0000
  {
    MulSucc(MaxPayload, n);
  }

  predicate AllPositive(sizes: seq<Size>) {
    forall i :: 0 <= i < |sizes| ==> Positive(sizes[i])
  }

  /** The payload area of the loop holds PayloadLen bytes for each stored size. */
  lemma {:induction false} WriteLoopPayloadSize(store: Store, sizes: seq<Size>, offset: int)
    requires StoreLaw(store) && WriteLoop(store, sizes, offset).Success?
    ensures |WriteLoop(store, sizes, offset).value.1| == PayloadTotal(Kept(sizes))
  {
    if |sizes| > 0 {
      var tail := sizes[1..];
      if FitsEntry(sizes[0]) {
        var stored := store(sizes[0], offset).value;
        var next := offset + |stored.1|;
        WriteLoopPayloadSize(store, tail, next);
        var kept := Kept(sizes);
        assert kept == [sizes[0]] + Kept(tail);
        assert kept[1..] == Kept(tail);
      } else {
        WriteLoopPayloadSize(store, tail, offset);
        assert WriteLoop(store, sizes, offset) == WriteLoop(store, tail, offset);
        assert Kept(sizes) == Kept(tail);
      }
    }
  }

  /** The loop of `write` succeeds when every store within 32-bit offsets does. */
  lemma {:induction false} WriteLoopSucceeds(store: Store, sizes: seq<Size>, offset: int)
    requires StoreLaw(store) && StoresAll(store, sizes) && AllPositive(sizes)
    requires 0 <= offset && offset + |sizes| * MaxPayload < 0x1_0000_0000
    ensures WriteLoop(store, sizes, offset).Success?
  {
    if |sizes| > 0 {
      var tail := sizes[1..];
      StoresAllTail(store, sizes);
      assert AllPositive(tail) by {
        forall i | 0 <= i < |tail| ensures Positive(tail[i]) {
          assert tail[i] == sizes[i + 1];
        }
      }
      if FitsEntry(sizes[0]) {
        assert store(sizes[0], offset).Success?;
        var stored := store(sizes[0], offset).value;
        var next := offset + |stored.1|;
        PayloadFits(sizes[0]);
        BudgetStep(offset, |stored.1|, |tail|);
        WriteLoopSucceeds(store, tail, next);
      } else {
        BudgetStep(offset, 0, |tail|);
        WriteLoopSucceeds(store, tail, offset);
      }
    }
  }

  /** The k-th entry of the loop's directory is the k-th size's entry and the k-th payload
      follows the payloads of the sizes before it, at the offset that entry records. */
  lemma {:induction false} WriteLoopPlaces(store: Store, sizes: seq<Size>, offset: int, k: nat)
    requires StoreLaw(store) && AllFit(sizes) && WriteLoop(store, sizes, offset).Success?
    requires k < |sizes|
    ensures store(sizes[k], offset + PayloadTotal(sizes[..k])).Success?
    ensures var r, p, at := WriteLoop(store, sizes, offset).value, PayloadTotal(sizes[..k]), offset + PayloadTotal(sizes[..k]);
      && 16 * k + 16 <= |r.0| && r.0[16 * k..16 * k + 16] == store(sizes[k], at).value.0
      && 0 <= p && p + |store(sizes[k], at).value.1| <= |r.1| && r.1[p..p + |store(sizes[k], at).value.1|] == store(sizes[k], at).value.1
  {
    var tail := sizes[1..];
    assert FitsEntry(sizes[0]);
    var stored := store(sizes[0], offset).value;
    var next := offset + |stored.1|;
    var rest := WriteLoop(store, tail, next).value;
    assert WriteLoop(store, sizes, offset).value == (stored.0 + rest.0, stored.1 + rest.1);
    if k == 0 {
      assert sizes[..0] == [];
    } else {
      assert AllFit(tail) by {
        forall i | 0 <= i < |tail| ensures FitsEntry(tail[i]) {
          assert tail[i] == sizes[i + 1];
        }
      }
      WriteLoopPlaces(store, tail, next, k - 1);
      PayloadTotalPrefix(sizes, k);
      var p := PayloadTotal(tail[..k - 1]);
      var at := next + p;
      assert at == offset + PayloadTotal(sizes[..k]);
      assert tail[k - 1] == sizes[k];
      AppendSlice(stored.0, rest.0, 16 * (k - 1), 16 * (k - 1) + 16);
      AppendSlice(stored.1, rest.1, p, p + |store(sizes[k], at).value.1|);
    }
  }

  // ---------------------------------------------------------------------------
  // Reading
  // ---------------------------------------------------------------------------

  /** The raster library's decoder for the payload of an entry of the given size. */
  type Decoder = (seq<byte>, Size) -> Result<Image>

  /** A decoder that returns only well-formed images. */
  ghost predicate DecoderOk(decode: Decoder) {
    forall p, s :: decode(p, s).Success? ==> ValidImage(decode(p, s).value)
  }

  /** The directory as the ICO reader sees it: the count at offset 4, then that many 16-byte
      entries; a file too short for them is rejected. */
  function ReadDirectory(bytes: seq<byte>): (r: Result<seq<DirEntry>>)
    ensures r.Success? <==> |bytes| >= 6 && |bytes| >= 6 + 16 * ToInt(bytes[4..6])
    ensures r.Failure? ==> r.error == LibraryError
    ensures r.Success? ==> |r.value| == ToInt(bytes[4..6])
    ensures r.Success? ==> forall k :: 0 <= k < |r.value| ==> r.value[k] == ParseEntry(bytes[6 + 16 * k..6 + 16 * k + 16])
  {
    if |bytes| < 6 || |bytes| < 6 + 16 * ToInt(bytes[4..6]) then Failure(LibraryError)
    else
      var n := ToInt(bytes[4..6]);
      Success(seq(n, k requires 0 <= k < n => ParseEntry(bytes[6 + 16 * k..6 + 16 * k + 16])))
  }

  /** The payload an entry points at; an entry pointing past the end is rejected. */
  function PayloadOf(bytes: seq<byte>, e: DirEntry): (r: Result<seq<byte>>)
    ensures r.Success? <==> 0 <= e.offset && e.offset + e.size <= |bytes| && 0 <= e.size
    ensures r.Success? ==> |r.value| == e.size && r.value == bytes[e.offset..e.offset + e.size]
    ensures r.Failure? ==> r.error == LibraryError
  {
    if 0 <= e.offset && 0 <= e.size && e.offset + e.size <= |bytes| then Success(bytes[e.offset..e.offset + e.size])
    else Failure(LibraryError)
  }

  /** One icon of `read`: an .ico entry gets hotspot (0, 0); a .cur entry's hotspot is read
      from the planes and bit-depth fields and set to 0 on an axis where it falls outside
      the entry's size; the icon is then built from the decoded image. */
  function ReadIcon(bytes: seq<byte>, e: DirEntry, isIco: bool, decode: Decoder): (r: Result<Icon>)
    ensures r.Success? ==> PayloadOf(bytes, e).Success? && decode(PayloadOf(bytes, e).value, (e.width, e.height)).Success?
    ensures r.Success? ==> r.value.image == decode(PayloadOf(bytes, e).value, (e.width, e.height)).value
    ensures r.Success? && isIco ==> r.value.hotspot == (0, 0)
    ensures r.Success? && !isIco ==> r.value.hotspot == (ClampHot(e.planes, e.width), ClampHot(e.bpp, e.height))
    ensures r.Success? && DecoderOk(decode) ==> ValidIcon(r.value)
  {
    var payload :- PayloadOf(bytes, e);
    var image :- decode(payload, (e.width, e.height));
    var x := if isIco then 0 else ClampHot(e.planes, e.width);
    var y := if isIco then 0 else ClampHot(e.bpp, e.height);
    MakeIcon(image, x, y)
  }

  /** The icons of all entries, in directory order; the first failure ends the loop. */
  function ReadIcons(bytes: seq<byte>, es: seq<DirEntry>, isIco: bool, decode: Decoder): (r: Result<seq<Icon>>)
    ensures r.Success? <==> forall k :: 0 <= k < |es| ==> ReadIcon(bytes, es[k], isIco, decode).Success?
    ensures r.Success? ==> |r.value| == |es|
    ensures r.Success? ==> forall k :: 0 <= k < |es| ==> r.value[k] == ReadIcon(bytes, es[k], isIco, decode).value
  {
    if |es| == 0 then Success([])
    else
      var first :- ReadIcon(bytes, es[0], isIco, decode);
      var rest :- ReadIcons(bytes, es[1..], isIco, decode);
      assert forall k :: 1 <= k < |es| ==> es[k] == es[1..][k - 1];
      Success([first] + rest)
  }

  /** `CurFormat.read`: SyntaxError unless the first four bytes are a .cur or .ico magic. The
      bytes after the magic are handed to the ICO reader behind an .ico magic; every entry's
      icon is added to a new cursor in directory order, so a later icon of a size replaces
      an earlier one. */
  function Read(file: seq<byte>, decode: Decoder): (r: Result<Cursor>)
    ensures !Check(file) ==> r == Failure(SyntaxError)
    ensures r.Success? && DecoderOk(decode) ==> WellFormed(r.value)
  {
    if !Check(file) then Failure(SyntaxError) else
    var isIco := file[..4] == IcoMagic;
    var bytes := IcoMagic + file[4..];
    var entries :- ReadDirectory(bytes);
    var icons :- ReadIcons(bytes, entries, isIco, decode);
    Success(FromIcons(icons))
  }

  // ---------------------------------------------------------------------------
  // A reference decoder for the payloads `write` produces
  // ---------------------------------------------------------------------------

  /** A 32-bit bitmap payload as a DIB reader decodes it for an entry of size s: the header
      must announce 40 bytes, width s.0, height 2 * s.1 and 32 bits a pixel; the colour
      data after it holds bottom-up BGRA rows. */
  function DibDecode(payload: seq<byte>, s: Size): (r: Result<Image>)
    ensures r.Success? ==> ValidImage(r.value) && SizeOf(r.value) == s
  {
    if s.0 < 0 || s.1 < 0 then Failure(UnidentifiedImageError)
    else
      var w: nat, h: nat := s.0, s.1;
      var n := 4 * w * h;
      MulLe(4 * w, 0, h);
      if |payload| < 40 + n then Failure(LibraryError)
      else if ToInt(payload[0..4]) != 40 || ToSignedInt(payload[4..8]) != w
           || ToSignedInt(payload[8..12]) != 2 * h || ToInt(payload[14..16]) != 32 then Failure(UnidentifiedImageError)
      else Success(Image(w, h, DecodeBgra(payload[40..40 + n], w, h)))
  }

  /** A decoder that gives back every image `_to_bmp` encodes. */
  ghost predicate InvertsToBmp(decode: Decoder) {
    forall img, s :: ValidImage(img) && ToBmp(img, s).Success? ==> decode(ToBmp(img, s).value, s) == Success(img)
  }

  /** The reference decoder reads every `_to_bmp` payload back to the image it encodes. */
  lemma DibDecodeOfToBmp(img: Image, s: Size)
    requires ValidImage(img) && ToBmp(img, s).Success?
    ensures DibDecode(ToBmp(img, s).value, s) == Success(img)
  {
    var r := ToBmp(img, s).value;
    var (w, h) := (img.width, img.height);
    var header := BmpHeader(w, h).value;
    ToBmpSections(img, s);
    BmpHeaderSizes(w, h);
    BmpHeaderConstants(w, h);
    assert r[0..4] == header[0..4] && r[4..8] == header[4..8] && r[8..12] == header[8..12];
    assert r[14..16] == header[14..16];
    BgraRoundTrip(img);
  }

  lemma DibDecodeInverts()
    ensures InvertsToBmp(DibDecode)
  {
    forall img, s | ValidImage(img) && ToBmp(img, s).Success?
      ensures DibDecode(ToBmp(img, s).value, s) == Success(img)
    {
      DibDecodeOfToBmp(img, s);
    }
  }

  // ---------------------------------------------------------------------------
  // Writing then reading
  // ---------------------------------------------------------------------------

  /** The most icons whose directory and largest payloads keep every offset within 32 bits. */
  const MaxStorable: int := 8191

  lemma StorableBudget(n: nat)
    requires n <= MaxStorable
    ensures 6 + 16 * n + n * MaxPayload < 0x1_0000_0000 && n < 0x1_0000
  {
    MulMonotone(MaxPayload, n, MaxStorable);
  }

  /** Cursors `write` stores completely: no side over 256 and every offset within 32 bits. */
  predicate Storable(c: Cursor) {
    && WellFormed(c)
    && (forall s :: s in c ==> FitsEntry(s))
    && |c| <= MaxStorable
  }

  lemma {:induction false} KeptAll(sizes: seq<Size>)
    requires AllFit(sizes)
    ensures Kept(sizes) == sizes
  {
    if |sizes| > 0 {
      assert AllFit(sizes[1..]) by {
        forall i | 0 <= i < |sizes[1..]| ensures FitsEntry(sizes[1..][i]) {
          assert sizes[1..][i] == sizes[i + 1];
        }
      }
      KeptAll(sizes[1..]);
    }
  }

  /** The sorted sizes of a storable cursor all fit, are positive and store at any offset. */
  lemma StorableSizes(c: Cursor)
    requires Storable(c)
    ensures var ss := SortedSizes(c.Keys);
      && AllFit(ss) && AllPositive(ss) && StoreLaw(IconStore(c)) && StoresAll(IconStore(c), ss)
  {
    var ss := SortedSizes(c.Keys);
    var store := IconStore(c);
    IconStoreLaw(c);
    forall i | 0 <= i < |ss| ensures FitsEntry(ss[i]) && Positive(ss[i]) {
      assert ss[i] in c;
      WellFormedSizesPositive(c, ss[i]);
    }
    forall i, o | 0 <= i < |ss| && FitsEntry(ss[i]) && 0 <= o < 0x1_0000_0000
      ensures store(ss[i], o).Success?
    {
      assert ss[i] in c;
      StoreIconParts(c, ss[i], o);
    }
  }

  /** The loop of `write` succeeds on a storable cursor and writes one entry per icon. */
  lemma StorableLoop(c: Cursor)
    requires Storable(c)
    ensures WriteLoop(IconStore(c), SortedSizes(c.Keys), 6 + 16 * |c|).Success?
    ensures |WriteLoop(IconStore(c), SortedSizes(c.Keys), 6 + 16 * |c|).value.0| == 16 * |c|
  {
    var ss, store, base := SortedSizes(c.Keys), IconStore(c), 6 + 16 * |c|;
    StorableSizes(c);
    StorableBudget(|c|);
    assert |ss| == |c| && base + |ss| * MaxPayload < 0x1_0000_0000;
    LoopSucceeds(store, ss, base);
  }

  lemma LoopSucceeds(store: Store, ss: seq<Size>, base: int)
    requires StoreLaw(store) && StoresAll(store, ss) && AllFit(ss) && AllPositive(ss)
    requires 0 <= base && base + |ss| * MaxPayload < 0x1_0000_0000
    ensures WriteLoop(store, ss, base).Success?
    ensures |WriteLoop(store, ss, base).value.0| == 16 * |ss|
  {
    WriteLoopSucceeds(store, ss, base);
    KeptAll(ss);
  }

  /** A storable cursor is written as the magic, the count, the directory and the payloads;
      `read` sees the same bytes behind an .ico magic. */
  lemma WriteLayout(c: Cursor)
    requires Storable(c)
    ensures Write(c).Success?
    ensures var parts := WriteLoop(IconStore(c), SortedSizes(c.Keys), 6 + 16 * |c|).value;
      && |parts.0| == 16 * |c|
      && Write(c).value == CurMagic + ToBytes(|c|, 2).value + (parts.0 + parts.1)
      && IcoMagic + Write(c).value[4..] == (IcoMagic + ToBytes(|c|, 2).value) + (parts.0 + parts.1)
  {
    StorableLoop(c);
    StorableBudget(|c|);
    var count := ToBytes(|c|, 2);
    assert count.Success?;
    var parts := WriteLoop(IconStore(c), SortedSizes(c.Keys), 6 + 16 * |c|).value;
    assert Write(c) == Success(CurMagic + count.value + (parts.0 + parts.1));
    SwapMagic(CurMagic, IcoMagic, count.value, parts.0 + parts.1);
  }

  lemma {:induction false} PayloadTotalBound(sizes: seq<Size>)
    requires AllFit(sizes) && AllPositive(sizes)
    ensures 0 <= PayloadTotal(sizes) <= |sizes| * MaxPayload
  {
    if |sizes| > 0 {
      var tail := sizes[1..];
      assert AllFit(tail) && AllPositive(tail) by {
        forall i | 0 <= i < |tail| ensures FitsEntry(tail[i]) && Positive(tail[i]) {
          assert tail[i] == sizes[i + 1];
        }
      }
      PayloadTotalBound(tail);
      PayloadFits(sizes[0]);
      MulSucc(MaxPayload, |tail|);
    }
  }

  /** Where an entry and a payload sit in the 6-byte header, the directory and the payloads. */
  lemma FileSlices(head: seq<byte>, dir: seq<byte>, pay: seq<byte>, k: nat, p: nat, len: nat)
    requires |head| == 6 && 16 * k + 16 <= |dir| && p + len <= |pay|
    ensures (head + (dir + pay))[6 + 16 * k..6 + 16 * k + 16] == dir[16 * k..16 * k + 16]
    ensures (head + (dir + pay))[6 + |dir| + p..6 + |dir| + p + len] == pay[p..p + len]
  {
    assert (head + (dir + pay))[6..] == dir + pay;
  }

  /** `read` replaces the first four bytes by the .ico magic. */
  lemma SwapMagic(m: seq<byte>, m': seq<byte>, count: seq<byte>, rest: seq<byte>)
    requires |m| == 4
    ensures m' + (m + count + rest)[4..] == (m' + count) + rest
  {
    assert (m + count + rest)[4..] == count + rest;
  }

  /** An entry `write` made for size s, whose payload is where it points, reads back as the
      icon stored under s. */
  lemma ReadStoredIcon(c: Cursor, s: Size, at: int, bytes: seq<byte>, decode: Decoder)
    requires WellFormed(c) && s in c && InvertsToBmp(decode)
    requires ToBmp(c[s].image, s).Success?
    requires PayloadOf(bytes, EntryOf(c, s, at)) == Success(ToBmp(c[s].image, s).value)
    ensures ReadIcon(bytes, EntryOf(c, s, at), false, decode) == Success(c[s])
  {
    var icon := c[s];
    assert decode(ToBmp(icon.image, s).value, s) == Success(icon.image);
    assert ClampHot(icon.hotspot.0, s.0) == icon.hotspot.0 && ClampHot(icon.hotspot.1, s.1) == icon.hotspot.1;
  }

  /** The k-th entry of a file laid out as a 6-byte header, a directory and payloads, made by
      StoreIcon for size s with its payload at p in the payload area, reads back as c[s]. */
  lemma ReadBackAt(c: Cursor, decode: Decoder, head: seq<byte>, dir: seq<byte>, pay: seq<byte>, k: nat, s: Size, p: nat,
                   at: int, stored: (seq<byte>, seq<byte>))
    requires WellFormed(c) && s in c && FitsEntry(s) && InvertsToBmp(decode)
    requires |head| == 6 && 16 * k + 16 <= |dir| && p + |stored.1| <= |pay|
    requires at == 6 + |dir| + p && at < 0x1_0000_0000
    requires StoreIcon(c, s, at) == Success(stored)
    requires dir[16 * k..16 * k + 16] == stored.0 && pay[p..p + |stored.1|] == stored.1
    ensures ReadIcon(head + (dir + pay), ParseEntry((head + (dir + pay))[6 + 16 * k..6 + 16 * k + 16]), false, decode) == Success(c[s])
  {
    StoreIconParts(c, s, at);
    PayloadOk(c, s);
    EntryFound(head, dir, pay, k, p, stored.0, stored.1, EntryOf(c, s, at));
    ReadStoredIcon(c, s, at, head + (dir + pay), decode);
  }

  /** In a file of a 6-byte header, a directory and a payload area, the k-th directory entry
      parses as e, and e finds its payload at p in the payload area. */
  lemma EntryFound(head: seq<byte>, dir: seq<byte>, pay: seq<byte>, k: nat, p: nat,
                   entry: seq<byte>, payload: seq<byte>, e: DirEntry)
    requires |head| == 6 && 16 * k + 16 <= |dir| && p + |payload| <= |pay|
    requires |entry| == 16 && ParseEntry(entry) == e && e.offset == 6 + |dir| + p && e.size == |payload|
    requires dir[16 * k..16 * k + 16] == entry && pay[p..p + |payload|] == payload
    ensures var bytes := head + (dir + pay);
      && ParseEntry(bytes[6 + 16 * k..6 + 16 * k + 16]) == e
      && PayloadOf(bytes, e) == Success(payload)
  {
    FileSlices(head, dir, pay, k, p, |payload|);
    PayloadAt(head + (dir + pay), e, payload);
  }

  /** An entry whose offset and size frame a payload in the file finds that payload. */
  lemma PayloadAt(bytes: seq<byte>, e: DirEntry, payload: seq<byte>)
    requires 0 <= e.offset && e.size == |payload| && e.offset + |payload| <= |bytes|
    requires bytes[e.offset..e.offset + |payload|] == payload
    ensures PayloadOf(bytes, e) == Success(payload)
  {
  }

  /** For sizes that all fit and store, the loop succeeds and places the k-th entry at 16k and
      the k-th payload after the payloads before it. */
  lemma LoopPieces(store: Store, ss: seq<Size>, base: int, k: nat)
    requires StoreLaw(store) && StoresAll(store, ss) && AllFit(ss) && AllPositive(ss)
    requires 0 <= base && base + |ss| * MaxPayload < 0x1_0000_0000 && k < |ss|
    ensures WriteLoop(store, ss, base).Success?
    ensures var parts, p := WriteLoop(store, ss, base).value, PayloadTotal(ss[..k]);
      && |parts.0| == 16 * |ss| && 0 <= p && base + p < 0x1_0000_0000
      && store(ss[k], base + p).Success?
      && p + |store(ss[k], base + p).value.1| <= |parts.1|
      && parts.0[16 * k..16 * k + 16] == store(ss[k], base + p).value.0
      && parts.1[p..p + |store(ss[k], base + p).value.1|] == store(ss[k], base + p).value.1
  {
    WriteLoopSucceeds(store, ss, base);
    WriteLoopPlaces(store, ss, base, k);
    WriteLoopPayloadSize(store, ss, base);
    KeptAll(ss);
    PayloadTotalBound(ss);
  }

  /** LoopPieces with the k-th entry, payload offset and stored pair named. */
  lemma LoopPiece(store: Store, ss: seq<Size>, base: int, k: nat)
      returns (parts: (seq<byte>, seq<byte>), p: nat, stored: (seq<byte>, seq<byte>))
    requires StoreLaw(store) && StoresAll(store, ss) && AllFit(ss) && AllPositive(ss)
    requires 0 <= base && base + |ss| * MaxPayload < 0x1_0000_0000 && k < |ss|
    ensures WriteLoop(store, ss, base) == Success(parts)
    ensures |parts.0| == 16 * |ss| && 16 * k + 16 <= |parts.0| && p + |stored.1| <= |parts.1|
    ensures base + p < 0x1_0000_0000 && store(ss[k], base + p) == Success(stored)
    ensures parts.0[16 * k..16 * k + 16] == stored.0 && parts.1[p..p + |stored.1|] == stored.1
  {
    LoopPieces(store, ss, base, k);
    parts := WriteLoop(store, ss, base).value;
    p := PayloadTotal(ss[..k]);
    stored := store(ss[k], base + p).value;
  }

  /** The pieces `write` produces for the k-th size of a storable cursor: its entry in the
      directory and its payload after the payloads of the smaller sizes. */
  lemma StoredPiece(c: Cursor, k: nat) returns (parts: (seq<byte>, seq<byte>), p: nat, at: int, stored: (seq<byte>, seq<byte>))
    requires Storable(c) && k < |c|
    ensures WriteLoop(IconStore(c), SortedSizes(c.Keys), 6 + 16 * |c|) == Success(parts)
    ensures SortedSizes(c.Keys)[k] in c && FitsEntry(SortedSizes(c.Keys)[k])
    ensures 16 * k + 16 <= |parts.0| && p + |stored.1| <= |parts.1|
    ensures at == 6 + |parts.0| + p && at < 0x1_0000_0000
    ensures StoreIcon(c, SortedSizes(c.Keys)[k], at) == Success(stored)
    ensures parts.0[16 * k..16 * k + 16] == stored.0 && parts.1[p..p + |stored.1|] == stored.1
  {
    var ss := SortedSizes(c.Keys);
    var base := 6 + 16 * |c|;
    StorableSizes(c);
    StorableBudget(|c|);
    parts, p, stored := LoopPiece(IconStore(c), ss, base, k);
    at := base + p;
    IconStoreAt(c, ss[k], at);
  }

  /** The k-th directory entry of a written storable cursor reads back as its k-th icon in
      ascending size order. */
  lemma ReadBackIcon(c: Cursor, decode: Decoder, k: nat)
    requires Storable(c) && InvertsToBmp(decode) && k < |c|
    ensures Write(c).Success?
    ensures var bytes := IcoMagic + Write(c).value[4..];
      && 6 + 16 * k + 16 <= |bytes|
      && ReadIcon(bytes, ParseEntry(bytes[6 + 16 * k..6 + 16 * k + 16]), false, decode) == Success(IconsInOrder(c)[k])
  {
    WriteLayout(c);
    var parts, p, at, stored := StoredPiece(c, k);
    var head := IcoMagic + ToBytes(|c|, 2).value;
    ReadBackAt(c, decode, head, parts.0, parts.1, k, SortedSizes(c.Keys)[k], p, at, stored);
  }

  /** A written storable cursor passes `check`, keeps the .cur magic, and its directory, read
      behind the .ico magic, announces one entry per icon and fits in the file. */
  lemma WrittenDirectory(c: Cursor)
    requires Storable(c)
    ensures Write(c).Success? && Check(Write(c).value) && Write(c).value[..4] == CurMagic
    ensures var bytes := IcoMagic + Write(c).value[4..];
      && ReadDirectory(bytes).Success? && |ReadDirectory(bytes).value| == |c|
  {
    WriteLayout(c);
    var v := Write(c).value;
    var bytes := IcoMagic + v[4..];
    assert bytes[4..6] == v[4..6];
    assert |bytes| == |v| >= 6 + 16 * |c|;
  }

  /** Every entry of a written storable cursor reads back, in directory order, as the icons
      of the cursor in ascending size order. */
  lemma ReadIconsOfWrite(c: Cursor, decode: Decoder)
    requires Storable(c) && InvertsToBmp(decode)
    ensures Write(c).Success?
    ensures var bytes := IcoMagic + Write(c).value[4..];
      && ReadDirectory(bytes).Success?
      && ReadIcons(bytes, ReadDirectory(bytes).value, false, decode) == Success(IconsInOrder(c))
  {
    WrittenDirectory(c);
    var bytes := IcoMagic + Write(c).value[4..];
    var es := ReadDirectory(bytes).value;
    var want := IconsInOrder(c);
    assert |want| == |c| by {
      assert |c.Keys| == |c|;
    }
    forall k | 0 <= k < |es| ensures ReadIcon(bytes, es[k], false, decode) == Success(want[k]) {
      ReadBackIcon(c, decode, k);
    }
    IconsAre(bytes, es, decode, want);
  }

  /** Entries that each read back as the matching icon read back as the list of them. */
  lemma IconsAre(bytes: seq<byte>, es: seq<DirEntry>, decode: Decoder, want: seq<Icon>)
    requires |es| == |want|
    requires forall k :: 0 <= k < |es| ==> ReadIcon(bytes, es[k], false, decode) == Success(want[k])
    ensures ReadIcons(bytes, es, false, decode) == Success(want)
  {
    var got := ReadIcons(bytes, es, false, decode);
    assert got.Success?;
    assert got.value == want;
  }

  /** `read` gives back what `write` wrote: a well-formed cursor of at most 8191 icons, each
      at most 256 pixels a side, survives the round trip exactly, hotspots included, for any
      bitmap decoder that inverts `_to_bmp`. */
  lemma WriteReadRoundTrip(c: Cursor, decode: Decoder)
    requires Storable(c) && InvertsToBmp(decode)
    ensures Write(c).Success? && Read(Write(c).value, decode) == Success(c)
  {
    WrittenDirectory(c);
    ReadIconsOfWrite(c, decode);
    var file := Write(c).value;
    assert file[..4] != IcoMagic by {
      assert file[..4][2] == 2;
    }
    RebuildInOrder(c);
  }

  /** The round trip with the reference DIB decoder. */
  lemma WriteReadDib(c: Cursor)
    requires Storable(c)
    ensures Write(c).Success? && Read(Write(c).value, DibDecode) == Success(c)
  {
    DibDecodeInverts();
    WriteReadRoundTrip(c, DibDecode);
  }

  /** `write` counts every icon in the header but leaves the ones wider or taller than 256
      out of the directory, so a cursor holding such an icon is written with fewer entries
      than its header announces. */
  lemma OversizedStillCounted(c: Cursor, s: Size)
    requires WellFormed(c) && s in c && !FitsEntry(s) && Write(c).Success?
    ensures ToInt(Write(c).value[4..6]) == |c|
    ensures var dir := WriteLoop(IconStore(c), SortedSizes(c.Keys), 6 + 16 * |c|).value.0;
      |dir| < 16 * |c|
  {
    var ss := SortedSizes(c.Keys);
    KeptDrops(ss, s);
    IconStoreLaw(c);
    assert |ss| == |c| by {
      assert |c.Keys| == |c|;
    }
  }
}

=== FILE: cur_theme.dfy ===
/** The theme builders of the cursor library (CursorCreate/lib/cur_theme.py): how a set of
  cursors, each playing one role, becomes an X cursor theme, a Windows cursor scheme and a
  preview grid. The Mousecape (macOS) builder is the module Mousecape.

  Archive writing, text templates and PNG encoding are not modelled: a builder here yields
  the plan of what it would write: which file holds which cursor, which links point where,
  where each preview tile goes.
 */
module CurTheme {
  import opened Wrappers
  import opened FormatCore
  import opened CursorModel
  import CurFormat
  import AniFormat
  import XcurFormat

  // ---------------------------------------------------------------------------
  // Cursor roles and the per-platform tables
  // ---------------------------------------------------------------------------

  /** The cursor roles a theme can provide (`DEFAULT_CURSORS`), one constructor per name.
      Every table below is keyed or valued by a Role, so each of its names is one of these. */
  datatype Role =
    | Alias
    | AllScroll
    | BottomLeftCorner
    | BottomRightCorner
    | BottomSide
    | Cell
    | CenterPtr
    | ColResize
    | ColorPicker
    | ContextMenu
    | Copy
    | Crosshair
    | Default
    | DndMove
    | DndNoDrop
    | DownArrow
    | Draft
    | Fleur
    | Help
    | LeftArrow
    | LeftSide
    | NoDrop
    | NotAllowed
    | Openhand
    | Pencil
    | Pirate
    | Pointer
    | Progress
    | RightArrow
    | RightPtr
    | RightSide
    | RowResize
    | SizeBdiag
    | SizeFdiag
    | SizeHor
    | SizeVer
    | Text
    | TopLeftCorner
    | TopRightCorner
    | TopSide
    | UpArrow
    | VerticalText
    | Wait
    | WaylandCursor
    | XCursor
    | ZoomIn
    | ZoomOut

  /** The name of a role, as the theme files spell it. */
  function RoleName(r: Role): string {
    match r
    case Alias => "alias"
    case AllScroll => "all-scroll"
    case BottomLeftCorner => "bottom_left_corner"
    case BottomRightCorner => "bottom_right_corner"
    case BottomSide => "bottom_side"
    case Cell => "cell"
    case CenterPtr => "center_ptr"
    case ColResize => "col-resize"
    case ColorPicker => "color-picker"
    case ContextMenu => "context-menu"
    case Copy => "copy"
    case Crosshair => "crosshair"
    case Default => "default"
    case DndMove => "dnd-move"
    case DndNoDrop => "dnd-no-drop"
    case DownArrow => "down-arrow"
    case Draft => "draft"
    case Fleur => "fleur"
    case Help => "help"
    case LeftArrow => "left-arrow"
    case LeftSide => "left_side"
    case NoDrop => "no-drop"
    case NotAllowed => "not-allowed"
    case Openhand => "openhand"
    case Pencil => "pencil"
    case Pirate => "pirate"
    case Pointer => "pointer"
    case Progress => "progress"
    case RightArrow => "right-arrow"
    case RightPtr => "right_ptr"
    case RightSide => "right_side"
    case RowResize => "row-resize"
    case SizeBdiag => "size_bdiag"
    case SizeFdiag => "size_fdiag"
    case SizeHor => "size_hor"
    case SizeVer => "size_ver"
    case Text => "text"
    case TopLeftCorner => "top_left_corner"
    case TopRightCorner => "top_right_corner"
    case TopSide => "top_side"
    case UpArrow => "up-arrow"
    case VerticalText => "vertical-text"
    case Wait => "wait"
    case WaylandCursor => "wayland-cursor"
    case XCursor => "x-cursor"
    case ZoomIn => "zoom-in"
    case ZoomOut => "zoom-out"
  }

  /** `LinuxThemeBuilder.SYM_LINKS_TO_CUR`, in its written order: a link name of the X cursor
      theme and the role it points to. */
  const SymLinks: seq<(string, Role)> := [
    ("e29285e634086352946a0e7090d73106", Pointer),
    ("9d800788f1b08800ae810202380a0822", Pointer),
    ("xterm", Text),
    ("crossed_circle", NotAllowed),
    ("1081e37283d90000800003c07f3ef6bf", Copy),
    ("closedhand", DndMove),
    ("hand2", Pointer),
    ("hand1", Pointer),
    ("sb_h_double_arrow", SizeHor),
    ("a2a266d0498c3104214a47bd64ab0fc8", Alias),
    ("split_h", ColResize),
    ("dnd-none", DndMove),
    ("split_v", RowResize),
    ("3085a0e285430894940527032f8b26df", Alias),
    ("5c6cd98b3f3ebcb1f9c7f1c204630408", Help),
    ("fcf21c00b30f7e3f83fe0dfd12e71cff", DndMove),
    ("left_ptr", Default),
    ("circle", NotAllowed),
    ("d9ce0ab605698f320427677b458ad60b", Help),
    ("03b6e0fcb3499374a867c041f52298f0", NotAllowed),
    ("size-hor", Default),
    ("00008160000006810000408080010102", SizeVer),
    ("size-ver", Default),
    ("forbidden", NoDrop),
    ("08e8e1c95fe2fc01f976f1e063a24ccd", Progress),
    ("ibeam", Text),
    ("4498f0e0c1937ffe01fd06f973665830", DndMove),
    ("left_ptr_watch", Progress),
    ("cross", Crosshair),
    ("watch", Wait),
    ("3ecb610c1bf2410f44200f48c40d3599", Progress),
    ("link", Alias),
    ("9081237383d90e509aa00f00170e968f", DndMove),
    ("h_double_arrow", SizeHor),
    ("640fb0e74195791501fd1ed57b41487f", Alias),
    ("plus", Cell),
    ("b66166c04f8c3109214a4fbd64a50fc8", Copy),
    ("pointing_hand", Pointer),
    ("size-bdiag", Default),
    ("w-resize", SizeHor),
    ("n-resize", SizeVer),
    ("s-resize", SizeVer),
    ("question_arrow", Help),
    ("sb_v_double_arrow", SizeVer),
    ("dnd-copy", Copy),
    ("half-busy", Progress),
    ("e-resize", SizeHor),
    ("00000000000000020006000e7e9ffc3f", Progress),
    ("top_left_arrow", Default),
    ("whats_this", Help),
    ("size-fdiag", Default),
    ("move", DndMove),
    ("v_double_arrow", SizeVer),
    ("left_ptr_help", Help),
    ("size_all", Fleur),
    ("6407b0e94181790501fd1e167b474872", Copy)
  ]

  /** The pseudo-names of the slots of a Windows cursor scheme. */
  datatype RegName =
    | RegPointer
    | RegHelp
    | RegWork
    | RegBusy
    | RegCross
    | RegText
    | RegHand
    | RegUnavailable
    | RegVert
    | RegHorz
    | RegDgn1
    | RegDgn2
    | RegMove
    | RegAlternate
    | RegLink

  function RegLabel(g: RegName): string {
    match g
    case RegPointer => "pointer"
    case RegHelp => "help"
    case RegWork => "work"
    case RegBusy => "busy"
    case RegCross => "cross"
    case RegText => "text"
    case RegHand => "hand"
    case RegUnavailable => "unavailable"
    case RegVert => "vert"
    case RegHorz => "horz"
    case RegDgn1 => "dgn1"
    case RegDgn2 => "dgn2"
    case RegMove => "move"
    case RegAlternate => "alternate"
    case RegLink => "link"
  }

  /** `WindowsThemeBuilder.REGISTRY_ORDER`: the order of the slots of a Windows cursor scheme. */
  const RegistryOrder: seq<RegName> := [RegPointer, RegHelp, RegWork, RegBusy, RegCross, RegText, RegHand, RegUnavailable, RegVert, RegHorz, RegDgn1, RegDgn2, RegMove, RegAlternate, RegLink]

  /** The slot of a pseudo-name in the registry order. */
  function RegIndex(g: RegName): (r: nat)
    ensures r < |RegistryOrder| && RegistryOrder[r] == g
  {
    match g
    case RegPointer => 0
    case RegHelp => 1
    case RegWork => 2
    case RegBusy => 3
    case RegCross => 4
    case RegText => 5
    case RegHand => 6
    case RegUnavailable => 7
    case RegVert => 8
    case RegHorz => 9
    case RegDgn1 => 10
    case RegDgn2 => 11
    case RegMove => 12
    case RegAlternate => 13
    case RegLink => 14
  }

  /** The registry order has fifteen slots, each naming a different pseudo-name, so every
      pseudo-name has exactly one slot. */
  lemma RegistryOrderDistinct()
    ensures |RegistryOrder| == 15
    ensures forall i :: 0 <= i < |RegistryOrder| ==> RegIndex(RegistryOrder[i]) == i
  {
  }

  /** `WindowsThemeBuilder.LINUX_TO_WIN_CURSOR`: the registry pseudo-name and the file name a
      role has on Windows; roles without a Windows cursor have none. */
  function WinEntry(r: Role): Option<(RegName, string)> {
    match r
    case Default => Some((RegPointer, "normal-select"))
    case Help => Some((RegHelp, "help-select"))
    case Progress => Some((RegWork, "working-in-background"))
    case Wait => Some((RegBusy, "busy"))
    case Text => Some((RegText, "text-select"))
    case NoDrop => Some((RegUnavailable, "unavailable"))
    case SizeVer => Some((RegVert, "vertical-resize"))
    case SizeHor => Some((RegHorz, "horizontal-resize"))
    case SizeFdiag => Some((RegDgn1, "diagonal-resize-1"))
    case SizeBdiag => Some((RegDgn2, "diagonal-resize-2"))
    case Fleur => Some((RegMove, "move"))
    case Pointer => Some((RegLink, "link-select"))
    case Crosshair => Some((RegCross, "precision-select"))
    case Pencil => Some((RegHand, "handwriting"))
    case UpArrow => Some((RegAlternate, "alt-select"))
    case _ => None
  }

  /** The role whose Windows entry carries a pseudo-name. */
  function WinRole(g: RegName): Role {
    match g
    case RegPointer => Default
    case RegHelp => Help
    case RegWork => Progress
    case RegBusy => Wait
    case RegCross => Crosshair
    case RegText => Text
    case RegHand => Pencil
    case RegUnavailable => NoDrop
    case RegVert => SizeVer
    case RegHorz => SizeHor
    case RegDgn1 => SizeFdiag
    case RegDgn2 => SizeBdiag
    case RegMove => Fleur
    case RegAlternate => UpArrow
    case RegLink => Pointer
  }

  /** Every pseudo-name of the registry is the Windows entry of some role... */
  lemma WinRoleEntry(g: RegName)
    ensures WinEntry(WinRole(g)).Some? && WinEntry(WinRole(g)).value.0 == g
  {
  }

  /** ...and of only that role: the Windows table names exactly the registry's pseudo-names,
      each once. */
  lemma WinEntriesDistinct(r: Role)
    ensures WinEntry(r).Some? ==> WinRole(WinEntry(r).value.0) == r
  {
    match r
    case Default =>
    case Help =>
    case Progress =>
    case Wait =>
    case Text =>
    case NoDrop =>
    case SizeVer =>
    case SizeHor =>
    case SizeFdiag =>
    case SizeBdiag =>
    case Fleur =>
    case Pointer =>
    case Crosshair =>
    case Pencil =>
    case UpArrow =>
    case _ =>
  }

  /** `MacOSMousecapeThemeBuilder.LINUX_TO_MAC_CUR`: the Mousecape cursor identifiers a role fills. */
  function MacNames(r: Role): seq<string> {
    match r
    case Default => ["com.apple.coregraphics.Arrow", "com.apple.coregraphics.ArrowCtx", "com.apple.coregraphics.Move"]
    case Alias => ["com.apple.coregraphics.Alias", "com.apple.cursor.2"]
    case Wait => ["com.apple.coregraphics.Wait"]
    case Text => ["com.apple.coregraphics.IBeam", "com.apple.coregraphics.IBeamXOR"]
    case NoDrop => ["com.apple.cursor.3"]
    case Progress => ["com.apple.cursor.4"]
    case Copy => ["com.apple.cursor.5"]
    case Crosshair => ["com.apple.cursor.7", "com.apple.cursor.8"]
    case DndMove => ["com.apple.cursor.11"]
    case Openhand => ["com.apple.cursor.12"]
    case Pointer => ["com.apple.cursor.13"]
    case LeftSide => ["com.apple.cursor.17"]
    case RightSide => ["com.apple.cursor.18"]
    case ColResize => ["com.apple.cursor.19"]
    case TopSide => ["com.apple.cursor.21"]
    case BottomSide => ["com.apple.cursor.22"]
    case RowResize => ["com.apple.cursor.23"]
    case ContextMenu => ["com.apple.cursor.24"]
    case Pirate => ["com.apple.cursor.25"]
    case VerticalText => ["com.apple.cursor.26"]
    case RightArrow => ["com.apple.cursor.27"]
    case SizeHor => ["com.apple.cursor.28"]
    case SizeBdiag => ["com.apple.cursor.30"]
    case UpArrow => ["com.apple.cursor.31"]
    case SizeVer => ["com.apple.cursor.32"]
    case SizeFdiag => ["com.apple.cursor.34"]
    case DownArrow => ["com.apple.cursor.36"]
    case LeftArrow => ["com.apple.cursor.38"]
    case Fleur => ["com.apple.cursor.39"]
    case Help => ["com.apple.cursor.40"]
    case Cell => ["com.apple.cursor.41", "com.apple.cursor.20"]
    case ZoomIn => ["com.apple.cursor.42"]
    case ZoomOut => ["com.apple.cursor.43"]
    case _ => []
  }

  /** `PreviewPictureBuilder.CURSOR_ORDER`, the order of the preview grid. */
  const CursorOrder: seq<Role> :=
    [Default, Alias, Copy, ContextMenu, Help, NoDrop, CenterPtr, RightPtr, Text, VerticalText, Progress, Wait]
    + [Pointer, Openhand, DndMove, DndNoDrop, NotAllowed, Pirate, Draft, Pencil, ColorPicker, ZoomIn, ZoomOut, Crosshair]
    + [Cell, Fleur, AllScroll, UpArrow, RightArrow, DownArrow, LeftArrow, TopSide, RightSide, BottomSide, LeftSide, TopLeftCorner]
    + [TopRightCorner, BottomRightCorner, BottomLeftCorner, ColResize, RowResize, SizeVer, SizeBdiag, SizeHor, SizeFdiag, WaylandCursor, XCursor]

  /** `cursor_order_dict`: the position of a role in the preview order. */
  function OrderIndex(r: Role): (i: nat)
    ensures i < |CursorOrder| && CursorOrder[i] == r
  {
    match r
    case Default => 0
    case Alias => 1
    case Copy => 2
    case ContextMenu => 3
    case Help => 4
    case NoDrop => 5
    case CenterPtr => 6
    case RightPtr => 7
    case Text => 8
    case VerticalText => 9
    case Progress => 10
    case Wait => 11
    case Pointer => 12
    case Openhand => 13
    case DndMove => 14
    case DndNoDrop => 15
    case NotAllowed => 16
    case Pirate => 17
    case Draft => 18
    case Pencil => 19
    case ColorPicker => 20
    case ZoomIn => 21
    case ZoomOut => 22
    case Crosshair => 23
    case Cell => 24
    case Fleur => 25
    case AllScroll => 26
    case UpArrow => 27
    case RightArrow => 28
    case DownArrow => 29
    case LeftArrow => 30
    case TopSide => 31
    case RightSide => 32
    case BottomSide => 33
    case LeftSide => 34
    case TopLeftCorner => 35
    case TopRightCorner => 36
    case BottomRightCorner => 37
    case BottomLeftCorner => 38
    case ColResize => 39
    case RowResize => 40
    case SizeVer => 41
    case SizeBdiag => 42
    case SizeHor => 43
    case SizeFdiag => 44
    case WaylandCursor => 45
    case XCursor => 46
  }

  // ---------------------------------------------------------------------------
  // Joining and splitting text (str.join, str.split with a separator)
  // ---------------------------------------------------------------------------

  /** `sep.join(parts)`. */
  function Join(parts: seq<string>, sep: char): string
    decreases |parts|
  {
    if |parts| == 0 then ""
    else if |parts| == 1 then parts[0]
    else parts[0] + [sep] + Join(parts[1..], sep)
  }

  /** `s.split(sep)`: the pieces between separators; always at least one. */
  function Split(s: string, sep: char): (r: seq<string>)
    ensures |r| >= 1
    decreases |s|
  {
    if |s| == 0 then [""]
    else
      var rest := Split(s[1..], sep);
      if s[0] == sep then [""] + rest
      else [[s[0]] + rest[0]] + rest[1..]
  }

  /** A piece without the separator stays glued to the first piece of what follows it. */
  lemma {:induction false} SplitPrefix(a: string, sep: char, tail: string)
    requires sep !in a
    ensures Split(a + tail, sep) == [a + Split(tail, sep)[0]] + Split(tail, sep)[1..]
    decreases |a|
  {
    if |a| == 0 {
      assert a + tail == tail;
      assert a + Split(tail, sep)[0] == Split(tail, sep)[0];
      assert [Split(tail, sep)[0]] + Split(tail, sep)[1..] == Split(tail, sep);
    } else {
      var st := Split(tail, sep);
      SplitPrefix(a[1..], sep, tail);
      var rest := Split(a[1..] + tail, sep);
      assert rest[0] == a[1..] + st[0] && rest[1..] == st[1..];
      assert (a + tail)[0] == a[0] && (a + tail)[1..] == a[1..] + tail;
      assert Split(a + tail, sep) == [[a[0]] + rest[0]] + rest[1..];
      assert [a[0]] + (a[1..] + st[0]) == a + st[0];
    }
  }

  /** Splitting undoes joining when no part holds the separator. */
  lemma {:induction false} SplitJoin(parts: seq<string>, sep: char)
    requires |parts| >= 1
    requires forall i :: 0 <= i < |parts| ==> sep !in parts[i]
    ensures Split(Join(parts, sep), sep) == parts
    decreases |parts|
  {
    if |parts| == 1 {
      SplitPrefix(parts[0], sep, "");
      assert parts[0] + "" == parts[0];
    } else {
      var rest := Join(parts[1..], sep);
      SplitJoin(parts[1..], sep);
      assert Split([sep] + rest, sep) == [""] + parts[1..] by {
        assert ([sep] + rest)[1..] == rest;
      }
      assert Join(parts, sep) == parts[0] + ([sep] + rest);
      SplitPrefix(parts[0], sep, [sep] + rest);
      assert parts[0] + "" == parts[0];
      assert [parts[0]] + parts[1..] == parts;
    }
  }

  /** Joining one more part puts a separator and the part at the end. */
  lemma {:induction false} JoinAppend(parts: seq<string>, last: string, sep: char)
    requires |parts| >= 1
    ensures Join(parts + [last], sep) == Join(parts, sep) + [sep] + last
    decreases |parts|
  {
    if |parts| > 1 {
      JoinAppend(parts[1..], last, sep);
      assert (parts + [last])[1..] == parts[1..] + [last];
    }
  }

  // ---------------------------------------------------------------------------
  // ArchivePath
  // ---------------------------------------------------------------------------

  /** A path inside a .zip or .tar archive, as its segments. */
  datatype ArchivePath = ArchivePath(segments: seq<string>)

  /** `path / segment`. */
  function Child(p: ArchivePath, segment: string): ArchivePath {
    ArchivePath(p.segments + [segment])
  }

  /** `path.parent()`: the last segment dropped (a path without segments stays so). */
  function Parent(p: ArchivePath): ArchivePath {
    if |p.segments| == 0 then p else ArchivePath(p.segments[..|p.segments| - 1])
  }

  /** `str(path)`: the segments joined by "/". */
  function PathText(p: ArchivePath): string {
    Join(p.segments, '/')
  }

  /** Going to a child and back to the parent is the identity; the child's text is the
      parent's text, a slash and the segment (just the segment below the root). */
  lemma ChildOfParent(p: ArchivePath, segment: string)
    ensures Parent(Child(p, segment)) == p
    ensures PathText(Child(p, segment)) ==
      if |p.segments| == 0 then segment else PathText(p) + "/" + segment
  {
    assert (p.segments + [segment])[..|p.segments|] == p.segments;
    if |p.segments| == 0 {
      assert p.segments + [segment] == [segment];
    } else {
      JoinAppend(p.segments, segment, '/');
    }
  }

  /** The text of a path determines its segments when none of them holds a slash. */
  lemma PathTextSegments(p: ArchivePath)
    requires |p.segments| >= 1 && forall i :: 0 <= i < |p.segments| ==> '/' !in p.segments[i]
    ensures Split(PathText(p), '/') == p.segments
  {
    SplitJoin(p.segments, '/');
  }

  // ---------------------------------------------------------------------------
  // The cursor dictionary
  // ---------------------------------------------------------------------------

  /** A key of the cursor dictionary: one of the roles, or any other name. */
  datatype CursorName = Named(role: Role) | Custom(text: string)

  function NameText(n: CursorName): string {
    match n
    case Named(r) => RoleName(r)
    case Custom(t) => t
  }

  /** The cursor dictionary handed to every builder, in insertion order. */
  type CursorDict = seq<(CursorName, AnimatedCursor)>

  /** A key as a Python string names it: a custom name is never the name of a role. */
  predicate Canonical(n: CursorName) {
    n.Custom? ==> forall r: Role :: RoleName(r) != n.text
  }

  /** A dictionary's keys are distinct names and every cursor keeps the icon invariant. */
  predicate DictOk(d: CursorDict) {
    && (forall i, j :: 0 <= i < j < |d| ==> d[i].0 != d[j].0)
    && (forall i :: 0 <= i < |d| ==> Canonical(d[i].0))
    && (forall i :: 0 <= i < |d| ==> FramesWellFormed(d[i].1))
  }

  /** `name in cursor_dict`: the position of a key, if present. */
  function Find(d: CursorDict, n: CursorName): (r: Option<nat>)
    ensures r.Some? ==> r.value < |d| && d[r.value].0 == n
    ensures r.None? <==> forall i :: 0 <= i < |d| ==> d[i].0 != n
    decreases |d|
  {
    if |d| == 0 then None
    else if d[0].0 == n then Some(0)
    else
      var rest := Find(d[1..], n);
      assert forall i :: 1 <= i < |d| ==> d[1..][i - 1] == d[i];
      if rest.None? then None else Some(rest.value + 1)
  }

  /** In a dictionary with distinct keys, a key is found where it is stored. */
  lemma FindStored(d: CursorDict, i: nat)
    requires DictOk(d) && i < |d|
    ensures Find(d, d[i].0) == Some(i)
  {
  }

  // ---------------------------------------------------------------------------
  // Linux: an X cursor theme (LinuxThemeBuilder)
  // ---------------------------------------------------------------------------

  /** `LEGAL_EXPORT_SIZES` of the X cursor theme. */
  const LinuxSizes: set<Size> := {(32, 32), (48, 48), (64, 64), (128, 128)}

  /** `<theme>/cursors/<name>`. */
  function CursorPath(theme: string, name: string): ArchivePath {
    Child(Child(ArchivePath([theme]), "cursors"), name)
  }

  /** The text of a cursor's path in the theme archive. */
  lemma CursorPathText(theme: string, name: string)
    ensures PathText(CursorPath(theme, name)) == theme + "/cursors/" + name
  {
    ChildOfParent(ArchivePath([theme]), "cursors");
    ChildOfParent(Child(ArchivePath([theme]), "cursors"), name);
  }

  /** A cursor of the theme: restricted to the legal sizes and written as an Xcursor file
      under its own name. A restriction whose result breaks the icon invariant (possible only
      with a resampler that returns the wrong number of pixels) fails with LibraryError. */
  function LinuxCursor(theme: string, entry: (CursorName, AnimatedCursor), lanczos: Resampler): (r: Result<(string, seq<byte>)>)
    requires FramesWellFormed(entry.1)
    ensures r.Success? <==>
      && AllCanGrow(entry.1, LinuxSizes)
      && FramesWellFormed(RestrictFrames(entry.1, LinuxSizes, lanczos).value)
      && XcurFormat.Write(RestrictFrames(entry.1, LinuxSizes, lanczos).value, lanczos).Success?
    ensures !AllCanGrow(entry.1, LinuxSizes) ==> r == Failure(ValueError)
    ensures r.Success? ==> r.value.0 == theme + "/cursors/" + NameText(entry.0)
    ensures r.Success? ==> r.value.1 == XcurFormat.Write(RestrictFrames(entry.1, LinuxSizes, lanczos).value, lanczos).value
  {
    var restricted := RestrictFrames(entry.1, LinuxSizes, lanczos);
    if restricted.Failure? then Failure(restricted.error)
    else if !FramesWellFormed(restricted.value) then Failure(LibraryError)
    else
      var data := XcurFormat.Write(restricted.value, lanczos);
      if data.Failure? then Failure(data.error)
      else
        CursorPathText(theme, NameText(entry.0));
        Success((PathText(CursorPath(theme, NameText(entry.0))), data.value))
  }

  /** The symlinks of the theme, one slot per row of the link table: `<theme>/cursors/<link>`
      pointing at the role's name, present exactly when the dictionary provides that role. */
  function LinuxLinks(theme: string, d: CursorDict): (r: seq<Option<(string, string)>>)
    ensures |r| == |SymLinks|
    ensures forall j :: 0 <= j < |SymLinks| ==>
      (r[j].Some? <==> Find(d, Named(SymLinks[j].1)).Some?)
    ensures forall j :: 0 <= j < |SymLinks| && r[j].Some? ==>
      r[j].value == (PathText(CursorPath(theme, SymLinks[j].0)), RoleName(SymLinks[j].1))
  {
    seq(|SymLinks|, j requires 0 <= j < |SymLinks| =>
      if Find(d, Named(SymLinks[j].1)).Some?
      then Some((PathText(CursorPath(theme, SymLinks[j].0)), RoleName(SymLinks[j].1)))
      else None)
  }

  /** The thumbnail: the largest icon of the first frame of the default cursor, if the
      dictionary has one. No frame: IndexError; a frame without icons: KeyError. */
  function LinuxThumbnail(d: CursorDict): (r: Result<Option<Image>>)
    ensures Find(d, Named(Default)).None? ==> r == Success(None)
    ensures Find(d, Named(Default)).Some? ==> var ac := d[Find(d, Named(Default)).value].1;
      && (|ac| == 0 ==> r == Failure(IndexError))
      && (|ac| > 0 && |ac[0].cursor| == 0 ==> r == Failure(KeyError))
      && (|ac| > 0 && |ac[0].cursor| > 0 ==>
            (r.Success? && r.value.Some? &&
             exists s :: s in ac[0].cursor && r.value.value == ac[0].cursor[s].image &&
               forall t :: t in ac[0].cursor ==> Area(t) <= Area(s)))
  {
    match Find(d, Named(Default))
    case None => Success(None)
    case Some(i) =>
      var ac := d[i].1;
      if |ac| == 0 then Failure(IndexError)
      else
        match MaxSize(ac[0].cursor)
        case None => Failure(KeyError)
        case Some(s) => Success(Some(ac[0].cursor[s].image))
  }

  /** What the X cursor theme archive holds besides its fixed text files. */
  datatype LinuxTheme = LinuxTheme(
    cursors: seq<(string, seq<byte>)>,
    thumbnail: Option<Image>,
    links: seq<Option<(string, string)>>)

  /** `LinuxThemeBuilder.build_theme`: every cursor in dictionary order (the first failure
      ends the build), then the thumbnail, then the links. */
  function BuildLinux(theme: string, d: CursorDict, lanczos: Resampler): (r: Result<LinuxTheme>)
    requires DictOk(d)
    ensures r.Success? <==>
      (forall i :: 0 <= i < |d| ==> LinuxCursor(theme, d[i], lanczos).Success?) && LinuxThumbnail(d).Success?
    ensures r.Success? ==> |r.value.cursors| == |d|
    ensures r.Success? ==> forall i :: 0 <= i < |d| ==> r.value.cursors[i] == LinuxCursor(theme, d[i], lanczos).value
    ensures r.Success? ==> r.value.links == LinuxLinks(theme, d) && Success(r.value.thumbnail) == LinuxThumbnail(d)
  {
    var cursors :- MapAll(d, (e: (CursorName, AnimatedCursor)) requires FramesWellFormed(e.1) => LinuxCursor(theme, e, lanczos));
    var thumbnail :- LinuxThumbnail(d);
    Success(LinuxTheme(cursors, thumbnail, LinuxLinks(theme, d)))
  }

  // ---------------------------------------------------------------------------
  // Windows: a cursor scheme with an installer (WindowsThemeBuilder)
  // ---------------------------------------------------------------------------

  /** `LEGAL_EXPORT_SIZES` of a Windows cursor scheme. */
  const WinSizes: set<Size> := {(32, 32), (48, 48), (64, 64)}

  /** The Windows entry of a dictionary key. */
  function WinEntryOf(n: CursorName): Option<(RegName, string)> {
    if n.Named? then WinEntry(n.role) else None
  }

  /** `reg_used`: the pseudo-names of the dictionary's Windows cursors. */
  function RegUsed(d: CursorDict): (r: set<RegName>)
    ensures forall g :: g in r <==> exists i :: 0 <= i < |d| && WinEntryOf(d[i].0).Some? && WinEntryOf(d[i].0).value.0 == g
  {
    set i | 0 <= i < |d| && WinEntryOf(d[i].0).Some? :: WinEntryOf(d[i].0).value.0
  }

  /** The registry value of one slot: the installed file of a used pseudo-name, nothing otherwise. */
  function RegSlot(g: RegName, used: set<RegName>): string {
    if g in used then "%10%\\%CUR_DIR%\\%" + RegLabel(g) + "%" else ""
  }

  /** The slots in registry order. */
  function RegSlots(used: set<RegName>): (r: seq<string>)
    ensures |r| == |RegistryOrder|
    ensures forall i :: 0 <= i < |RegistryOrder| ==> r[i] == RegSlot(RegistryOrder[i], used)
  {
    seq(|RegistryOrder|, i requires 0 <= i < |RegistryOrder| => RegSlot(RegistryOrder[i], used))
  }

  /** `reg_list`: the slots joined by commas. */
  function RegList(used: set<RegName>): string {
    Join(RegSlots(used), ',')
  }

  lemma NoCommaInSlot(g: RegName, used: set<RegName>)
    ensures ',' !in RegSlot(g, used)
  {
  }

  /** The registry value has exactly fifteen comma-separated slots in registry order, and a
      slot is non-empty exactly when its pseudo-name is used. */
  lemma RegListSlots(used: set<RegName>)
    ensures |Split(RegList(used), ',')| == 15
    ensures forall i :: 0 <= i < 15 ==>
      Split(RegList(used), ',')[i] == RegSlot(RegistryOrder[i], used) &&
      (Split(RegList(used), ',')[i] != "" <==> RegistryOrder[i] in used)
  {
    var slots := RegSlots(used);
    forall i | 0 <= i < |slots| ensures ',' !in slots[i] {
      NoCommaInSlot(RegistryOrder[i], used);
    }
    SplitJoin(slots, ',');
  }

  /** The file a Windows cursor is installed as: none without frames, `<file>.cur` for one
      frame, `<file>.ani` for more. */
  function WinFileName(base: string, frames: nat): (r: Option<string>)
    ensures r.None? <==> frames == 0
    ensures frames == 1 ==> r == Some(base + ".cur")
    ensures frames > 1 ==> r == Some(base + ".ani")
  {
    if frames == 0 then None
    else if frames == 1 then Some(base + ".cur")
    else Some(base + ".ani")
  }

  /** One installed cursor of the scheme: its pseudo-name, file name and encoded bytes. */
  datatype WinCursor = WinCursor(reg: RegName, fileName: string, data: seq<byte>)

  /** A dictionary entry on Windows: nothing for a role without a Windows cursor; otherwise
      the cursor restricted to the legal sizes and written as .cur (one frame) or .ani (more),
      or nothing when it has no frame. */
  function WinCursorOf(entry: (CursorName, AnimatedCursor), lanczos: Resampler): (r: Result<Option<WinCursor>>)
    requires FramesWellFormed(entry.1)
    ensures WinEntryOf(entry.0).None? ==> r == Success(None)
    ensures WinEntryOf(entry.0).Some? && !AllCanGrow(entry.1, WinSizes) ==> r == Failure(ValueError)
    ensures r.Success? && r.value.Some? ==>
      && WinEntryOf(entry.0).Some?
      && r.value.value.reg == WinEntryOf(entry.0).value.0
      && Some(r.value.value.fileName) == WinFileName(WinEntryOf(entry.0).value.1, |entry.1|)
    ensures r.Success? && WinEntryOf(entry.0).Some? ==> (r.value.None? <==> |entry.1| == 0)
    ensures WinEntryOf(entry.0).Some? ==> (r.Success? <==>
      && AllCanGrow(entry.1, WinSizes)
      && FramesWellFormed(RestrictFrames(entry.1, WinSizes, lanczos).value)
      && (|entry.1| == 1 ==> CurFormat.Write(RestrictFrames(entry.1, WinSizes, lanczos).value[0].cursor).Success?)
      && (|entry.1| > 1 ==> AniFormat.Write(RestrictFrames(entry.1, WinSizes, lanczos).value).Success?))
    ensures r.Success? && r.value.Some? && |entry.1| == 1 ==>
      r.value.value.data == CurFormat.Write(RestrictFrames(entry.1, WinSizes, lanczos).value[0].cursor).value
    ensures r.Success? && r.value.Some? && |entry.1| > 1 ==>
      r.value.value.data == AniFormat.Write(RestrictFrames(entry.1, WinSizes, lanczos).value).value
  {
    match WinEntryOf(entry.0)
    case None => Success(None)
    case Some((reg, base)) =>
      var restricted :- RestrictFrames(entry.1, WinSizes, lanczos);
      if !FramesWellFormed(restricted) then Failure(LibraryError)
      else if |restricted| == 0 then Success(None)
      else if |restricted| == 1 then
        var data :- CurFormat.Write(restricted[0].cursor);
        Success(Some(WinCursor(reg, base + ".cur", data)))
      else
        var data :- AniFormat.Write(restricted);
        Success(Some(WinCursor(reg, base + ".ani", data)))
  }

  /** What the Windows scheme archive holds besides the installer text: the registry value and
      one slot per dictionary entry, filled for each installed cursor. */
  datatype WinScheme = WinScheme(regList: string, cursors: seq<Option<WinCursor>>)

  /** `WindowsThemeBuilder.build_theme`. */
  function BuildWindows(d: CursorDict, lanczos: Resampler): (r: Result<WinScheme>)
    requires DictOk(d)
    ensures r.Success? <==> forall i :: 0 <= i < |d| ==> WinCursorOf(d[i], lanczos).Success?
    ensures r.Success? ==> r.value.regList == RegList(RegUsed(d))
    ensures r.Success? ==> |r.value.cursors| == |d|
    ensures r.Success? ==> forall i :: 0 <= i < |d| ==> r.value.cursors[i] == WinCursorOf(d[i], lanczos).value
  {
    var cursors :- MapAll(d, (e: (CursorName, AnimatedCursor)) requires FramesWellFormed(e.1) => WinCursorOf(e, lanczos));
    Success(WinScheme(RegList(RegUsed(d)), cursors))
  }

  /** Two installed cursors of one scheme never share a pseudo-name, so none replaces
      another in the installer's list. */
  lemma WinCursorsDistinct(d: CursorDict, lanczos: Resampler, i: nat, j: nat)
    requires DictOk(d) && BuildWindows(d, lanczos).Success?
    requires i < j < |d|
    requires BuildWindows(d, lanczos).value.cursors[i].Some? && BuildWindows(d, lanczos).value.cursors[j].Some?
    ensures BuildWindows(d, lanczos).value.cursors[i].value.reg != BuildWindows(d, lanczos).value.cursors[j].value.reg
  {
    var ri, rj := d[i].0.role, d[j].0.role;
    WinEntriesDistinct(ri);
    WinEntriesDistinct(rj);
  }

  /** Every used pseudo-name has an installed cursor unless its cursor has no frame. */
  lemma UsedSlotsInstalled(d: CursorDict, lanczos: Resampler, i: nat)
    requires DictOk(d) && BuildWindows(d, lanczos).Success?
    requires i < |d| && WinEntryOf(d[i].0).Some? && |d[i].1| > 0
    ensures WinEntryOf(d[i].0).value.0 in RegUsed(d)
    ensures BuildWindows(d, lanczos).value.cursors[i].Some?
  {
  }

  // ---------------------------------------------------------------------------
  // The preview grid (PreviewPictureBuilder)
  // ---------------------------------------------------------------------------

  /** `s` is ordered by `key`. */
  predicate SortedBy<T>(s: seq<T>, key: T -> int) {
    forall i, j :: 0 <= i < j < |s| ==> key(s[i]) <= key(s[j])
  }

  /** No two elements of `s` share a `name`. */
  predicate DistinctBy<T, K(==)>(s: seq<T>, name: T -> K) {
    forall i, j :: 0 <= i < j < |s| ==> name(s[i]) != name(s[j])
  }

  /** Insert `x` before the first element of larger key, after the equal ones. */
  function InsertBy<T>(x: T, s: seq<T>, key: T -> int): (r: seq<T>)
    requires SortedBy(s, key)
    ensures SortedBy(r, key) && multiset(r) == multiset(s) + multiset{x}
    ensures forall k :: 0 <= k < |r| ==> r[k] == x || r[k] in s
    decreases |s|
  {
    if |s| == 0 then [x]
    else if key(x) <= key(s[0]) then [x] + s
    else
      var rest := InsertBy(x, s[1..], key);
      assert s == [s[0]] + s[1..];
      assert multiset([s[0]] + rest) == multiset{s[0]} + multiset(rest);
      [s[0]] + rest
  }

  /** Insertion keeps names distinct when the new name is not there yet. */
  lemma {:induction false} InsertDistinct<T, K>(x: T, s: seq<T>, key: T -> int, name: T -> K)
    requires SortedBy(s, key) && DistinctBy(s, name)
    requires forall k :: 0 <= k < |s| ==> name(s[k]) != name(x)
    ensures DistinctBy(InsertBy(x, s, key), name)
    decreases |s|
  {
    if |s| > 0 && key(x) > key(s[0]) {
      InsertDistinct(x, s[1..], key, name);
      var rest := InsertBy(x, s[1..], key);
      forall k | 0 <= k < |rest| ensures name(rest[k]) != name(s[0]) {
        if rest[k] != x {
          var m :| 1 <= m < |s| && s[m] == rest[k];
        }
      }
    }
  }

  /** `sorted(s, key=...)`: a stable insertion sort. */
  function SortBy<T>(s: seq<T>, key: T -> int): (r: seq<T>)
    ensures SortedBy(r, key) && multiset(r) == multiset(s)
    ensures forall k :: 0 <= k < |r| ==> r[k] in s
    decreases |s|
  {
    if |s| == 0 then []
    else
      assert s == [s[0]] + s[1..];
      var rest := SortBy(s[1..], key);
      assert forall k :: 0 <= k < |rest| ==> rest[k] in s;
      InsertBy(s[0], rest, key)
  }

  /** Sorting keeps names distinct. */
  lemma {:induction false} SortDistinct<T, K>(s: seq<T>, key: T -> int, name: T -> K)
    requires DistinctBy(s, name)
    ensures DistinctBy(SortBy(s, key), name)
    decreases |s|
  {
    if |s| > 0 {
      SortDistinct(s[1..], key, name);
      var rest := SortBy(s[1..], key);
      forall k | 0 <= k < |rest| ensures name(rest[k]) != name(s[0]) {
        var m :| 0 <= m < |s[1..]| && s[1..][m] == rest[k];
        assert s[m + 1] == rest[k];
      }
      InsertDistinct(s[0], rest, key, name);
    }
  }

  /** The sort key of the preview: the role's position in the preview order. */
  function PreviewKey(e: (CursorName, AnimatedCursor)): int {
    if e.0.Named? then OrderIndex(e.0.role) else 0
  }

  /** The name of a dictionary entry. */
  function EntryName(e: (CursorName, AnimatedCursor)): CursorName {
    e.0
  }

  /** The preview order. A key outside the roles has no position, and comparing it raises
      TypeError as soon as there are two entries to compare. */
  function PreviewOrder(d: CursorDict): (r: Result<CursorDict>)
    ensures r.Failure? <==> |d| >= 2 && exists i :: 0 <= i < |d| && d[i].0.Custom?
    ensures r.Failure? ==> r.error == TypeError
    ensures r.Success? ==> multiset(r.value) == multiset(d)
    ensures r.Success? ==> |r.value| == |d| && forall k :: 0 <= k < |d| ==> r.value[k] in d
    ensures r.Success? ==> forall i, j :: 0 <= i < j < |r.value| ==>
      r.value[i].0.Named? && r.value[j].0.Named? && OrderIndex(r.value[i].0.role) <= OrderIndex(r.value[j].0.role)
  {
    if |d| < 2 then Success(d)
    else if exists i :: 0 <= i < |d| && d[i].0.Custom? then Failure(TypeError)
    else
      var sorted := SortBy(d, PreviewKey);
      assert forall k :: 0 <= k < |sorted| ==> sorted[k].0.Named?;
      assert |sorted| == |d| by {
        assert |multiset(sorted)| == |multiset(d)|;
      }
      Success(sorted)
  }

  /** Distinct roles have distinct positions in the preview order. */
  lemma OrderIndexInjective(a: Role, b: Role)
    requires a != b
    ensures OrderIndex(a) != OrderIndex(b)
  {
    assert CursorOrder[OrderIndex(a)] == a && CursorOrder[OrderIndex(b)] == b;
  }

  /** With distinct keys the preview order is strictly increasing in the roles' positions,
      and it holds every entry exactly once. */
  lemma PreviewOrderStrict(d: CursorDict)
    requires DictOk(d) && PreviewOrder(d).Success?
    ensures var s := PreviewOrder(d).value;
      DistinctBy(s, EntryName) &&
      forall i, j :: 0 <= i < j < |s| ==> PreviewKey(s[i]) < PreviewKey(s[j])
  {
    var s := PreviewOrder(d).value;
    if |d| >= 2 {
      assert DistinctBy(d, EntryName);
      SortDistinct(d, PreviewKey, EntryName);
      forall i, j | 0 <= i < j < |s| ensures PreviewKey(s[i]) < PreviewKey(s[j]) {
        assert EntryName(s[i]) != EntryName(s[j]);
        OrderIndexInjective(s[i].0.role, s[j].0.role);
      }
    }
  }

  /** `SIZE_PER_CURSOR`: every cell is twice this wide, and centred. */
  const CellHalf: int := 64

  /** `int(ceil(sqrt(n)))`: the side of the smallest square grid with n cells. */
  function GridSide(n: nat): (w: nat)
    ensures w * w >= n && (w == 0 || (w - 1) * (w - 1) < n)
    ensures w > 0 <==> n > 0
  {
    SideFrom(n, 0)
  }

  function SideFrom(n: nat, w: nat): (r: nat)
    requires w == 0 || (w - 1) * (w - 1) < n
    ensures r * r >= n && (r == 0 || (r - 1) * (r - 1) < n)
    decreases n - w
  {
    if w * w >= n then w
    else
      assert w < n by {
        if w >= n {
          MulLe(w, n, w);
          MulLe(n, 1, w);
        }
      }
      SideFrom(n, w + 1)
  }

  /** The centre of cell i of a grid w cells wide, filled row by row. */
  function CellCentre(i: nat, w: nat): (int, int)
    requires w > 0
  {
    ((i % w) * 2 * CellHalf + CellHalf, (i / w) * 2 * CellHalf + CellHalf)
  }

  /** The cells of the first n entries are distinct and lie inside the w x w grid picture. */
  lemma CellsInside(i: nat, j: nat, n: nat)
    requires i < n && j < n && i != j
    ensures GridSide(n) > 0
    ensures var w := GridSide(n); var c := CellCentre(i, w);
      CellHalf <= c.0 && c.0 + CellHalf <= w * 2 * CellHalf && CellHalf <= c.1 && c.1 + CellHalf <= w * 2 * CellHalf
    ensures CellCentre(i, GridSide(n)) != CellCentre(j, GridSide(n))
  {
    var w := GridSide(n);
    DivBelow(i, w, w);
    assert i == w * (i / w) + i % w;
    assert j == w * (j / w) + j % w;
  }

  /** One preview tile: the centre of its cell and the top-left corner the icon is pasted at. */
  datatype Tile = Tile(name: CursorName, centre: (int, int), corner: (int, int), image: Image)

  /** The 64 x 64 size the preview shows. */
  const PreviewSize: Size := (64, 64)

  /** The icon the preview shows of a cursor: its first frame at the preview size. */
  function PreviewIcon(ac: AnimatedCursor, lanczos: Resampler): Icon
    requires FramesWellFormed(ac) && AllCanGrow(ac, {PreviewSize}) && |ac| > 0
  {
    RestrictFrames(ac, {PreviewSize}, lanczos).value[0].cursor[PreviewSize]
  }

  /** Cell i: the cursor restricted to the preview size, its first frame's icon pasted so
      that its hotspot falls on the cell centre. No frame: IndexError. */
  function PreviewTile(e: (CursorName, AnimatedCursor), i: nat, w: nat, lanczos: Resampler): (r: Result<Tile>)
    requires w > 0 && FramesWellFormed(e.1)
    ensures !AllCanGrow(e.1, {PreviewSize}) ==> r == Failure(ValueError)
    ensures AllCanGrow(e.1, {PreviewSize}) && |e.1| == 0 ==> r == Failure(IndexError)
    ensures r.Success? ==> AllCanGrow(e.1, {PreviewSize}) && |e.1| > 0
    ensures r.Success? ==> r.value.name == e.0 && r.value.centre == CellCentre(i, w)
    ensures r.Success? ==>
      && r.value.corner.0 + PreviewIcon(e.1, lanczos).hotspot.0 == r.value.centre.0
      && r.value.corner.1 + PreviewIcon(e.1, lanczos).hotspot.1 == r.value.centre.1
      && r.value.image == PreviewIcon(e.1, lanczos).image
  {
    var restricted := RestrictFrames(e.1, {PreviewSize}, lanczos);
    if restricted.Failure? then Failure(restricted.error)
    else if |restricted.value| == 0 then Failure(IndexError)
    else
      var icon := PreviewIcon(e.1, lanczos);
      var centre := CellCentre(i, w);
      Success(Tile(e.0, centre, (centre.0 - icon.hotspot.0, centre.1 - icon.hotspot.1), icon.image))
  }

  /** A pasted icon of a well-formed 64 x 64 frame lies inside its own cell. */
  lemma TileInsideCell(t: Tile, icon: Icon)
    requires ValidIcon(icon) && SizeOf(icon.image) == PreviewSize
    requires t.corner == (t.centre.0 - icon.hotspot.0, t.centre.1 - icon.hotspot.1)
    ensures t.centre.0 - CellHalf < t.corner.0 && t.corner.0 + 64 <= t.centre.0 + CellHalf
    ensures t.centre.1 - CellHalf < t.corner.1 && t.corner.1 + 64 <= t.centre.1 + CellHalf
  {
  }

  /** The preview picture: its side in pixels and one tile per entry in preview order. */
  datatype Preview = Preview(side: int, tiles: seq<Tile>)

  /** `enumerate(xs)`. */
  function Enumerate<A>(xs: seq<A>): (r: seq<(nat, A)>)
    ensures |r| == |xs| && forall i :: 0 <= i < |xs| ==> r[i] == (i, xs[i])
  {
    seq(|xs|, i requires 0 <= i < |xs| => (i, xs[i]))
  }

  /** The tiles of the entries in order, the first failing entry failing them all. */
  function PlaceTiles(s: CursorDict, w: nat, lanczos: Resampler): (r: Result<seq<Tile>>)
    requires w > 0 && forall k :: 0 <= k < |s| ==> FramesWellFormed(s[k].1)
    ensures r.Success? <==> forall k :: 0 <= k < |s| ==> PreviewTile(s[k], k, w, lanczos).Success?
    ensures r.Success? ==> |r.value| == |s| && forall k :: 0 <= k < |s| ==> r.value[k] == PreviewTile(s[k], k, w, lanczos).value
  {
    var cells := Enumerate(s);
    var tile := (p: (nat, (CursorName, AnimatedCursor))) requires FramesWellFormed(p.1.1) => PreviewTile(p.1, p.0, w, lanczos);
    assert forall k :: 0 <= k < |s| ==> tile(cells[k]) == PreviewTile(s[k], k, w, lanczos);
    MapAll(cells, tile)
  }

  /** `PreviewPictureBuilder.build_theme`: a square picture of ceil(sqrt(n)) cells a side,
      128 pixels each, the cursors in preview order row by row. */
  function BuildPreview(d: CursorDict, lanczos: Resampler): (r: Result<Preview>)
    requires DictOk(d)
    ensures PreviewOrder(d).Failure? ==> r == Failure(TypeError)
    ensures r.Success? <==> (PreviewOrder(d).Success? &&
      forall k :: 0 <= k < |d| ==> PreviewTile(PreviewOrder(d).value[k], k, GridSide(|d|), lanczos).Success?)
    ensures r.Success? ==> r.value.side == GridSide(|d|) * 2 * CellHalf && |r.value.tiles| == |d|
    ensures r.Success? ==> forall k :: 0 <= k < |d| ==>
      r.value.tiles[k] == PreviewTile(PreviewOrder(d).value[k], k, GridSide(|d|), lanczos).value
  {
    var order := PreviewOrder(d);
    if order.Failure? then Failure(order.error)
    else
      var w := GridSide(|d|);
      if w == 0 then Success(Preview(0, []))
      else
        var tiles := PlaceTiles(order.value, w, lanczos);
        if tiles.Failure? then Failure(tiles.error)
        else Success(Preview(w * 2 * CellHalf, tiles.value))
  }
}

=== FILE: cursor.dfy ===
/** The cursor data model (CursorCreate/lib/cursor.py).

  A CursorIcon is one raster with a hotspot inside it; a Cursor maps each size to
  the icon of that size; an AnimatedCursor is a playback-ordered sequence of
  (Cursor, delay in milliseconds) frames.

  The raster library's Lanczos pad-and-resize is outside the model: operations that
  synthesise a size take it as a `Resampler` that returns the new pixels.
 */
module CursorModel {
  import opened Wrappers
  import opened FormatCore

  /** (width, height); Python orders these tuples lexicographically. */
  type Size = (int, int)

  datatype Rgba = Rgba(r: byte, g: byte, b: byte, a: byte)

  /** One channel of a pixel in the blue, green, red, alpha order both bitmap and Xcursor data store. */
  function Channel(p: Rgba, c: int): byte
    requires 0 <= c < 4
  {
    if c == 0 then p.b else if c == 1 then p.g else if c == 2 then p.r else p.a
  }

  /** A raster of `width` x `height` pixels, row-major, top row first. */
  datatype Image = Image(width: int, height: int, pixels: seq<Rgba>)

  function SizeOf(img: Image): Size {
    (img.width, img.height)
  }

  predicate ValidImage(img: Image) {
    img.width >= 0 && img.height >= 0 && |img.pixels| == img.width * img.height
  }

  /** What the raster library produces: an image whose pixel count matches its size. */
  type StoredImage = img: Image | ValidImage(img) witness Image(0, 0, [])

  /** An icon: an immutable image and a hotspot that must lie inside it. */
  datatype Icon = Icon(image: Image, hotspot: (int, int))

  predicate HotspotInside(img: Image, x: int, y: int) {
    0 <= x < img.width && 0 <= y < img.height
  }

  predicate ValidIcon(icon: Icon) {
    ValidImage(icon.image) && HotspotInside(icon.image, icon.hotspot.0, icon.hotspot.1)
  }

  /** `CursorIcon(img, x, y)`: the hotspot setter rejects a point outside the image with ValueError. */
  function MakeIcon(img: Image, x: int, y: int): (r: Result<Icon>)
    ensures r.Success? <==> 0 <= x < img.width && 0 <= y < img.height
    ensures r.Failure? ==> r.error == ValueError
    ensures r.Success? ==> r.value.image == img && r.value.hotspot == (x, y)
    ensures r.Success? && ValidImage(img) ==> ValidIcon(r.value)
  {
    if HotspotInside(img, x, y) then Success(Icon(img, (x, y))) else Failure(ValueError)
  }

  /** The `hotspot` property setter: same check as construction, the image is kept. */
  function SetHotspot(icon: Icon, x: int, y: int): (r: Result<Icon>)
    ensures r.Success? <==> 0 <= x < icon.image.width && 0 <= y < icon.image.height
    ensures r.Success? ==> r.value.image == icon.image && r.value.hotspot == (x, y)
  {
    MakeIcon(icon.image, x, y)
  }

  // ---------------------------------------------------------------------------
  // Sizes
  // ---------------------------------------------------------------------------

  function Area(s: Size): int {
    s.0 * s.1
  }

  predicate IsSquare(s: Size) {
    s.0 == s.1
  }

  predicate Positive(s: Size) {
    s.0 > 0 && s.1 > 0
  }

  /** Python's tuple order on sizes, strict. */
  predicate SizeLess(a: Size, b: Size) {
    a.0 < b.0 || (a.0 == b.0 && a.1 < b.1)
  }

  predicate IsLeast(m: Size, s: set<Size>) {
    m in s && forall x :: x in s ==> x == m || SizeLess(m, x)
  }

  lemma {:induction false} LeastExists(s: set<Size>)
    requires s != {}
    ensures exists m :: IsLeast(m, s)
  {
    var m :| m in s;
    if s != {m} {
      var rest := s - {m};
      LeastExists(rest);
      var m' :| IsLeast(m', rest);
      if SizeLess(m', m) {
        assert IsLeast(m', s);
      } else {
        assert m' != m && SizeLess(m, m');
        forall x | x in s ensures x == m || SizeLess(m, x) {
          if x != m {
            assert x in rest;
          }
        }
        assert IsLeast(m, s);
      }
    } else {
      assert IsLeast(m, s);
    }
  }

  predicate StrictlyAscending(ss: seq<Size>) {
    forall i, j :: 0 <= i < j < |ss| ==> SizeLess(ss[i], ss[j])
  }

  /** `sorted(sizes)`: the sizes in ascending tuple order. */
  function SortedSizes(s: set<Size>): (r: seq<Size>)
    ensures |r| == |s|
    ensures forall x :: x in r <==> x in s
    ensures StrictlyAscending(r)
    decreases |s|
  {
    if s == {} then []
    else
      LeastExists(s);
      var m :| IsLeast(m, s);
      var rest := SortedSizes(s - {m});
      assert forall x :: x in rest ==> SizeLess(m, x);
      [m] + rest
  }

  // ---------------------------------------------------------------------------
  // Cursor: a map from size to the icon of that size
  // ---------------------------------------------------------------------------

  type Cursor = map<Size, Icon>

  /** Every icon is stored under its own image size and is itself valid. */
  predicate WellFormed(c: Cursor) {
    forall s :: s in c ==> SizeOf(c[s].image) == s && ValidIcon(c[s])
  }

  lemma WellFormedSizesPositive(c: Cursor, s: Size)
    requires WellFormed(c) && s in c
    ensures Positive(s)
  {
  }

  /** `Cursor.add`: store the icon under its own size, replacing any icon of that size. */
  function Add(c: Cursor, icon: Icon): (r: Cursor)
    ensures r.Keys == c.Keys + {SizeOf(icon.image)}
    ensures r[SizeOf(icon.image)] == icon
    ensures forall s :: s in c && s != SizeOf(icon.image) ==> r[s] == c[s]
    ensures WellFormed(c) && ValidIcon(icon) ==> WellFormed(r)
  {
    c[SizeOf(icon.image) := icon]
  }

  /** Position i holds the last icon of its size among `icons`. */
  predicate LastOfSize(icons: seq<Icon>, i: int) {
    0 <= i < |icons| && forall j :: i < j < |icons| ==> SizeOf(icons[j].image) != SizeOf(icons[i].image)
  }

  /** `Cursor(icons)` / `extend`: add the icons in order, so a later icon replaces an earlier one of the same size. */
  function FromIcons(icons: seq<Icon>): (r: Cursor)
    ensures (forall i :: 0 <= i < |icons| ==> ValidIcon(icons[i])) ==> WellFormed(r)
    decreases |icons|
  {
    if |icons| == 0 then map[] else Add(FromIcons(icons[..|icons| - 1]), icons[|icons| - 1])
  }

  /** The sizes of a cursor built from icons are exactly the sizes of the icons. */
  lemma {:induction false} FromIconsKeys(icons: seq<Icon>)
    ensures forall s :: s in FromIcons(icons) <==> exists i :: 0 <= i < |icons| && SizeOf(icons[i].image) == s
  {
    if |icons| > 0 {
      var n := |icons| - 1;
      var prefix := icons[..n];
      FromIconsKeys(prefix);
      assert FromIcons(icons) == Add(FromIcons(prefix), icons[n]);
      forall s ensures s in FromIcons(icons) <==> exists i :: 0 <= i < |icons| && SizeOf(icons[i].image) == s {
        OccursSplit(icons, s);
      }
    }
  }

  /** A size occurs among the icons when it occurs among all but the last, or is the last's. */
  lemma OccursSplit(icons: seq<Icon>, s: Size)
    requires |icons| > 0
    ensures var n := |icons| - 1;
      (exists i :: 0 <= i < |icons| && SizeOf(icons[i].image) == s)
      <==> (exists i :: 0 <= i < n && SizeOf(icons[..n][i].image) == s) || SizeOf(icons[n].image) == s
  {
    var n := |icons| - 1;
    if exists i :: 0 <= i < |icons| && SizeOf(icons[i].image) == s {
      var i :| 0 <= i < |icons| && SizeOf(icons[i].image) == s;
      if i < n {
        assert SizeOf(icons[..n][i].image) == s;
      }
    }
    if exists i :: 0 <= i < n && SizeOf(icons[..n][i].image) == s {
      var i :| 0 <= i < n && SizeOf(icons[..n][i].image) == s;
      assert SizeOf(icons[i].image) == s;
    }
  }

  /** Each size holds the last icon of that size. */
  lemma {:induction false} FromIconsLastWins(icons: seq<Icon>, i: int)
    requires LastOfSize(icons, i)
    ensures SizeOf(icons[i].image) in FromIcons(icons)
    ensures FromIcons(icons)[SizeOf(icons[i].image)] == icons[i]
  {
    var n := |icons| - 1;
    if i < n {
      var prefix := icons[..n];
      assert LastOfSize(prefix, i);
      FromIconsLastWins(prefix, i);
    }
  }

  /** The icons of a cursor in ascending size order, as `sorted(cursor)` visits them. */
  function IconsInOrder(c: Cursor): (r: seq<Icon>)
    ensures |r| == |SortedSizes(c.Keys)|
    ensures forall k :: 0 <= k < |r| ==> r[k] == c[SortedSizes(c.Keys)[k]]
  {
    var ss := SortedSizes(c.Keys);
    seq(|ss|, k requires 0 <= k < |ss| => c[ss[k]])
  }

  /** In ascending order every size occurs once, so each icon is the last of its size. */
  lemma InOrderLastOfSize(c: Cursor, i: int)
    requires WellFormed(c) && 0 <= i < |c|
    ensures LastOfSize(IconsInOrder(c), i)
  {
    var ss := SortedSizes(c.Keys);
    var icons := IconsInOrder(c);
    forall j | i < j < |icons| ensures SizeOf(icons[j].image) != SizeOf(icons[i].image) {
      assert SizeLess(ss[i], ss[j]);
      assert ss[i] in c && ss[j] in c;
    }
  }

  lemma RebuildHas(c: Cursor, s: Size)
    requires WellFormed(c) && s in c
    ensures s in FromIcons(IconsInOrder(c)) && FromIcons(IconsInOrder(c))[s] == c[s]
  {
    var ss := SortedSizes(c.Keys);
    assert s in ss;
    var i :| 0 <= i < |ss| && ss[i] == s;
    InOrderLastOfSize(c, i);
    FromIconsLastWins(IconsInOrder(c), i);
  }

  lemma RebuildOnly(c: Cursor)
    requires WellFormed(c)
    ensures forall s :: s in FromIcons(IconsInOrder(c)) ==> s in c
  {
    var ss := SortedSizes(c.Keys);
    var icons := IconsInOrder(c);
    FromIconsKeys(icons);
    forall s | s in FromIcons(icons) ensures s in c {
      var i :| 0 <= i < |icons| && SizeOf(icons[i].image) == s;
      assert ss[i] in c;
    }
  }

  /** Adding a cursor's icons back in ascending size order rebuilds the cursor. */
  lemma RebuildInOrder(c: Cursor)
    requires WellFormed(c)
    ensures FromIcons(IconsInOrder(c)) == c
  {
    var r := FromIcons(IconsInOrder(c));
    RebuildOnly(c);
    forall s | s in c ensures s in r && r[s] == c[s] {
      RebuildHas(c, s);
    }
  }

  /** `del cursor[size]`: KeyError when the size is absent. */
  function Delete(c: Cursor, s: Size): (r: Result<Cursor>)
    ensures r.Success? <==> s in c
    ensures r.Failure? ==> r.error == KeyError
    ensures r.Success? ==> r.value.Keys == c.Keys - {s} && forall t :: t in r.value ==> r.value[t] == c[t]
  {
    if s in c then Success(c - {s}) else Failure(KeyError)
  }

  /** The first size in the sequence with maximal area (Python's `max` keeps the first of equals). */
  function FirstMaxArea(ss: seq<Size>): (r: Size)
    requires |ss| > 0
    ensures r in ss
    ensures forall s :: s in ss ==> Area(s) <= Area(r)
  {
    if |ss| == 1 then ss[0]
    else
      var best := FirstMaxArea(ss[1..]);
      assert forall s :: s in ss ==> s == ss[0] || s in ss[1..];
      if Area(ss[0]) >= Area(best) then ss[0] else best
  }

  /** `max_size`: None for an empty cursor, otherwise a stored size of maximal area. */
  function MaxSize(c: Cursor): (r: Option<Size>)
    ensures r.None? <==> |c| == 0
    ensures r.Some? ==> r.value in c && forall s :: s in c ==> Area(s) <= Area(r.value)
  {
    if |c| == 0 then None
    else
      var sorted := SortedSizes(c.Keys);
      Some(FirstMaxArea(sorted))
  }

  /** The pixel work of `ImageOps.pad(img, size).resize(size)`: the pixels of the new raster. */
  type Resampler = (Image, Size) -> seq<Rgba>

  /** A resampler returns exactly width * height pixels for any positive target size. */
  ghost predicate ResamplerOk(lanczos: Resampler) {
    forall img: Image, s: Size :: Positive(s) ==> |lanczos(img, s)| == s.0 * s.1
  }

  /** h/m as a real number: where a coordinate sits across an axis of length m. */
  function Fraction(h: int, m: int): real
    requires m > 0
  {
    h as real / m as real
  }

  /** The letterbox geometry of `add_sizes` for fitting size `m` into size `s`:
      (horizontal offset, vertical offset, fitted width, fitted height). The image is
      scaled to fill the tighter axis and centred on the other one. */
  function Letterbox(m: Size, s: Size): (real, real, real, real)
    requires Positive(m) && Positive(s)
  {
    var mw, mh := m.0 as real, m.1 as real;
    var sw, sh := s.0 as real, s.1 as real;
    if sw / mw <= sh / mh then
      var finalH := (mh / mw) * sw;
      (0.0, (sh - finalH) / 2.0, sw, finalH)
    else
      var finalW := (mw / mh) * sh;
      ((sw - finalW) / 2.0, 0.0, finalW, sh)
  }

  /** Where `add_sizes` puts the hotspot `hot` of an `m`-sized icon in the new `s`-sized one:
      it moves with the letterboxed image and is truncated to an integer. */
  function ScaledHotspot(m: Size, hot: (int, int), s: Size): (int, int)
    requires Positive(m) && Positive(s)
  {
    var box := Letterbox(m, s);
    (ScaledAxis(box.0, Fraction(hot.0, m.0), box.2), ScaledAxis(box.1, Fraction(hot.1, m.1), box.3))
  }

  /** One coordinate of a moved hotspot: the bar offset plus the fraction of the fitted
      length, truncated. */
  function ScaledAxis(off: real, f: real, len: real): int {
    (off + f * len).Floor
  }

  /** The icon `add_sizes` synthesises for a missing size `s` from the largest icon `src`. */
  function SynthIcon(src: Icon, s: Size, lanczos: Resampler): (r: Icon)
    requires ValidIcon(src) && Positive(s)
    ensures SizeOf(r.image) == s
  {
    Icon(Image(s.0, s.1, lanczos(src.image, s)), ScaledHotspot(SizeOf(src.image), src.hotspot, s))
  }

  /** The sizes `add_sizes` has to synthesise can all be synthesised: each is positive. */
  predicate CanSynthesize(c: Cursor, sizes: set<Size>) {
    forall s :: s in sizes && s !in c ==> Positive(s)
  }

  /** What a successful `add_sizes` leaves behind: every requested size is present, present
      sizes keep their icons, and each missing size holds an icon synthesised from the largest one. */
  ghost predicate Grown(c: Cursor, sizes: set<Size>, lanczos: Resampler, r: Cursor) {
    && WellFormed(c)
    && |c| > 0
    && r.Keys == c.Keys + sizes
    && (forall s :: s in c ==> r[s] == c[s])
    && (forall s :: s in sizes && s !in c ==> Positive(s) && r[s] == SynthIcon(c[MaxSize(c).value], s, lanczos))
  }

  /** The icons `add_sizes` adds to a non-empty cursor. */
  function Synthesized(c: Cursor, sizes: set<Size>, lanczos: Resampler): (r: Cursor)
    requires WellFormed(c) && |c| > 0 && CanSynthesize(c, sizes)
    ensures r.Keys == sizes - c.Keys
    ensures forall s :: s in r ==> r[s] == SynthIcon(c[MaxSize(c).value], s, lanczos)
    ensures ResamplerOk(lanczos) ==> WellFormed(r)
  {
    var m := MaxSize(c).value;
    var src := c[m];
    var added := map s | s in sizes && s !in c :: SynthIcon(src, s, lanczos);
    assert ResamplerOk(lanczos) ==> WellFormed(added) by {
      if ResamplerOk(lanczos) {
        forall s | s in added ensures SizeOf(added[s].image) == s && ValidIcon(added[s]) {
          ScaledHotspotInside(m, src.hotspot, s);
        }
      }
    }
    added
  }

  /** `add_sizes`: an empty cursor, or a missing size that is not positive, raises ValueError. */
  function AddSizes(c: Cursor, sizes: set<Size>, lanczos: Resampler): (r: Result<Cursor>)
    requires WellFormed(c)
    ensures r.Success? <==> |c| > 0 && CanSynthesize(c, sizes)
    ensures r.Failure? ==> r.error == ValueError
    ensures r.Success? ==> Grown(c, sizes, lanczos, r.value)
    ensures r.Success? && ResamplerOk(lanczos) ==> WellFormed(r.value)
  {
    if |c| == 0 || !CanSynthesize(c, sizes) then Failure(ValueError)
    else
      SynthesizedGrows(c, sizes, lanczos);
      Success(c + Synthesized(c, sizes, lanczos))
  }

  /** The cursor with the synthesised icons added has grown by exactly the requested sizes. */
  lemma SynthesizedGrows(c: Cursor, sizes: set<Size>, lanczos: Resampler)
    requires WellFormed(c) && |c| > 0 && CanSynthesize(c, sizes)
    ensures Grown(c, sizes, lanczos, c + Synthesized(c, sizes, lanczos))
    ensures ResamplerOk(lanczos) ==> WellFormed(c + Synthesized(c, sizes, lanczos))
  {
    var added := Synthesized(c, sizes, lanczos);
    var r := c + added;
    assert r.Keys == c.Keys + sizes;
  }

  /** `restrict_to_sizes`: afterwards the cursor holds exactly the requested sizes. */
  function RestrictToSizes(c: Cursor, sizes: set<Size>, lanczos: Resampler): (r: Result<Cursor>)
    requires WellFormed(c)
    ensures r.Success? <==> |c| > 0 && CanSynthesize(c, sizes)
    ensures r.Failure? ==> r.error == ValueError
    ensures r.Success? ==> r.value.Keys == sizes
    ensures r.Success? ==> forall s :: s in c && s in sizes ==> r.value[s] == c[s]
    ensures r.Success? && ResamplerOk(lanczos) ==> WellFormed(r.value)
  {
    var grown :- AddSizes(c, sizes, lanczos);
    Success(map s | s in grown && s in sizes :: grown[s])
  }

  /** `remove_non_square_sizes`: only square sizes remain, with their icons untouched. */
  function RemoveNonSquare(c: Cursor): (r: Cursor)
    ensures forall s :: s in r <==> s in c && IsSquare(s)
    ensures forall s :: s in r ==> r[s] == c[s]
    ensures WellFormed(c) ==> WellFormed(r)
  {
    map s | s in c && IsSquare(s) :: c[s]
  }

  // ---------------------------------------------------------------------------
  // Hotspot geometry of add_sizes
  // ---------------------------------------------------------------------------

  /** Fitting `m` into `s` along the tighter axis leaves the other axis no larger than `s`. */
  lemma FitsOtherAxis(mw: real, mh: real, sw: real, sh: real)
    requires mw > 0.0 && mh > 0.0 && sw > 0.0 && sh > 0.0
    requires sw / mw <= sh / mh
    ensures 0.0 < (mh / mw) * sw <= sh
  {
    assert (mh / mw) * sw == mh * (sw / mw);
    assert mh * (sw / mw) <= mh * (sh / mh);
  }

  /** The letterboxed image lies inside the target size. */
  lemma LetterboxInside(m: Size, s: Size)
    requires Positive(m) && Positive(s)
    ensures var box := Letterbox(m, s);
      0.0 <= box.0 && 0.0 < box.2 && box.0 + box.2 <= s.0 as real &&
      0.0 <= box.1 && 0.0 < box.3 && box.1 + box.3 <= s.1 as real
  {
    var mw, mh := m.0 as real, m.1 as real;
    var sw, sh := s.0 as real, s.1 as real;
    if sw / mw <= sh / mh {
      FitsOtherAxis(mw, mh, sw, sh);
    } else {
      FitsOtherAxis(mh, mw, sh, sw);
    }
  }

  lemma ScaleBelow(f: real, x: real)
    requires 0.0 <= f < 1.0 && x > 0.0
    ensures 0.0 <= f * x < x
  {
  }

  lemma OffsetInside(off: real, f: real, len: real, n: int)
    requires 0.0 <= off && 0.0 < len && off + len <= n as real
    requires 0.0 <= f < 1.0
    ensures 0 <= ScaledAxis(off, f, len) < n
  {
    ScaleBelow(f, len);
  }

  /** A synthesised hotspot always lands inside the new size, so `add_sizes` never trips the hotspot check. */
  lemma ScaledHotspotInside(m: Size, hot: (int, int), s: Size)
    requires Positive(m) && Positive(s)
    requires 0 <= hot.0 < m.0 && 0 <= hot.1 < m.1
    ensures 0 <= ScaledHotspot(m, hot, s).0 < s.0
    ensures 0 <= ScaledHotspot(m, hot, s).1 < s.1
  {
    LetterboxInside(m, s);
    var box := Letterbox(m, s);
    FractionBelow(hot.0, m.0);
    FractionBelow(hot.1, m.1);
    OffsetInside(box.0, Fraction(hot.0, m.0), box.2, s.0);
    OffsetInside(box.1, Fraction(hot.1, m.1), box.3, s.1);
  }

  /** A coordinate inside a side is a fraction of that side below one. */
  lemma FractionBelow(h: int, m: int)
    requires 0 <= h < m
    ensures 0.0 <= Fraction(h, m) < 1.0
  {
    assert h as real < m as real;
  }

  /** With the same aspect ratio the image fills the target: no bars. */
  lemma SameAspectNoBars(m: Size, s: Size)
    requires Positive(m) && Positive(s)
    requires s.0 * m.1 == s.1 * m.0
    ensures Letterbox(m, s) == (0.0, 0.0, s.0 as real, s.1 as real)
  {
    var mw, mh := m.0 as real, m.1 as real;
    var sw, sh := s.0 as real, s.1 as real;
    assert sw * mh == sh * mw by {
      assert (s.0 * m.1) as real == sw * mh;
      assert (s.1 * m.0) as real == sh * mw;
    }
    assert sw / mw == sh / mh;
    assert (mh / mw) * sw == (sw * mh) / mw;
    assert (sh * mw) / mw == sh;
    assert sw / mw <= sh / mh;
    assert Letterbox(m, s).0 == 0.0;
    assert Letterbox(m, s).2 == sw;
    assert Letterbox(m, s).3 == (mh / mw) * sw;
  }

  lemma FractionTimes(h: int, m: int, n: int)
    requires m > 0
    ensures Fraction(h, m) * n as real == (h * n) as real / m as real
  {
  }

  lemma RealFloorOfQuotient(a: int, d: int)
    requires a >= 0 && d > 0
    ensures (a as real / d as real).Floor == a / d
  {
    var q := a / d;
    var r := a % d;
    assert a == d * q + r;
    assert (d * q + r) as real == d as real * q as real + r as real;
    assert a as real / d as real == q as real + r as real / d as real;
  }

  /** With the same aspect ratio the hotspot scales by s/m and is truncated. */
  lemma ScaledHotspotProportional(m: Size, hot: (int, int), s: Size)
    requires Positive(m) && Positive(s)
    requires 0 <= hot.0 && 0 <= hot.1
    requires s.0 * m.1 == s.1 * m.0
    ensures ScaledHotspot(m, hot, s) == ((hot.0 * s.0) / m.0, (hot.1 * s.1) / m.1)
  {
    SameAspectNoBars(m, s);
    AxisProportional(hot.0, m.0, s.0);
    AxisProportional(hot.1, m.1, s.1);
  }

  /** Without a bar, a coordinate h of side m scales to the truncated h * n / m. */
  lemma AxisProportional(h: int, m: int, n: int)
    requires m > 0 && h >= 0 && n > 0
    ensures ScaledAxis(0.0, Fraction(h, m), n as real) == (h * n) / m
  {
    FractionTimes(h, m, n);
    assert h * n >= 0;
    RealFloorOfQuotient(h * n, m);
  }

  /** The example of the `add_sizes` documentation: (10, 10) in a 20x20 icon becomes (20, 20) at 40x40. */
  lemma ScaledHotspotExample()
    ensures ScaledHotspot((20, 20), (10, 10), (40, 40)) == (20, 20)
  {
    ScaledHotspotProportional((20, 20), (10, 10), (40, 40));
  }

  // ---------------------------------------------------------------------------
  // AnimatedCursor: playback-ordered (cursor, delay) frames
  // ---------------------------------------------------------------------------

  datatype Frame = Frame(cursor: Cursor, delay: int)

  type AnimatedCursor = seq<Frame>

  predicate FramesWellFormed(ac: AnimatedCursor) {
    forall i :: 0 <= i < |ac| ==> WellFormed(ac[i].cursor)
  }

  /** `AnimatedCursor(cursors, framerates)`: the two lists are zipped, so the shorter one decides the length. */
  function FromLists(cursors: seq<Cursor>, delays: seq<int>): (r: AnimatedCursor)
    ensures |r| == Min(|cursors|, |delays|)
    ensures forall i :: 0 <= i < |r| ==> r[i] == Frame(cursors[i], delays[i])
  {
    seq(Min(|cursors|, |delays|), i requires 0 <= i < Min(|cursors|, |delays|) => Frame(cursors[i], delays[i]))
  }

  /** The union of the size sets of all frames. */
  function AllSizes(ac: AnimatedCursor): (r: set<Size>)
    ensures forall i, s :: 0 <= i < |ac| && s in ac[i].cursor ==> s in r
  {
    if |ac| == 0 then {}
    else
      var rest := AllSizes(ac[1..]);
      assert forall i, s :: 1 <= i < |ac| && s in ac[i].cursor ==> s in rest by {
        forall i, s | 1 <= i < |ac| && s in ac[i].cursor ensures s in rest {
          assert ac[1..][i - 1] == ac[i];
        }
      }
      ac[0].cursor.Keys + rest
  }

  /** Every size of the union comes from some frame. */
  lemma {:induction false} AllSizesFromFrames(ac: AnimatedCursor, s: Size) returns (i: nat)
    requires s in AllSizes(ac)
    ensures i < |ac| && s in ac[i].cursor
  {
    if s in ac[0].cursor {
      i := 0;
    } else {
      var j := AllSizesFromFrames(ac[1..], s);
      i := j + 1;
      assert ac[1..][j] == ac[i];
    }
  }

  /** Every frame can take `add_sizes(sizes)` without raising. */
  predicate AllCanGrow(ac: AnimatedCursor, sizes: set<Size>) {
    forall i :: 0 <= i < |ac| ==> |ac[i].cursor| > 0 && CanSynthesize(ac[i].cursor, sizes)
  }

  /** `add_sizes(sizes)` on every frame, delays untouched; one failing frame fails the whole call. */
  function AddSizesToFrames(ac: AnimatedCursor, sizes: set<Size>, lanczos: Resampler): (r: Result<AnimatedCursor>)
    requires FramesWellFormed(ac)
    ensures r.Success? <==> AllCanGrow(ac, sizes)
    ensures r.Failure? ==> r.error == ValueError
    ensures r.Success? ==> |r.value| == |ac|
    ensures r.Success? ==> forall i :: 0 <= i < |ac| ==>
      r.value[i].delay == ac[i].delay && Grown(ac[i].cursor, sizes, lanczos, r.value[i].cursor)
    ensures r.Success? && ResamplerOk(lanczos) ==> FramesWellFormed(r.value)
  {
    if !AllCanGrow(ac, sizes) then Failure(ValueError)
    else
      Success(seq(|ac|, i requires 0 <= i < |ac| => Frame(AddSizes(ac[i].cursor, sizes, lanczos).value, ac[i].delay)))
  }

  /** `normalize(init_sizes)`: every frame ends up with the same size set, the union of
      the requested sizes and the sizes of all frames; frame count, delays and the icons
      already present are kept. */
  function Normalize(ac: AnimatedCursor, initSizes: set<Size>, lanczos: Resampler): (r: Result<AnimatedCursor>)
    requires FramesWellFormed(ac)
    ensures r.Success? <==> AllCanGrow(ac, initSizes + AllSizes(ac))
    ensures r.Failure? ==> r.error == ValueError
    ensures r.Success? ==> |r.value| == |ac|
    ensures r.Success? ==> forall i :: 0 <= i < |ac| ==> r.value[i].delay == ac[i].delay
    ensures r.Success? ==> forall i :: 0 <= i < |ac| ==> r.value[i].cursor.Keys == initSizes + AllSizes(ac)
    ensures r.Success? ==> forall i, s :: 0 <= i < |ac| && s in ac[i].cursor ==> r.value[i].cursor[s] == ac[i].cursor[s]
    ensures r.Success? && ResamplerOk(lanczos) ==> FramesWellFormed(r.value)
  {
    AddSizesToFrames(ac, initSizes + AllSizes(ac), lanczos)
  }

  /** `AnimatedCursor.restrict_to_sizes`: every frame holds exactly `sizes`, delays kept. */
  function RestrictFrames(ac: AnimatedCursor, sizes: set<Size>, lanczos: Resampler): (r: Result<AnimatedCursor>)
    requires FramesWellFormed(ac)
    ensures r.Success? <==> AllCanGrow(ac, sizes)
    ensures r.Failure? ==> r.error == ValueError
    ensures r.Success? ==> |r.value| == |ac|
    ensures r.Success? ==> forall i :: 0 <= i < |ac| ==> r.value[i].delay == ac[i].delay && r.value[i].cursor.Keys == sizes
    ensures r.Success? ==> forall i, s :: 0 <= i < |ac| && s in ac[i].cursor && s in sizes ==> r.value[i].cursor[s] == ac[i].cursor[s]
    ensures r.Success? && ResamplerOk(lanczos) ==> FramesWellFormed(r.value)
  {
    if !AllCanGrow(ac, sizes) then Failure(ValueError)
    else
      Success(seq(|ac|, i requires 0 <= i < |ac| => Frame(RestrictToSizes(ac[i].cursor, sizes, lanczos).value, ac[i].delay)))
  }

  /** `AnimatedCursor.remove_non_square_sizes`: applied to every frame. */
  function RemoveNonSquareFrames(ac: AnimatedCursor): (r: AnimatedCursor)
    ensures |r| == |ac|
    ensures forall i :: 0 <= i < |ac| ==> r[i].delay == ac[i].delay
    ensures forall i, s :: 0 <= i < |ac| ==> (s in r[i].cursor <==> s in ac[i].cursor && IsSquare(s))
    ensures forall i, s :: 0 <= i < |ac| && s in r[i].cursor ==> s in ac[i].cursor && r[i].cursor[s] == ac[i].cursor[s]
    ensures FramesWellFormed(ac) ==> FramesWellFormed(r)
  {
    seq(|ac|, i requires 0 <= i < |ac| => Frame(RemoveNonSquare(ac[i].cursor), ac[i].delay))
  }
}

=== FILE: cursor_util.dfy ===
/** The loaders of the cursor library (CursorCreate/lib/cursor_util.py).

  A file is first offered to the cursor decoders, chosen by its first twelve bytes:
  the animated formats (.ani, Xcursor) before the static one (.cur/.ico). A decoded
  cursor is normalised to the default sizes and stripped of non-square sizes. When no
  cursor format claims the file it is opened as an image, whose horizontal strip of
  square tiles becomes the frames; when the raster library does not recognise it
  either, it is rendered as an SVG drawing.

  The raster library (opening, fitting, resampling) and the SVG rasteriser are
  parameters: only the arithmetic around them is modelled.
 */
module CursorUtil {
  import opened Wrappers
  import opened FormatCore
  import opened CursorModel
  import AniFormat
  import XcurFormat
  import CurFormat

  /** The sizes every loaded cursor gets, smallest first. */
  const DefaultSizes: seq<Size> := [(32, 32), (48, 48), (64, 64), (128, 128)]

  const DefaultSizeSet: set<Size> := {(32, 32), (48, 48), (64, 64), (128, 128)}

  lemma DefaultSizesListed()
    ensures forall s :: s in DefaultSizeSet <==> s in DefaultSizes
    ensures forall k :: 0 <= k < |DefaultSizes| ==> IsSquare(DefaultSizes[k]) && Positive(DefaultSizes[k])
  {
  }

  // ---------------------------------------------------------------------------
  // Choosing a cursor decoder (load_cursor_from_cursor)
  // ---------------------------------------------------------------------------

  /** The bytes the dispatcher reads before rewinding: at most the first twelve. */
  function Magic(file: seq<byte>): (r: seq<byte>)
    ensures |r| == Min(12, |file|) && r == file[..|r|]
  {
    file[..Min(12, |file|)]
  }

  datatype Reader = AniReader | XcurReader | CurReader

  /** No twelve bytes pass two of the three checks: "RIFF", "Xcur" and a zero byte start
      the three magics. */
  lemma MagicsDisjoint(m: seq<byte>)
    ensures !(AniFormat.Check(m) && XcurFormat.Check(m))
    ensures !(AniFormat.Check(m) && CurFormat.Check(m))
    ensures !(XcurFormat.Check(m) && CurFormat.Check(m))
  {
    if AniFormat.Check(m) {
      assert m[0] == AniFormat.RiffMagic[0] == 82;
    }
    if XcurFormat.Check(m) {
      assert m[0] == XcurFormat.XcurMagic[0] == 88;
    }
    if CurFormat.Check(m) {
      assert m[0] == CurFormat.CurMagic[0] == 0 || m[0] == CurFormat.IcoMagic[0] == 0;
    }
  }

  /** The reader whose check accepts the magic. The animated readers are asked first and
      the static one last; since no magic passes two checks, the order decides nothing. */
  function ChooseReader(magic: seq<byte>): (r: Option<Reader>)
    ensures r == Some(AniReader) <==> AniFormat.Check(magic)
    ensures r == Some(XcurReader) <==> XcurFormat.Check(magic)
    ensures r == Some(CurReader) <==> CurFormat.Check(magic)
  {
    MagicsDisjoint(magic);
    if AniFormat.Check(magic) then Some(AniReader)
    else if XcurFormat.Check(magic) then Some(XcurReader)
    else if CurFormat.Check(magic) then Some(CurReader)
    else None
  }

  /** The checks look at no byte past the twelfth, so judging the magic is judging the file. */
  lemma MagicDecidesCheck(file: seq<byte>)
    ensures AniFormat.Check(Magic(file)) == AniFormat.Check(file)
    ensures XcurFormat.Check(Magic(file)) == XcurFormat.Check(file)
    ensures CurFormat.Check(Magic(file)) == CurFormat.Check(file)
  {
    var m := Magic(file);
    if |file| >= 12 {
      assert m[..4] == file[..4] && m[8..12] == file[8..12];
    } else {
      assert m == file;
    }
  }

  /** A frame as every cursor loader leaves it: all default sizes present, and square sizes only. */
  predicate Settled(c: Cursor) {
    && (forall s :: s in DefaultSizeSet ==> s in c)
    && (forall s :: s in c ==> IsSquare(s))
  }

  /** The index of the first frame that breaks the size and hotspot invariant. */
  function FirstMalformed(ac: AnimatedCursor): (k: nat)
    requires !FramesWellFormed(ac)
    ensures k < |ac| && !WellFormed(ac[k].cursor)
    ensures forall i :: 0 <= i < k ==> WellFormed(ac[i].cursor)
  {
    if !WellFormed(ac[0].cursor) then 0
    else
      var k := 1 + FirstMalformed(ac[1..]);
      assert forall i :: 1 <= i < |ac| ==> ac[1..][i - 1] == ac[i];
      k
  }

  /** A cursor whose every size has a zero side, such as the single icon an .ani reader
      makes of a bitmap stored one row high once its height is halved to 0. `max_size`
      then has a zero side, and `add_sizes` divides by it (CursorCreate/lib/cursor.py:161). */
  predicate Flat(c: Cursor) {
    |c| > 0 && forall s :: s in c ==> s.0 == 0 || s.1 == 0
  }

  /** `normalize(DEFAULT_SIZES)` and then `remove_non_square_sizes()` on a decoded cursor.
      Every frame ends up with the square sizes among the default sizes and the sizes of
      all frames; a square icon a frame already had is kept. The frames are grown in order:
      a well-formed frame that cannot grow is a ValueError, and a flat frame reached before
      any such failure is a ZeroDivisionError. A decoded frame that breaks the invariant in
      another way (possible only with a decoder that returns inconsistent images) is a
      LibraryError. */
  function Settle(ac: AnimatedCursor, lanczos: Resampler): (r: Result<AnimatedCursor>)
    ensures r.Success? <==> FramesWellFormed(ac) && AllCanGrow(ac, DefaultSizeSet + AllSizes(ac))
    ensures FramesWellFormed(ac) && r.Failure? ==> r.error == ValueError
    ensures r.Success? ==> |r.value| == |ac| && forall i :: 0 <= i < |ac| ==> r.value[i].delay == ac[i].delay
    ensures r.Success? ==> forall i, s :: 0 <= i < |ac| ==>
      (s in r.value[i].cursor <==> IsSquare(s) && (s in DefaultSizeSet || s in AllSizes(ac)))
    ensures r.Success? ==> forall i, s :: 0 <= i < |ac| && s in ac[i].cursor && IsSquare(s) ==>
      s in r.value[i].cursor && r.value[i].cursor[s] == ac[i].cursor[s]
  {
    if !FramesWellFormed(ac) then
      var k := FirstMalformed(ac);
      if !AllCanGrow(ac[..k], DefaultSizeSet + AllSizes(ac)) then Failure(ValueError)
      else if Flat(ac[k].cursor) then Failure(ZeroDivisionError)
      else Failure(LibraryError)
    else
      var norm :- Normalize(ac, DefaultSizeSet, lanczos);
      Success(RemoveNonSquareFrames(norm))
  }

  /** Settle on frames that break the invariant: the frames before the first malformed one
      are grown first, so one of them that cannot grow is a ValueError; otherwise a flat
      first malformed frame is a ZeroDivisionError. */
  lemma SettleMalformed(ac: AnimatedCursor, lanczos: Resampler)
    requires !FramesWellFormed(ac)
    ensures var k := FirstMalformed(ac); var r := Settle(ac, lanczos);
      && (!AllCanGrow(ac[..k], DefaultSizeSet + AllSizes(ac)) ==> r == Failure(ValueError))
      && (AllCanGrow(ac[..k], DefaultSizeSet + AllSizes(ac)) && Flat(ac[k].cursor) ==> r == Failure(ZeroDivisionError))
  {
  }

  /** An .ani icon chunk without the .ico flag whose bitmap is stored one row high reads as
      a cursor whose one icon is w x 0 with its hotspot at (0, 0), which the reader accepts
      because the hotspot was checked before the height was halved. Settling it divides by
      that zero height. */
  lemma OneRowBitmapDividesByZero(data: seq<byte>, decode: CurFormat.Decoder, dib: AniFormat.DibReader,
                                  lanczos: Resampler, w: int, px: seq<Rgba>, delay: int)
    requires w > 0 && |px| == w && dib(data) == Success(Image(w, 1, px))
    ensures AniFormat.IconCursor(data, false, decode, dib).Success?
    ensures var c := AniFormat.IconCursor(data, false, decode, dib).value;
      c.Keys == {(w, 0)} && !WellFormed(c) && Settle([Frame(c, delay)], lanczos) == Failure(ZeroDivisionError)
  {
    var c := AniFormat.IconCursor(data, false, decode, dib).value;
    var icon := Icon(AniFormat.LowerHalf(Image(w, 1, px)), (0, 0));
    assert c == FromIcons([icon]);
    assert FromIcons([icon]) == Add(map[], icon);
    assert c.Keys == {(w, 0)};
    assert !ValidIcon(c[(w, 0)]);
    assert !WellFormed(c) by {
      assert (w, 0) in c && !ValidIcon(c[(w, 0)]);
    }
    var ac := [Frame(c, delay)];
    assert ac[0].cursor == c;
    assert FirstMalformed(ac) == 0;
    assert ac[..0] == [];
  }

  /** A settled cursor holds every default size and no other shape than a square. */
  lemma SettleSettled(ac: AnimatedCursor, lanczos: Resampler)
    requires Settle(ac, lanczos).Success?
    ensures forall i :: 0 <= i < |ac| ==> Settled(Settle(ac, lanczos).value[i].cursor)
  {
    var r := Settle(ac, lanczos).value;
    forall i | 0 <= i < |ac| ensures Settled(r[i].cursor) {
      SquareDefaults(r[i].cursor, AllSizes(ac));
    }
  }

  /** The key set of a settled frame makes it settled. */
  lemma SquareDefaults(c: Cursor, sizes: set<Size>)
    requires forall s :: s in c <==> IsSquare(s) && (s in DefaultSizeSet || s in sizes)
    ensures Settled(c)
  {
  }

  /** Settle, with the settledness of its frames in its contract. */
  function SettleChecked(ac: AnimatedCursor, lanczos: Resampler): (r: Result<AnimatedCursor>)
    ensures r == Settle(ac, lanczos)
    ensures r.Success? ==> |r.value| == |ac| && forall i :: 0 <= i < |ac| ==> Settled(r.value[i].cursor) && r.value[i].delay == ac[i].delay
  {
    var r := Settle(ac, lanczos);
    if r.Success? then SettleSettled(ac, lanczos); r else r
  }

  /** `load_cursor_from_cursor`: the chosen reader decodes the whole file; a static cursor
      becomes one frame of 100 ms; the result is settled. No matching magic: ValueError. */
  function LoadFromCursor(file: seq<byte>, decode: CurFormat.Decoder, dib: AniFormat.DibReader, lanczos: Resampler): (r: Result<AnimatedCursor>)
    ensures ChooseReader(Magic(file)).None? ==> r == Failure(ValueError)
    ensures r.Success? ==> forall i :: 0 <= i < |r.value| ==> Settled(r.value[i].cursor)
    ensures ChooseReader(Magic(file)) == Some(AniReader) ==> var read := AniFormat.Read(file, decode, dib);
      && (read.Failure? ==> r == Failure(read.error))
      && (read.Success? ==> r == Settle(read.value, lanczos))
      && (r.Success? ==> |r.value| == |read.value| && forall i :: 0 <= i < |read.value| ==> r.value[i].delay == read.value[i].delay)
    ensures ChooseReader(Magic(file)) == Some(XcurReader) ==> var read := XcurFormat.Read(file);
      && (read.Failure? ==> r == Failure(read.error))
      && (read.Success? ==> r == Settle(read.value, lanczos))
      && (r.Success? ==> |r.value| == |read.value| && forall i :: 0 <= i < |read.value| ==> r.value[i].delay == read.value[i].delay)
    ensures ChooseReader(Magic(file)) == Some(CurReader) ==> var read := CurFormat.Read(file, decode);
      && (read.Failure? ==> r == Failure(read.error))
      && (read.Success? ==> r == Settle([Frame(read.value, 100)], lanczos))
      && (r.Success? ==> |r.value| == 1 && r.value[0].delay == 100)
  {
    match ChooseReader(Magic(file))
    case None => Failure(ValueError)
    case Some(AniReader) =>
      var ac :- AniFormat.Read(file, decode, dib);
      SettleChecked(ac, lanczos)
    case Some(XcurReader) =>
      var ac :- XcurFormat.Read(file);
      SettleChecked(ac, lanczos)
    case Some(CurReader) =>
      var c :- CurFormat.Read(file, decode);
      SettleChecked([Frame(c, 100)], lanczos)
  }

  /** An Xcursor file that decodes is never refused for its icons: its frames are well
      formed, so only a frame without icons stops the normalisation, with ValueError. */
  lemma XcurSettles(file: seq<byte>, decode: CurFormat.Decoder, dib: AniFormat.DibReader, lanczos: Resampler)
    requires XcurFormat.Check(file) && XcurFormat.Read(file).Success?
    ensures var r := LoadFromCursor(file, decode, dib, lanczos);
      r.Failure? ==> r.error == ValueError
  {
    MagicDecidesCheck(file);
  }

  /** A .cur/.ico file whose images the decoder returns well formed settles unless its
      cursor is empty, and an empty cursor is refused with ValueError. */
  lemma CurSettles(file: seq<byte>, decode: CurFormat.Decoder, dib: AniFormat.DibReader, lanczos: Resampler)
    requires CurFormat.DecoderOk(decode)
    requires CurFormat.Check(file) && CurFormat.Read(file, decode).Success?
    ensures var r := LoadFromCursor(file, decode, dib, lanczos);
      r.Success? <==> |CurFormat.Read(file, decode).value| > 0
    ensures var r := LoadFromCursor(file, decode, dib, lanczos);
      r.Failure? ==> r.error == ValueError
  {
    MagicDecidesCheck(file);
    var c := CurFormat.Read(file, decode).value;
    OneFrameGrows(c);
  }

  /** A single well-formed frame can take the default sizes and its own exactly when it
      holds at least one icon. */
  lemma OneFrameGrows(c: Cursor)
    requires WellFormed(c)
    ensures FramesWellFormed([Frame(c, 100)])
    ensures AllCanGrow([Frame(c, 100)], DefaultSizeSet + AllSizes([Frame(c, 100)])) <==> |c| > 0
  {
    var ac := [Frame(c, 100)];
    forall s | s in DefaultSizeSet + AllSizes(ac) && s !in c ensures Positive(s) {
      if s in AllSizes(ac) {
        var i := AllSizesFromFrames(ac, s);
      }
    }
  }

  // ---------------------------------------------------------------------------
  // Images (load_cursor_from_image)
  // ---------------------------------------------------------------------------

  /** What the raster library opens: a still image, or an animated one, given by its size
      and each frame's image with the duration its info carries, if any. */
  datatype Picture = Still(image: StoredImage) | Animated(size: Size, frames: seq<(StoredImage, Option<int>)>)

  /** `Image.open`: UnidentifiedImageError for bytes the raster library does not know. */
  type Opener = seq<byte> -> Result<Picture>

  /** The pixel work of `ImageOps.fit(image, size)`: the image cropped and scaled to fill `size`. */
  type Fitter = (Image, Size) -> seq<Rgba>

  const Transparent: Rgba := Rgba(0, 0, 0, 0)

  /** The row-major index `y * w + x` of a point of a w x h raster lies inside it, and
      its quotient and remainder by w give the point back. */
  lemma RowMajor(w: int, h: int, x: int, y: int)
    requires 0 <= x < w && 0 <= y < h
    ensures 0 <= y * w + x < w * h
    ensures (y * w + x) / w == y && (y * w + x) % w == x
  {
    DivModUnique(y * w + x, w, y, x);
    MulLe(w, y + 1, h);
    assert y * w + x < (y + 1) * w;
  }

  /** Pixel (x, y) of an image; outside the image a crop reads transparent black. */
  function PixelOr(img: Image, x: int, y: int): (r: Rgba)
    ensures ValidImage(img) && 0 <= x < img.width && 0 <= y < img.height ==>
      0 <= y * img.width + x < |img.pixels| && r == img.pixels[y * img.width + x]
  {
    if 0 <= x < img.width && 0 <= y < img.height then
      RowMajor(img.width, img.height, x, y);
      if y * img.width + x < |img.pixels| then img.pixels[y * img.width + x] else Transparent
    else
      Transparent
  }

  /** `image.crop((x0, y0, x0 + w, y0 + h))`: the w x h window whose top-left corner is (x0, y0). */
  function Crop(img: Image, x0: int, y0: int, w: nat, h: nat): (r: Image)
    ensures ValidImage(r) && r.width == w && r.height == h
  {
    if w == 0 then Image(0, h, [])
    else Image(w, h, seq(w * h, k requires 0 <= k < w * h => PixelOr(img, x0 + k % w, y0 + k / w)))
  }

  /** Pixel (x, y) of a crop is pixel (x0 + x, y0 + y) of the image. */
  lemma CropPixel(img: Image, x0: int, y0: int, w: nat, h: nat, x: int, y: int)
    requires 0 <= x < w && 0 <= y < h
    ensures y * w + x < w * h
    ensures Crop(img, x0, y0, w, h).pixels[y * w + x] == PixelOr(img, x0 + x, y0 + y)
  {
    RowMajor(w, h, x, y);
  }

  /** Tile i of a horizontal strip: the height x height square starting at column i * height. */
  function StripFrame(img: Image, i: nat): (r: Image)
    requires img.height >= 0
    ensures ValidImage(r) && r.width == r.height == img.height
  {
    Crop(img, i * img.height, 0, img.height, img.height)
  }

  /** The tiles cover the strip: column x of the image, for x below the tiles' total
      width, is column x mod height of tile x div height, row for row. */
  lemma StripTiles(img: StoredImage, x: int, y: int)
    requires img.height > 0 && 0 <= x < (img.width / img.height) * img.height && 0 <= y < img.height
    ensures x < img.width
    ensures PixelOr(StripFrame(img, x / img.height), x % img.height, y) == PixelOr(img, x, y)
  {
    var h := img.height;
    var q := img.width / h;
    var i, c := x / h, x % h;
    FloorTimes(img.width, h);
    DivBelow(x, h, q);
    assert x == h * i + c;
    CropPixel(img, i * h, 0, h, h, c, y);
  }

  /** A strip w wide and h high holds w div h tiles: none exactly when it is narrower than high. */
  lemma StripCount(w: int, h: int)
    requires w >= 0 && h > 0
    ensures w / h >= 0 && (w / h == 0 <==> w < h)
  {
    if w < h {
      DivModUnique(w, h, 0, w);
    } else {
      DivModUnique(w, h, w / h, w % h);
      assert w / h != 0;
    }
  }

  /** Rounding down to a multiple of d never goes past the number. */
  lemma FloorTimes(a: nat, d: int)
    requires d > 0
    ensures (a / d) * d <= a
  {
    assert a == d * (a / d) + a % d;
  }

  /** One icon per default size, resampled from `src`, with the hotspot in the corner. */
  function DefaultCursor(src: Image, lanczos: Resampler): (r: Cursor)
    ensures r.Keys == DefaultSizeSet
    ensures forall s :: s in r ==> r[s] == Icon(Image(s.0, s.1, lanczos(src, s)), (0, 0))
  {
    map s | s in DefaultSizeSet :: Icon(Image(s.0, s.1, lanczos(src, s)), (0, 0))
  }

  /** With a resampler that returns whole rasters, a default cursor is well formed. */
  lemma DefaultCursorWellFormed(src: Image, lanczos: Resampler)
    requires ResamplerOk(lanczos)
    ensures WellFormed(DefaultCursor(src, lanczos))
  {
    var c := DefaultCursor(src, lanczos);
    forall s | s in c ensures SizeOf(c[s].image) == s && ValidIcon(c[s]) {
      assert Positive(s);
    }
  }

  /** The frames of a still strip: tile i at the default sizes, 100 ms each. */
  function StripFrames(img: StoredImage, n: nat, lanczos: Resampler): (r: AnimatedCursor)
    requires img.height >= 0
    ensures |r| == n
    ensures forall i :: 0 <= i < n ==> r[i] == Frame(DefaultCursor(StripFrame(img, i), lanczos), 100)
  {
    seq(n, i requires 0 <= i < n => Frame(DefaultCursor(StripFrame(img, i), lanczos), 100))
  }

  /** The frames of an animated image: each fitted to an m x m square, at the default sizes,
      with its own duration or 100 ms. */
  function FittedFrames(frames: seq<(StoredImage, Option<int>)>, m: int, fit: Fitter, lanczos: Resampler): (r: AnimatedCursor)
    ensures |r| == |frames|
    ensures forall i :: 0 <= i < |frames| ==>
      r[i] == Frame(DefaultCursor(Image(m, m, fit(frames[i].0, (m, m))), lanczos), frames[i].1.GetOr(100))
  {
    seq(|frames|, i requires 0 <= i < |frames| =>
      Frame(DefaultCursor(Image(m, m, fit(frames[i].0, (m, m))), lanczos), frames[i].1.GetOr(100)))
  }

  /** Strip frames are well formed under a resampler that returns whole rasters. */
  lemma StripFramesWellFormed(img: StoredImage, n: nat, lanczos: Resampler)
    requires ResamplerOk(lanczos)
    ensures FramesWellFormed(StripFrames(img, n, lanczos))
  {
    forall i | 0 <= i < n {
      DefaultCursorWellFormed(StripFrame(img, i), lanczos);
    }
  }

  /** Fitted frames are well formed under a resampler that returns whole rasters. */
  lemma FittedFramesWellFormed(frames: seq<(StoredImage, Option<int>)>, m: int, fit: Fitter, lanczos: Resampler)
    requires ResamplerOk(lanczos)
    ensures FramesWellFormed(FittedFrames(frames, m, fit, lanczos))
  {
    forall i | 0 <= i < |frames| {
      DefaultCursorWellFormed(Image(m, m, fit(frames[i].0, (m, m))), lanczos);
    }
  }

  /** `load_cursor_from_image`. An animated image gives one frame per image frame, fitted
      to the square of its shorter side, with the frame's duration or 100 ms. A still
      image is a strip of square tiles as high as the image: width div height frames of
      100 ms each, a ZeroDivisionError for a zero height and a ValueError for none. */
  function LoadFromImage(file: seq<byte>, open: Opener, fit: Fitter, lanczos: Resampler): (r: Result<AnimatedCursor>)
    ensures open(file).Failure? ==> r == Failure(open(file).error)
    ensures open(file).Success? && open(file).value.Still? ==> var img := open(file).value.image;
      && (r.Success? <==> img.height > 0 && img.width >= img.height)
      && (img.height == 0 ==> r == Failure(ZeroDivisionError))
      && (0 < img.height && img.width < img.height ==> r == Failure(ValueError))
      && (r.Success? ==> r.value == StripFrames(img, img.width / img.height, lanczos))
    ensures open(file).Success? && open(file).value.Animated? ==> var p := open(file).value;
      r == Success(FittedFrames(p.frames, Min(p.size.0, p.size.1), fit, lanczos))
  {
    var picture :- open(file);
    match picture
    case Animated(size, frames) =>
      Success(FittedFrames(frames, Min(size.0, size.1), fit, lanczos))
    case Still(img) =>
      if img.height == 0 then Failure(ZeroDivisionError)
      else
        var n := img.width / img.height;
        if n == 0 then Failure(ValueError)
        else Success(StripFrames(img, n, lanczos))
  }

  /** Every frame the image loader gives holds exactly the default sizes, each with its
      hotspot in the corner, and is well formed under a resampler that returns whole rasters. */
  lemma ImageFramesDefault(file: seq<byte>, open: Opener, fit: Fitter, lanczos: Resampler)
    requires LoadFromImage(file, open, fit, lanczos).Success?
    ensures var ac := LoadFromImage(file, open, fit, lanczos).value;
      forall i :: 0 <= i < |ac| ==>
        (ac[i].cursor.Keys == DefaultSizeSet && forall s :: s in ac[i].cursor ==> ac[i].cursor[s].hotspot == (0, 0))
    ensures ResamplerOk(lanczos) ==> FramesWellFormed(LoadFromImage(file, open, fit, lanczos).value)
  {
    var p := open(file).value;
    if ResamplerOk(lanczos) {
      if p.Still? {
        StripFramesWellFormed(p.image, p.image.width / p.image.height, lanczos);
      } else {
        FittedFramesWellFormed(p.frames, Min(p.size.0, p.size.1), fit, lanczos);
      }
    }
  }

  // ---------------------------------------------------------------------------
  // SVG drawings (load_cursor_from_svg)
  // ---------------------------------------------------------------------------

  /** The SVG rasteriser: the drawing at its natural size, or at a requested (width, height);
      ParseError for bytes that are not an SVG document. */
  type Renderer = (seq<byte>, Option<Size>) -> Result<StoredImage>

  /** The heights the SVG drawing is rendered at: those of the default sizes. */
  const DefaultHeights: seq<nat> := [32, 48, 64, 128]

  lemma DefaultHeightsListed()
    ensures |DefaultHeights| == |DefaultSizes|
    ensures forall k :: 0 <= k < |DefaultSizes| ==> DefaultHeights[k] == DefaultSizes[k].1
  {
  }

  /** The raster size asked for at a given height: that height times the natural
      width-to-height ratio, truncated, by that height. */
  function LayerSize(height: nat, w: nat, h: nat): (r: Size)
    requires h > 0
    ensures r.1 == height && r.0 >= 0 && r.0 * h <= height * w < (r.0 + 1) * h
  {
    var width := (height * w) / h;
    DivModUnique(height * w, h, width, (height * w) % h);
    (width, height)
  }

  /** One rendering per height in turn. A rendering with no rows cannot give a tile with a
      hotspot at (0, 0): ValueError, before the next height is rendered. */
  function Layers(file: seq<byte>, render: Renderer, w: nat, h: nat, heights: seq<nat>): (r: Result<seq<StoredImage>>)
    requires h > 0
    ensures r.Success? ==> |r.value| == |heights|
    ensures r.Success? ==> forall k :: 0 <= k < |heights| ==>
      r.value[k].height > 0 && render(file, Some(LayerSize(heights[k], w, h))) == Success(r.value[k])
    decreases |heights|
  {
    if |heights| == 0 then Success([])
    else
      var layer :- render(file, Some(LayerSize(heights[0], w, h)));
      if layer.height == 0 then Failure(ValueError)
      else
        var rest :- Layers(file, render, w, h, heights[1..]);
        assert forall k :: 1 <= k < |heights| ==> heights[1..][k - 1] == heights[k];
        Success([layer] + rest)
  }

  /** Frame i of an SVG strip: from each layer in turn, its i-th square tile, added under
      its own size with the hotspot in the corner. */
  function SvgFrame(layers: seq<StoredImage>, i: nat): (r: Cursor)
    requires forall k :: 0 <= k < |layers| ==> layers[k].height > 0
    ensures WellFormed(r)
  {
    var tiles := seq(|layers|, k requires 0 <= k < |layers| => Icon(StripFrame(layers[k], i), (0, 0)));
    FromIcons(tiles)
  }

  /** The n frames of an SVG strip, 100 ms each. */
  function SvgFrames(layers: seq<StoredImage>, n: nat): (r: AnimatedCursor)
    requires forall k :: 0 <= k < |layers| ==> layers[k].height > 0
    ensures |r| == n && FramesWellFormed(r)
    ensures forall i :: 0 <= i < n ==> r[i] == Frame(SvgFrame(layers, i), 100)
  {
    seq(n, i requires 0 <= i < n => Frame(SvgFrame(layers, i), 100))
  }

  /** `load_cursor_from_svg`: the natural rendering gives the frame count, width div height
      (a ZeroDivisionError for a zero height, a ValueError for no frame); each default size
      is rendered at its height and cut into that many square tiles, 100 ms per frame. */
  function LoadFromSvg(file: seq<byte>, render: Renderer): (r: Result<AnimatedCursor>)
    ensures render(file, None).Failure? ==> r == Failure(render(file, None).error)
    ensures render(file, None).Success? ==> var natural := render(file, None).value;
      && (natural.height == 0 ==> r == Failure(ZeroDivisionError))
      && (0 < natural.height && natural.width < natural.height ==> r == Failure(ValueError))
      && (r.Success? ==> natural.height > 0 && |r.value| == natural.width / natural.height)
    ensures r.Success? ==> FramesWellFormed(r.value)
    ensures r.Success? ==> forall i :: 0 <= i < |r.value| ==> r.value[i].delay == 100
  {
    var natural :- render(file, None);
    if natural.height == 0 then Failure(ZeroDivisionError)
    else
      StripCount(natural.width, natural.height);
      var n: nat := natural.width / natural.height;
      if n == 0 then Failure(ValueError)
      else
        var layers :- Layers(file, render, natural.width, natural.height, DefaultHeights);
        Success(SvgFrames(layers, n))
  }

  /** Every size of an SVG frame is square, the size of one of the renderings. */
  lemma SvgFrameSizes(layers: seq<StoredImage>, i: nat, s: Size)
    requires forall k :: 0 <= k < |layers| ==> layers[k].height > 0
    ensures s in SvgFrame(layers, i) <==> exists k :: 0 <= k < |layers| && s == (layers[k].height, layers[k].height)
  {
    var tiles := seq(|layers|, k requires 0 <= k < |layers| => Icon(StripFrame(layers[k], i), (0, 0)));
    FromIconsKeys(tiles);
    assert forall k :: 0 <= k < |layers| ==> SizeOf(tiles[k].image) == (layers[k].height, layers[k].height);
  }

  // ---------------------------------------------------------------------------
  // The fallback chain (load_cursor)
  // ---------------------------------------------------------------------------

  /** `load_cursor`: a cursor format first; on ValueError the image loader; when the raster
      library does not recognise the bytes, the SVG loader, whose ParseError becomes a
      ValueError. Any other exception escapes where it is raised. */
  function LoadCursor(file: seq<byte>, decode: CurFormat.Decoder, dib: AniFormat.DibReader, lanczos: Resampler,
                      open: Opener, fit: Fitter, render: Renderer): (r: Result<AnimatedCursor>)
    ensures r == Failure(ParseError) ==>
      LoadFromCursor(file, decode, dib, lanczos) == Failure(ParseError) || LoadFromImage(file, open, fit, lanczos) == Failure(ParseError)
    ensures LoadFromCursor(file, decode, dib, lanczos).Success? ==> r == LoadFromCursor(file, decode, dib, lanczos)
    ensures r.Success? ==>
      || r == LoadFromCursor(file, decode, dib, lanczos)
      || r == LoadFromImage(file, open, fit, lanczos)
      || r == LoadFromSvg(file, render)
    ensures LoadFromCursor(file, decode, dib, lanczos).Failure? && LoadFromCursor(file, decode, dib, lanczos).error != ValueError ==>
      r == LoadFromCursor(file, decode, dib, lanczos)
    ensures LoadFromCursor(file, decode, dib, lanczos) == Failure(ValueError) && LoadFromImage(file, open, fit, lanczos) != Failure(UnidentifiedImageError) ==>
      r == LoadFromImage(file, open, fit, lanczos)
    ensures LoadFromCursor(file, decode, dib, lanczos) == Failure(ValueError) && LoadFromImage(file, open, fit, lanczos) == Failure(UnidentifiedImageError) ==>
      r == if LoadFromSvg(file, render) == Failure(ParseError) then Failure(ValueError) else LoadFromSvg(file, render)
  {
    var fromCursor := LoadFromCursor(file, decode, dib, lanczos);
    if fromCursor.Success? || fromCursor.error != ValueError then fromCursor
    else
      var fromImage := LoadFromImage(file, open, fit, lanczos);
      if fromImage.Success? || fromImage.error != UnidentifiedImageError then fromImage
      else
        var fromSvg := LoadFromSvg(file, render);
        if fromSvg.Failure? && fromSvg.error == ParseError then Failure(ValueError) else fromSvg
  }

  /** A file no cursor format claims goes straight to the image loader, and from there to
      the SVG loader only when the raster library does not recognise it. */
  lemma UnclaimedFallsBack(file: seq<byte>, decode: CurFormat.Decoder, dib: AniFormat.DibReader, lanczos: Resampler,
                           open: Opener, fit: Fitter, render: Renderer)
    requires !AniFormat.Check(file) && !XcurFormat.Check(file) && !CurFormat.Check(file)
    ensures open(file).Failure? && open(file).error != UnidentifiedImageError ==>
      LoadCursor(file, decode, dib, lanczos, open, fit, render) == Failure(open(file).error)
    ensures open(file).Success? ==>
      LoadCursor(file, decode, dib, lanczos, open, fit, render) == LoadFromImage(file, open, fit, lanczos)
    ensures open(file) == Failure(UnidentifiedImageError) && render(file, None).Success? && render(file, None).value.height == 0 ==>
      LoadCursor(file, decode, dib, lanczos, open, fit, render) == Failure(ZeroDivisionError)
  {
    MagicDecidesCheck(file);
  }
}

=== FILE: format_core.dfy ===
/** Integer byte codecs shared by every cursor format (CursorCreate/lib/format_core.py).

  Bytes are integers 0..255. Python slicing of byte strings is clamped to the
  string's length, which the readers rely on when a file is truncated, so `Slice`
  models that too.
 */
module FormatCore {
  import opened Wrappers

  type byte = x: int | 0 <= x < 256

  /** 256^k, the number of distinct k-byte strings. */
  function Pow256(k: nat): (p: nat)
    ensures p >= 1
    ensures k >= 1 ==> p % 2 == 0
  {
    if k == 0 then 1 else 256 * Pow256(k - 1)
  }

  /** 2^32: one more than the largest value of an unsigned 32-bit field. */
  const Word32: int := 0x1_0000_0000

  function Min(a: int, b: int): int {
    if a <= b then a else b
  }

  function Max(a: int, b: int): int {
    if a >= b then a else b
  }

  /** Python's `s[i:j]` for non-negative bounds: out-of-range bounds are clamped, never an error. */
  function Slice<T>(s: seq<T>, i: nat, j: nat): (r: seq<T>)
    ensures |r| == if i >= |s| || j <= i then 0 else Min(j, |s|) - i
    ensures forall k :: 0 <= k < |r| ==> r[k] == s[i + k]
  {
    if i >= |s| || j <= i then [] else s[i..Min(j, |s|)]
  }

  lemma SliceInside<T>(s: seq<T>, i: nat, j: nat)
    requires i <= j <= |s|
    ensures Slice(s, i, j) == s[i..j]
  {
  }

  /** `int.from_bytes(b, "little")`: the unsigned value of a little-endian byte string. */
  function ToInt(b: seq<byte>): (r: nat)
    ensures r < Pow256(|b|)
  {
    if |b| == 0 then 0 else b[0] + 256 * ToInt(b[1..])
  }

  /** The k-byte little-endian representation of a value that fits in k bytes. */
  function LittleEndian(n: nat, k: nat): (r: seq<byte>)
    requires n < Pow256(k)
    ensures |r| == k
  {
    if k == 0 then [] else [n % 256] + LittleEndian(n / 256, k - 1)
  }

  /** `to_bytes(num, length)`: Python raises OverflowError when num does not fit in length unsigned bytes. */
  function ToBytes(n: int, k: nat): (r: Result<seq<byte>>)
    ensures r.Success? <==> 0 <= n < Pow256(k)
    ensures r.Failure? ==> r.error == OverflowError
    ensures r.Success? ==> |r.value| == k && ToInt(r.value) == n
  {
    if 0 <= n < Pow256(k) then
      LittleEndianToInt(n, k);
      Success(LittleEndian(n, k))
    else
      Failure(OverflowError)
  }

  /** `to_signed_int`: two's-complement reading of a byte string (the debug print is not modelled). */
  function ToSignedInt(b: seq<byte>): (r: int)
    ensures |b| == 0 ==> r == -1
    ensures |b| > 0 ==> -(Pow256(|b|) / 2) <= r < Pow256(|b|) / 2
    ensures ToInt(b) < Pow256(|b|) / 2 ==> r == ToInt(b)
    ensures ToInt(b) >= Pow256(|b|) / 2 ==> r == ToInt(b) - Pow256(|b|)
  {
    var newInt := ToInt(b);
    var power := Pow256(|b|);
    var signedLimit := power / 2 - 1;
    if newInt > signedLimit then -(power - newInt) else newInt
  }

  /** `to_signed_bytes`: ValueError outside the signed range, otherwise the unsigned encoding of n mod 2^(8k). */
  function ToSignedBytes(n: int, k: nat): (r: Result<seq<byte>>)
    ensures r.Success? <==> -(Pow256(k) / 2) <= n < Pow256(k) / 2
    ensures r.Failure? ==> r.error == ValueError
    ensures r.Success? ==> |r.value| == k
  {
    var power := Pow256(k);
    var limit := power / 2;
    if !(-limit <= n < limit) then
      Failure(ValueError)
    else
      ToBytes((power + n) % power, k)
  }

  /** The k-byte little-endian form of a number that fits; `to_bytes` when it cannot fail. */
  function Word(n: nat, k: nat): (r: seq<byte>)
    requires n < Pow256(k)
    ensures |r| == k && ToInt(r) == n
  {
    LittleEndianToInt(n, k);
    LittleEndian(n, k)
  }

  /** The unsigned 32-bit little-endian word at `pos`, read the way `to_int(f.read(4))` reads it: short at end of data. */
  function U32At(data: seq<byte>, pos: nat): nat {
    ToInt(Slice(data, pos, pos + 4))
  }

  /** A 4-byte word placed after `a` is the word read at |a|. */
  lemma U32Of(a: seq<byte>, w: seq<byte>, b: seq<byte>)
    requires |w| == 4
    ensures U32At(a + w + b, |a|) == ToInt(w)
  {
    assert Slice(a + w + b, |a|, |a| + 4) == w;
  }

  /** The word at `pos` is w when the four bytes there are w. */
  lemma U32In(data: seq<byte>, pos: nat, w: seq<byte>)
    requires |w| == 4 && pos + 4 <= |data| && data[pos..pos + 4] == w
    ensures U32At(data, pos) == ToInt(w)
  {
    assert Slice(data, pos, pos + 4) == w;
  }

  function U16At(data: seq<byte>, pos: nat): nat {
    ToInt(Slice(data, pos, pos + 2))
  }

  /** ASCII text as bytes (chunk identifiers and magics). */
  function Ascii(s: string): (r: seq<byte>)
    requires forall i :: 0 <= i < |s| ==> s[i] as int < 256
    ensures |r| == |s|
    ensures forall i :: 0 <= i < |s| ==> r[i] == s[i] as int
  {
    if |s| == 0 then [] else [s[0] as int as byte] + Ascii(s[1..])
  }

  /** Byte strings written one after another: the fields of a binary record. */
  function Concat(fs: seq<seq<byte>>): (r: seq<byte>)
    ensures |fs| == 0 ==> r == []
  {
    if |fs| == 0 then [] else fs[0] + Concat(fs[1..])
  }

  /** Clamped slicing past a prefix is slicing the rest. */
  lemma SliceAfter(a: seq<byte>, b: seq<byte>, i: nat, j: nat)
    requires |a| <= i <= j
    ensures Slice(a + b, i, j) == Slice(b, i - |a|, j - |a|)
  {
    if i < |a + b| && i < j {
      var x, y := i - |a|, Min(j - |a|, |b|);
      assert Min(j, |a + b|) == |a| + y;
      AppendSlice(a, b, x, y);
    }
  }

  /** Slicing inside a slice is slicing the whole, shifted by its start. */
  lemma SliceWithin(data: seq<byte>, a: nat, b: nat, i: nat, j: nat)
    requires j <= b - a
    ensures Slice(Slice(data, a, b), i, j) == Slice(data, a + i, a + j)
  {
    var inner := Slice(data, a, b);
    var l, r := Slice(inner, i, j), Slice(data, a + i, a + j);
    assert |l| == |r|;
    assert forall k :: 0 <= k < |l| ==> l[k] == r[k];
  }

  /** A word inside a slice is the word of the whole, shifted by its start. */
  lemma WordWithin(data: seq<byte>, a: nat, b: nat, i: nat)
    requires i + 4 <= b - a
    ensures U32At(Slice(data, a, b), i) == U32At(data, a + i)
  {
    SliceWithin(data, a, b, i, i + 4);
  }

  lemma MulSucc(k: int, n: int)
    ensures k * (n + 1) == k * n + k
  {
  }

  lemma {:induction false} ConcatLength(fs: seq<seq<byte>>, k: nat)
    requires forall j :: 0 <= j < |fs| ==> |fs[j]| == k
    ensures |Concat(fs)| == k * |fs|
  {
    if |fs| > 0 {
      ConcatLength(fs[1..], k);
      MulSucc(k, |fs| - 1);
    }
  }

  lemma AppendSlice(a: seq<byte>, b: seq<byte>, x: nat, y: nat)
    requires x <= y <= |b|
    ensures (a + b)[|a| + x..|a| + y] == b[x..y]
  {
  }

  /** A slice of a slice is a slice of the whole. */
  lemma SliceOfSlice(s: seq<byte>, a: nat, b: nat, i: nat, j: nat)
    requires a <= b <= |s| && i <= j <= b - a
    ensures s[a..b][i..j] == s[a + i..a + j]
  {
    assert forall k :: 0 <= k < j - i ==> s[a..b][i..j][k] == s[a + i + k];
  }

  /** A slice holding a + b holds a, then b. */
  lemma SplitPair(s: seq<byte>, at: nat, a: seq<byte>, b: seq<byte>)
    requires at + |a| + |b| <= |s| && s[at..at + |a| + |b|] == a + b
    ensures s[at..at + |a|] == a && s[at + |a|..at + |a| + |b|] == b
  {
    SliceOfSlice(s, at, at + |a| + |b|, 0, |a|);
    SliceOfSlice(s, at, at + |a| + |b|, |a|, |a| + |b|);
    assert (a + b)[..|a|] == a && (a + b)[|a|..] == b;
  }

  /** When every field has length k, field i occupies bytes k*i .. k*i+k of the record. */
  lemma {:induction false} ConcatUniform(fs: seq<seq<byte>>, k: nat, i: nat)
    requires forall j :: 0 <= j < |fs| ==> |fs[j]| == k
    requires i < |fs|
    ensures k * i + k <= |Concat(fs)|
    ensures Concat(fs)[k * i..k * i + k] == fs[i]
  {
    var rest := fs[1..];
    var tail := Concat(rest);
    assert Concat(fs) == fs[0] + tail;
    assert |fs[0]| == k;
    if i == 0 {
      assert k * i == 0;
      assert (fs[0] + tail)[0..k] == fs[0];
      assert Concat(fs)[k * i..k * i + k] == fs[i];
    } else {
      ConcatUniform(rest, k, i - 1);
      var o := k * (i - 1);
      MulSucc(k, i - 1);
      assert k * i == k + o;
      assert rest[i - 1] == fs[i];
      AppendSlice(fs[0], tail, o, o + k);
      assert Concat(fs)[k * i..k * i + k] == tail[o..o + k];
      assert tail[o..o + k] == fs[i];
    }
  }

  /** Where part k of a concatenation starts: the lengths of the parts before it. */
  function Start(parts: seq<seq<byte>>, k: nat): (r: nat)
    requires k <= |parts|
    decreases k
  {
    if k == 0 then 0 else |parts[0]| + Start(parts[1..], k - 1)
  }

  /** Part k of a concatenation sits at its start. */
  lemma {:induction false} PartAt(parts: seq<seq<byte>>, k: nat)
    requires k < |parts|
    ensures Start(parts, k) + |parts[k]| <= |Concat(parts)|
    ensures Concat(parts)[Start(parts, k)..Start(parts, k) + |parts[k]|] == parts[k]
    decreases k
  {
    var tail := Concat(parts[1..]);
    assert Concat(parts) == parts[0] + tail;
    if k > 0 {
      PartAt(parts[1..], k - 1);
      assert parts[1..][k - 1] == parts[k];
      var at := Start(parts[1..], k - 1);
      AppendSlice(parts[0], tail, at, at + |parts[k]|);
    }
  }

  /** Part k of a concatenation found at `pos` in the data sits at `pos` plus its start. */
  lemma PartIn(data: seq<byte>, pos: nat, parts: seq<seq<byte>>, k: nat)
    requires k < |parts|
    requires pos + |Concat(parts)| <= |data| && data[pos..pos + |Concat(parts)|] == Concat(parts)
    ensures var at := pos + Start(parts, k);
      at + |parts[k]| <= |data| && data[at..at + |parts[k]|] == parts[k]
  {
    PartAt(parts, k);
    SliceOfSlice(data, pos, pos + |Concat(parts)|, Start(parts, k), Start(parts, k) + |parts[k]|);
  }

  /** Field i of a record of 4-byte fields that sits at `pos` in the data reads back as that field. */
  lemma FieldAt(data: seq<byte>, pos: nat, fs: seq<seq<byte>>, i: nat)
    requires forall j :: 0 <= j < |fs| ==> |fs[j]| == 4
    requires i < |fs|
    requires pos + |Concat(fs)| <= |data| && data[pos..pos + |Concat(fs)|] == Concat(fs)
    ensures U32At(data, pos + 4 * i) == ToInt(fs[i])
  {
    ConcatUniform(fs, 4, i);
    var record := Concat(fs);
    var p := pos + 4 * i;
    SliceOfSlice(data, pos, pos + |record|, 4 * i, 4 * i + 4);
    U32In(data, p, fs[i]);
  }

  // ---------------------------------------------------------------------------
  // Round trips and layout of the unsigned codec
  // ---------------------------------------------------------------------------

  lemma {:induction false} LittleEndianToInt(n: nat, k: nat)
    requires n < Pow256(k)
    ensures ToInt(LittleEndian(n, k)) == n
  {
    if k > 0 {
      var r := LittleEndian(n, k);
      assert r[1..] == LittleEndian(n / 256, k - 1);
      LittleEndianToInt(n / 256, k - 1);
    }
  }

  lemma {:induction false} ToIntLittleEndian(b: seq<byte>)
    ensures LittleEndian(ToInt(b), |b|) == b
  {
    if |b| > 0 {
      ToIntLittleEndian(b[1..]);
      var v := ToInt(b);
      assert v % 256 == b[0];
      assert v / 256 == ToInt(b[1..]);
    }
  }

  /** Byte i of the encoding is `(n / 256^i) % 256`. */
  lemma {:induction false} LittleEndianByte(n: nat, k: nat, i: nat)
    requires n < Pow256(k)
    requires i < k
    ensures LittleEndian(n, k)[i] == (n / Pow256(i)) % 256
  {
    if i > 0 {
      LittleEndianByte(n / 256, k - 1, i - 1);
      DivDiv(n, 256, Pow256(i - 1));
    }
  }

  lemma MulAtLeast(d: int, t: int)
    requires d > 0 && t >= 1
    ensures d * t >= d
  {
    var u := t - 1;
    assert d * t == d + d * u;
    assert d * u >= 0;
  }

  lemma MulLe(b: nat, x: nat, y: nat)
    requires x <= y
    ensures b * x <= b * y
  {
    assert b * y == b * x + b * (y - x);
  }

  lemma MulMonotone(d: int, a: int, b: int)
    requires d >= 0 && a <= b
    ensures d * a <= d * b
  {
    assert d * b == d * a + d * (b - a);
  }

  /** A non-negative number below d * n has a quotient below n. */
  lemma DivBelow(i: int, d: int, n: int)
    requires d > 0 && 0 <= i < d * n
    ensures 0 <= i / d < n
  {
    var q := i / d;
    assert d * q <= i;
    if q >= n {
      MulMonotone(d, n, q);
      assert false;
    }
  }

  /** Euclidean division is determined by any quotient/remainder pair with the remainder in range. */
  lemma DivModUnique(a: int, d: int, q: int, r: int)
    requires d > 0 && 0 <= r < d && a == d * q + r
    ensures a / d == q && a % d == r
  {
    var q' := a / d;
    var r' := a % d;
    assert a == d * q' + r';
    var t := q' - q;
    assert d * q' == d * q + d * t;
    assert d * t == r - r';
    if t >= 1 {
      MulAtLeast(d, t);
    } else if t <= -1 {
      assert d * (-t) == -(d * t);
      MulAtLeast(d, -t);
    }
  }

  lemma DivDiv(a: nat, b: nat, c: nat)
    requires b > 0 && c > 0
    ensures (a / b) / c == a / (b * c)
  {
    var q := a / b;
    var r := a % b;
    var q2 := q / c;
    var r2 := q % c;
    var bc := b * c;
    assert a == b * q + r;
    assert q == c * q2 + r2;
    assert b * q == bc * q2 + b * r2 by {
      assert b * (c * q2 + r2) == b * (c * q2) + b * r2;
      assert b * (c * q2) == (b * c) * q2;
    }
    assert b * r2 + r < bc by {
      assert r2 + 1 <= c;
      MulLe(b, r2 + 1, c);
      assert b * (r2 + 1) == b * r2 + b;
    }
    assert 0 <= b * r2;
    DivModUnique(a, bc, q2, b * r2 + r);
  }

  lemma ToBytesIsLittleEndian(n: int, k: nat)
    requires 0 <= n < Pow256(k)
    ensures ToBytes(n, k) == Success(LittleEndian(n, k))
  {
  }

  /** Encoding is injective on its range: equal bytes, equal numbers. */
  lemma ToIntInjective(a: seq<byte>, b: seq<byte>)
    requires |a| == |b| && ToInt(a) == ToInt(b)
    ensures a == b
  {
    ToIntLittleEndian(a);
    ToIntLittleEndian(b);
  }

  lemma {:induction false} ToIntAppend(a: seq<byte>, b: seq<byte>)
    ensures ToInt(a + b) == ToInt(a) + Pow256(|a|) * ToInt(b)
  {
    if |a| == 0 {
      assert a + b == b;
    } else {
      assert (a + b)[1..] == a[1..] + b;
      assert (a + b)[0] == a[0];
      ToIntAppend(a[1..], b);
      Distribute256(a[0], ToInt(a[1..]), Pow256(|a| - 1), ToInt(b));
    }
  }

  lemma Distribute256(a0: int, x: int, p: int, y: int)
    ensures a0 + 256 * (x + p * y) == (a0 + 256 * x) + (256 * p) * y
  {
    assert 256 * (x + p * y) == 256 * x + 256 * (p * y);
    assert 256 * (p * y) == (256 * p) * y;
  }

  // ---------------------------------------------------------------------------
  // The signed codec
  // ---------------------------------------------------------------------------

  /** `to_signed_bytes(n, k)` is `to_bytes((2^(8k) + n) mod 2^(8k), k)` whenever it succeeds. */
  lemma SignedBytesIsOffsetUnsigned(n: int, k: nat)
    requires -(Pow256(k) / 2) <= n < Pow256(k) / 2
    ensures ToSignedBytes(n, k) == ToBytes((Pow256(k) + n) % Pow256(k), k)
    ensures ToSignedBytes(n, k).Success?
  {
  }

  /** In the signed range, n mod `power` is n itself when n is non-negative and n + `power`
      otherwise. */
  lemma WrapValue(power: int, n: int)
    requires power > 0 && -(power / 2) <= n < power / 2
    ensures (power + n) % power == if n >= 0 then n else power + n
  {
    if n >= 0 {
      DivModUnique(power + n, power, 1, n);
    } else {
      DivModUnique(power + n, power, 0, power + n);
    }
  }

  /** In range, `to_signed_bytes` writes n, or n + 2^(8k) when n is negative. */
  lemma SignedBytesOf(n: int, k: nat)
    requires -(Pow256(k) / 2) <= n < Pow256(k) / 2
    ensures ToSignedBytes(n, k) == ToBytes(if n >= 0 then n else Pow256(k) + n, k)
  {
    WrapValue(Pow256(k), n);
  }

  /** Reading back what `to_signed_bytes` wrote gives the original number. */
  lemma SignedRoundTrip(n: int, k: nat)
    requires k >= 1
    requires -(Pow256(k) / 2) <= n < Pow256(k) / 2
    ensures ToSignedBytes(n, k).Success?
    ensures ToSignedInt(ToSignedBytes(n, k).value) == n
  {
    SignedBytesOf(n, k);
    var v := if n >= 0 then n else Pow256(k) + n;
    var b := ToBytes(v, k).value;
    assert |b| == k && ToInt(b) == v;
    SignedReadOf(b, n);
  }

  /** Bytes holding n, or n + 2^(8|b|) when n is negative, read as signed give n. */
  lemma SignedReadOf(b: seq<byte>, n: int)
    requires |b| >= 1
    requires -(Pow256(|b|) / 2) <= n < Pow256(|b|) / 2
    requires ToInt(b) == if n >= 0 then n else Pow256(|b|) + n
    ensures ToSignedInt(b) == n
  {
  }

  /** Reading a byte string as signed and writing it back reproduces the bytes. */
  lemma SignedBytesOfSignedInt(b: seq<byte>)
    requires |b| >= 1
    ensures ToSignedBytes(ToSignedInt(b), |b|) == Success(b)
  {
    var n := ToSignedInt(b);
    var power := Pow256(|b|);
    var u := ToInt(b);
    if u < power / 2 {
      DivModUnique(power + n, power, 1, u);
    } else {
      DivModUnique(power + n, power, 0, u);
    }
    ToIntLittleEndian(b);
  }
}

=== FILE: mousecape.dfy ===
/** The Mousecape (macOS) theme builder of CursorCreate/lib/cur_theme.py. macOS has no cursor
  themes of its own; the builder writes a .cape property list for the Mousecape program, in
  which an animated cursor becomes one vertical strip of equally long tiles per export size,
  with a single frame duration and a single hotspot.

  The property-list encoding and the PNG encoding of the strips are not modelled: a cursor
  here is its frame count, its frame duration and, per export size, the list of icons pasted
  into the strip and where.
 */
module Mousecape {
  import opened Wrappers
  import opened FormatCore
  import opened CursorModel
  import CurTheme

  // ---------------------------------------------------------------------------
  // The cape identifier
  // ---------------------------------------------------------------------------

  /** The characters Python's `str.split()` treats as whitespace. */
  predicate IsSpace(c: char) {
    || c == ' ' || '\t' <= c <= '\r' || '\U{1C}' <= c <= '\U{1F}'
    || c == '\U{85}' || c == '\U{A0}' || c == '\U{1680}' || '\U{2000}' <= c <= '\U{200A}'
    || c == '\U{2028}' || c == '\U{2029}' || c == '\U{202F}' || c == '\U{205F}' || c == '\U{3000}'
  }

  predicate IsUpper(c: char) {
    'A' <= c <= 'Z'
  }

  /** `str.lower` on one character (ASCII letters only). */
  function LowerChar(c: char): (r: char)
    ensures !IsUpper(r)
    ensures IsSpace(r) <==> IsSpace(c)
    ensures !IsUpper(c) ==> r == c
  {
    if IsUpper(c) then (c as int - 'A' as int + 'a' as int) as char else c
  }

  /** `"".join(s.lower().split())`: lower-cased, every whitespace character dropped. */
  function Squash(s: string): (r: string)
    ensures |r| <= |s|
    ensures forall i :: 0 <= i < |r| ==> !IsSpace(r[i]) && !IsUpper(r[i])
    decreases |s|
  {
    if |s| == 0 then ""
    else if IsSpace(s[0]) then Squash(s[1..])
    else [LowerChar(s[0])] + Squash(s[1..])
  }

  /** Squashing works piece by piece: the pieces of a text squash to the pieces of the result. */
  lemma {:induction false} SquashConcat(a: string, b: string)
    ensures Squash(a + b) == Squash(a) + Squash(b)
    decreases |a|
  {
    if |a| == 0 {
      assert a + b == b;
    } else {
      SquashConcat(a[1..], b);
      assert (a + b)[1..] == a[1..] + b;
    }
  }

  /** A text without whitespace or capitals is its own squash. */
  lemma {:induction false} SquashKeeps(s: string)
    requires forall i :: 0 <= i < |s| ==> !IsSpace(s[i]) && !IsUpper(s[i])
    ensures Squash(s) == s
    decreases |s|
  {
    if |s| > 0 {
      SquashKeeps(s[1..]);
      assert s == [s[0]] + s[1..];
    }
  }

  /** Squashing twice is squashing once. */
  lemma SquashIdempotent(s: string)
    ensures Squash(Squash(s)) == Squash(s)
  {
    SquashKeeps(Squash(s));
  }

  /** The author part of the identifier: the squashed author, "unknown" without one. */
  function AuthorPart(author: Option<string>): string {
    if author.None? then "unknown" else Squash(author.value)
  }

  /** `".".join(["com", auth_str, theme_str])`. */
  function Identifier(author: Option<string>, theme: string): (r: string)
    ensures r == "com." + AuthorPart(author) + "." + Squash(theme)
  {
    var parts := ["com", AuthorPart(author), Squash(theme)];
    assert parts[1..][1..] == [Squash(theme)];
    assert CurTheme.Join(parts[1..], '.') == AuthorPart(author) + "." + Squash(theme);
    CurTheme.Join(parts, '.')
  }

  /** The identifier splits back into its three fields when neither name holds a dot. */
  lemma IdentifierFields(author: Option<string>, theme: string)
    requires '.' !in AuthorPart(author) && '.' !in Squash(theme)
    ensures CurTheme.Split(Identifier(author, theme), '.') == ["com", AuthorPart(author), Squash(theme)]
  {
    var parts := ["com", AuthorPart(author), Squash(theme)];
    assert parts[1..][1..] == [Squash(theme)];
    CurTheme.SplitJoin(parts, '.');
  }

  // ---------------------------------------------------------------------------
  // Delay arithmetic
  // ---------------------------------------------------------------------------

  function Abs(x: int): nat {
    if x < 0 then -x else x
  }

  /** `int(x / b)` for a positive b: the quotient truncated toward zero. */
  function TruncDiv(a: int, b: int): (r: int)
    requires b > 0
    ensures a >= 0 ==> r >= 0 && b * r <= a < b * (r + 1)
    ensures a < 0 ==> r <= 0 && b * (r - 1) < a <= b * r
  {
    var q := Abs(a) / b;
    assert Abs(a) == b * q + Abs(a) % b;
    assert b * (q + 1) == b * q + b;
    if a >= 0 then q
    else
      assert b * (-q - 1) == -(b * (q + 1)) && b * -q == -(b * q);
      -q
  }

  /** `a // b` on numpy integers: the quotient rounded down; a zero divisor gives zero. */
  function FloorDiv(a: int, b: int): (r: int)
    ensures b == 0 ==> r == 0
    ensures b > 0 ==> b * r <= a < b * (r + 1)
    ensures b < 0 ==> b * (r + 1) < a <= b * r
  {
    if b == 0 then 0 else if b > 0 then a / b else (-a) / (-b)
  }

  /** The sum of the first k delays (`cumsum(delays)[k - 1]`). */
  function PrefixSum(d: seq<int>, k: nat): int
    requires k <= |d|
  {
    if k == 0 then 0 else PrefixSum(d, k - 1) + d[k - 1]
  }

  /** The time frame i ends at: `cumulative_delay[i]`. */
  function Cum(d: seq<int>, i: nat): int
    requires i < |d|
  {
    PrefixSum(d, i + 1)
  }

  /** c divides x (zero divides only zero). */
  predicate Divides(c: nat, x: int) {
    if c == 0 then x == 0 else x % c == 0
  }

  /** A divisor of two numbers divides every combination of them. */
  lemma DividesCombo(g: nat, b: int, q: int, r: int)
    requires Divides(g, b) && Divides(g, r)
    ensures Divides(g, b * q + r)
  {
    if g > 0 {
      var kb, kr := b / g, r / g;
      assert b == g * kb && r == g * kr;
      assert b * q == g * (kb * q) by {
        assert b * q == (g * kb) * q;
      }
      assert b * q + r == g * (kb * q + kr);
      DivModUnique(b * q + r, g, kb * q + kr, 0);
    }
  }

  /** `math.gcd` / `np.gcd` of two non-negative numbers, by Euclid's algorithm. */
  function Gcd(a: nat, b: nat): nat
    decreases b
  {
    if b == 0 then a else Gcd(b, a % b)
  }

  /** The greatest common divisor divides both arguments. */
  lemma {:induction false} GcdDivides(a: nat, b: nat)
    ensures Divides(Gcd(a, b), a) && Divides(Gcd(a, b), b)
    decreases b
  {
    if b > 0 {
      var g := Gcd(a, b);
      assert g == Gcd(b, a % b);
      GcdDivides(b, a % b);
      DividesCombo(g, b, a / b, a % b);
      assert b * (a / b) + a % b == a;
    }
  }

  /** Every common divisor divides the greatest one. */
  lemma {:induction false} GcdGreatest(a: nat, b: nat, c: nat)
    requires Divides(c, a) && Divides(c, b)
    ensures Divides(c, Gcd(a, b))
    decreases b
  {
    if b > 0 {
      DividesCombo(c, b, -(a / b), a);
      assert b * -(a / b) + a == a % b;
      GcdGreatest(b, a % b, c);
    }
  }

  /** `np.gcd.reduce(delays)`: folded from the left; a single delay is returned as it is. */
  function GcdAll(d: seq<int>): int
    decreases |d|
  {
    if |d| == 0 then 0
    else if |d| == 1 then d[0]
    else Gcd(Abs(GcdAll(d[..|d| - 1])), Abs(d[|d| - 1]))
  }

  /** A number and its magnitude have the same divisors. */
  lemma DividesAbs(c: nat, x: int)
    ensures Divides(c, x) <==> Divides(c, Abs(x))
  {
    if Divides(c, x) {
      DividesCombo(c, x, -1, 0);
      assert x * -1 + 0 == -x;
    }
    if Divides(c, Abs(x)) {
      var a: int := Abs(x);
      DividesCombo(c, a, -1, 0);
      assert a * -1 + 0 == -a;
    }
  }

  lemma DividesSelf(x: int)
    ensures Divides(Abs(x), x)
  {
    if x > 0 {
      DivModUnique(x, x, 1, 0);
    } else if x < 0 {
      DivModUnique(x, -x, -1, 0);
    }
  }

  lemma DividesTransitive(a: nat, b: nat, x: int)
    requires Divides(a, b) && Divides(b, x)
    ensures Divides(a, x)
  {
    if b > 0 {
      var k := x / b;
      assert x == b * k + x % b;
      DividesCombo(a, b, k, 0);
    }
  }

  /** The reduced gcd divides every delay. */
  lemma {:induction false} GcdAllDivides(d: seq<int>, i: nat)
    requires i < |d|
    ensures Divides(Abs(GcdAll(d)), d[i])
    decreases |d|
  {
    if |d| == 1 {
      DividesSelf(d[0]);
    } else {
      var front := d[..|d| - 1];
      var g := GcdAll(d);
      GcdDivides(Abs(GcdAll(front)), Abs(d[|d| - 1]));
      if i == |d| - 1 {
        DividesAbs(g, d[i]);
      } else {
        GcdAllDivides(front, i);
        assert front[i] == d[i];
        DividesTransitive(g, Abs(GcdAll(front)), d[i]);
      }
    }
  }

  /** Every common divisor of the delays divides the reduced gcd. */
  lemma {:induction false} GcdAllGreatest(d: seq<int>, c: nat)
    requires forall i :: 0 <= i < |d| ==> Divides(c, d[i])
    ensures Divides(c, GcdAll(d))
    decreases |d|
  {
    if |d| >= 2 {
      var front := d[..|d| - 1];
      GcdAllGreatest(front, c);
      DividesAbs(c, GcdAll(front));
      DividesAbs(c, d[|d| - 1]);
      GcdGreatest(Abs(GcdAll(front)), Abs(d[|d| - 1]), c);
    }
  }

  /** A divisor of every delay divides every running total of them. */
  lemma {:induction false} PrefixSumDivides(d: seq<int>, g: nat, k: nat)
    requires k <= |d| && forall i :: 0 <= i < |d| ==> Divides(g, d[i])
    ensures Divides(g, PrefixSum(d, k))
  {
    if k > 0 {
      PrefixSumDivides(d, g, k - 1);
      DividesCombo(g, PrefixSum(d, k - 1), 1, d[k - 1]);
    }
  }

  /** With positive delays the frames end one after another. */
  lemma {:induction false} CumIncreasing(d: seq<int>, i: nat, j: nat)
    requires forall k :: 0 <= k < |d| ==> d[k] > 0
    requires i < j < |d|
    ensures 0 < Cum(d, i) < Cum(d, j)
    decreases j
  {
    if i + 1 < j {
      CumIncreasing(d, i, j - 1);
    }
    CumPositive(d, i);
    assert Cum(d, j) == Cum(d, j - 1) + d[j];
  }

  lemma {:induction false} CumPositive(d: seq<int>, i: nat)
    requires forall k :: 0 <= k < |d| ==> d[k] > 0
    requires i < |d|
    ensures Cum(d, i) > 0
    decreases i
  {
    if i > 0 {
      CumPositive(d, i - 1);
      assert Cum(d, i) == Cum(d, i - 1) + d[i];
    } else {
      assert Cum(d, 0) == PrefixSum(d, 0) + d[0];
    }
  }

  /** `max(gcd_of_em, half_avg)`: the duration of one output frame, the larger of the gcd of
      the delays and a quarter of their mean (truncated toward zero). */
  function Unified(d: seq<int>): (u: int)
    requires |d| > 0
    ensures u >= GcdAll(d) && u >= TruncDiv(PrefixSum(d, |d|), 4 * |d|)
    ensures u == GcdAll(d) || u == TruncDiv(PrefixSum(d, |d|), 4 * |d|)
  {
    Max(GcdAll(d), TruncDiv(PrefixSum(d, |d|), 4 * |d|))
  }

  /** `cumulative_delay[-1] // unified_delay`: how many output frames the strip has. */
  function FrameCount(d: seq<int>): (n: int)
    requires |d| > 0
  {
    FloorDiv(PrefixSum(d, |d|), Unified(d))
  }

  /** The output frames together last at most the whole animation, and less than one output
      frame short of it. */
  lemma FrameCountBounds(d: seq<int>)
    requires |d| > 0 && Unified(d) > 0
    ensures FrameCount(d) * Unified(d) <= PrefixSum(d, |d|) < (FrameCount(d) + 1) * Unified(d)
  {
    FloorBounds(PrefixSum(d, |d|), Unified(d));
  }

  lemma FloorBounds(a: int, u: int)
    requires u > 0
    ensures FloorDiv(a, u) * u <= a < (FloorDiv(a, u) + 1) * u
  {
    var n := FloorDiv(a, u);
    assert u * n <= a < u * (n + 1);
  }

  lemma QuotientExact(a: int, u: nat)
    requires u > 0 && Divides(u, a)
    ensures (a / u) * u == a
  {
    assert a == u * (a / u) + a % u;
  }

  lemma ExactQuotient(a: int, u: nat)
    requires u > 0 && Divides(u, a)
    ensures FloorDiv(a, u) * u == a
  {
    assert a == u * (a / u) + a % u;
  }

  /** When the gcd decides the output frame, the output frames last exactly the animation. */
  lemma FrameCountExact(d: seq<int>)
    requires |d| > 0 && Unified(d) > 0 && Unified(d) == Abs(GcdAll(d))
    ensures FrameCount(d) * Unified(d) == PrefixSum(d, |d|)
  {
    var u := Unified(d);
    forall i | 0 <= i < |d| ensures Divides(u, d[i]) {
      GcdAllDivides(d, i);
    }
    PrefixSumDivides(d, u, |d|);
    ExactQuotient(PrefixSum(d, |d|), u);
  }

  // ---------------------------------------------------------------------------
  // Choosing the source frame of every output frame
  // ---------------------------------------------------------------------------

  /** The inner loop as written: advance `next` while the output time has reached
      `cumulative_delay[next]`, the end of frame `next` rather than of frame `next - 1`. */
  function AdvanceAsWritten(d: seq<int>, t: int, next: nat): (r: nat)
    requires 1 <= next <= |d|
    ensures next <= r <= |d|
    ensures forall i :: next <= i < r ==> Cum(d, i) <= t
    ensures r == |d| || t < Cum(d, r)
    decreases |d| - next
  {
    if next < |d| && t >= Cum(d, next) then AdvanceAsWritten(d, t, next + 1) else next
  }

  /** The source frames of output frames `o..count - 1` as written; `next` is carried over. */
  function SourcesAsWrittenFrom(d: seq<int>, u: int, o: nat, count: int, next: nat): (r: seq<nat>)
    requires 1 <= next <= |d|
    ensures |r| == Max(count - o, 0)
    ensures forall k :: 0 <= k < |r| ==> r[k] < |d|
    decreases count - o
  {
    if o >= count then []
    else
      var nx := AdvanceAsWritten(d, o * u, next);
      [nx - 1] + SourcesAsWrittenFrom(d, u, o + 1, count, nx)
  }

  /** As written, no output frame before the end of the animation shows the last frame. */
  lemma {:induction false} AsWrittenSkipsLast(d: seq<int>, u: int, o: nat, count: int, next: nat)
    requires 1 <= next < |d|
    requires forall k :: o <= k < count ==> k * u < Cum(d, |d| - 1)
    ensures forall k :: 0 <= k < |SourcesAsWrittenFrom(d, u, o, count, next)| ==>
      SourcesAsWrittenFrom(d, u, o, count, next)[k] < |d| - 1
    decreases count - o
  {
    if o < count {
      var nx := AdvanceAsWritten(d, o * u, next);
      assert nx < |d|;
      AsWrittenSkipsLast(d, u, o + 1, count, nx);
    }
  }

  /** The corrected inner loop: advance while the output time has reached the end of frame
      `next - 1`, so that frame `next - 1` is the one showing. */
  function Advance(d: seq<int>, t: int, next: nat): (r: nat)
    requires 1 <= next <= |d|
    ensures next <= r <= |d|
    ensures forall j :: next - 1 <= j < r - 1 ==> Cum(d, j) <= t
    ensures r == |d| || t < Cum(d, r - 1)
    decreases |d| - next
  {
    if next < |d| && t >= Cum(d, next - 1) then Advance(d, t, next + 1) else next
  }

  /** Frame k shows at time t: every earlier frame has ended, and k has not unless it is last. */
  predicate Showing(d: seq<int>, t: int, k: nat) {
    && k < |d|
    && (forall j :: 0 <= j < k ==> Cum(d, j) <= t)
    && (k == |d| - 1 || t < Cum(d, k))
  }

  /** At most one frame shows at a time. */
  lemma ShowingUnique(d: seq<int>, t: int, k1: nat, k2: nat)
    requires Showing(d, t, k1) && Showing(d, t, k2)
    ensures k1 == k2
  {
  }

  /** Every frame before `next` has ended by time t. */
  predicate Passed(d: seq<int>, t: int, next: nat)
    requires next <= |d|
  {
    forall j :: 0 <= j < next - 1 ==> Cum(d, j) <= t
  }

  /** Resuming the scan from a frame already passed gives the same frame as scanning afresh. */
  lemma {:induction false} AdvanceResumes(d: seq<int>, t: int, from: nat, next: nat)
    requires 1 <= from <= next <= |d| && Passed(d, t, next)
    ensures Advance(d, t, from) == Advance(d, t, next)
    decreases next - from
  {
    if from < next {
      assert Cum(d, from - 1) <= t;
      AdvanceResumes(d, t, from + 1, next);
    }
  }

  /** The source frames of output frames `o..count - 1`, `next` carried from one output frame
      to the next. */
  function SourcesFrom(d: seq<int>, u: int, o: nat, count: int, next: nat): (r: seq<nat>)
    requires 1 <= next <= |d|
    ensures |r| == Max(count - o, 0)
    ensures forall k :: 0 <= k < |r| ==> r[k] < |d|
    decreases count - o
  {
    if o >= count then []
    else
      var nx := Advance(d, o * u, next);
      [nx - 1] + SourcesFrom(d, u, o + 1, count, nx)
  }

  /** Each output frame shows the frame showing at its start time. */
  lemma {:induction false} SourcesShow(d: seq<int>, u: int, o: nat, count: int, next: nat)
    requires u >= 0 && 1 <= next <= |d| && Passed(d, o * u, next)
    ensures forall k :: 0 <= k < |SourcesFrom(d, u, o, count, next)| ==>
      Showing(d, (o + k) * u, SourcesFrom(d, u, o, count, next)[k])
    decreases count - o
  {
    if o < count {
      var r := SourcesFrom(d, u, o, count, next);
      var nx := Advance(d, o * u, next);
      AdvanceResumes(d, o * u, 1, next);
      assert Showing(d, o * u, nx - 1);
      assert o * u <= (o + 1) * u;
      SourcesShow(d, u, o + 1, count, nx);
      forall k | 0 <= k < |r| ensures Showing(d, (o + k) * u, r[k]) {
        if k > 0 {
          assert r[k] == SourcesFrom(d, u, o + 1, count, nx)[k - 1];
          assert (o + k) * u == (o + 1 + (k - 1)) * u;
        }
      }
    }
  }

  /** The source frame of every output frame, as written. */
  function SourcesAsWritten(d: seq<int>): (r: seq<nat>)
    requires |d| > 0
    ensures |r| == Max(FrameCount(d), 0)
    ensures forall o :: 0 <= o < |r| ==> r[o] < |d|
  {
    SourcesAsWrittenFrom(d, Unified(d), 0, FrameCount(d), 1)
  }

  /** The source frame of every output frame: output frame o, starting at o times the unified
      delay, shows the animation frame showing at that time. */
  function Sources(d: seq<int>): (r: seq<nat>)
    requires |d| > 0
    ensures |r| == Max(FrameCount(d), 0)
    ensures forall o :: 0 <= o < |r| ==> r[o] < |d|
    ensures Unified(d) >= 0 ==> forall o :: 0 <= o < |r| ==> Showing(d, o * Unified(d), r[o])
  {
    var r := SourcesFrom(d, Unified(d), 0, FrameCount(d), 1);
    if Unified(d) >= 0 then
      SourcesShow(d, Unified(d), 0, FrameCount(d), 1);
      r
    else r
  }

  /** Which inner loop picks the source frames: the one `__unify_frames` runs, or the
      corrected one. */
  datatype Loop = AsWritten | Corrected

  /** The source frame of every output frame under the chosen loop. */
  function SourcesOf(d: seq<int>, loop: Loop): (r: seq<nat>)
    requires |d| > 0
    ensures |r| == Max(FrameCount(d), 0)
    ensures forall o :: 0 <= o < |r| ==> r[o] < |d|
  {
    match loop
    case AsWritten => SourcesAsWritten(d)
    case Corrected => Sources(d)
  }

  lemma MulLess(o: int, c: int, u: int)
    requires u > 0 && o * u < c * u
    ensures o < c
  {
    if o >= c {
      MulMonotone(u, c, o);
      assert false;
    }
  }

  /** When the gcd decides the output frame and no delay is zero or negative, every frame of
      the animation shows in some output frame: the one starting when that frame starts. */
  lemma EveryFrameShown(d: seq<int>, k: nat)
    requires |d| > 0 && forall i :: 0 <= i < |d| ==> d[i] > 0
    requires Unified(d) == Abs(GcdAll(d))
    requires k < |d|
    ensures exists o :: 0 <= o < |Sources(d)| && Sources(d)[o] == k
  {
    var u, n := Unified(d), |d|;
    forall i | 0 <= i < n ensures Divides(u, d[i]) {
      GcdAllDivides(d, i);
    }
    assert u > 0 by {
      assert Divides(u, d[0]);
    }
    FrameCountExact(d);
    var count := FrameCount(d);
    var t := PrefixSum(d, k);
    PrefixSumDivides(d, u, k);
    var o := t / u;
    QuotientExact(t, u);
    CumPositive(d, n - 1);
    if k > 0 {
      assert t == Cum(d, k - 1);
      if k - 1 < n - 1 {
        CumIncreasing(d, k - 1, n - 1);
      }
    }
    assert o * u < count * u;
    MulLess(o, count, u);
    assert o >= 0 by {
      if k > 0 {
        CumPositive(d, k - 1);
      }
    }
    forall j | 0 <= j < k ensures Cum(d, j) <= t {
      if j < k - 1 {
        CumIncreasing(d, j, k - 1);
      }
    }
    if k < n - 1 {
      if k > 0 {
        CumIncreasing(d, k - 1, k);
      } else {
        CumPositive(d, 0);
      }
    }
    assert Showing(d, t, k);
    ShowingUnique(d, t, k, Sources(d)[o]);
  }

  /** As written, a cursor of two or more frames never shows its last frame: each output frame
      starts before the animation ends, and the loop only moves past frame i once that time has
      reached the end of frame i + 1. */
  lemma AsWrittenNeverShowsLast(d: seq<int>)
    requires |d| >= 2
    ensures forall o :: 0 <= o < |SourcesAsWritten(d)| ==> SourcesAsWritten(d)[o] < |d| - 1
  {
    var u, count, total := Unified(d), FrameCount(d), PrefixSum(d, |d|);
    assert u >= 0 by {
      assert GcdAll(d) == Gcd(Abs(GcdAll(d[..|d| - 1])), Abs(d[|d| - 1]));
    }
    StartsBeforeEnd(total, u);
    assert total == Cum(d, |d| - 1);
    AsWrittenSkipsLast(d, u, 0, count, 1);
  }

  /** Every output frame counted by the floor division starts before the total has elapsed. */
  lemma StartsBeforeEnd(total: int, u: int)
    requires u >= 0
    ensures forall k :: 0 <= k < FloorDiv(total, u) ==> k * u < total
  {
    if u > 0 {
      FloorBounds(total, u);
      forall k | 0 <= k < FloorDiv(total, u) ensures k * u < total {
        MulMonotone(u, k, FloorDiv(total, u) - 1);
      }
    }
  }

  /** Two frames of 10 ms: as written the strip shows the first frame twice; corrected it shows
      each frame once. */
  lemma AsWrittenExample()
    ensures SourcesAsWritten([10, 10]) == [0, 0]
    ensures Sources([10, 10]) == [0, 1]
  {
    var d := [10, 10];
    assert GcdAll(d) == 10 by {
      assert d[..1] == [10];
      assert GcdAll(d[..1]) == 10;
      assert Gcd(10, 10) == Gcd(10, 0) == 10;
    }
    assert PrefixSum(d, 2) == 20;
    assert TruncDiv(20, 8) == 2;
    assert Unified(d) == 10;
    assert FrameCount(d) == 2;
    assert Cum(d, 0) == 10 && Cum(d, 1) == 20;
    assert AdvanceAsWritten(d, 0, 1) == 1;
    assert AdvanceAsWritten(d, 10, 1) == 1;
    assert Advance(d, 0, 1) == 1;
    assert Advance(d, 10, 1) == 2;
    assert SourcesAsWrittenFrom(d, 10, 2, 2, 1) == [];
    assert SourcesFrom(d, 10, 2, 2, 2) == [];
  }

  // ---------------------------------------------------------------------------
  // The strips
  // ---------------------------------------------------------------------------

  /** `CURSOR_EXPORT_SIZES`, in the order of the strips. */
  const ExportSizes: seq<Size> := [(32, 32), (64, 64), (160, 160)]

  const ExportSizeSet: set<Size> := {(32, 32), (64, 64), (160, 160)}

  /** An icon pasted into a strip with its top-left corner at an offset. */
  datatype Paste = Paste(image: Image, offset: (int, int))

  /** Where an icon of size s goes in output frame o of its strip: the strip is 2s wide and
      each output frame a 2s tall tile, the hotspot at the tile's centre. */
  function TileOffset(s: Size, hotspot: (int, int), o: nat): (int, int) {
    (s.0 - hotspot.0, s.1 * 2 * o + s.1 - hotspot.1)
  }

  /** An icon of size s with its hotspot inside lies wholly within its tile, and its hotspot
      lands on the tile's centre. */
  lemma TileInside(icon: Icon, s: Size, o: nat)
    requires ValidIcon(icon) && SizeOf(icon.image) == s
    ensures var off := TileOffset(s, icon.hotspot, o);
      && 0 < off.0 && off.0 + s.0 <= 2 * s.0
      && s.1 * 2 * o < off.1 && off.1 + s.1 <= s.1 * 2 * o + 2 * s.1
      && off.0 + icon.hotspot.0 == s.0 && off.1 + icon.hotspot.1 == s.1 * 2 * o + s.1
  {
  }

  /** Every frame holds an icon of size s. */
  predicate HasSize(frames: AnimatedCursor, s: Size) {
    forall i :: 0 <= i < |frames| ==> s in frames[i].cursor
  }

  /** The strip of one export size: output frame o pastes the icon of its source frame. */
  function Strip(frames: AnimatedCursor, sources: seq<nat>, s: Size): (r: seq<Paste>)
    requires HasSize(frames, s) && forall o :: 0 <= o < |sources| ==> sources[o] < |frames|
    ensures |r| == |sources|
    ensures forall o :: 0 <= o < |sources| ==>
      r[o] == Paste(frames[sources[o]].cursor[s].image, TileOffset(s, frames[sources[o]].cursor[s].hotspot, o))
  {
    seq(|sources|, o requires 0 <= o < |sources| =>
      Paste(frames[sources[o]].cursor[s].image, TileOffset(s, frames[sources[o]].cursor[s].hotspot, o)))
  }

  /** Frames holding exactly the export sizes hold each of them. */
  lemma ExportSizesHeld(frames: AnimatedCursor, i: nat)
    requires (forall j :: 0 <= j < |frames| ==> frames[j].cursor.Keys == ExportSizeSet) && i < 3
    ensures HasSize(frames, ExportSizes[i])
  {
    assert ExportSizes[i] in ExportSizeSet;
  }

  /** The three strips, one per export size. */
  function Strips(frames: AnimatedCursor, sources: seq<nat>): (r: seq<seq<Paste>>)
    requires forall j :: 0 <= j < |frames| ==> frames[j].cursor.Keys == ExportSizeSet
    requires forall o :: 0 <= o < |sources| ==> sources[o] < |frames|
    ensures |r| == 3
    ensures forall i :: 0 <= i < 3 ==> HasSize(frames, ExportSizes[i]) && r[i] == Strip(frames, sources, ExportSizes[i])
  {
    ExportSizesHeld(frames, 0);
    ExportSizesHeld(frames, 1);
    ExportSizesHeld(frames, 2);
    [Strip(frames, sources, ExportSizes[0]), Strip(frames, sources, ExportSizes[1]), Strip(frames, sources, ExportSizes[2])]
  }

  /** One cursor of the cape: frame count, frame duration in milliseconds, hotspot and size
      in points, and one strip per export size. */
  datatype MacCursor = MacCursor(frameCount: int, durationMs: int, hotspot: (int, int), points: (int, int), strips: seq<seq<Paste>>)

  /** The delays of an animated cursor. */
  function Delays(ac: AnimatedCursor): (d: seq<int>)
    ensures |d| == |ac| && forall i :: 0 <= i < |ac| ==> d[i] == ac[i].delay
  {
    seq(|ac|, i requires 0 <= i < |ac| => ac[i].delay)
  }

  /** `__unify_frames`: an animated cursor as strips of equal tiles with one delay, the source
      frames picked by `loop` (the program runs `AsWritten`). No frame: ValueError (the mean of
      no delays is not a number); a frame that cannot take the export sizes: ValueError; a
      negative frame count: ValueError from the image constructor, after the restriction. */
  function Unify(ac: AnimatedCursor, lanczos: Resampler, loop: Loop): (r: Result<MacCursor>)
    requires FramesWellFormed(ac)
    ensures |ac| == 0 ==> r == Failure(ValueError)
    ensures |ac| > 0 && !AllCanGrow(ac, ExportSizeSet) ==> r == Failure(ValueError)
    ensures |ac| > 0 && FrameCount(Delays(ac)) < 0 ==> r == Failure(ValueError)
    ensures r.Success? ==> |ac| > 0 && AllCanGrow(ac, ExportSizeSet) && FrameCount(Delays(ac)) >= 0
    ensures r.Success? ==>
      && r.value.frameCount == FrameCount(Delays(ac))
      && r.value.durationMs == Unified(Delays(ac))
      && r.value.hotspot == (32, 32) && r.value.points == (64, 64)
      && |r.value.strips| == 3
    ensures r.Success? ==> FramesWellFormed(RestrictFrames(ac, ExportSizeSet, lanczos).value)
    ensures r.Success? ==> r.value.strips == Strips(RestrictFrames(ac, ExportSizeSet, lanczos).value, SourcesOf(Delays(ac), loop))
  {
    if |ac| == 0 then Failure(ValueError)
    else
      var d := Delays(ac);
      var restricted := RestrictFrames(ac, ExportSizeSet, lanczos);
      if restricted.Failure? then Failure(restricted.error)
      else if FrameCount(d) < 0 then Failure(ValueError)
      else if !FramesWellFormed(restricted.value) then Failure(LibraryError)
      else
        var frames := restricted.value;
        var src := SourcesOf(d, loop);
        Success(MacCursor(FrameCount(d), Unified(d), (32, 32), (64, 64), Strips(frames, src)))
  }

  /** Every pasted icon has its export size and lies within its own tile of the strip. */
  lemma StripTilesInside(ac: AnimatedCursor, lanczos: Resampler, loop: Loop, i: nat, o: nat)
    requires FramesWellFormed(ac) && Unify(ac, lanczos, loop).Success?
    requires i < 3 && o < |Unify(ac, lanczos, loop).value.strips[i]|
    ensures var p := Unify(ac, lanczos, loop).value.strips[i][o]; var s := ExportSizes[i];
      && SizeOf(p.image) == s
      && 0 < p.offset.0 && p.offset.0 + s.0 <= 2 * s.0
      && s.1 * 2 * o < p.offset.1 && p.offset.1 + s.1 <= s.1 * 2 * o + 2 * s.1
  {
    var frames := RestrictFrames(ac, ExportSizeSet, lanczos).value;
    var src := SourcesOf(Delays(ac), loop);
    var s := ExportSizes[i];
    ExportSizesHeld(frames, i);
    var icon := frames[src[o]].cursor[s];
    assert WellFormed(frames[src[o]].cursor);
    TileInside(icon, s, o);
  }

  // ---------------------------------------------------------------------------
  // The cape
  // ---------------------------------------------------------------------------

  /** The Mousecape names of a dictionary key (none for a name outside the table). */
  function MacNamesOf(n: CurTheme.CursorName): seq<string> {
    if n.Named? then CurTheme.MacNames(n.role) else []
  }

  /** The cape entries of one dictionary entry, given the outcome of unifying its frames:
      none for a name Mousecape has no cursor for (the outcome is then never looked at);
      otherwise the unified cursor under each of its Mousecape names, or the failure. */
  function CapeEntries<T>(names: seq<string>, unified: Result<T>): (r: Result<seq<(string, T)>>)
    ensures names == [] ==> r == Success([])
    ensures names != [] ==> (r.Success? <==> unified.Success?)
    ensures names != [] && r.Failure? ==> r.error == unified.error
    ensures r.Success? ==> |r.value| == |names|
    ensures r.Success? ==> forall j :: 0 <= j < |r.value| ==> r.value[j] == (names[j], unified.value)
  {
    if names == [] then Success([])
    else if unified.Failure? then Failure(unified.error)
    else Success(seq(|names|, j requires 0 <= j < |names| => (names[j], unified.value)))
  }

  /** The lists of a list, one after another. */
  function Flatten<T>(xss: seq<seq<T>>): (r: seq<T>)
    decreases |xss|
  {
    if |xss| == 0 then [] else xss[0] + Flatten(xss[1..])
  }

  /** An element of the flattened list is an element of one of the lists, and back. */
  lemma {:induction false} FlattenMembers<T>(xss: seq<seq<T>>, x: T)
    ensures x in Flatten(xss) <==> exists i :: 0 <= i < |xss| && x in xss[i]
    decreases |xss|
  {
    if |xss| > 0 {
      FlattenMembers(xss[1..], x);
      assert forall i :: 1 <= i < |xss| ==> xss[1..][i - 1] == xss[i];
      if x in Flatten(xss[1..]) {
        var i :| 0 <= i < |xss[1..]| && x in xss[1..][i];
        assert x in xss[i + 1];
      }
    }
  }

  /** The .cape property list: author, name, identifier and the cursors by Mousecape name. */
  datatype Cape = Cape(author: string, capeName: string, identifier: string, cursors: seq<(string, MacCursor)>)

  /** The cape entries of every dictionary entry, `unify` standing for `__unify_frames`. */
  function EntryLists(d: CurTheme.CursorDict, unify: AnimatedCursor --> Result<MacCursor>): (r: seq<Result<seq<(string, MacCursor)>>>)
    requires forall i :: 0 <= i < |d| ==> unify.requires(d[i].1)
    ensures |r| == |d| && forall i :: 0 <= i < |d| ==> r[i] == CapeEntries(MacNamesOf(d[i].0), unify(d[i].1))
  {
    seq(|d|, i requires 0 <= i < |d| => CapeEntries(MacNamesOf(d[i].0), unify(d[i].1)))
  }

  /** The build loop over the dictionary, with the frame unification as a parameter. */
  function CapeFrom(theme: string, author: Option<string>, d: CurTheme.CursorDict, unify: AnimatedCursor --> Result<MacCursor>): (r: Result<Cape>)
    requires forall i :: 0 <= i < |d| ==> unify.requires(d[i].1)
    ensures r.Success? <==> forall i :: 0 <= i < |d| ==> EntryLists(d, unify)[i].Success?
    ensures r.Success? ==> r.value.identifier == Identifier(author, theme) && r.value.capeName == theme
    ensures r.Success? ==> r.value.author == if author.None? then "" else author.value
    ensures r.Success? ==> r.value.cursors == Flatten(seq(|d|, i requires 0 <= i < |d| => EntryLists(d, unify)[i].value))
  {
    var lists := EntryLists(d, unify);
    var per := MapAll(lists, (x: Result<seq<(string, MacCursor)>>) => x);
    if per.Failure? then Failure(per.error)
    else
      assert per.value == seq(|d|, i requires 0 <= i < |d| => lists[i].value);
      Success(Cape(if author.None? then "" else author.value, theme, Identifier(author, theme), Flatten(per.value)))
  }

  /** `MacOSMousecapeThemeBuilder.build_theme`: every dictionary entry in order, the first
      failure ending the build; an entry without a Mousecape name never fails. */
  function BuildMousecape(theme: string, author: Option<string>, d: CurTheme.CursorDict, lanczos: Resampler, loop: Loop): (r: Result<Cape>)
    requires CurTheme.DictOk(d)
    ensures r.Success? <==> forall i :: 0 <= i < |d| && MacNamesOf(d[i].0) != [] ==> Unify(d[i].1, lanczos, loop).Success?
    ensures r.Success? ==> r.value.identifier == Identifier(author, theme) && r.value.capeName == theme
  {
    var unify := (ac: AnimatedCursor) requires FramesWellFormed(ac) => Unify(ac, lanczos, loop);
    var r := CapeFrom(theme, author, d, unify);
    assert forall i :: 0 <= i < |d| ==> unify(d[i].1) == Unify(d[i].1, lanczos, loop);
    r
  }

  /** Flattening the entries of successful `CapeEntries` calls: a (name, value) pair is
      present exactly when some call labelled that value with that name. */
  lemma LabelledMembers<T>(names: seq<seq<string>>, unified: seq<Result<T>>, name: string, c: T)
    requires |names| == |unified|
    requires forall i :: 0 <= i < |names| ==> CapeEntries(names[i], unified[i]).Success?
    ensures (name, c) in Flatten(seq(|names|, i requires 0 <= i < |names| => CapeEntries(names[i], unified[i]).value)) <==>
      exists i :: 0 <= i < |names| && name in names[i] && unified[i].Success? && c == unified[i].value
  {
    var per := seq(|names|, i requires 0 <= i < |names| => CapeEntries(names[i], unified[i]).value);
    FlattenMembers(per, (name, c));
    if exists i :: 0 <= i < |names| && name in names[i] && unified[i].Success? && c == unified[i].value {
      var i :| 0 <= i < |names| && name in names[i] && unified[i].Success? && c == unified[i].value;
      var j :| 0 <= j < |names[i]| && names[i][j] == name;
      assert per[i][j] == (name, c);
    }
    if (name, c) in Flatten(per) {
      var i :| 0 <= i < |per| && (name, c) in per[i];
      var j :| 0 <= j < |per[i]| && per[i][j] == (name, c);
      assert name == names[i][j];
    }
  }

  /** The cape holds each Mousecape name of each dictionary entry with that entry's unified
      cursor, and nothing else. */
  lemma CapeCursors(theme: string, author: Option<string>, d: CurTheme.CursorDict, unify: AnimatedCursor --> Result<MacCursor>, name: string, c: MacCursor)
    requires forall i :: 0 <= i < |d| ==> unify.requires(d[i].1)
    requires CapeFrom(theme, author, d, unify).Success?
    ensures (name, c) in CapeFrom(theme, author, d, unify).value.cursors <==>
      exists i :: 0 <= i < |d| && name in MacNamesOf(d[i].0) && unify(d[i].1).Success? && c == unify(d[i].1).value
  {
    var names := seq(|d|, i requires 0 <= i < |d| => MacNamesOf(d[i].0));
    var unified := seq(|d|, i requires 0 <= i < |d| => unify(d[i].1));
    var lists := EntryLists(d, unify);
    var per := seq(|names|, i requires 0 <= i < |names| => CapeEntries(names[i], unified[i]).value);
    assert seq(|d|, i requires 0 <= i < |d| => lists[i].value) == per;
    assert CapeFrom(theme, author, d, unify).value.cursors == Flatten(per);
    LabelledMembers(names, unified, name, c);
    if exists i :: 0 <= i < |d| && name in MacNamesOf(d[i].0) && unify(d[i].1).Success? && c == unify(d[i].1).value {
      var i :| 0 <= i < |d| && name in MacNamesOf(d[i].0) && unify(d[i].1).Success? && c == unify(d[i].1).value;
      assert name in names[i] && unified[i].Success? && c == unified[i].value;
    }
    if exists i :: 0 <= i < |names| && name in names[i] && unified[i].Success? && c == unified[i].value {
      var i :| 0 <= i < |names| && name in names[i] && unified[i].Success? && c == unified[i].value;
      assert name in MacNamesOf(d[i].0) && unify(d[i].1).Success? && c == unify(d[i].1).value;
    }
  }
}

=== FILE: theme_util.dfy ===
/** Build orchestration and the project file (`theme_util.py`).

  `build_theme` runs every registered theme builder on the same cursors, each in its own
  directory, and a builder that raises does not stop the next one. A project is saved as a
  `build.json` whose deeper blocks are folded onto one line by `_disable_newlines`, and is
  loaded back by `load_project`, which rejects a file of another format or version and
  rescales the hotspots saved for the 64-pixel size to every size of the reloaded cursor.
 */
module ThemeUtil {
  import opened Wrappers
  import opened CursorModel
  import CurTheme
  import Mousecape

  // ---------------------------------------------------------------------------
  // build_theme
  // ---------------------------------------------------------------------------

  /** The theme builders, in the order `CursorThemeBuilder.__subclasses__()` lists them. */
  datatype Builder = LinuxBuilder | WindowsBuilder | MousecapeBuilder | PreviewBuilder

  const Builders: seq<Builder> := [LinuxBuilder, WindowsBuilder, MousecapeBuilder, PreviewBuilder]

  /** `get_name()`: the subdirectory each builder writes into. */
  function BuilderName(b: Builder): string {
    match b
    case LinuxBuilder => "linux"
    case WindowsBuilder => "windows"
    case MousecapeBuilder => "mousecape_macos"
    case PreviewBuilder => "preview_picture"
  }

  /** What a builder produces. */
  datatype Output =
    | LinuxOut(linux: CurTheme.LinuxTheme)
    | WindowsOut(windows: CurTheme.WinScheme)
    | CapeOut(cape: Mousecape.Cape)
    | PreviewOut(preview: CurTheme.Preview)

  function LinuxRun(theme: string, d: CurTheme.CursorDict, lanczos: Resampler): (r: Result<Output>)
    requires CurTheme.DictOk(d)
  {
    var t := CurTheme.BuildLinux(theme, d, lanczos);
    if t.Failure? then Failure(t.error) else Success(LinuxOut(t.value))
  }

  function WindowsRun(d: CurTheme.CursorDict, lanczos: Resampler): (r: Result<Output>)
    requires CurTheme.DictOk(d)
  {
    var t := CurTheme.BuildWindows(d, lanczos);
    if t.Failure? then Failure(t.error) else Success(WindowsOut(t.value))
  }

  function MousecapeRun(theme: string, author: Option<string>, d: CurTheme.CursorDict, lanczos: Resampler): (r: Result<Output>)
    requires CurTheme.DictOk(d)
  {
    var t := Mousecape.BuildMousecape(theme, author, d, lanczos, Mousecape.AsWritten);
    if t.Failure? then Failure(t.error) else Success(CapeOut(t.value))
  }

  function PreviewRun(d: CurTheme.CursorDict, lanczos: Resampler): (r: Result<Output>)
    requires CurTheme.DictOk(d)
  {
    var t := CurTheme.BuildPreview(d, lanczos);
    if t.Failure? then Failure(t.error) else Success(PreviewOut(t.value))
  }

  /** `theme_builder.build_theme(theme_name, metadata, cursor_dict, ext_dir)`. */
  function RunBuilder(b: Builder, theme: string, author: Option<string>, d: CurTheme.CursorDict, lanczos: Resampler): (r: Result<Output>)
    requires CurTheme.DictOk(d)
  {
    match b
    case LinuxBuilder => LinuxRun(theme, d, lanczos)
    case WindowsBuilder => WindowsRun(d, lanczos)
    case MousecapeBuilder => MousecapeRun(theme, author, d, lanczos)
    case PreviewBuilder => PreviewRun(d, lanczos)
  }

  /** One builder's run: the directory it was given, below the output directory, and what
      it produced or the exception it raised (which is printed and otherwise dropped). */
  datatype Run = Run(dir: seq<string>, outcome: Result<Output>)

  /** `build_theme`: every builder in turn, each in `<theme>/<get_name()>`; `run` stands for
      one builder's `build_theme` call. */
  function BuildTheme(builders: seq<Builder>, theme: string, run: Builder --> Result<Output>): (r: seq<Run>)
    requires forall b :: run.requires(b)
    ensures |r| == |builders|
    ensures forall k :: 0 <= k < |r| ==> r[k].dir == [theme, BuilderName(builders[k])]
    ensures forall k :: 0 <= k < |r| ==> r[k].outcome == run(builders[k])
    decreases |builders|
  {
    if |builders| == 0 then []
    else [Run([theme, BuilderName(builders[0])], run(builders[0]))] + BuildTheme(builders[1..], theme, run)
  }

  /** A failure isolates: running two lists of builders one after the other gives the runs of
      each list on its own, so what one builder does never changes a later one's run. */
  lemma {:induction false} BuildThemeSplits(a: seq<Builder>, b: seq<Builder>, theme: string, run: Builder --> Result<Output>)
    requires forall x :: run.requires(x)
    ensures BuildTheme(a + b, theme, run) == BuildTheme(a, theme, run) + BuildTheme(b, theme, run)
    decreases |a|
  {
    if |a| > 0 {
      assert (a + b)[1..] == a[1..] + b;
      BuildThemeSplits(a[1..], b, theme, run);
    } else {
      assert a + b == b;
    }
  }

  /** With the registered builders, whatever each one does: four runs, one per builder in
      order, each in a directory of its own. */
  lemma RegisteredRuns(theme: string, run: Builder --> Result<Output>)
    requires forall b :: run.requires(b)
    ensures var r := BuildTheme(Builders, theme, run);
      && |r| == 4
      && (forall k :: 0 <= k < 4 ==> r[k].outcome == run(Builders[k]))
      && (forall i, j :: 0 <= i < j < 4 ==> r[i].dir != r[j].dir)
  {
    var r := BuildTheme(Builders, theme, run);
    forall i, j | 0 <= i < j < 4 ensures r[i].dir != r[j].dir {
      NamesDistinct(i, j);
      assert r[i].dir[1] != r[j].dir[1];
    }
  }

  lemma NamesDistinct(i: nat, j: nat)
    requires i < j < 4
    ensures BuilderName(Builders[i]) != BuilderName(Builders[j])
  {
    assert BuilderName(Builders[i])[0] != BuilderName(Builders[j])[0] || |BuilderName(Builders[i])| != |BuilderName(Builders[j])|;
  }

  // ---------------------------------------------------------------------------
  // _disable_newlines
  // ---------------------------------------------------------------------------

  /** The characters that open a block. */
  predicate IsOpener(c: char) {
    c == '{' || c == '['
  }

  /** The character that closes the block `c` opens. */
  function Closer(c: char): char
    requires IsOpener(c)
  {
    if c == '{' then '}' else ']'
  }

  /** The block stack after reading `c`: an opener pushes its closer, the closer on top is
      popped, and every other character leaves the stack alone. */
  function Push(stack: seq<char>, c: char): seq<char> {
    if IsOpener(c) then stack + [Closer(c)]
    else if |stack| > 0 && stack[|stack| - 1] == c then stack[..|stack| - 1]
    else stack
  }

  /** The block stack after the first `k` characters of `s`. Brackets inside string literals
      count like any other: the transform does not know about JSON strings. */
  function StackAt(s: string, k: nat): (r: seq<char>)
    requires k <= |s|
    ensures forall j :: 0 <= j < |r| ==> r[j] == '}' || r[j] == ']'
  {
    if k == 0 then [] else Push(StackAt(s, k - 1), s[k - 1])
  }

  /** The nesting depth at character `k`, before it is read. */
  function Depth(s: string, k: nat): nat
    requires k <= |s|
  {
    |StackAt(s, k)|
  }

  /** A character slot of the list the transform edits in place: the character it holds, or
      the empty string an erased slot holds. */
  datatype Cell = Ch(c: char) | Erased

  /** `"".join(cells)`. */
  function Text(cells: seq<Cell>): (r: string)
    ensures |r| <= |cells|
  {
    if |cells| == 0 then []
    else (if cells[0].Ch? then [cells[0].c] else []) + Text(cells[1..])
  }

  /** What the transform leaves in slot `k`: below depth `num_lines_in`, and for every
      character that is not whitespace, the character itself; deeper, a newline becomes a
      space or disappears, and any other whitespace disappears. */
  predicate Settled(s: string, n: int, k: nat, cell: Cell)
    requires k < |s|
  {
    if Depth(s, k) < n || !Mousecape.IsSpace(s[k]) then cell == Ch(s[k])
    else if s[k] == '\n' then cell == Erased || cell == Ch(' ')
    else cell == Erased
  }

  predicate Disabled(s: string, n: int, cells: seq<Cell>) {
    |cells| == |s| && forall k :: 0 <= k < |s| ==> Settled(s, n, k, cells[k])
  }

  /** The input ends with an opener deep enough that the transform looks at the character
      after it, which does not exist. */
  predicate Overruns(s: string, n: int) {
    |s| > 0 && IsOpener(s[|s| - 1]) && Depth(s, |s| - 1) + 1 >= n
  }

  /** The state of the loop of `_disable_newlines`: the edited character list, the block
      stack and the position of the last newline turned into a space. */
  datatype Scan = Scan(cells: seq<Cell>, stack: seq<char>, last: Option<nat>)

  /** What holds before character `i` is visited: the stack is the stack of the first `i`
      characters, the slots already visited are settled, the slots ahead are untouched except
      for a newline erased right after an opener, and the remembered newline lies behind. */
  predicate Scanned(s: string, n: int, i: nat, st: Scan) {
    && i <= |s| && |st.cells| == |s|
    && st.stack == StackAt(s, i)
    && (forall k :: i < k < |s| ==> st.cells[k] == Ch(s[k]))
    && (i < |s| ==> st.cells[i] == Ch(s[i]) || (st.cells[i] == Erased && s[i] == '\n' && Depth(s, i) >= n))
    && (forall k :: 0 <= k < i ==> Settled(s, n, k, st.cells[k]))
    && (st.last.Some? ==> st.last.value < i && s[st.last.value] == '\n' && Depth(s, st.last.value) >= n)
    && (i == |s| > 0 ==> !Overruns(s, n))
  }

  /** The loop body at an opener: push its closer; deep enough, erase a newline right after
      it, or raise IndexError when the opener ends the text. */
  function VisitOpener(s: string, n: int, i: nat, st: Scan): (r: Result<Scan>)
    requires i < |s| && Scanned(s, n, i, st) && st.cells[i] == Ch(s[i]) && IsOpener(s[i])
    ensures r.Failure? <==> i + 1 == |s| && Overruns(s, n)
    ensures r.Failure? ==> r.error == IndexError
    ensures r.Success? ==> Scanned(s, n, i + 1, r.value)
  {
    var pushed := st.stack + [Closer(s[i])];
    if |pushed| >= n && i + 1 == |s| then Failure(IndexError)
    else if |pushed| >= n && st.cells[i + 1] == Ch('\n') then
      var next := st.cells[i + 1 := Erased];
      assert Settled(s, n, i, next[i]);
      Success(Scan(next, pushed, st.last))
    else
      assert Settled(s, n, i, st.cells[i]);
      Success(Scan(st.cells, pushed, st.last))
  }

  /** The loop body at the closer on top of the stack: pop it; deep enough, erase the last
      newline turned into a space. */
  function VisitCloser(s: string, n: int, i: nat, st: Scan): (r: Result<Scan>)
    requires i < |s| && Scanned(s, n, i, st) && st.cells[i] == Ch(s[i]) && !IsOpener(s[i])
    requires |st.stack| > 0 && st.stack[|st.stack| - 1] == s[i]
    ensures r.Success? && Scanned(s, n, i + 1, r.value)
  {
    var stack, last := st.stack, st.last;
    if |stack| >= n && last.Some? then
      var next := st.cells[last.value := Erased];
      assert Settled(s, n, i, next[i]);
      assert forall k :: 0 <= k < i && k != last.value ==> next[k] == st.cells[k];
      Success(Scan(next, stack[..|stack| - 1], last))
    else
      assert Settled(s, n, i, st.cells[i]);
      Success(Scan(st.cells, stack[..|stack| - 1], last))
  }

  /** The loop body at any other character: deep enough, a newline becomes a remembered space
      and other whitespace is erased. */
  function VisitOther(s: string, n: int, i: nat, st: Scan): (r: Result<Scan>)
    requires i < |s| && Scanned(s, n, i, st) && st.cells[i] == Ch(s[i]) && !IsOpener(s[i])
    requires !(|st.stack| > 0 && st.stack[|st.stack| - 1] == s[i])
    ensures r.Success? && Scanned(s, n, i + 1, r.value)
  {
    var value := s[i];
    if |st.stack| >= n && value == '\n' then
      var next := st.cells[i := Ch(' ')];
      assert Settled(s, n, i, next[i]);
      Success(Scan(next, st.stack, Some(i)))
    else if |st.stack| >= n && Mousecape.IsSpace(value) then
      var next := st.cells[i := Erased];
      assert Settled(s, n, i, next[i]);
      Success(Scan(next, st.stack, st.last))
    else
      assert Settled(s, n, i, st.cells[i]);
      Success(st)
  }

  /** One pass of the loop body, at character `i`; an erased slot holds the empty string,
      which none of the tests matches. */
  function Visit(s: string, n: int, i: nat, st: Scan): (r: Result<Scan>)
    requires i < |s| && Scanned(s, n, i, st)
    ensures r.Failure? <==> i + 1 == |s| && Overruns(s, n)
    ensures r.Failure? ==> r.error == IndexError
    ensures r.Success? ==> Scanned(s, n, i + 1, r.value)
  {
    match st.cells[i]
    case Erased =>
      assert Push(st.stack, s[i]) == st.stack;
      assert Settled(s, n, i, st.cells[i]);
      Success(st)
    case Ch(value) =>
      if IsOpener(value) then VisitOpener(s, n, i, st)
      else if |st.stack| > 0 && st.stack[|st.stack| - 1] == value then VisitCloser(s, n, i, st)
      else VisitOther(s, n, i, st)
  }

  /** The loop of `_disable_newlines` over the character list. */
  method DisableCells(s: string, n: int) returns (r: Result<seq<Cell>>)
    ensures r.Failure? <==> Overruns(s, n)
    ensures r.Failure? ==> r.error == IndexError
    ensures r.Success? ==> Disabled(s, n, r.value)
  {
    var st := Scan(seq(|s|, k requires 0 <= k < |s| => Ch(s[k])), [], None);
    var i := 0;
    while i < |s|
      invariant Scanned(s, n, i, st)
      decreases |s| - i
    {
      var next := Visit(s, n, i, st);
      if next.Failure? {
        return Failure(next.error);
      }
      st := next.value;
      i := i + 1;
    }
    return Success(st.cells);
  }

  /** The characters of `s` that are not whitespace, in order. */
  function NonSpace(s: string): string {
    if |s| == 0 then []
    else (if Mousecape.IsSpace(s[0]) then [] else [s[0]]) + NonSpace(s[1..])
  }

  lemma {:induction false} NonSpaceConcat(a: string, b: string)
    ensures NonSpace(a + b) == NonSpace(a) + NonSpace(b)
    decreases |a|
  {
    if |a| > 0 {
      assert (a + b)[1..] == a[1..] + b;
      NonSpaceConcat(a[1..], b);
    } else {
      assert a + b == b;
    }
  }

  /** Slots that each hold their character, or a space or nothing where the character was
      whitespace, spell out the same non-whitespace characters. */
  lemma {:induction false} KeepsNonSpace(s: string, cells: seq<Cell>)
    requires |cells| == |s|
    requires forall k :: 0 <= k < |s| ==>
      cells[k] == Ch(s[k]) || (Mousecape.IsSpace(s[k]) && (cells[k] == Erased || cells[k] == Ch(' ')))
    ensures NonSpace(Text(cells)) == NonSpace(s)
    decreases |s|
  {
    if |s| > 0 {
      KeepsNonSpace(s[1..], cells[1..]);
      var head := if cells[0].Ch? then [cells[0].c] else [];
      NonSpaceConcat(head, Text(cells[1..]));
      assert NonSpace(head) == (if Mousecape.IsSpace(s[0]) then [] else [s[0]]);
    }
  }

  /** `_disable_newlines(json_data, num_lines_in)`. */
  method DisableNewlines(s: string, n: int) returns (r: Result<string>)
    ensures r.Failure? <==> Overruns(s, n)
    ensures r.Failure? ==> r.error == IndexError
    ensures r.Success? ==> NonSpace(r.value) == NonSpace(s)
    ensures r.Success? ==> exists cells :: Disabled(s, n, cells) && r.value == Text(cells)
  {
    var cells := DisableCells(s, n);
    if cells.Failure? {
      return Failure(cells.error);
    }
    forall k | 0 <= k < |s|
      ensures cells.value[k] == Ch(s[k]) || (Mousecape.IsSpace(s[k]) && (cells.value[k] == Erased || cells.value[k] == Ch(' ')))
    {
      assert Settled(s, n, k, cells.value[k]);
    }
    KeepsNonSpace(s, cells.value);
    return Success(Text(cells.value));
  }

  /** Where every character sits above depth `num_lines_in`, nothing changes. */
  lemma ShallowUnchanged(s: string, n: int, cells: seq<Cell>)
    requires Disabled(s, n, cells)
    requires forall k :: 0 <= k < |s| ==> Depth(s, k) < n
    ensures Text(cells) == s
  {
    forall k | 0 <= k < |s| ensures cells[k] == Ch(s[k]) {
      assert Settled(s, n, k, cells[k]);
    }
    TextOfCopies(s, cells);
  }

  lemma {:induction false} TextOfCopies(s: string, cells: seq<Cell>)
    requires |cells| == |s| && forall k :: 0 <= k < |s| ==> cells[k] == Ch(s[k])
    ensures Text(cells) == s
    decreases |s|
  {
    if |s| > 0 {
      TextOfCopies(s[1..], cells[1..]);
    }
  }

  // ---------------------------------------------------------------------------
  // load_project
  // ---------------------------------------------------------------------------

  /** A decoded JSON value. */
  datatype Json =
    | JNull
    | JBool(b: bool)
    | JInt(i: int)
    | JFloat(x: real)
    | JString(s: string)
    | JArray(items: seq<Json>)
    | JObject(fields: map<string, Json>)

  const FormatName: string := "cursor_build_file"

  /** Python's `value == 1` on a decoded value: 1, 1.0 and true all equal 1. */
  predicate IsCurrentVersion(v: Json) {
    v == JInt(1) || v == JFloat(1.0) || v == JBool(true)
  }

  predicate IsCurrentFormat(v: Json) {
    v == JString(FormatName)
  }

  /** `key` occurs in `s` as a substring (`key in s` on strings). */
  predicate HasInfix(s: string, key: string)
    decreases |s|
  {
    (|key| <= |s| && s[..|key|] == key) || (|s| > 0 && HasInfix(s[1..], key))
  }

  /** `key in value`: a key of an object, an element of a list, a substring of a string; the
      other values are not containers and raise TypeError. */
  function Contains(value: Json, key: string): (r: Result<bool>)
    ensures r.Failure? <==> !(value.JObject? || value.JArray? || value.JString?)
    ensures r.Failure? ==> r.error == TypeError
    ensures value.JObject? ==> r == Success(key in value.fields)
  {
    match value
    case JObject(fields) => Success(key in fields)
    case JArray(items) => Success(JString(key) in items)
    case JString(s) => Success(HasInfix(s, key))
    case _ => Failure(TypeError)
  }

  /** `value[key]`: only an object can be indexed by a string. */
  function Lookup(value: Json, key: string): (r: Result<Json>)
    ensures r.Success? <==> value.JObject? && key in value.fields
    ensures r.Success? ==> r.value == value.fields[key]
    ensures r.Failure? ==> r.error == (if value.JObject? then KeyError else TypeError)
  {
    if !value.JObject? then Failure(TypeError)
    else if key in value.fields then Success(value.fields[key])
    else Failure(KeyError)
  }

  /** `(key in value) and test(value[key])`, evaluated left to right. */
  function FieldIs(value: Json, key: string, test: Json -> bool): (r: Result<bool>)
    ensures value.JObject? ==> r == Success(key in value.fields && test(value.fields[key]))
    ensures r.Failure? ==> r.error == TypeError
  {
    var has := Contains(value, key);
    if has.Failure? then Failure(has.error)
    else if !has.value then Success(false)
    else
      var v := Lookup(value, key);
      if v.Failure? then Failure(v.error) else Success(test(v.value))
  }

  /** The metadata used when the file has none. */
  const DefaultMetadata: Json := JObject(map["author" := JNull, "licence" := JNull])

  function MetadataOf(value: Json): (r: Result<Json>)
    ensures value.JObject? ==> r == Success(if "metadata" in value.fields then value.fields["metadata"] else DefaultMetadata)
  {
    var has := Contains(value, "metadata");
    if has.Failure? then Failure(has.error)
    else if has.value then Lookup(value, "metadata")
    else Success(DefaultMetadata)
  }

  /** `for cursor_info in data`: a list gives its elements; an empty object or string gives
      nothing; a non-empty object or string gives keys or characters, which the first
      `cursor_info["cursor_file"]` rejects with TypeError; anything else is not iterable. */
  function Infos(data: Json): (r: Result<seq<Json>>)
    ensures data.JArray? ==> r == Success(data.items)
    ensures r.Failure? ==> r.error == TypeError
  {
    match data
    case JArray(items) => Success(items)
    case JObject(fields) => if |fields| == 0 then Success([]) else Failure(TypeError)
    case JString(s) => if |s| == 0 then Success([]) else Failure(TypeError)
    case _ => Failure(TypeError)
  }

  /** A list of integers (the saved delays). */
  function Ints(value: Json): (r: Result<seq<int>>)
    ensures r.Success? <==> value.JArray? && forall k :: 0 <= k < |value.items| ==> value.items[k].JInt?
    ensures r.Success? ==> |r.value| == |value.items| && forall k :: 0 <= k < |r.value| ==> value.items[k] == JInt(r.value[k])
    ensures r.Failure? ==> r.error == TypeError
  {
    if value.JArray? && forall k :: 0 <= k < |value.items| ==> value.items[k].JInt? then
      Success(seq(|value.items|, k requires 0 <= k < |value.items| => value.items[k].i))
    else Failure(TypeError)
  }

  /** A point `[x, y]` whose first two entries are integers. */
  predicate IsPoint(value: Json) {
    value.JArray? && |value.items| >= 2 && value.items[0].JInt? && value.items[1].JInt?
  }

  /** A list of points (the saved 64-pixel hotspots). */
  function Points(value: Json): (r: Result<seq<(int, int)>>)
    ensures r.Success? <==> value.JArray? && forall k :: 0 <= k < |value.items| ==> IsPoint(value.items[k])
    ensures r.Success? ==> |r.value| == |value.items| && forall k :: 0 <= k < |r.value| ==>
      r.value[k] == (value.items[k].items[0].i, value.items[k].items[1].i)
    ensures r.Failure? ==> r.error == TypeError
  {
    if value.JArray? && forall k :: 0 <= k < |value.items| ==> IsPoint(value.items[k]) then
      Success(seq(|value.items|, k requires 0 <= k < |value.items| => (value.items[k].items[0].i, value.items[k].items[1].i)))
    else Failure(TypeError)
  }

  /** `for i, delay in enumerate(delays): cursor[i] = (cursor[i][0], delay)`, from index `i` on. */
  function OverwriteDelays(ac: AnimatedCursor, delays: seq<int>, i: nat): (r: Result<AnimatedCursor>)
    requires i <= |delays|
    ensures r.Success? <==> |delays| <= |ac| || i == |delays|
    ensures r.Failure? ==> r.error == IndexError
    ensures r.Success? ==> |r.value| == |ac|
    ensures r.Success? ==> forall k :: 0 <= k < |ac| ==> r.value[k].cursor == ac[k].cursor
    ensures r.Success? ==> forall k :: 0 <= k < |ac| ==> r.value[k].delay == if i <= k < |delays| then delays[k] else ac[k].delay
    decreases |delays| - i
  {
    if i == |delays| then Success(ac)
    else if i >= |ac| then Failure(IndexError)
    else OverwriteDelays(ac[i := Frame(ac[i].cursor, delays[i])], delays, i + 1)
  }

  /** `int((size / 64) * saved)`: a coordinate saved for the 64-pixel size, at another size.
      The float product is exact for the values a cursor holds, so this is the exact
      quotient truncated toward zero. */
  function Rescale(size: int, saved: int): int {
    Mousecape.TruncDiv(size * saved, 64)
  }

  /** The hotspot of every icon of a cursor set from the saved one, scaled to the icon's size
      key; the hotspot setter rejects a point outside the image with ValueError. */
  function RescaleCursor(c: Cursor, saved: (int, int)): (r: Result<Cursor>)
    ensures r.Success? <==> forall s :: s in c ==> HotspotInside(c[s].image, Rescale(s.0, saved.0), Rescale(s.1, saved.1))
    ensures r.Failure? ==> r.error == ValueError
    ensures r.Success? ==> r.value.Keys == c.Keys
    ensures r.Success? ==> forall s :: s in c ==> r.value[s] == Icon(c[s].image, (Rescale(s.0, saved.0), Rescale(s.1, saved.1)))
  {
    if forall s :: s in c ==> HotspotInside(c[s].image, Rescale(s.0, saved.0), Rescale(s.1, saved.1)) then
      Success(map s | s in c :: Icon(c[s].image, (Rescale(s.0, saved.0), Rescale(s.1, saved.1))))
    else Failure(ValueError)
  }

  /** `for hotspot, (sub_cursor, delay) in zip(hotspots_64, cursor)`: the shorter list decides
      how many frames have `f` applied to their cursor; later frames are kept, and the first
      failure ends the loop. */
  function ZipFrames<P>(ac: AnimatedCursor, saved: seq<P>, f: (Cursor, P) -> Result<Cursor>): (r: Result<AnimatedCursor>)
    ensures r.Success? <==> forall k :: 0 <= k < |ac| && k < |saved| ==> f(ac[k].cursor, saved[k]).Success?
    ensures r.Failure? ==> exists k :: 0 <= k < |ac| && k < |saved| && f(ac[k].cursor, saved[k]).Failure? && r.error == f(ac[k].cursor, saved[k]).error
    ensures r.Success? ==> |r.value| == |ac|
    ensures r.Success? ==> forall k :: 0 <= k < |ac| ==> r.value[k].delay == ac[k].delay
    ensures r.Success? ==> forall k :: 0 <= k < |ac| ==>
      r.value[k].cursor == if k < |saved| then f(ac[k].cursor, saved[k]).value else ac[k].cursor
    decreases |ac|
  {
    if |ac| == 0 || |saved| == 0 then Success(ac)
    else
      var first := f(ac[0].cursor, saved[0]);
      var rest := ZipFrames(ac[1..], saved[1..], f);
      assert forall k :: 1 <= k < |ac| && k < |saved| ==> ac[1..][k - 1] == ac[k] && saved[1..][k - 1] == saved[k];
      if first.Failure? then Failure(first.error)
      else if rest.Failure? then
        var k :| 0 <= k < |ac[1..]| && k < |saved[1..]| && f(ac[1..][k].cursor, saved[1..][k]).Failure? && rest.error == f(ac[1..][k].cursor, saved[1..][k]).error;
        assert rest.error == f(ac[k + 1].cursor, saved[k + 1]).error;
        Failure(rest.error)
      else Success([Frame(first.value, ac[0].delay)] + rest.value)
  }

  /** The hotspots of the first frames set from the saved 64-pixel ones. */
  function RescaleFrames(ac: AnimatedCursor, saved: seq<(int, int)>): (r: Result<AnimatedCursor>)
    ensures r.Success? <==> forall k :: 0 <= k < |ac| && k < |saved| ==> RescaleCursor(ac[k].cursor, saved[k]).Success?
    ensures r.Failure? ==> r.error == ValueError
    ensures r.Success? ==> |r.value| == |ac|
    ensures r.Success? ==> forall k :: 0 <= k < |ac| ==> r.value[k].delay == ac[k].delay
    ensures r.Success? ==> forall k :: 0 <= k < |ac| ==>
      r.value[k].cursor == if k < |saved| then RescaleCursor(ac[k].cursor, saved[k]).value else ac[k].cursor
  {
    ZipFrames(ac, saved, RescaleCursor)
  }

  /** A loaded cursor with the saved delays written over its own, frame by frame, and the
      hotspots of the first frames set from the saved 64-pixel ones. */
  function Reloaded(ac: AnimatedCursor, delays: seq<int>, saved: seq<(int, int)>): (r: AnimatedCursor)
    requires |delays| <= |ac|
    requires forall k :: 0 <= k < |ac| && k < |saved| ==> RescaleCursor(ac[k].cursor, saved[k]).Success?
    ensures |r| == |ac|
    ensures forall k :: 0 <= k < |ac| ==> r[k].delay == if k < |delays| then delays[k] else ac[k].delay
    ensures forall k :: 0 <= k < |ac| && |saved| <= k ==> r[k].cursor == ac[k].cursor
    ensures forall k, s :: 0 <= k < |ac| && k < |saved| && s in ac[k].cursor ==>
      s in r[k].cursor && r[k].cursor[s].image == ac[k].cursor[s].image &&
      r[k].cursor[s].hotspot == (Rescale(s.0, saved[k].0), Rescale(s.1, saved[k].1))
    ensures forall k :: 0 <= k < |ac| ==> r[k].cursor.Keys == ac[k].cursor.Keys
  {
    var timed := OverwriteDelays(ac, delays, 0).value;
    RescaleFrames(timed, saved).value
  }

  /** A `cursor_info` whose delays and hotspots apply to the cursor `ac`: both fields are
      present and well typed, there are no more delays than frames, and every saved hotspot
      that `zip` pairs with a frame lands inside that frame's icons at every size. */
  predicate Restorable(info: Json, ac: AnimatedCursor) {
    && info.JObject?
    && "delays" in info.fields && Ints(info.fields["delays"]).Success?
    && |Ints(info.fields["delays"]).value| <= |ac|
    && "hotspots_64" in info.fields && Points(info.fields["hotspots_64"]).Success?
    && forall k :: 0 <= k < |ac| && k < |Points(info.fields["hotspots_64"]).value| ==>
         RescaleCursor(ac[k].cursor, Points(info.fields["hotspots_64"]).value[k]).Success?
  }

  /** The saved delays and hotspots of one `cursor_info` applied to the cursor loaded from its
      file: the delays first, then the hotspots. */
  function Restore(info: Json, ac: AnimatedCursor): (r: Result<AnimatedCursor>)
    ensures r.Success? <==> Restorable(info, ac)
    ensures r.Failure? ==> r.error in {KeyError, TypeError, IndexError, ValueError}
    ensures r.Success? ==> info.JObject? && "delays" in info.fields && Ints(info.fields["delays"]).Success?
    ensures r.Success? ==> "hotspots_64" in info.fields && Points(info.fields["hotspots_64"]).Success?
    ensures r.Success? ==> |Ints(info.fields["delays"]).value| <= |ac|
    ensures r.Success? ==> forall k :: 0 <= k < |ac| && k < |Points(info.fields["hotspots_64"]).value| ==>
      RescaleCursor(ac[k].cursor, Points(info.fields["hotspots_64"]).value[k]).Success?
    ensures r.Success? ==> r.value == Reloaded(ac, Ints(info.fields["delays"]).value, Points(info.fields["hotspots_64"]).value)
    ensures (info.JObject? && "delays" in info.fields && Ints(info.fields["delays"]).Success? &&
             |Ints(info.fields["delays"]).value| > |ac|) ==> r == Failure(IndexError)
  {
    var delays := Lookup(info, "delays");
    if delays.Failure? then Failure(delays.error)
    else
      var ds := Ints(delays.value);
      if ds.Failure? then Failure(ds.error)
      else
        var timed := OverwriteDelays(ac, ds.value, 0);
        if timed.Failure? then Failure(timed.error)
        else
          var hotspots := Lookup(info, "hotspots_64");
          if hotspots.Failure? then Failure(hotspots.error)
          else
            var hs := Points(hotspots.value);
            if hs.Failure? then Failure(hs.error)
            else
              var placed := RescaleFrames(timed.value, hs.value);
              if placed.Failure? then Failure(placed.error)
              else
                assert forall k :: 0 <= k < |ac| && k < |hs.value| ==> timed.value[k].cursor == ac[k].cursor;
                placed
  }

  /** A string field of a `cursor_info`. */
  function TextField(info: Json, key: string): (r: Result<string>)
    ensures r.Success? <==> info.JObject? && key in info.fields && info.fields[key].JString?
    ensures r.Success? ==> r.value == info.fields[key].s
  {
    var v := Lookup(info, key);
    if v.Failure? then Failure(v.error)
    else if !v.value.JString? then Failure(TypeError)
    else Success(v.value.s)
  }

  /** pathlib's `dir / file` for POSIX paths: an absolute `file` replaces the directory. */
  function JoinPath(dir: string, file: string): string {
    if |file| > 0 && file[0] == '/' then file else dir + "/" + file
  }

  /** One `cursor_info` of the file: the cursor loaded from its file, its saved delays written
      over the loaded ones, its saved hotspots rescaled, under its saved name. `read` opens a
      path and loads the cursor in it. */
  function LoadEntry(info: Json, dir: string, read: string -> Result<AnimatedCursor>): (r: Result<(string, (string, AnimatedCursor))>)
    ensures r.Success? <==>
      && TextField(info, "cursor_file").Success?
      && read(JoinPath(dir, TextField(info, "cursor_file").value)).Success?
      && Restore(info, read(JoinPath(dir, TextField(info, "cursor_file").value)).value).Success?
      && TextField(info, "cursor_name").Success?
    ensures r.Success? ==> r.value.0 == TextField(info, "cursor_name").value
    ensures r.Success? ==> r.value.1.0 == JoinPath(dir, TextField(info, "cursor_file").value)
    ensures r.Success? ==> read(r.value.1.0).Success? && Restore(info, read(r.value.1.0).value) == Success(r.value.1.1)
  {
    var file := TextField(info, "cursor_file");
    if file.Failure? then Failure(file.error)
    else
      var path := JoinPath(dir, file.value);
      var cursor := read(path);
      if cursor.Failure? then Failure(cursor.error)
      else
        var restored := Restore(info, cursor.value);
        if restored.Failure? then Failure(restored.error)
        else
          var name := TextField(info, "cursor_name");
          if name.Failure? then Failure(name.error)
          else Success((name.value, (path, restored.value)))
  }

  /** The loaded project: names to source paths and cursors, in the order the names were first
      inserted. */
  type ProjectDict = seq<(string, (string, AnimatedCursor))>

  /** `d[name] = value`: a present key keeps its place and takes the new value; a new key is
      appended. */
  function Put<K(==), V>(d: seq<(K, V)>, name: K, value: V): (r: seq<(K, V)>)
    ensures (exists k :: 0 <= k < |d| && d[k].0 == name) ==> |r| == |d|
    ensures (forall k :: 0 <= k < |d| ==> d[k].0 != name) ==> r == d + [(name, value)]
    ensures forall k :: 0 <= k < |d| ==> r[k] == if d[k].0 == name then (name, value) else d[k]
  {
    if exists k :: 0 <= k < |d| && d[k].0 == name then
      seq(|d|, k requires 0 <= k < |d| => if d[k].0 == name then (name, value) else d[k])
    else d + [(name, value)]
  }

  /** The entries put into an empty dictionary one after the other. */
  function PutAll<K(==), V>(entries: seq<(K, V)>): (r: seq<(K, V)>)
    decreases |entries|
  {
    if |entries| == 0 then []
    else Put(PutAll(entries[..|entries| - 1]), entries[|entries| - 1].0, entries[|entries| - 1].1)
  }

  /** No name appears twice. */
  predicate Keyed<K(==), V>(d: seq<(K, V)>) {
    forall i, j :: 0 <= i < j < |d| ==> d[i].0 != d[j].0
  }

  /** Entry `k` is the last one with its name. */
  predicate LastOfName<K(==), V>(entries: seq<(K, V)>, k: nat)
    requires k < |entries|
  {
    forall j :: k < j < |entries| ==> entries[j].0 != entries[k].0
  }

  /** Putting the entries in turn keeps every name once, and keeps every entry that no later
      entry of the same name overwrites. */
  lemma {:induction false} PutAllKeepsLast<K, V>(entries: seq<(K, V)>)
    ensures Keyed(PutAll(entries))
    ensures forall k :: 0 <= k < |entries| && LastOfName(entries, k) ==> entries[k] in PutAll(entries)
    decreases |entries|
  {
    if |entries| > 0 {
      var front, e := entries[..|entries| - 1], entries[|entries| - 1];
      PutAllKeepsLast(front);
      var d := PutAll(front);
      var r := Put(d, e.0, e.1);
      assert r == PutAll(entries);
      forall k | 0 <= k < |entries| && LastOfName(entries, k) ensures entries[k] in r {
        if k == |entries| - 1 {
          if exists i :: 0 <= i < |d| && d[i].0 == e.0 {
            var i :| 0 <= i < |d| && d[i].0 == e.0;
            assert r[i] == e;
          } else {
            assert r[|d|] == e;
          }
        } else {
          assert front[k] == entries[k];
          assert LastOfName(front, k);
          var i :| 0 <= i < |d| && d[i] == entries[k];
          assert d[i].0 != e.0;
          assert r[i] == entries[k];
        }
      }
      forall i, j | 0 <= i < j < |r| ensures r[i].0 != r[j].0 {
        if j >= |d| {
          assert r[j] == e && i < |d| && r[i] == d[i] && d[i].0 != e.0;
        }
      }
    }
  }

  /** Every entry of the dictionary is the last entry of its name. */
  lemma {:induction false} PutAllOrigin<K, V>(entries: seq<(K, V)>, i: nat) returns (k: nat)
    requires i < |PutAll(entries)|
    ensures k < |entries| && LastOfName(entries, k) && entries[k] == PutAll(entries)[i]
    decreases |entries|
  {
    var front, e := entries[..|entries| - 1], entries[|entries| - 1];
    var d := PutAll(front);
    assert PutAll(entries) == Put(d, e.0, e.1);
    if PutAll(entries)[i] == e {
      k := |entries| - 1;
    } else {
      assert i < |d| && PutAll(entries)[i] == d[i] && d[i].0 != e.0;
      k := PutAllOrigin(front, i);
      assert entries[k] == front[k];
      forall j | k < j < |entries| ensures entries[j].0 != entries[k].0 {
        if j < |front| {
          assert entries[j] == front[j];
        }
      }
    }
  }

  /** `load_project`: None for a file of another format or version, otherwise the metadata
      and the loaded cursors. Reading the JSON text is left to the caller. */
  function LoadProject(file: Json, dir: string, read: string -> Result<AnimatedCursor>): (r: Result<Option<(Json, ProjectDict)>>)
    ensures file.JObject? ==>
      (r == Success(None) <==>
         !("format" in file.fields && IsCurrentFormat(file.fields["format"])
           && "version" in file.fields && IsCurrentVersion(file.fields["version"])))
    ensures file.JObject? && r.Success? && r.value.Some? ==>
      r.value.value.0 == if "metadata" in file.fields then file.fields["metadata"] else DefaultMetadata
    ensures r.Success? && r.value.Some? ==> file.JObject? && "data" in file.fields
    ensures r.Success? && r.value.Some? && file.JObject? && "data" in file.fields ==> var infos := Infos(file.fields["data"]);
      && infos.Success?
      && (forall k :: 0 <= k < |infos.value| ==> LoadEntry(infos.value[k], dir, read).Success?)
      && r.value.value.1 == PutAll(seq(|infos.value|, k requires 0 <= k < |infos.value| => LoadEntry(infos.value[k], dir, read).value))
  {
    var isFormat := FieldIs(file, "format", IsCurrentFormat);
    if isFormat.Failure? then Failure(isFormat.error)
    else
      var isVersion := FieldIs(file, "version", IsCurrentVersion);
      if isVersion.Failure? then Failure(isVersion.error)
      else
        var metadata := MetadataOf(file);
        if metadata.Failure? then Failure(metadata.error)
        else if !isFormat.value || !isVersion.value then Success(None)
        else
          var data := Lookup(file, "data");
          if data.Failure? then Failure(data.error)
          else
            var loaded := LoadData(data.value, dir, read);
            if loaded.Failure? then Failure(loaded.error)
            else Success(Some((metadata.value, loaded.value)))
  }

  /** The loop over `data` of `load_project`: every entry loaded, in order, into the
      dictionary; the first entry that fails ends the load. */
  function LoadData(data: Json, dir: string, read: string -> Result<AnimatedCursor>): (r: Result<ProjectDict>)
    ensures r.Success? <==> Infos(data).Success? && forall k :: 0 <= k < |Infos(data).value| ==> LoadEntry(Infos(data).value[k], dir, read).Success?
    ensures r.Success? ==> var infos := Infos(data).value;
      r.value == PutAll(seq(|infos|, k requires 0 <= k < |infos| => LoadEntry(infos[k], dir, read).value))
  {
    var infos := Infos(data);
    if infos.Failure? then Failure(infos.error)
    else
      var entries := MapAll(infos.value, (info: Json) => LoadEntry(info, dir, read));
      if entries.Failure? then Failure(entries.error)
      else
        assert entries.value == seq(|infos.value|, k requires 0 <= k < |infos.value| => LoadEntry(infos.value[k], dir, read).value);
        Success(PutAll(entries.value))
  }

  /** The header `save_project` writes is accepted: a file with no cursors loads back as its
      metadata and an empty dictionary. */
  lemma SavedHeaderAccepted(metadata: Json, dir: string, read: string -> Result<AnimatedCursor>)
    ensures LoadProject(JObject(map["format" := JString(FormatName), "version" := JInt(1),
                                    "metadata" := metadata, "data" := JArray([])]), dir, read)
         == Success(Some((metadata, [])))
  {
    var file := JObject(map["format" := JString(FormatName), "version" := JInt(1), "metadata" := metadata, "data" := JArray([])]);
    assert file.fields["format"] == JString(FormatName) && file.fields["version"] == JInt(1);
    assert file.fields["metadata"] == metadata && file.fields["data"] == JArray([]);
    var r := LoadProject(file, dir, read);
    assert r.Success? && r.value.Some?;
    assert r.value.value.1 == PutAll<string, (string, AnimatedCursor)>([]);
  }

  /** A saved hotspot comes back unchanged at the 64-pixel size it was saved for, and a saved
      hotspot inside the 64-pixel square lands inside every other size. */
  lemma RescaleFits(size: int, saved: int)
    requires size > 0 && 0 <= saved < 64
    ensures Rescale(64, saved) == saved
    ensures 0 <= Rescale(size, saved) < size
  {
    assert 64 * saved / 64 == saved;
    var q := Rescale(size, saved);
    assert 64 * q <= size * saved;
    if q >= size {
      MulAtLeast(q, size);
      assert false;
    }
  }

  lemma MulAtLeast(q: int, size: int)
    requires q >= size > 0
    ensures 64 * q >= 64 * size
  {
  }

  /** Hotspots saved inside the 64-pixel square rescale without error, and the cursor stays
      well formed; at the 64-pixel size the saved hotspot itself comes back. */
  lemma SavedHotspotFits(c: Cursor, saved: (int, int))
    requires WellFormed(c)
    requires 0 <= saved.0 < 64 && 0 <= saved.1 < 64
    ensures RescaleCursor(c, saved).Success?
    ensures WellFormed(RescaleCursor(c, saved).value)
    ensures (64, 64) in c ==> RescaleCursor(c, saved).value[(64, 64)].hotspot == saved
  {
    forall s | s in c ensures HotspotInside(c[s].image, Rescale(s.0, saved.0), Rescale(s.1, saved.1)) {
      WellFormedSizesPositive(c, s);
      RescaleFits(s.0, saved.0);
      RescaleFits(s.1, saved.1);
    }
    var r := RescaleCursor(c, saved).value;
    forall s | s in r ensures SizeOf(r[s].image) == s && ValidIcon(r[s]) {
      assert r[s].image == c[s].image;
    }
    if (64, 64) in c {
      RescaleFits(64, saved.0);
      RescaleFits(64, saved.1);
    }
  }
}

=== FILE: wrappers.dfy ===
/** Failure-carrying results for the cursor core.

  The Python library signals failure by raising exceptions. Each operation of the
  model returns a Result instead, and the Error names the exception class, because
  the format dispatcher decides what to catch by class (a ValueError is retried
  with the next loader, a SyntaxError escapes).
 */
module Wrappers {

  /** The exception classes the core raises or lets escape from the libraries it calls. */
  datatype Error =
    | ValueError
    | SyntaxError
    | OverflowError
    | IndexError
    | KeyError
    | ZeroDivisionError
    | TypeError
    | StructError             // struct.error from a truncated binary record
    | UnidentifiedImageError  // the raster library does not recognise the bytes
    | ParseError              // the XML parser behind the SVG rasteriser rejects the bytes
    | LibraryError            // any other failure of an external library

  datatype Option<+T> = None | Some(value: T) {

    /** The value, or `default` when there is none (Python's `dict.get(key, default)`). */
    function GetOr(default: T): T {
      match this
      case Some(v) => v
      case None => default
    }
  }

  /** A value or the exception that replaced it; usable with `:-`. */
  datatype Result<+T> = Success(value: T) | Failure(error: Error) {

    predicate IsFailure() {
      Failure?
    }

    function PropagateFailure<U>(): Result<U>
      requires Failure?
    {
      Failure(error)
    }

    function Extract(): T
      requires Success?
    {
      value
    }
  }

  /** Fails with `e` unless `condition` holds; used as `:- Need(c, e);`. */
  datatype Outcome = Pass | Fail(error: Error) {

    predicate IsFailure() {
      Fail?
    }

    function PropagateFailure<U>(): Result<U>
      requires Fail?
    {
      Failure(error)
    }
  }

  function Need(condition: bool, e: Error): (r: Outcome)
    ensures r.Pass? <==> condition
  {
    if condition then Pass else Fail(e)
  }

  /** `f` applied to every element in turn, as a loop whose body may raise: the first
      failure ends the loop and is the result. */
  function MapAll<A, B>(xs: seq<A>, f: A --> Result<B>): (r: Result<seq<B>>)
    requires forall i :: 0 <= i < |xs| ==> f.requires(xs[i])
    ensures r.Success? <==> forall i :: 0 <= i < |xs| ==> f(xs[i]).Success?
    ensures r.Success? ==> |r.value| == |xs| && forall i :: 0 <= i < |xs| ==> r.value[i] == f(xs[i]).value
    ensures r.Failure? ==> exists i :: 0 <= i < |xs| && f(xs[i]).Failure? && r.error == f(xs[i]).error &&
                                       (forall j :: 0 <= j < i ==> f(xs[j]).Success?)
    decreases |xs|
  {
    if |xs| == 0 then Success([])
    else
      var first := f(xs[0]);
      if first.Failure? then Failure(first.error)
      else
        var rest := MapAll(xs[1..], f);
        assert forall i :: 1 <= i < |xs| ==> xs[1..][i - 1] == xs[i];
        if rest.Failure? then
          var k :| 0 <= k < |xs[1..]| && f(xs[1..][k]).Failure? && rest.error == f(xs[1..][k]).error &&
                   (forall j :: 0 <= j < k ==> f(xs[1..][j]).Success?);
          assert forall j :: 0 <= j < k + 1 ==> f(xs[j]).Success? by {
            forall j | 0 <= j < k + 1 ensures f(xs[j]).Success? {
              if j > 0 {
                assert xs[j] == xs[1..][j - 1];
              }
            }
          }
          Failure(rest.error)
        else
          Success([first.value] + rest.value)
  }
}

=== FILE: xcur_format.dfy ===
/** The X.Org Xcursor format (CursorCreate/lib/xcur_format.py), laid out as the
  "FILE FORMAT" section of the Xcursor(3) manual page describes it. Every field is an
  unsigned 32-bit little-endian integer:

    header  "Xcur", header size 16, file version 65536, N table-of-contents entries
    ToC     N entries: type 0xFFFD0002, nominal size, absolute offset of the image chunk
    chunk   header size 36, type, nominal size, chunk version 1, width, height,
            hotspot x, hotspot y, delay in milliseconds, then width * height pixels,
            each stored blue, green, red, alpha

  The reader groups the image entries of the table of contents by nominal size and
  plays the i-th image of every group as frame i. The writer emits the sizes in
  ascending order, each followed by all frames.
 */
module XcurFormat {
  import opened Wrappers
  import opened FormatCore
  import opened CursorModel

  const XcurMagic: seq<byte> := [88, 99, 117, 114]   // "Xcur"
  const HeaderSize: nat := 16
  const FileVersion: nat := 65536
  /** The type of an image entry and chunk. */
  const CursorType: nat := 0xFFFD0002
  const ChunkHeaderSize: nat := 36
  /** The largest width or height a chunk may carry. */
  const MaxSide: nat := 0x7FFF

  /** `check`: only the first four bytes are looked at. */
  function Check(first: seq<byte>): (r: bool)
    ensures r <==> |first| >= 4 && first[..4] == XcurMagic
  {
    Slice(first, 0, 4) == XcurMagic
  }

  /** `int(w * 3 / 4)`: three quarters of the width, truncated toward zero. */
  function Nominal(w: int): int {
    if w >= 0 then 3 * w / 4 else -(-3 * w / 4)
  }

  // ---------------------------------------------------------------------------
  // Pixel data
  // ---------------------------------------------------------------------------

  /** Pixels in stored order: row-major, each pixel as blue, green, red, alpha. */
  function PixelBytes(px: seq<Rgba>): (r: seq<byte>)
    ensures |r| == 4 * |px|
  {
    seq(4 * |px|, i requires 0 <= i < 4 * |px| => Channel(px[i / 4], i % 4))
  }

  /** Stored pixel data back to pixels: the channel swap (2, 1, 0, 3) of `read`. */
  function DecodePixels(data: seq<byte>): (r: seq<Rgba>)
    requires |data| % 4 == 0
    ensures |r| == |data| / 4
    ensures forall k :: 0 <= k < |r| ==> r[k] == Rgba(data[4 * k + 2], data[4 * k + 1], data[4 * k], data[4 * k + 3])
  {
    seq(|data| / 4, k requires 0 <= k < |data| / 4 => Rgba(data[4 * k + 2], data[4 * k + 1], data[4 * k], data[4 * k + 3]))
  }

  /** Channel c of pixel k is stored at 4k + c. */
  lemma PixelByteAt(px: seq<Rgba>, k: int, c: int)
    requires 0 <= k < |px| && 0 <= c < 4
    ensures 4 * k + c < |PixelBytes(px)| && PixelBytes(px)[4 * k + c] == Channel(px[k], c)
  {
    var i := 4 * k + c;
    assert i / 4 == k && i % 4 == c;
  }

  /** Decoding stored pixels gives back the pixels that were stored. */
  lemma PixelsRoundTrip(px: seq<Rgba>)
    ensures DecodePixels(PixelBytes(px)) == px
  {
    var data := PixelBytes(px);
    var r := DecodePixels(data);
    forall k | 0 <= k < |px| ensures r[k] == px[k] {
      PixelByteAt(px, k, 0);
      PixelByteAt(px, k, 1);
      PixelByteAt(px, k, 2);
      PixelByteAt(px, k, 3);
    }
  }

  /** Storing decoded pixels gives back the data they were decoded from. */
  lemma BytesRoundTrip(data: seq<byte>)
    requires |data| % 4 == 0
    ensures PixelBytes(DecodePixels(data)) == data
  {
    var px := DecodePixels(data);
    forall i | 0 <= i < |data| ensures PixelBytes(px)[i] == data[i] {
      var k, c := i / 4, i % 4;
      assert i == 4 * k + c;
    }
  }

  // ---------------------------------------------------------------------------
  // Reading: table of contents
  // ---------------------------------------------------------------------------

  /** The image entries of one nominal size, by offset, in table-of-contents order. */
  datatype Group = Group(nominal: nat, offsets: seq<nat>)

  function Nominals(groups: seq<Group>): (r: seq<nat>)
    ensures |r| == |groups| && forall j :: 0 <= j < |groups| ==> r[j] == groups[j].nominal
  {
    seq(|groups|, j requires 0 <= j < |groups| => groups[j].nominal)
  }

  predicate Distinct(ns: seq<nat>) {
    forall i, j :: 0 <= i < j < |ns| ==> ns[i] != ns[j]
  }

  /** `nominal_sizes[nominal].append(offset)`, where a new key goes last (dicts keep
      insertion order). */
  function AddEntry(groups: seq<Group>, nominal: nat, offset: nat): (r: seq<Group>)
    ensures nominal !in Nominals(groups) ==> r == groups + [Group(nominal, [offset])]
    ensures nominal in Nominals(groups) && Distinct(Nominals(groups)) ==>
      && |r| == |groups|
      && forall j :: 0 <= j < |groups| ==>
           r[j] == if groups[j].nominal == nominal then Group(nominal, groups[j].offsets + [offset]) else groups[j]
    decreases |groups|
  {
    if |groups| == 0 then [Group(nominal, [offset])]
    else if groups[0].nominal == nominal then [Group(nominal, groups[0].offsets + [offset])] + groups[1..]
    else
      var tail := groups[1..];
      NominalsTail(groups, nominal);
      [groups[0]] + AddEntry(tail, nominal, offset)
  }

  /** What the nominal sizes after the first group keep of membership and distinctness. */
  lemma NominalsTail(groups: seq<Group>, nominal: nat)
    requires |groups| > 0 && groups[0].nominal != nominal
    ensures nominal in Nominals(groups) <==> nominal in Nominals(groups[1..])
    ensures Distinct(Nominals(groups)) ==> Distinct(Nominals(groups[1..]))
  {
    var tail := groups[1..];
    assert forall j :: 1 <= j < |groups| ==> tail[j - 1] == groups[j];
    assert nominal in Nominals(groups) ==> nominal in Nominals(tail) by {
      if nominal in Nominals(groups) {
        var j :| 0 <= j < |groups| && Nominals(groups)[j] == nominal;
        assert Nominals(tail)[j - 1] == nominal;
      }
    }
    assert Distinct(Nominals(groups)) ==> Distinct(Nominals(tail)) by {
      if Distinct(Nominals(groups)) {
        forall a, b | 0 <= a < b < |tail| ensures Nominals(tail)[a] != Nominals(tail)[b] {
          assert Nominals(groups)[a + 1] != Nominals(groups)[b + 1];
        }
      }
    }
    assert nominal !in Nominals(groups) ==> nominal !in Nominals(tail) by {
      if nominal in Nominals(tail) {
        var j :| 0 <= j < |tail| && Nominals(tail)[j] == nominal;
        assert Nominals(groups)[j + 1] == nominal;
      }
    }
  }

  /** The (nominal size, offset) pairs of the image entries among `count` entries at `pos`.
      An image entry is 12 bytes; an entry of any other type is passed over by its 4-byte
      type word alone. Reads past the end give 0. */
  function TocEntries(file: seq<byte>, pos: nat, count: nat): (r: seq<(nat, nat)>)
    ensures |r| <= count
    decreases count
  {
    if count == 0 then []
    else if U32At(file, pos) == CursorType then
      [(U32At(file, pos + 4), U32At(file, pos + 8))] + TocEntries(file, pos + 12, count - 1)
    else TocEntries(file, pos + 4, count - 1)
  }

  /** The `nominal_sizes` dict after the table of contents: each entry in turn. */
  function GroupEntries(groups: seq<Group>, entries: seq<(nat, nat)>): (r: seq<Group>)
    decreases |entries|
  {
    if |entries| == 0 then groups
    else GroupEntries(AddEntry(groups, entries[0].0, entries[0].1), entries[1..])
  }

  /** The length of the longest group (0 for none). */
  function MaxLen(groups: seq<Group>): (r: nat)
    ensures forall j :: 0 <= j < |groups| ==> |groups[j].offsets| <= r
    ensures |groups| > 0 ==> exists j :: 0 <= j < |groups| && |groups[j].offsets| == r
    ensures |groups| == 0 ==> r == 0
  {
    if |groups| == 0 then 0
    else
      var rest := MaxLen(groups[1..]);
      assert forall j :: 1 <= j < |groups| ==> groups[j] == groups[1..][j - 1];
      if |groups[0].offsets| >= rest then |groups[0].offsets|
      else
        var j :| 0 <= j < |groups[1..]| && |groups[1..][j].offsets| == rest;
        assert groups[j + 1] == groups[1..][j];
        rest
  }

  /** Some group has an i-th image, so frame i exists. */
  predicate HasStep(groups: seq<Group>, i: nat) {
    exists j :: 0 <= j < |groups| && i < |groups[j].offsets|
  }

  // ---------------------------------------------------------------------------
  // Reading: image chunks and frames
  // ---------------------------------------------------------------------------

  /** What `_read_chunk` returns: the image, the hotspot and the delay. */
  datatype Decoded = Decoded(image: Image, hotX: nat, hotY: nat, delay: nat)

  /** `_read_chunk`: the 36-byte chunk header at `offset` must repeat the type and the
      table of contents' nominal size. The image is built from a width x height x 4 array,
      so the raster is `height` pixels wide and `width` pixels tall; a hotspot coordinate
      outside the stored width or height becomes 0. */
  function ReadChunk(file: seq<byte>, offset: nat, nominal: nat): (r: Result<Decoded>)
    ensures U32At(file, offset) != ChunkHeaderSize ==> r == Failure(SyntaxError)
    ensures U32At(file, offset) == ChunkHeaderSize && U32At(file, offset + 4) != CursorType ==> r == Failure(SyntaxError)
    ensures r.Success? ==> U32At(file, offset + 4) == CursorType && U32At(file, offset + 8) == nominal && U32At(file, offset + 12) == 1
    ensures r.Success? ==> r == ChunkImage(file, offset)
  {
    if U32At(file, offset) != ChunkHeaderSize then Failure(SyntaxError) else
    :- Need(U32At(file, offset + 4) == CursorType, SyntaxError);
    :- Need(U32At(file, offset + 8) == nominal, SyntaxError);
    :- Need(U32At(file, offset + 12) == 1, SyntaxError);
    ChunkImage(file, offset)
  }

  /** The pixel count the two size words of the chunk at `offset` give. */
  function ChunkArea(file: seq<byte>, offset: nat): nat {
    var w, h := U32At(file, offset + 16), U32At(file, offset + 20);
    MulLe(w, 0, h);
    w * h
  }

  /** The bytes after the chunk header that hold its pixels (fewer at the end of the file). */
  function ChunkData(file: seq<byte>, offset: nat): seq<byte> {
    Slice(file, offset + 36, offset + 36 + 4 * ChunkArea(file, offset))
  }

  /** The rest of `_read_chunk`, after the header checks: the raster is built from a
      width x height x 4 array, so it is `height` pixels wide and `width` pixels tall. */
  function ChunkImage(file: seq<byte>, offset: nat): (r: Result<Decoded>)
    ensures r.Success? ==> r.value.image.width == U32At(file, offset + 20) && r.value.image.height == U32At(file, offset + 16)
    ensures r.Success? ==> r.value.image.width <= MaxSide && r.value.image.height <= MaxSide && ValidImage(r.value.image)
    ensures r.Success? <==>
      && (|Slice(file, offset + 16, offset + 36)| + 3) / 4 == 5
      && U32At(file, offset + 16) <= MaxSide && U32At(file, offset + 20) <= MaxSide
      && |ChunkData(file, offset)| == 4 * ChunkArea(file, offset)
    ensures r.Success? ==> PixelBytes(r.value.image.pixels) == ChunkData(file, offset)
    ensures r.Success? ==> r.value.delay == U32At(file, offset + 32)
    ensures r.Success? ==> (var x := U32At(file, offset + 24); r.value.hotX == if x < U32At(file, offset + 16) then x else 0)
    ensures r.Success? ==> (var y := U32At(file, offset + 28); r.value.hotY == if y < U32At(file, offset + 20) then y else 0)
  {
    var rest := Slice(file, offset + 16, offset + 36);
    // Five values are unpacked from the 4-byte pieces of what is left of the 20 bytes.
    if (|rest| + 3) / 4 != 5 then Failure(ValueError)
    else
      RestFields(file, offset, rest);
      var width, height := U32At(rest, 0), U32At(rest, 4);
      var hotX, hotY, delay := U32At(rest, 8), U32At(rest, 12), U32At(rest, 16);
      if width > MaxSide || height > MaxSide then Failure(SyntaxError)
      else
        var area := ChunkArea(file, offset);
        var data := ChunkData(file, offset);
        // The array reshape needs every pixel byte.
        if |data| != 4 * area then Failure(ValueError)
        else
          Quarter(area);
          BytesRoundTrip(data);
          var image := Image(height, width, DecodePixels(data));
          assert ValidImage(image) by { assert height * width == area; }
          Success(Decoded(image, if hotX < width then hotX else 0, if hotY < height then hotY else 0, delay))
  }

  lemma Quarter(n: nat)
    ensures (4 * n) % 4 == 0 && (4 * n) / 4 == n
  {
  }

  /** The five fields unpacked from what is left of the chunk header are the words at
      their places in the file, a short last word included. */
  lemma RestFields(file: seq<byte>, offset: nat, rest: seq<byte>)
    requires rest == Slice(file, offset + 16, offset + 36)
    ensures U32At(rest, 0) == U32At(file, offset + 16) && U32At(rest, 4) == U32At(file, offset + 20)
    ensures U32At(rest, 8) == U32At(file, offset + 24) && U32At(rest, 12) == U32At(file, offset + 28)
    ensures U32At(rest, 16) == U32At(file, offset + 32)
  {
    WordWithin(file, offset + 16, offset + 36, 0);
    WordWithin(file, offset + 16, offset + 36, 4);
    WordWithin(file, offset + 16, offset + 36, 8);
    WordWithin(file, offset + 16, offset + 36, 12);
    WordWithin(file, offset + 16, offset + 36, 16);
  }

  /** The largest of a non-empty list of delays. */
  function MaxOf(ds: seq<nat>): (r: nat)
    requires |ds| > 0
    ensures r in ds && forall k :: 0 <= k < |ds| ==> ds[k] <= r
  {
    if |ds| == 1 then ds[0]
    else
      var rest := MaxOf(ds[1..]);
      assert forall k :: 1 <= k < |ds| ==> ds[k] == ds[1..][k - 1];
      if ds[0] >= rest then ds[0] else rest
  }

  /** The number of groups that have an i-th image. */
  function StepCount(groups: seq<Group>, i: nat): (r: nat)
    ensures r > 0 <==> HasStep(groups, i)
  {
    if |groups| == 0 then 0
    else
      var rest := StepCount(groups[1..], i);
      assert HasStep(groups[1..], i) ==> HasStep(groups, i) by {
        if HasStep(groups[1..], i) {
          var j :| 0 <= j < |groups[1..]| && i < |groups[1..][j].offsets|;
          assert groups[j + 1] == groups[1..][j];
        }
      }
      assert HasStep(groups, i) && i >= |groups[0].offsets| ==> HasStep(groups[1..], i) by {
        if HasStep(groups, i) && i >= |groups[0].offsets| {
          var j :| 0 <= j < |groups| && i < |groups[j].offsets|;
          assert j > 0 && groups[1..][j - 1] == groups[j];
        }
      }
      (if i < |groups[0].offsets| then 1 else 0) + rest
  }

  /** One image of `read`: the chunk at `offset` turned into an icon, with its delay. */
  function ReadIcon(file: seq<byte>, offset: nat, nominal: nat): (r: Result<(Icon, nat)>)
    ensures r.Success? ==> ValidIcon(r.value.0)
  {
    var d := ReadChunk(file, offset, nominal);
    if d.Failure? then Failure(d.error)
    else
      var icon := MakeIcon(d.value.image, d.value.hotX, d.value.hotY);
      if icon.Failure? then Failure(icon.error) else Success((icon.value, d.value.delay))
  }

  /** One frame of `read`: each group in turn that has an i-th image adds that image,
      with its hotspot, to the cursor (a later one of the same size replaces an earlier
      one) and contributes its delay. */
  function ReadFrame(file: seq<byte>, groups: seq<Group>, i: nat, c: Cursor, delays: seq<nat>): (r: Result<(Cursor, seq<nat>)>)
    ensures r.Success? ==> |r.value.1| == |delays| + StepCount(groups, i) && r.value.1[..|delays|] == delays
    ensures r.Success? && WellFormed(c) ==> WellFormed(r.value.0)
    decreases |groups|
  {
    if |groups| == 0 then Success((c, delays))
    else if i < |groups[0].offsets| then
      var read := ReadIcon(file, groups[0].offsets[i], groups[0].nominal);
      if read.Failure? then Failure(read.error)
      else
        var (icon, delay) := read.value;
        var more := delays + [delay];
        var r := ReadFrame(file, groups[1..], i, Add(c, icon), more);
        assert r.Success? ==> r.value.1[..|delays|] == more[..|delays|];
        r
    else ReadFrame(file, groups[1..], i, c, delays)
  }

  /** Frame i of `read`: the cursor the i-th images of the groups make, with the largest
      of their delays; `max` of no delays raises ValueError. */
  function ReadFrameAt(file: seq<byte>, groups: seq<Group>, i: nat): (r: Result<Frame>)
    ensures r.Success? ==> WellFormed(r.value.cursor)
  {
    var read := ReadFrame(file, groups, i, map[], []);
    if read.Failure? then Failure(read.error)
    else if |read.value.1| == 0 then Failure(ValueError)
    else Success(Frame(read.value.0, MaxOf(read.value.1)))
  }

  /** The frames read in order; the first one that raises ends the read. */
  function Collect(results: seq<Result<Frame>>): (r: Result<AnimatedCursor>)
    ensures r.Success? <==> forall k :: 0 <= k < |results| ==> results[k].Success?
    ensures r.Success? ==> |r.value| == |results| && forall k :: 0 <= k < |results| ==> results[k] == Success(r.value[k])
    decreases |results|
  {
    if |results| == 0 then Success([])
    else
      var rest := Collect(results[1..]);
      assert forall k :: 1 <= k < |results| ==> results[1..][k - 1] == results[k];
      if results[0].Failure? then Failure(results[0].error)
      else if rest.Failure? then Failure(rest.error)
      else Success([results[0].value] + rest.value)
  }

  /** The `count` frames of `read`, frame i built from the i-th images of the groups. */
  function ReadFrames(file: seq<byte>, groups: seq<Group>, count: nat): (r: Result<AnimatedCursor>)
    ensures r.Success? ==> |r.value| == count && FramesWellFormed(r.value)
  {
    var results := seq(count, i requires 0 <= i < count => ReadFrameAt(file, groups, i));
    var r := Collect(results);
    assert r.Success? ==> forall i :: 0 <= i < count ==> results[i] == Success(r.value[i]);
    r
  }

  /** `read`: the magic, then a header size of 16; the file version is not looked at.
      A file with no image entry has no longest group and raises ValueError. */
  function Read(file: seq<byte>): (r: Result<AnimatedCursor>)
    ensures !Check(file) ==> r == Failure(SyntaxError)
    ensures Check(file) && U32At(file, 4) != HeaderSize ==> r == Failure(SyntaxError)
    ensures r.Success? ==> var groups := GroupEntries([], TocEntries(file, HeaderSize, U32At(file, 12)));
      |groups| > 0 && |r.value| == MaxLen(groups)
    ensures r.Success? ==> FramesWellFormed(r.value)
  {
    if !Check(Slice(file, 0, 4)) then Failure(SyntaxError) else
    :- Need(U32At(file, 4) == HeaderSize, SyntaxError);
    var groups := GroupEntries([], TocEntries(file, HeaderSize, U32At(file, 12)));
    :- Need(|groups| > 0, ValueError);
    var count := MaxLen(groups);
    ReadFrames(file, groups, count)
  }

  // ---------------------------------------------------------------------------
  // Writing
  // ---------------------------------------------------------------------------

  /** One image chunk of a written file: the icon a frame holds at one size, with that
      frame's delay. */
  datatype Slot = Slot(size: Size, icon: Icon, delay: int)

  /** The bytes `write` reserves for the chunk of a size: its header and 4 bytes a pixel. */
  function Span(s: Size): int {
    ChunkHeaderSize + s.0 * s.1 * 4
  }

  /** One 12-byte table-of-contents entry: type, nominal size and chunk offset. */
  function TocEntry(s: Size, offset: int): (r: Result<seq<byte>>)
    ensures r.Success? <==> 0 <= Nominal(s.0) < Word32 && 0 <= offset < Word32
    ensures r.Failure? ==> r.error == OverflowError
    ensures r.Success? ==> |r.value| == 12
  {
    var nominal :- ToBytes(Nominal(s.0), 4);
    var at :- ToBytes(offset, 4);
    var fields := [Word(CursorType, 4), nominal, at];
    ConcatLength(fields, 4);
    Success(Concat(fields))
  }

  /** Every nominal size and every chunk offset of the table fits a 32-bit word. */
  predicate TocFits(slots: seq<Slot>, offset: int)
    decreases |slots|
  {
    |slots| == 0 ||
    (0 <= Nominal(slots[0].size.0) < Word32 && 0 <= offset < Word32 &&
     TocFits(slots[1..], offset + Span(slots[0].size)))
  }

  /** The table of contents from `offset` on: each slot's offset is the previous one plus
      the span of the previous slot's size. */
  function TocBytes(slots: seq<Slot>, offset: int): (r: Result<seq<byte>>)
    ensures r.Success? <==> TocFits(slots, offset)
    ensures r.Success? ==> |r.value| == 12 * |slots|
    ensures r.Failure? ==> r.error == OverflowError
    decreases |slots|
  {
    if |slots| == 0 then Success([])
    else
      var entry :- TocEntry(slots[0].size, offset);
      var rest :- TocBytes(slots[1..], offset + Span(slots[0].size));
      Success(entry + rest)
  }

  /** Every header word of the chunk of a slot fits: a side of at most 0x7FFF and a
      32-bit delay. */
  predicate ChunkFits(slot: Slot) {
    var img := slot.icon.image;
    && 0 <= Nominal(img.width) < Word32
    && 0 <= img.width <= MaxSide && img.height <= MaxSide
    && 0 <= slot.delay < Word32
  }

  /** The nine header words of a chunk: the width stands in both the width and the height
      field, and a hotspot coordinate outside the image becomes 0. The three constant
      words are ChunkHeaderSize, CursorType and version 1, spelled out as little-endian
      bytes (ChunkConstWords relates them to Word). */
  function ChunkFields(slot: Slot): (r: seq<seq<byte>>)
    requires ChunkFits(slot)
    ensures |r| == 9 && forall j :: 0 <= j < 9 ==> |r[j]| == 4
  {
    var img := slot.icon.image;
    var (x, y) := slot.icon.hotspot;
    var hotX := if 0 <= x < img.width then x else 0;
    var hotY := if 0 <= y < img.height then y else 0;
    [[36, 0, 0, 0], [2, 0, 0xFD, 0xFF], Word(Nominal(img.width), 4), [1, 0, 0, 0],
     Word(img.width, 4), Word(img.width, 4), Word(hotX, 4), Word(hotY, 4), Word(slot.delay, 4)]
  }

  lemma ChunkConstWords()
    ensures Word(ChunkHeaderSize, 4) == [36, 0, 0, 0]
    ensures Word(CursorType, 4) == [2, 0, 0xFD, 0xFF]
    ensures Word(1, 4) == [1, 0, 0, 0]
  {
  }

  /** `_write_chunk`: the nominal size is written first (OverflowError when it does not fit),
      then a side over 0x7FFF is refused, then the width and the delay must fit. */
  function ChunkBytes(slot: Slot): (r: Result<seq<byte>>)
    ensures r.Success? <==> ChunkFits(slot)
    ensures r.Success? ==> |r.value| == ChunkHeaderSize + 4 * |slot.icon.image.pixels|
    ensures r.Failure? ==> r.error in {OverflowError, SyntaxError}
  {
    var img := slot.icon.image;
    if !(0 <= Nominal(img.width) < Word32) then Failure(OverflowError)
    else if img.width > MaxSide || img.height > MaxSide then Failure(SyntaxError)
    else if !ChunkFits(slot) then Failure(OverflowError)
    else
      var fields := ChunkFields(slot);
      ConcatLength(fields, 4);
      Success(Concat(fields) + PixelBytes(img.pixels))
  }

  /** The chunks of the slots, one after another. */
  function ChunksBytes(slots: seq<Slot>): (r: Result<seq<byte>>)
    ensures r.Success? <==> forall k :: 0 <= k < |slots| ==> ChunkFits(slots[k])
    ensures r.Failure? ==> r.error in {OverflowError, SyntaxError}
    decreases |slots|
  {
    if |slots| == 0 then Success([])
    else
      var chunk := ChunkBytes(slots[0]);
      var rest := ChunksBytes(slots[1..]);
      assert forall k :: 1 <= k < |slots| ==> slots[k] == slots[1..][k - 1];
      if chunk.Failure? then Failure(chunk.error)
      else if rest.Failure? then Failure(rest.error)
      else Success(chunk.value + rest.value)
  }

  /** Every frame holds an icon of size s. */
  predicate HasSize(ac: AnimatedCursor, s: Size) {
    forall i :: 0 <= i < |ac| ==> s in ac[i].cursor
  }

  /** Every frame holds every size of the first frame: what `sub_cur[size]` needs. */
  predicate Covers(ac: AnimatedCursor) {
    |ac| > 0 && forall i, s :: 0 <= i < |ac| && s in ac[0].cursor ==> s in ac[i].cursor
  }

  /** The slots of one size: that size in every frame, in frame order. */
  function Block(ac: AnimatedCursor, s: Size): (r: seq<Slot>)
    requires HasSize(ac, s)
    ensures |r| == |ac| && forall i :: 0 <= i < |ac| ==> r[i] == Slot(s, ac[i].cursor[s], ac[i].delay)
  {
    seq(|ac|, i requires 0 <= i < |ac| => Slot(s, ac[i].cursor[s], ac[i].delay))
  }

  /** The slots in the order `write` emits them: size-major, frame-minor. */
  function SlotsOf(ac: AnimatedCursor, ss: seq<Size>): (r: seq<Slot>)
    requires forall j :: 0 <= j < |ss| ==> HasSize(ac, ss[j])
    ensures |r| == |ss| * |ac|
    decreases |ss|
  {
    if |ss| == 0 then []
    else
      MulSucc(|ac|, |ss| - 1);
      Block(ac, ss[0]) + SlotsOf(ac, ss[1..])
  }

  /** `sum(len(c) for c, d in cursor)`: the number of icons over all frames. */
  function CountIcons(ac: AnimatedCursor): (r: nat)
    ensures |ac| > 0 ==> r >= |ac[0].cursor|
  {
    if |ac| == 0 then 0 else |ac[0].cursor| + CountIcons(ac[1..])
  }

  /** When every frame holds k icons, there are k icons a frame. */
  lemma {:induction false} CountUniform(ac: AnimatedCursor, k: nat)
    requires forall i :: 0 <= i < |ac| ==> |ac[i].cursor| == k
    ensures CountIcons(ac) == |ac| * k
  {
    if |ac| > 0 {
      assert forall i :: 0 <= i < |ac[1..]| ==> ac[1..][i] == ac[i + 1];
      CountUniform(ac[1..], k);
      MulSucc(k, |ac| - 1);
    }
  }

  /** `sorted(cursor[0][0])`: the sizes of the first frame in ascending order, every one of
      them held by every frame. */
  function WrittenSizes(ac: AnimatedCursor): (ss: seq<Size>)
    requires Covers(ac)
    ensures StrictlyAscending(ss) && forall s :: s in ss <==> s in ac[0].cursor
    ensures forall k :: 0 <= k < |ss| ==> HasSize(ac, ss[k])
  {
    var ss := SortedSizes(ac[0].cursor.Keys);
    assert forall k :: 0 <= k < |ss| ==> HasSize(ac, ss[k]) by {
      forall k, i | 0 <= k < |ss| && 0 <= i < |ac| ensures ss[k] in ac[i].cursor {
        assert ss[k] in ac[0].cursor;
      }
    }
    ss
  }

  /** `write` on a normalised animation with at least one frame: the header, the table of
      contents for the sizes of the first frame in ascending order, and the chunks. */
  function WriteFrames(ac: AnimatedCursor): (r: Result<seq<byte>>)
    requires Covers(ac)
    ensures r.Failure? ==> r.error in {OverflowError, SyntaxError}
    ensures r.Success? ==> |r.value| >= 16 && r.value[..4] == XcurMagic
    ensures r.Success? ==> U32At(r.value, 4) == HeaderSize && U32At(r.value, 8) == FileVersion
    ensures r.Success? ==> U32At(r.value, 12) == CountIcons(ac)
  {
    WriteSlots(CountIcons(ac), SlotsOf(ac, WrittenSizes(ac)))
  }

  /** Where `write` puts the first chunk: after the header and a 12-byte entry per slot. */
  function ChunksFrom(slots: seq<Slot>): (r: nat)
    ensures r == HeaderSize + 12 * |slots|
  {
    |slots| * 12 + HeaderSize
  }

  /** The file `write` lays out for a chunk count and the slots in emission order: a
      16-byte header, the table of contents from offset 16 (its first entry pointing just
      past the `count` entries it reserves) and the chunks after it. */
  function WriteSlots(count: int, slots: seq<Slot>): (r: Result<seq<byte>>)
    ensures r.Failure? ==> r.error in {OverflowError, SyntaxError}
    ensures r.Success? <==>
      0 <= count < Word32 && TocFits(slots, count * 12 + HeaderSize) && ChunksBytes(slots).Success?
    ensures r.Success? ==> |r.value| >= 16 && r.value[..4] == XcurMagic
    ensures r.Success? ==> U32At(r.value, 4) == HeaderSize && U32At(r.value, 8) == FileVersion
    ensures r.Success? ==> U32At(r.value, 12) == count
    ensures r.Success? ==>
      && ChunksFrom(slots) <= |r.value|
      && r.value[HeaderSize..ChunksFrom(slots)] == TocBytes(slots, count * 12 + HeaderSize).value
      && r.value[ChunksFrom(slots)..] == ChunksBytes(slots).value
  {
    var bytes := ToBytes(count, 4);
    var toc := TocBytes(slots, count * 12 + HeaderSize);
    var chunks := ChunksBytes(slots);
    if bytes.Failure? then Failure(bytes.error)
    else if toc.Failure? then Failure(toc.error)
    else if chunks.Failure? then Failure(chunks.error)
    else
      var fields := HeaderFields(bytes.value);
      var body := toc.value + chunks.value;
      HeaderWords(fields, body);
      Sections(Concat(fields), toc.value, chunks.value, slots);
      Success(Concat(fields) + body)
  }

  /** Where the table of contents and the chunks begin and end after a 16-byte header. */
  lemma Sections(header: seq<byte>, toc: seq<byte>, chunks: seq<byte>, slots: seq<Slot>)
    requires |header| == HeaderSize && |toc| == 12 * |slots|
    ensures var file := header + (toc + chunks);
      && ChunksFrom(slots) <= |file|
      && file[HeaderSize..ChunksFrom(slots)] == toc && file[ChunksFrom(slots)..] == chunks
  {
    var file := header + (toc + chunks);
    assert file[HeaderSize..] == toc + chunks;
  }

  /** The 16-byte file header: magic, header size, version and the number of chunks, the
      two constant words spelled out as little-endian bytes (HeaderConstWords). */
  function HeaderFields(count: seq<byte>): (r: seq<seq<byte>>)
    requires |count| == 4
    ensures |r| == 4 && forall j :: 0 <= j < 4 ==> |r[j]| == 4
  {
    [XcurMagic, [16, 0, 0, 0], [0, 0, 1, 0], count]
  }

  lemma HeaderConstWords()
    ensures Word(HeaderSize, 4) == [16, 0, 0, 0] && Word(FileVersion, 4) == [0, 0, 1, 0]
  {
  }

  /** The words of a record of four 4-byte fields, read back from the front of a file. */
  lemma HeaderWords(fields: seq<seq<byte>>, body: seq<byte>)
    requires |fields| == 4 && forall j :: 0 <= j < 4 ==> |fields[j]| == 4
    ensures |Concat(fields)| == 16 && (Concat(fields) + body)[..4] == fields[0]
    ensures U32At(Concat(fields) + body, 4) == ToInt(fields[1])
    ensures U32At(Concat(fields) + body, 8) == ToInt(fields[2])
    ensures U32At(Concat(fields) + body, 12) == ToInt(fields[3])
  {
    var header := Concat(fields);
    ConcatLength(fields, 4);
    ConcatUniform(fields, 4, 0);
    var file := header + body;
    assert file[0..16] == header;
    FieldAt(file, 0, fields, 1);
    FieldAt(file, 0, fields, 2);
    FieldAt(file, 0, fields, 3);
  }

  /** `write`: the animation is normalised first (every frame gets every size any frame
      has); an animation without frames writes nothing. */
  function Write(ac: AnimatedCursor, lanczos: Resampler): (r: Result<seq<byte>>)
    requires FramesWellFormed(ac)
    ensures |ac| == 0 ==> r == Success([])
  {
    var normalized := Normalize(ac, {}, lanczos);
    if normalized.Failure? then Failure(normalized.error)
    else if |normalized.value| == 0 then Success([])
    else
      NormalizedCovers(ac, lanczos, normalized.value);
      WriteFrames(normalized.value)
  }

  /** Normalised frames all hold the same sizes. */
  lemma NormalizedCovers(ac: AnimatedCursor, lanczos: Resampler, norm: AnimatedCursor)
    requires FramesWellFormed(ac) && Normalize(ac, {}, lanczos) == Success(norm) && |norm| > 0
    ensures Covers(norm)
  {
    KeysCover(norm, {} + AllSizes(ac));
  }

  /** Frames that all hold exactly `sizes` cover the sizes of the first, and hold |sizes| icons each. */
  lemma KeysCover(ac: AnimatedCursor, sizes: set<Size>)
    requires |ac| > 0 && forall i :: 0 <= i < |ac| ==> ac[i].cursor.Keys == sizes
    ensures Covers(ac)
    ensures forall i :: 0 <= i < |ac| ==> |ac[i].cursor| == |sizes|
  {
    forall i, s | 0 <= i < |ac| && s in ac[0].cursor
      ensures s in ac[i].cursor
    {
      assert s in ac[0].cursor.Keys;
    }
  }

  /** A non-empty animation is written as its normalised frames. */
  lemma WrittenNormalized(ac: AnimatedCursor, lanczos: Resampler) returns (norm: AnimatedCursor)
    requires FramesWellFormed(ac) && |ac| > 0 && Normalize(ac, {}, lanczos).Success?
    ensures Normalize(ac, {}, lanczos) == Success(norm) && |norm| == |ac| && Covers(norm)
    ensures Write(ac, lanczos) == WriteFrames(norm)
  {
    norm := Normalize(ac, {}, lanczos).value;
    NormalizedCovers(ac, lanczos, norm);
  }

  /** `write` fails only where normalisation fails (ValueError), where a number does not fit its
      4-byte field (OverflowError), or where an image side exceeds 0x7FFF (SyntaxError). */
  lemma WriteErrors(ac: AnimatedCursor, lanczos: Resampler)
    requires FramesWellFormed(ac) && Write(ac, lanczos).Failure?
    ensures Write(ac, lanczos).error in {ValueError, OverflowError, SyntaxError}
    ensures Normalize(ac, {}, lanczos).Failure? ==> Write(ac, lanczos).error == ValueError
  {
    if Normalize(ac, {}, lanczos).Success? && |ac| > 0 {
      var norm := WrittenNormalized(ac, lanczos);
    }
  }

  /** A written file starts with the magic and counts one chunk per frame and size, the sizes
      being every size some frame holds. */
  lemma WriteHeader(ac: AnimatedCursor, lanczos: Resampler)
    requires FramesWellFormed(ac) && |ac| > 0 && Write(ac, lanczos).Success?
    ensures Check(Write(ac, lanczos).value)
    ensures U32At(Write(ac, lanczos).value, 12) == |ac| * |AllSizes(ac)|
  {
    var norm := WrittenNormalized(ac, lanczos);
    KeysCover(norm, {} + AllSizes(ac));
    UnionEmpty(AllSizes(ac));
    CountUniform(norm, |AllSizes(ac)|);
  }

  lemma UnionEmpty<T>(x: set<T>)
    ensures {} + x == x
  {
  }

}

=== FILE: xcur_roundtrip.dfy ===
/** What `XCursorFormat.read` makes of the bytes `XCursorFormat.write` produces: the table of
  contents points at the chunks, the entries group into one group per size, every chunk reads
  back as the icon it stores, and so the frames come back. */
module XcurRoundTrip {
  import opened Wrappers
  import opened FormatCore
  import opened CursorModel
  import opened XcurFormat

  // ---------------------------------------------------------------------------
  // Table of contents
  // ---------------------------------------------------------------------------

  /** Where `write` places the chunk of each slot: after the previous one, one span further. */
  function Offsets(slots: seq<Slot>, offset: int): (r: seq<int>)
    ensures |r| == |slots|
    decreases |slots|
  {
    if |slots| == 0 then [] else [offset] + Offsets(slots[1..], offset + Span(slots[0].size))
  }

  /** The (nominal size, offset) pairs a written table of contents holds, slot by slot. */
  function TocPairs(slots: seq<Slot>, offset: int): (r: seq<(nat, nat)>)
    requires TocFits(slots, offset)
    ensures |r| == |slots|
    decreases |slots|
  {
    if |slots| == 0 then []
    else
      var next := offset + Span(slots[0].size);
      [(Nominal(slots[0].size.0), offset)] + TocPairs(slots[1..], next)
  }

  /** The first pair belongs to the first slot; the rest start after its chunk. */
  lemma PairsCons(slots: seq<Slot>, offset: int)
    requires TocFits(slots, offset) && |slots| > 0
    ensures TocFits(slots[1..], offset + Span(slots[0].size))
    ensures TocPairs(slots, offset)
      == [(Nominal(slots[0].size.0), offset)] + TocPairs(slots[1..], offset + Span(slots[0].size))
  {
  }

  /** Pair k holds the nominal size of slot k and the offset `write` gives its chunk. */
  lemma {:induction false} TocPairsAt(slots: seq<Slot>, offset: int, k: nat)
    requires TocFits(slots, offset) && k < |slots|
    ensures TocPairs(slots, offset)[k].0 == Nominal(slots[k].size.0)
    ensures TocPairs(slots, offset)[k].1 == Offsets(slots, offset)[k]
    decreases k
  {
    if k > 0 {
      var next := offset + Span(slots[0].size);
      TocPairsAt(slots[1..], next, k - 1);
      assert slots[1..][k - 1] == slots[k];
    }
  }

  /** A written entry read back: the image type, the nominal size and the offset. */
  lemma TocHead(file: seq<byte>, pos: nat, s: Size, offset: int)
    requires TocEntry(s, offset).Success?
    requires pos + 12 <= |file| && file[pos..pos + 12] == TocEntry(s, offset).value
    ensures U32At(file, pos) == CursorType && U32At(file, pos + 4) == Nominal(s.0) && U32At(file, pos + 8) == offset
  {
    var fields := [Word(CursorType, 4), ToBytes(Nominal(s.0), 4).value, ToBytes(offset, 4).value];
    FieldAt(file, pos, fields, 0);
    FieldAt(file, pos, fields, 1);
    FieldAt(file, pos, fields, 2);
  }

  /** The entries of a written table of contents read back. */
  lemma {:induction false} TocRead(file: seq<byte>, pos: nat, slots: seq<Slot>, offset: int)
    requires TocFits(slots, offset)
    requires pos + 12 * |slots| <= |file| && file[pos..pos + 12 * |slots|] == TocBytes(slots, offset).value
    ensures TocEntries(file, pos, |slots|) == TocPairs(slots, offset)
    decreases |slots|
  {
    if |slots| > 0 {
      var next := offset + Span(slots[0].size);
      TocSplit(file, pos, slots, offset);
      TocRead(file, pos + 12, slots[1..], next);
      assert TocEntries(file, pos, |slots|)
          == [(U32At(file, pos + 4), U32At(file, pos + 8))] + TocEntries(file, pos + 12, |slots[1..]|);
      assert TocPairs(slots, offset) == [(Nominal(slots[0].size.0), offset)] + TocPairs(slots[1..], next);
    }
  }

  /** A written table of contents: its first entry's words, then the rest of the table. */
  lemma TocSplit(file: seq<byte>, pos: nat, slots: seq<Slot>, offset: int)
    requires TocFits(slots, offset) && |slots| > 0
    requires pos + 12 * |slots| <= |file| && file[pos..pos + 12 * |slots|] == TocBytes(slots, offset).value
    ensures U32At(file, pos) == CursorType && U32At(file, pos + 4) == Nominal(slots[0].size.0)
    ensures U32At(file, pos + 8) == offset
    ensures var next := offset + Span(slots[0].size);
      && TocFits(slots[1..], next) && pos + 12 + 12 * |slots[1..]| <= |file|
      && file[pos + 12..pos + 12 + 12 * |slots[1..]|] == TocBytes(slots[1..], next).value
  {
    var entry := TocEntry(slots[0].size, offset).value;
    var next := offset + Span(slots[0].size);
    var rest := TocBytes(slots[1..], next).value;
    assert TocBytes(slots, offset).value == entry + rest;
    assert 12 * |slots| == |entry| + |rest|;
    SplitPair(file, pos, entry, rest);
    TocHead(file, pos, slots[0].size, offset);
  }

  // ---------------------------------------------------------------------------
  // Grouping by nominal size
  // ---------------------------------------------------------------------------

  /** The offsets of a list of entries. */
  function Seconds(entries: seq<(nat, nat)>): (r: seq<nat>)
    ensures |r| == |entries| && forall k :: 0 <= k < |entries| ==> r[k] == entries[k].1
  {
    seq(|entries|, k requires 0 <= k < |entries| => entries[k].1)
  }

  /** The offsets of entries are the first one's, then the rest's. */
  lemma SecondsCons(entries: seq<(nat, nat)>)
    requires |entries| > 0
    ensures Seconds(entries) == [entries[0].1] + Seconds(entries[1..])
  {
    assert forall k :: 1 <= k < |entries| ==> entries[1..][k - 1] == entries[k];
  }

  /** Grouping a list in two parts is grouping the second part into the groups of the first. */
  lemma {:induction false} GroupAppend(groups: seq<Group>, a: seq<(nat, nat)>, b: seq<(nat, nat)>)
    ensures GroupEntries(groups, a + b) == GroupEntries(GroupEntries(groups, a), b)
    decreases |a|
  {
    if |a| > 0 {
      assert (a + b)[0] == a[0] && (a + b)[1..] == a[1..] + b;
      GroupAppend(AddEntry(groups, a[0].0, a[0].1), a[1..], b);
    } else {
      assert a + b == b;
    }
  }

  lemma NominalsAppend(groups: seq<Group>, g: Group)
    ensures Nominals(groups + [g]) == Nominals(groups) + [g.nominal]
  {
  }

  lemma DistinctAppend(ns: seq<nat>, v: nat)
    requires Distinct(ns) && v !in ns
    ensures Distinct(ns + [v])
  {
  }

  /** An entry whose nominal size only the last group has joins the last group. */
  lemma JoinLast(groups: seq<Group>, v: nat, offsets: seq<nat>, offset: nat)
    requires Distinct(Nominals(groups)) && v !in Nominals(groups)
    ensures AddEntry(groups + [Group(v, offsets)], v, offset) == groups + [Group(v, offsets + [offset])]
  {
    var all := groups + [Group(v, offsets)];
    NominalsAppend(groups, Group(v, offsets));
    DistinctAppend(Nominals(groups), v);
    assert Nominals(all)[|groups|] == v;
    var r := AddEntry(all, v, offset);
    forall j | 0 <= j < |groups| ensures r[j] == groups[j] {
      assert all[j] == groups[j];
      assert Nominals(all)[j] == groups[j].nominal;
      assert groups[j].nominal != v;
    }
  }

  /** Entries that all carry the nominal size of the last group, and no other group's, join it. */
  lemma {:induction false} ExtendLast(groups: seq<Group>, v: nat, offsets: seq<nat>, entries: seq<(nat, nat)>)
    requires Distinct(Nominals(groups)) && v !in Nominals(groups)
    requires forall k :: 0 <= k < |entries| ==> entries[k].0 == v
    ensures GroupEntries(groups + [Group(v, offsets)], entries) == groups + [Group(v, offsets + Seconds(entries))]
    decreases |entries|
  {
    if |entries| == 0 {
      assert offsets + Seconds(entries) == offsets;
    } else {
      var e := entries[0].1;
      JoinLast(groups, v, offsets, e);
      assert GroupEntries(groups + [Group(v, offsets)], entries)
          == GroupEntries(groups + [Group(v, offsets + [e])], entries[1..]);
      ExtendLast(groups, v, offsets + [e], entries[1..]);
      SecondsCons(entries);
      assert (offsets + [e]) + Seconds(entries[1..]) == offsets + Seconds(entries);
    }
  }

  /** A run of entries of one new nominal size becomes one new group, last. */
  lemma NewGroup(groups: seq<Group>, v: nat, entries: seq<(nat, nat)>)
    requires Distinct(Nominals(groups)) && v !in Nominals(groups)
    requires |entries| > 0 && forall k :: 0 <= k < |entries| ==> entries[k].0 == v
    ensures GroupEntries(groups, entries) == groups + [Group(v, Seconds(entries))]
  {
    assert AddEntry(groups, v, entries[0].1) == groups + [Group(v, [entries[0].1])];
    ExtendLast(groups, v, [entries[0].1], entries[1..]);
    SecondsCons(entries);
  }

  // ---------------------------------------------------------------------------
  // Slot lists in parts
  // ---------------------------------------------------------------------------

  /** The bytes the chunks of the slots take up. */
  function Total(slots: seq<Slot>): (r: int)
    decreases |slots|
  {
    if |slots| == 0 then 0 else Span(slots[0].size) + Total(slots[1..])
  }

  /** A table that fits for a + b fits for a, and for b from where a's chunks end. */
  lemma {:induction false} TocFitsAppend(a: seq<Slot>, b: seq<Slot>, offset: int)
    requires TocFits(a + b, offset)
    ensures TocFits(a, offset) && TocFits(b, offset + Total(a))
    decreases |a|
  {
    if |a| == 0 {
      assert a + b == b;
    } else {
      var next := offset + Span(a[0].size);
      assert (a + b)[0] == a[0] && (a + b)[1..] == a[1..] + b;
      TocFitsAppend(a[1..], b, next);
      assert next + Total(a[1..]) == offset + Total(a);
    }
  }

  /** The table entries of a + b are a's, then b's from where a's chunks end. */
  lemma {:induction false} TocAppend(a: seq<Slot>, b: seq<Slot>, offset: int)
    requires TocFits(a + b, offset)
    ensures TocFits(a, offset) && TocFits(b, offset + Total(a))
    ensures TocPairs(a + b, offset) == TocPairs(a, offset) + TocPairs(b, offset + Total(a))
    decreases |a|
  {
    TocFitsAppend(a, b, offset);
    if |a| == 0 {
      assert a + b == b;
    } else {
      var next := offset + Span(a[0].size);
      assert (a + b)[0] == a[0] && (a + b)[1..] == a[1..] + b;
      TocAppend(a[1..], b, next);
      assert next + Total(a[1..]) == offset + Total(a);
      PairsCons(a + b, offset);
      PairsCons(a, offset);
    }
  }

  /** Runs laid end to end. */
  function Flatten<T>(runs: seq<seq<T>>): (r: seq<T>)
    decreases |runs|
  {
    if |runs| == 0 then [] else runs[0] + Flatten(runs[1..])
  }

  /** In runs of one length n, item i of run j is item j * n + i of the whole. */
  lemma {:induction false} FlattenAt<T>(runs: seq<seq<T>>, n: nat, j: nat, i: nat)
    requires forall k :: 0 <= k < |runs| ==> |runs[k]| == n
    requires j < |runs| && i < n
    ensures j * n + i < |Flatten(runs)| && Flatten(runs)[j * n + i] == runs[j][i]
    decreases j
  {
    var tail := Flatten(runs[1..]);
    assert Flatten(runs) == runs[0] + tail;
    if j > 0 {
      FlattenAt(runs[1..], n, j - 1, i);
      MulSucc(n, j - 1);
      assert (j - 1) * n + i + n == j * n + i;
      assert runs[1..][j - 1] == runs[j];
    }
  }

  // ---------------------------------------------------------------------------
  // The groups of a written file
  // ---------------------------------------------------------------------------

  /** Slot j * |ac| + i of the written order is frame i's icon of size ss[j]. */
  lemma {:induction false} SlotAt(ac: AnimatedCursor, ss: seq<Size>, j: nat, i: nat)
    requires forall k :: 0 <= k < |ss| ==> HasSize(ac, ss[k])
    requires j < |ss| && i < |ac|
    ensures j * |ac| + i < |SlotsOf(ac, ss)|
    ensures SlotsOf(ac, ss)[j * |ac| + i] == Slot(ss[j], ac[i].cursor[ss[j]], ac[i].delay)
    decreases j
  {
    var n := |ac|;
    var block := Block(ac, ss[0]);
    var rest := SlotsOf(ac, ss[1..]);
    assert SlotsOf(ac, ss) == block + rest;
    if j > 0 {
      SlotAt(ac, ss[1..], j - 1, i);
      MulSucc(n, j - 1);
      assert (j - 1) * n + i + n == j * n + i;
      assert ss[1..][j - 1] == ss[j];
    }
  }

  /** The table-of-contents pairs of the written slots, one run per size. */
  function BlockRuns(ac: AnimatedCursor, ss: seq<Size>, offset: int): (r: seq<seq<(nat, nat)>>)
    requires forall j :: 0 <= j < |ss| ==> HasSize(ac, ss[j])
    requires TocFits(SlotsOf(ac, ss), offset)
    ensures |r| == |ss| && forall j :: 0 <= j < |ss| ==> |r[j]| == |ac|
    ensures Flatten(r) == TocPairs(SlotsOf(ac, ss), offset)
    decreases |ss|
  {
    if |ss| == 0 then []
    else
      var block := Block(ac, ss[0]);
      var rest := SlotsOf(ac, ss[1..]);
      assert SlotsOf(ac, ss) == block + rest;
      TocAppend(block, rest, offset);
      var later := BlockRuns(ac, ss[1..], offset + Total(block));
      assert forall j :: 1 <= j < |ss| ==> ([TocPairs(block, offset)] + later)[j] == later[j - 1];
      [TocPairs(block, offset)] + later
  }

  /** Where item i of run j of runs of length n sits in the whole. */
  function Place(j: nat, n: nat, i: nat): (r: nat)
    ensures r == j * n + i
  {
    MulLe(n, 0, j);
    j * n + i
  }

  /** Pair i of run j names size ss[j] and the chunk of frame i's icon of that size. */
  lemma RunEntry(ac: AnimatedCursor, ss: seq<Size>, offset: int, j: nat, i: nat)
    requires forall k :: 0 <= k < |ss| ==> HasSize(ac, ss[k])
    requires TocFits(SlotsOf(ac, ss), offset)
    requires j < |ss| && i < |ac|
    ensures Place(j, |ac|, i) < |SlotsOf(ac, ss)|
    ensures SlotsOf(ac, ss)[Place(j, |ac|, i)] == Slot(ss[j], ac[i].cursor[ss[j]], ac[i].delay)
    ensures BlockRuns(ac, ss, offset)[j][i].0 == Nominal(ss[j].0)
    ensures BlockRuns(ac, ss, offset)[j][i].1 == Offsets(SlotsOf(ac, ss), offset)[Place(j, |ac|, i)]
  {
    var runs := BlockRuns(ac, ss, offset);
    var k := Place(j, |ac|, i);
    FlattenAt(runs, |ac|, j, i);
    SlotAt(ac, ss, j, i);
    TocPairsAt(SlotsOf(ac, ss), offset, k);
  }

  /** One group per run, with the run's nominal size and offsets. */
  function RunGroups(runs: seq<seq<(nat, nat)>>): (r: seq<Group>)
    requires forall j :: 0 <= j < |runs| ==> |runs[j]| > 0
    ensures |r| == |runs|
  {
    seq(|runs|, j requires 0 <= j < |runs| => Group(runs[j][0].0, Seconds(runs[j])))
  }

  lemma RunGroupsCons(runs: seq<seq<(nat, nat)>>)
    requires |runs| > 0 && forall j :: 0 <= j < |runs| ==> |runs[j]| > 0
    ensures RunGroups(runs) == [Group(runs[0][0].0, Seconds(runs[0]))] + RunGroups(runs[1..])
  {
    assert forall j :: 1 <= j < |runs| ==> runs[1..][j - 1] == runs[j];
  }

  lemma AppendAssoc<T>(a: seq<T>, b: seq<T>, c: seq<T>)
    ensures (a + b) + c == a + (b + c)
  {
  }

  /** The first run becomes a new group, and the rest are grouped after it. */
  lemma GroupHead(groups: seq<Group>, pairs: seq<(nat, nat)>, rest: seq<(nat, nat)>)
    requires Distinct(Nominals(groups)) && |pairs| > 0 && pairs[0].0 !in Nominals(groups)
    requires forall k :: 0 <= k < |pairs| ==> pairs[k].0 == pairs[0].0
    ensures GroupEntries(groups, pairs + rest) == GroupEntries(groups + [Group(pairs[0].0, Seconds(pairs))], rest)
  {
    GroupAppend(groups, pairs, rest);
    NewGroup(groups, pairs[0].0, pairs);
  }

  /** Runs of one nominal size each, all different and new, become one new group each. */
  lemma {:induction false} GroupRuns(groups: seq<Group>, runs: seq<seq<(nat, nat)>>)
    requires Distinct(Nominals(groups))
    requires forall j :: 0 <= j < |runs| ==> |runs[j]| > 0
    requires forall j, k :: 0 <= j < |runs| && 0 <= k < |runs[j]| ==> runs[j][k].0 == runs[j][0].0
    requires forall j :: 0 <= j < |runs| ==> runs[j][0].0 !in Nominals(groups)
    requires forall j, k :: 0 <= j < k < |runs| ==> runs[j][0].0 != runs[k][0].0
    ensures GroupEntries(groups, Flatten(runs)) == groups + RunGroups(runs)
    decreases |runs|
  {
    if |runs| == 0 {
      assert groups + RunGroups(runs) == groups;
    } else {
      var pairs, later := runs[0], runs[1..];
      var g := Group(pairs[0].0, Seconds(pairs));
      var grown := groups + [g];
      GroupHead(groups, pairs, Flatten(later));
      NominalsAppend(groups, g);
      DistinctAppend(Nominals(groups), g.nominal);
      assert forall j :: 0 <= j < |later| ==> later[j] == runs[j + 1];
      GroupRuns(grown, later);
      RunGroupsCons(runs);
      AppendAssoc(groups, [g], RunGroups(later));
    }
  }

  // ---------------------------------------------------------------------------
  // Chunks
  // ---------------------------------------------------------------------------

  /** A slot whose chunk reads back unchanged: a square image stored under its own size,
      with the hotspot inside. */
  predicate Storable(slot: Slot) {
    slot.size.0 == slot.size.1 && SizeOf(slot.icon.image) == slot.size && ValidIcon(slot.icon)
  }

  /** `_read_chunk` at `offset`, given the slot's nominal size, gives back the slot's image,
      hotspot and delay. */
  predicate ChunkAt(file: seq<byte>, offset: int, slot: Slot) {
    offset >= 0 && Nominal(slot.size.0) >= 0 &&
    var r := ReadChunk(file, offset, Nominal(slot.size.0));
    && r.Success?
    && r.value.image == slot.icon.image
    && r.value.hotX == slot.icon.hotspot.0 && r.value.hotY == slot.icon.hotspot.1
    && r.value.delay == slot.delay
  }

  /** The nine header words of a written chunk, as they are read back. */
  lemma ChunkWords(file: seq<byte>, p: nat, slot: Slot)
    requires Storable(slot) && ChunkFits(slot)
    requires p + |ChunkBytes(slot).value| <= |file| && file[p..p + |ChunkBytes(slot).value|] == ChunkBytes(slot).value
    ensures var w := slot.icon.image.width;
      && U32At(file, p) == ChunkHeaderSize && U32At(file, p + 4) == CursorType
      && U32At(file, p + 8) == Nominal(w) && U32At(file, p + 12) == 1
      && U32At(file, p + 16) == w && U32At(file, p + 20) == w
    ensures U32At(file, p + 24) == slot.icon.hotspot.0 && U32At(file, p + 28) == slot.icon.hotspot.1
    ensures U32At(file, p + 32) == slot.delay
  {
    var fields := ChunkFields(slot);
    ConcatLength(fields, 4);
    var chunk := ChunkBytes(slot).value;
    assert chunk == Concat(fields) + PixelBytes(slot.icon.image.pixels);
    assert file[p..p + 36] == Concat(fields) by {
      assert file[p..p + 36] == chunk[..36];
    }
    SizeWords(file, p, slot);
    HotspotWords(file, p, slot);
  }

  /** The first six header words of a chunk record: sizes, type, nominal size and version. */
  lemma SizeWords(file: seq<byte>, p: nat, slot: Slot)
    requires Storable(slot) && ChunkFits(slot)
    requires p + 36 <= |file| && file[p..p + 36] == Concat(ChunkFields(slot))
    ensures var w := slot.icon.image.width;
      && U32At(file, p) == ChunkHeaderSize && U32At(file, p + 4) == CursorType
      && U32At(file, p + 8) == Nominal(w) && U32At(file, p + 12) == 1
      && U32At(file, p + 16) == w && U32At(file, p + 20) == w
  {
    var fields := ChunkFields(slot);
    ConcatLength(fields, 4);
    FieldAt(file, p, fields, 0);
    FieldAt(file, p, fields, 1);
    FieldAt(file, p, fields, 2);
    FieldAt(file, p, fields, 3);
    FieldAt(file, p, fields, 4);
    FieldAt(file, p, fields, 5);
  }

  /** The last three header words of a chunk record: hotspot and delay. */
  lemma HotspotWords(file: seq<byte>, p: nat, slot: Slot)
    requires Storable(slot) && ChunkFits(slot)
    requires p + 36 <= |file| && file[p..p + 36] == Concat(ChunkFields(slot))
    ensures U32At(file, p + 24) == slot.icon.hotspot.0 && U32At(file, p + 28) == slot.icon.hotspot.1
    ensures U32At(file, p + 32) == slot.delay
  {
    var fields := ChunkFields(slot);
    ConcatLength(fields, 4);
    FieldAt(file, p, fields, 6);
    FieldAt(file, p, fields, 7);
    FieldAt(file, p, fields, 8);
  }

  /** The pixel data of a written chunk follows its header. */
  lemma ChunkPixels(file: seq<byte>, p: nat, slot: Slot)
    requires Storable(slot) && ChunkFits(slot)
    requires p + |ChunkBytes(slot).value| <= |file| && file[p..p + |ChunkBytes(slot).value|] == ChunkBytes(slot).value
    requires U32At(file, p + 16) == slot.icon.image.width && U32At(file, p + 20) == slot.icon.image.width
    ensures ChunkData(file, p) == PixelBytes(slot.icon.image.pixels)
  {
    var img := slot.icon.image;
    var chunk := ChunkBytes(slot).value;
    var n := 4 * |img.pixels|;
    assert |img.pixels| == img.width * img.width == ChunkArea(file, p);
    assert chunk[36..] == PixelBytes(img.pixels);
    assert file[p + 36..p + 36 + n] == chunk[36..];
  }

  lemma SquarePositive(w: int)
    requires w >= 1
    ensures w * w >= 1
  {
    MulLe(w, 1, w);
  }

  /** A chunk whose header words and pixel data hold a square image and a hotspot inside it
      decodes to that image, hotspot and delay. */
  lemma ImageFromWords(file: seq<byte>, p: nat, icon: Icon, delay: nat)
    requires ValidIcon(icon) && icon.image.width == icon.image.height <= MaxSide
    requires var w := icon.image.width;
      U32At(file, p + 16) == w && U32At(file, p + 20) == w
    requires U32At(file, p + 24) == icon.hotspot.0 && U32At(file, p + 28) == icon.hotspot.1
    requires U32At(file, p + 32) == delay
    requires ChunkData(file, p) == PixelBytes(icon.image.pixels)
    ensures ChunkImage(file, p) == Success(Decoded(icon.image, icon.hotspot.0, icon.hotspot.1, delay))
  {
    var img := icon.image;
    var w := img.width;
    assert ChunkArea(file, p) == w * w;
    SquarePositive(w);
    assert |file| >= p + 36;
    var r := ChunkImage(file, p);
    assert r.Success?;
    PixelsRoundTrip(img.pixels);
    PixelsRoundTrip(r.value.image.pixels);
    assert r.value.image == img;
  }

  /** A written chunk reads back as its slot. */
  lemma ChunkRead(file: seq<byte>, p: nat, slot: Slot)
    requires Storable(slot) && ChunkFits(slot)
    requires p + |ChunkBytes(slot).value| <= |file| && file[p..p + |ChunkBytes(slot).value|] == ChunkBytes(slot).value
    ensures ChunkAt(file, p, slot)
  {
    ChunkWords(file, p, slot);
    ChunkPixels(file, p, slot);
    assert slot.icon.image.width <= MaxSide && 0 <= slot.delay;
    ImageFromWords(file, p, slot.icon, slot.delay);
  }

  /** The chunk of a storable slot takes up the span of its size. */
  lemma ChunkSpan(slot: Slot)
    requires Storable(slot) && ChunkFits(slot)
    ensures |ChunkBytes(slot).value| == Span(slot.size)
  {
    assert |slot.icon.image.pixels| == slot.size.0 * slot.size.1;
  }

  /** Offsets from a different start are shifted by the difference. */
  lemma {:induction false} OffsetsShift(slots: seq<Slot>, a: int, b: int, k: nat)
    requires k < |slots|
    ensures Offsets(slots, a)[k] == Offsets(slots, b)[k] + (a - b)
    decreases k
  {
    if k > 0 {
      OffsetsShift(slots[1..], a + Span(slots[0].size), b + Span(slots[0].size), k - 1);
    }
  }

  /** The chunks of the slots, each on its own. */
  function ChunkList(slots: seq<Slot>): (r: seq<seq<byte>>)
    requires forall k :: 0 <= k < |slots| ==> ChunkFits(slots[k])
    ensures |r| == |slots| && forall k :: 0 <= k < |slots| ==> r[k] == ChunkBytes(slots[k]).value
  {
    seq(|slots|, k requires 0 <= k < |slots| => ChunkBytes(slots[k]).value)
  }

  /** The chunk section is the chunks one after another. */
  lemma {:induction false} ChunksConcat(slots: seq<Slot>)
    requires ChunksBytes(slots).Success?
    ensures ChunksBytes(slots).value == Concat(ChunkList(slots))
    decreases |slots|
  {
    if |slots| > 0 {
      ChunksConcat(slots[1..]);
      assert ChunkList(slots)[1..] == ChunkList(slots[1..]);
    }
  }

  /** Chunk k starts at the k-th offset the table of contents gives, counted from the
      start of the chunk section. */
  lemma {:induction false} StartOffsets(slots: seq<Slot>, k: nat)
    requires forall j :: 0 <= j < |slots| ==> ChunkFits(slots[j]) && Storable(slots[j])
    requires k < |slots|
    ensures Start(ChunkList(slots), k) == Offsets(slots, 0)[k]
    decreases k
  {
    if k > 0 {
      ChunkSpan(slots[0]);
      assert ChunkList(slots)[1..] == ChunkList(slots[1..]);
      StartOffsets(slots[1..], k - 1);
      OffsetsShift(slots[1..], Span(slots[0].size), 0, k - 1);
    }
  }

  /** The chunk section of storable slots, found at `p` in the file. */
  predicate ChunksIn(file: seq<byte>, p: nat, slots: seq<Slot>) {
    && ChunksBytes(slots).Success?
    && (forall k :: 0 <= k < |slots| ==> Storable(slots[k]))
    && p + |ChunksBytes(slots).value| <= |file|
    && file[p..p + |ChunksBytes(slots).value|] == ChunksBytes(slots).value
  }

  /** Chunk k of the written chunk section, found at `p` in the file, sits at the offset
      the table of contents gives it. */
  lemma ChunkLocated(file: seq<byte>, p: nat, slots: seq<Slot>, k: nat)
    requires ChunksIn(file, p, slots) && k < |slots|
    ensures ChunkFits(slots[k])
    ensures var o, chunk := Offsets(slots, p)[k], ChunkBytes(slots[k]).value;
      0 <= o && o + |chunk| <= |file| && file[o..o + |chunk|] == chunk
  {
    ChunksConcat(slots);
    OffsetIsStart(slots, p, k);
    var parts := ChunkList(slots);
    PartFound(file, p, ChunksBytes(slots).value, parts, k, Offsets(slots, p)[k], ChunkBytes(slots[k]).value);
  }

  /** Part k of a concatenation found at `p` is found where it starts after `p`. */
  lemma PartFound(file: seq<byte>, p: nat, whole: seq<byte>, parts: seq<seq<byte>>, k: nat, o: int, part: seq<byte>)
    requires k < |parts| && whole == Concat(parts) && part == parts[k]
    requires p + |whole| <= |file| && file[p..p + |whole|] == whole
    requires o == p + Start(parts, k)
    ensures 0 <= o && o + |part| <= |file| && file[o..o + |part|] == part
  {
    PartIn(file, p, parts, k);
  }

  /** The k-th table offset from `p` is where chunk k starts after `p`. */
  lemma OffsetIsStart(slots: seq<Slot>, p: nat, k: nat)
    requires forall j :: 0 <= j < |slots| ==> ChunkFits(slots[j]) && Storable(slots[j])
    requires k < |slots|
    ensures Offsets(slots, p)[k] == p + Start(ChunkList(slots), k)
  {
    StartOffsets(slots, k);
    OffsetsShift(slots, p, 0, k);
  }

  // ---------------------------------------------------------------------------
  // Frames
  // ---------------------------------------------------------------------------

  /** The written slots of an animation, with their chunks found at `p` in the file. */
  predicate ChunksAt(file: seq<byte>, ac: AnimatedCursor, ss: seq<Size>, p: nat)
    requires forall k :: 0 <= k < |ss| ==> HasSize(ac, ss[k])
  {
    TocFits(SlotsOf(ac, ss), p) && ChunksIn(file, p, SlotsOf(ac, ss))
  }

  /** Slot k of a written chunk section reads back, at the offset the table of contents
      gives it, as its icon and delay. */
  lemma SlotRead(file: seq<byte>, p: nat, slots: seq<Slot>, k: nat)
    requires ChunksIn(file, p, slots) && k < |slots|
    ensures var o, v := Offsets(slots, p)[k], Nominal(slots[k].size.0);
      o >= 0 && v >= 0 &&
      var read := ReadIcon(file, o, v);
      read.Success? && read.value.0 == slots[k].icon && read.value.1 == slots[k].delay
  {
    var slot := slots[k];
    ChunkLocated(file, p, slots, k);
    var o := Offsets(slots, p)[k];
    ChunkRead(file, o, slot);
    var d := ReadChunk(file, o, Nominal(slot.size.0));
    assert MakeIcon(d.value.image, d.value.hotX, d.value.hotY) == Success(slot.icon);
  }

  /** Entry i of run j reads back as frame i's icon of size ss[j], with frame i's delay. */
  lemma EntryRead(file: seq<byte>, ac: AnimatedCursor, ss: seq<Size>, p: nat, j: nat, i: nat)
    requires forall k :: 0 <= k < |ss| ==> HasSize(ac, ss[k])
    requires ChunksAt(file, ac, ss, p) && j < |ss| && i < |ac|
    ensures var run := BlockRuns(ac, ss, p)[j];
      var read := ReadIcon(file, run[i].1, run[0].0);
      read.Success? && read.value.0 == ac[i].cursor[ss[j]] && read.value.1 == ac[i].delay
  {
    RunEntry(ac, ss, p, j, i);
    RunEntry(ac, ss, p, j, 0);
    SlotRead(file, p, SlotsOf(ac, ss), Place(j, |ac|, i));
  }

  /** The cursor built by adding icons in turn, as `read` adds each group's image. */
  function AddAll(c: Cursor, icons: seq<Icon>): (r: Cursor)
    decreases |icons|
  {
    if |icons| == 0 then c else AddAll(Add(c, icons[0]), icons[1..])
  }

  /** n copies of one delay. */
  function Repeat(d: nat, n: nat): (r: seq<nat>)
    ensures |r| == n && forall k :: 0 <= k < n ==> r[k] == d
  {
    seq(n, k => d)
  }

  lemma RepeatCons(d: nat, n: nat)
    ensures [d] + Repeat(d, n) == Repeat(d, n + 1)
  {
  }

  /** Every group has an i-th entry, and that entry reads back as icons[j] with delay d. */
  predicate IconsRead(file: seq<byte>, groups: seq<Group>, i: nat, icons: seq<Icon>, d: nat) {
    && |icons| == |groups|
    && forall j :: 0 <= j < |groups| ==>
         && i < |groups[j].offsets|
         && var read := ReadIcon(file, groups[j].offsets[i], groups[j].nominal);
            read.Success? && read.value.0 == icons[j] && read.value.1 == d
  }

  /** The groups after the first still read back as the icons after the first. */
  lemma IconsReadTail(file: seq<byte>, groups: seq<Group>, i: nat, icons: seq<Icon>, d: nat)
    requires IconsRead(file, groups, i, icons, d) && |groups| > 0
    ensures IconsRead(file, groups[1..], i, icons[1..], d)
  {
    forall j | 0 <= j < |groups| - 1
      ensures groups[1..][j] == groups[j + 1] && icons[1..][j] == icons[j + 1]
    {
    }
  }

  /** A first group whose i-th entry reads back as (icon, d) adds icon and d, and the
      frame goes on with the remaining groups. */
  lemma FrameStep(file: seq<byte>, groups: seq<Group>, i: nat, c: Cursor, delays: seq<nat>, icon: Icon, d: nat)
    requires |groups| > 0 && i < |groups[0].offsets|
    requires ReadIcon(file, groups[0].offsets[i], groups[0].nominal) == Success((icon, d))
    ensures ReadFrame(file, groups, i, c, delays) == ReadFrame(file, groups[1..], i, Add(c, icon), delays + [d])
  {
  }

  /** When every group's i-th entry reads back, frame i holds those icons added in group
      order, and each group contributes the same delay. */
  lemma {:induction false} FrameRead(file: seq<byte>, groups: seq<Group>, i: nat, c: Cursor, delays: seq<nat>, icons: seq<Icon>, d: nat)
    requires IconsRead(file, groups, i, icons, d)
    ensures ReadFrame(file, groups, i, c, delays) == Success((AddAll(c, icons), delays + Repeat(d, |groups|)))
    decreases |groups|
  {
    if |groups| == 0 {
      assert delays + Repeat(d, 0) == delays;
    } else {
      IconsReadTail(file, groups, i, icons, d);
      var more := delays + [d];
      FrameStep(file, groups, i, c, delays, icons[0], d);
      FrameRead(file, groups[1..], i, Add(c, icons[0]), more, icons[1..], d);
      RepeatCons(d, |groups| - 1);
      AppendAssoc(delays, [d], Repeat(d, |groups| - 1));
    }
  }

  /** The icons of a cursor at the given sizes, in order. */
  function Lookup(c: Cursor, ss: seq<Size>): (r: seq<Icon>)
    requires forall k :: 0 <= k < |ss| ==> ss[k] in c
    ensures |r| == |ss| && forall k :: 0 <= k < |ss| ==> r[k] == c[ss[k]]
  {
    seq(|ss|, k requires 0 <= k < |ss| => c[ss[k]])
  }

  /** The part of a cursor at the given sizes. */
  function Restrict(c: Cursor, ss: seq<Size>): (r: Cursor)
    ensures forall s :: s in r <==> s in c && s in ss
    ensures forall s :: s in r ==> r[s] == c[s]
  {
    map s | s in c && s in ss :: c[s]
  }

  /** Adding a well-formed cursor's icon of size s to its part at some sizes gives its part
      at those sizes and s. */
  lemma AddRestrict(c: Cursor, ss: seq<Size>, s: Size)
    requires WellFormed(c) && s in c
    ensures Add(Restrict(c, ss), c[s]) == Restrict(c, ss + [s])
  {
    assert SizeOf(c[s].image) == s;
  }

  /** Adding a well-formed cursor's icons at some of its sizes, in any order, to its part at
      the sizes before them gives its part at all of them. */
  lemma {:induction false} AddAllRestrict(c: Cursor, ss: seq<Size>, j: nat)
    requires WellFormed(c) && j <= |ss| && forall k :: 0 <= k < |ss| ==> ss[k] in c
    ensures AddAll(Restrict(c, ss[..j]), Lookup(c, ss[j..])) == Restrict(c, ss)
    decreases |ss| - j
  {
    if j == |ss| {
      assert ss[..j] == ss;
    } else {
      var icons := Lookup(c, ss[j..]);
      assert icons[1..] == Lookup(c, ss[j + 1..]);
      assert ss[..j + 1] == ss[..j] + [ss[j]];
      AddRestrict(c, ss[..j], ss[j]);
      AddAllRestrict(c, ss, j + 1);
    }
  }

  /** The icons of a well-formed cursor at all its sizes, added in turn, rebuild it. */
  lemma AddAllRebuilds(c: Cursor, ss: seq<Size>)
    requires WellFormed(c) && forall s :: s in c <==> s in ss
    ensures AddAll(map[], Lookup(c, ss)) == c
  {
    AddAllRestrict(c, ss, 0);
    assert ss[..0] == [] && ss[0..] == ss;
    assert Restrict(c, ss[..0]) == map[];
    assert Restrict(c, ss) == c;
  }

  /** Frame i read back from a written file: every size group gives frame i's icon of that
      size, so the cursor is frame i's cursor, and every delay is frame i's delay. */
  lemma FrameOf(file: seq<byte>, ac: AnimatedCursor, ss: seq<Size>, p: nat, i: nat)
    requires forall k :: 0 <= k < |ss| ==> HasSize(ac, ss[k])
    requires ChunksAt(file, ac, ss, p) && |ss| > 0 && i < |ac|
    requires WellFormed(ac[i].cursor) && forall s :: s in ac[i].cursor <==> s in ss
    ensures var r := ReadFrame(file, RunGroups(BlockRuns(ac, ss, p)), i, map[], []);
      && r.Success? && r.value.0 == ac[i].cursor
      && |r.value.1| == |ss| && forall k :: 0 <= k < |ss| ==> r.value.1[k] == ac[i].delay
  {
    var runs := BlockRuns(ac, ss, p);
    var groups := RunGroups(runs);
    var icons := Lookup(ac[i].cursor, ss);
    EntryRead(file, ac, ss, p, 0, i);
    var d: nat := ac[i].delay;
    forall j | 0 <= j < |groups|
      ensures i < |groups[j].offsets|
      ensures var read := ReadIcon(file, groups[j].offsets[i], groups[j].nominal);
        read.Success? && read.value.0 == icons[j] && read.value.1 == d
    {
      EntryRead(file, ac, ss, p, j, i);
      assert groups[j] == Group(runs[j][0].0, Seconds(runs[j]));
    }
    FrameRead(file, groups, i, map[], [], icons, d);
    AddAllRebuilds(ac[i].cursor, ss);
    assert [] + Repeat(d, |groups|) == Repeat(d, |groups|);
  }

  // ---------------------------------------------------------------------------
  // The whole file
  // ---------------------------------------------------------------------------

  /** The slots of square sizes that every frame holds, in well-formed frames, are storable. */
  lemma {:induction false} SlotsStorable(ac: AnimatedCursor, ss: seq<Size>)
    requires FramesWellFormed(ac)
    requires forall k :: 0 <= k < |ss| ==> HasSize(ac, ss[k]) && IsSquare(ss[k])
    ensures forall k :: 0 <= k < |SlotsOf(ac, ss)| ==> Storable(SlotsOf(ac, ss)[k])
    decreases |ss|
  {
    if |ss| > 0 {
      var block := Block(ac, ss[0]);
      var rest := SlotsOf(ac, ss[1..]);
      SlotsStorable(ac, ss[1..]);
      forall i | 0 <= i < |block| ensures Storable(block[i]) {
        assert WellFormed(ac[i].cursor);
      }
      assert SlotsOf(ac, ss) == block + rest;
    }
  }

  /** The table of contents of a written file groups into one group per size, in ascending
      order, each with one entry per frame, when no two sizes share a nominal size. */
  lemma RunsGroup(ac: AnimatedCursor, ss: seq<Size>, p: nat)
    requires forall k :: 0 <= k < |ss| ==> HasSize(ac, ss[k])
    requires TocFits(SlotsOf(ac, ss), p) && |ss| > 0 && |ac| > 0
    requires forall j, k :: 0 <= j < k < |ss| ==> Nominal(ss[j].0) != Nominal(ss[k].0)
    ensures var runs := BlockRuns(ac, ss, p);
      && GroupEntries([], Flatten(runs)) == RunGroups(runs)
      && MaxLen(RunGroups(runs)) == |ac|
  {
    var runs: seq<seq<(nat, nat)>> := BlockRuns(ac, ss, p);
    forall j, k | 0 <= j < |runs| && 0 <= k < |runs[j]| ensures runs[j][k].0 == Nominal(ss[j].0) {
      RunEntry(ac, ss, p, j, k);
    }
    GroupRuns([], runs);
    assert [] + RunGroups(runs) == RunGroups(runs);
    var groups := RunGroups(runs);
    assert forall j :: 0 <= j < |groups| ==> |groups[j].offsets| == |ac|;
  }

  /** Every frame holds the same sizes, at least one, all square, no two with the same
      nominal size: what `read` needs to give back the frames `write` stored. */
  predicate Restorable(ac: AnimatedCursor) {
    && |ac| > 0 && |ac[0].cursor| > 0 && FramesWellFormed(ac)
    && (forall i :: 0 <= i < |ac| ==> ac[i].cursor.Keys == ac[0].cursor.Keys)
    && (forall s :: s in ac[0].cursor ==> IsSquare(s))
    && (forall s, t :: s in ac[0].cursor && t in ac[0].cursor && Nominal(s.0) == Nominal(t.0) ==> s == t)
  }

  /** The sizes `write` emits for a restorable animation: every size of every frame, square,
      in ascending order, with nominal sizes all different. */
  lemma SortedFacts(ac: AnimatedCursor) returns (ss: seq<Size>)
    requires Restorable(ac)
    ensures Covers(ac) && ss == WrittenSizes(ac) && |ss| > 0
    ensures forall k :: 0 <= k < |ss| ==> HasSize(ac, ss[k]) && IsSquare(ss[k])
    ensures forall i :: 0 <= i < |ac| ==> forall s :: s in ac[i].cursor <==> s in ss
    ensures forall j, k :: 0 <= j < k < |ss| ==> Nominal(ss[j].0) != Nominal(ss[k].0)
    ensures CountIcons(ac) == |ss| * |ac|
  {
    RestorableCovers(ac);
    ss := WrittenSizes(ac);
    SortedHeld(ac, ss);
    SortedApart(ac, ss);
    CountUniform(ac, |ss|);
  }

  lemma SortedHeld(ac: AnimatedCursor, ss: seq<Size>)
    requires Restorable(ac) && Covers(ac) && ss == WrittenSizes(ac)
    ensures forall k :: 0 <= k < |ss| ==> IsSquare(ss[k])
    ensures forall i :: 0 <= i < |ac| ==> |ac[i].cursor| == |ss| && forall s :: s in ac[i].cursor <==> s in ss
  {
    forall i | 0 <= i < |ac| ensures |ac[i].cursor| == |ss| && forall s :: s in ac[i].cursor <==> s in ss {
      assert ac[i].cursor.Keys == ac[0].cursor.Keys;
    }
    forall k | 0 <= k < |ss| ensures IsSquare(ss[k]) {
      assert ss[k] in ac[0].cursor;
    }
  }

  lemma SortedApart(ac: AnimatedCursor, ss: seq<Size>)
    requires Restorable(ac) && Covers(ac) && ss == WrittenSizes(ac)
    ensures forall j, k :: 0 <= j < k < |ss| ==> Nominal(ss[j].0) != Nominal(ss[k].0)
  {
    forall j, k | 0 <= j < k < |ss| ensures Nominal(ss[j].0) != Nominal(ss[k].0) {
      assert SizeLess(ss[j], ss[k]);
      assert ss[j] in ac[0].cursor && ss[k] in ac[0].cursor;
    }
  }

  lemma RestorableCovers(ac: AnimatedCursor)
    requires Restorable(ac)
    ensures Covers(ac)
  {
    forall i, s | 0 <= i < |ac| && s in ac[0].cursor ensures s in ac[i].cursor {
      assert s in ac[0].cursor.Keys;
    }
  }

  /** A frame whose delays are all d, at least one, has delay d. */
  lemma MaxOfRepeat(ds: seq<nat>, d: int)
    requires |ds| > 0 && forall k :: 0 <= k < |ds| ==> ds[k] == d
    ensures MaxOf(ds) == d
  {
  }

  /** A file with the header, table of contents and chunks `write` lays out for slots. */
  predicate LaidOut(file: seq<byte>, slots: seq<Slot>) {
    && |file| >= 16 && file[..4] == XcurMagic
    && U32At(file, 4) == HeaderSize && U32At(file, 12) == |slots|
    && TocFits(slots, ChunksFrom(slots)) && ChunksBytes(slots).Success?
    && ChunksFrom(slots) <= |file| && file[HeaderSize..ChunksFrom(slots)] == TocBytes(slots, ChunksFrom(slots)).value
    && file[ChunksFrom(slots)..] == ChunksBytes(slots).value
  }

  /** What `write` produces for slots, one chunk for each, is laid out as above. */
  lemma SlotsLaidOut(slots: seq<Slot>)
    requires WriteSlots(|slots|, slots).Success?
    ensures LaidOut(WriteSlots(|slots|, slots).value, slots)
  {
    assert |slots| * 12 + HeaderSize == ChunksFrom(slots);
  }

  /** The tail of a sequence from `at` on, found in place. */
  lemma TailAt<T>(s: seq<T>, at: nat, t: seq<T>)
    requires at <= |s| && s[at..] == t
    ensures at + |t| == |s| && s[at..at + |t|] == t
  {
  }

  /** In a file laid out for the slots of the sizes ss, the table of contents groups into one
      group per size, each with one entry per frame. */
  lemma LaidOutGroups(file: seq<byte>, ac: AnimatedCursor, ss: seq<Size>)
    requires |ac| > 0 && |ss| > 0
    requires forall k :: 0 <= k < |ss| ==> HasSize(ac, ss[k])
    requires forall j, k :: 0 <= j < k < |ss| ==> Nominal(ss[j].0) != Nominal(ss[k].0)
    requires LaidOut(file, SlotsOf(ac, ss))
    ensures TocFits(SlotsOf(ac, ss), ChunksFrom(SlotsOf(ac, ss)))
    ensures GroupEntries([], TocEntries(file, HeaderSize, U32At(file, 12)))
      == RunGroups(BlockRuns(ac, ss, ChunksFrom(SlotsOf(ac, ss))))
    ensures MaxLen(RunGroups(BlockRuns(ac, ss, ChunksFrom(SlotsOf(ac, ss))))) == |ac|
  {
    var slots := SlotsOf(ac, ss);
    var off := ChunksFrom(slots);
    TocRead(file, HeaderSize, slots, off);
    RunsGroup(ac, ss, off);
  }

  /** In a file laid out for the slots of square sizes ss of well-formed frames, every
      chunk sits where the table of contents says. */
  lemma LaidOutChunks(file: seq<byte>, ac: AnimatedCursor, ss: seq<Size>)
    requires FramesWellFormed(ac)
    requires forall k :: 0 <= k < |ss| ==> HasSize(ac, ss[k]) && IsSquare(ss[k])
    requires LaidOut(file, SlotsOf(ac, ss))
    ensures ChunksAt(file, ac, ss, ChunksFrom(SlotsOf(ac, ss)))
  {
    var slots := SlotsOf(ac, ss);
    SlotsStorable(ac, ss);
    TailAt(file, ChunksFrom(slots), ChunksBytes(slots).value);
  }

  /** Frames that each read back on their own read back together. */
  lemma CollectAll(results: seq<Result<Frame>>, frames: AnimatedCursor)
    requires |results| == |frames| && forall k :: 0 <= k < |frames| ==> results[k] == Success(frames[k])
    ensures Collect(results) == Success(frames)
  {
    var r := Collect(results);
    assert r.Success?;
    assert forall k :: 0 <= k < |frames| ==> r.value[k] == frames[k];
  }

  /** Every frame of a file whose chunks are in place reads back on its own. */
  lemma EveryFrameReads(file: seq<byte>, ac: AnimatedCursor, ss: seq<Size>, p: nat)
    requires FramesWellFormed(ac) && |ss| > 0
    requires forall k :: 0 <= k < |ss| ==> HasSize(ac, ss[k])
    requires forall k :: 0 <= k < |ac| ==> forall s :: s in ac[k].cursor <==> s in ss
    requires ChunksAt(file, ac, ss, p)
    ensures forall k :: 0 <= k < |ac| ==> ReadFrameAt(file, RunGroups(BlockRuns(ac, ss, p)), k) == Success(ac[k])
  {
    forall k | 0 <= k < |ac| ensures ReadFrameAt(file, RunGroups(BlockRuns(ac, ss, p)), k) == Success(ac[k]) {
      FrameAt(file, ac, ss, p, k);
    }
  }

  /** Frame i of a file whose chunks are in place reads back as ac[i]. */
  lemma FrameAt(file: seq<byte>, ac: AnimatedCursor, ss: seq<Size>, p: nat, i: nat)
    requires FramesWellFormed(ac) && i < |ac| && |ss| > 0
    requires forall k :: 0 <= k < |ss| ==> HasSize(ac, ss[k])
    requires forall s :: s in ac[i].cursor <==> s in ss
    requires ChunksAt(file, ac, ss, p)
    ensures ReadFrameAt(file, RunGroups(BlockRuns(ac, ss, p)), i) == Success(ac[i])
  {
    FrameOf(file, ac, ss, p, i);
    var r := ReadFrame(file, RunGroups(BlockRuns(ac, ss, p)), i, map[], []);
    MaxOfRepeat(r.value.1, ac[i].delay);
  }

  /** The file laid out for the slots of the sizes ss reads back as the frames. */
  lemma SlotsReadBack(file: seq<byte>, ac: AnimatedCursor, ss: seq<Size>)
    requires FramesWellFormed(ac) && |ac| > 0 && |ss| > 0
    requires forall k :: 0 <= k < |ss| ==> HasSize(ac, ss[k]) && IsSquare(ss[k])
    requires forall i :: 0 <= i < |ac| ==> forall s :: s in ac[i].cursor <==> s in ss
    requires forall j, k :: 0 <= j < k < |ss| ==> Nominal(ss[j].0) != Nominal(ss[k].0)
    requires LaidOut(file, SlotsOf(ac, ss))
    ensures Read(file) == Success(ac)
  {
    var off := ChunksFrom(SlotsOf(ac, ss));
    LaidOutGroups(file, ac, ss);
    LaidOutChunks(file, ac, ss);
    EveryFrameReads(file, ac, ss, off);
    ReadFramesAll(file, RunGroups(BlockRuns(ac, ss, off)), ac);
    assert Check(Slice(file, 0, 4));
    ReadOfGroups(file);
  }

  /** A file that passes the magic and header-size checks and has an image entry reads as
      the frames of its groups. */
  lemma ReadOfGroups(file: seq<byte>)
    requires Check(Slice(file, 0, 4)) && U32At(file, 4) == HeaderSize
    requires |GroupEntries([], TocEntries(file, HeaderSize, U32At(file, 12)))| > 0
    ensures var groups := GroupEntries([], TocEntries(file, HeaderSize, U32At(file, 12)));
      Read(file) == ReadFrames(file, groups, MaxLen(groups))
  {
  }

  /** Frames that each read back on their own are what `read` gives for that many frames. */
  lemma ReadFramesAll(file: seq<byte>, groups: seq<Group>, frames: AnimatedCursor)
    requires forall k :: 0 <= k < |frames| ==> ReadFrameAt(file, groups, k) == Success(frames[k])
    ensures ReadFrames(file, groups, |frames|) == Success(frames)
  {
    CollectAll(seq(|frames|, i requires 0 <= i < |frames| => ReadFrameAt(file, groups, i)), frames);
  }

  /** `read` gives back the frames `write` stored, when every frame holds the same square
      sizes, no two with the same nominal size, and every word of the file fits. */
  lemma WriteThenRead(ac: AnimatedCursor)
    requires Restorable(ac)
    ensures Covers(ac)
    ensures WriteFrames(ac).Success? ==> Read(WriteFrames(ac).value) == Success(ac)
  {
    var ss := SortedFacts(ac);
    var slots := SlotsOf(ac, ss);
    if WriteFrames(ac).Success? {
      assert WriteFrames(ac) == WriteSlots(|slots|, slots);
      SlotsLaidOut(slots);
      SlotsReadBack(WriteFrames(ac).value, ac, ss);
    }
  }

  /** Frames that all hold the sizes of the first hold exactly those sizes between them. */
  lemma UniformSizes(ac: AnimatedCursor)
    requires |ac| > 0 && forall i :: 0 <= i < |ac| ==> ac[i].cursor.Keys == ac[0].cursor.Keys
    ensures {} + AllSizes(ac) == ac[0].cursor.Keys
  {
    forall s | s in AllSizes(ac) ensures s in ac[0].cursor {
      var i := AllSizesFromFrames(ac, s);
    }
  }

  /** Such frames, with a first frame that is not empty, have nothing to synthesise. */
  lemma UniformGrows(ac: AnimatedCursor, sizes: set<Size>)
    requires |ac| > 0 && |ac[0].cursor| > 0 && sizes == ac[0].cursor.Keys
    requires forall i :: 0 <= i < |ac| ==> ac[i].cursor.Keys == ac[0].cursor.Keys
    ensures AllCanGrow(ac, sizes)
  {
    var s0 :| s0 in ac[0].cursor;
    forall i | 0 <= i < |ac| ensures |ac[i].cursor| > 0 && CanSynthesize(ac[i].cursor, sizes) {
      assert s0 in ac[i].cursor.Keys;
    }
  }

  /** Frames that all hold the same sizes are already normal: `normalize` leaves them as
      they are. */
  lemma NormalizeUniform(ac: AnimatedCursor, lanczos: Resampler)
    requires Restorable(ac)
    ensures Normalize(ac, {}, lanczos) == Success(ac)
  {
    UniformSizes(ac);
    UniformGrows(ac, {} + AllSizes(ac));
    NormalizeKeepsFrames(ac, lanczos);
  }

  /** `normalize` returns the frames unchanged when every frame already holds every size. */
  lemma NormalizeKeepsFrames(ac: AnimatedCursor, lanczos: Resampler)
    requires FramesWellFormed(ac) && AllCanGrow(ac, {} + AllSizes(ac))
    requires forall i :: 0 <= i < |ac| ==> ac[i].cursor.Keys == {} + AllSizes(ac)
    ensures Normalize(ac, {}, lanczos) == Success(ac)
  {
    var r := Normalize(ac, {}, lanczos).value;
    forall i | 0 <= i < |ac| ensures r[i] == ac[i] {
      SameFrame(ac[i], r[i]);
    }
    assert r == ac;
  }

  /** A frame with the same delay, the same sizes and the same icon at each size is the same frame. */
  lemma SameFrame(f: Frame, g: Frame)
    requires g.delay == f.delay && g.cursor.Keys == f.cursor.Keys
    requires forall s :: s in f.cursor ==> g.cursor[s] == f.cursor[s]
    ensures g == f
  {
    assert g.cursor == f.cursor;
  }

  /** The whole `write` entry point: normalisation leaves frames that share their sizes as
      they are, so `read` gives back exactly the frames `write` was given. */
  lemma WriteReadBack(ac: AnimatedCursor, lanczos: Resampler)
    requires Restorable(ac)
    ensures Write(ac, lanczos).Success? ==> Read(Write(ac, lanczos).value) == Success(ac)
  {
    NormalizeUniform(ac, lanczos);
    var norm := WrittenNormalized(ac, lanczos);
    WriteThenRead(ac);
  }
}
